=== FILE: README.md ===
# GammonDRL core in Dafny

GammonDRL is a backgammon player trained by temporal-difference learning.
Four parts of it are modelled here:

- **RevGrad.** A small reverse-mode automatic-differentiation tensor library.
  - Its shape, stride and index algebra (`ViewUtill`).
  - The shape rules and values of the library's tensor operations: broadcasting add/sub/mul, `sum`, `max`, `relu`, `matmul`, `reshape`, `flatten`, `transpose` and `slice`. The network's forward pass (src/model/Model.cpp:11-17) uses only `matmul`, the broadcast add of `Linear`, `relu` and `sigmoid`; the others are library operations the trainer does not reach.
  - The gradient functions of those operations.
  - The `backward` driver: graph discovery, topological order, and gradient propagation.
- **The C++ rules engine** (`Game.cpp`/`Game.h`).
  - The board is two rows of 26 checker counts, with an undo stack.
  - It covers make/undo, single-die move generation, the recursive full-move search, bear-off, outcomes, dice deltas and scoring.
- **The browser player's engine** (`backgammon.js`). It is an independent copy of the rules.
  - Its bar and borne-off slots are swapped.
  - It records only complete dice sequences.
  - It has its own fallback rules for rolls that cannot be played in full.
  - It sorts and deduplicates the moves it finds.
- **The model glue.**
  - The 201-value feature vector of a position, in both engines.
  - The parameter order of the network.
  - The text format parameters are saved and loaded in, including the browser's reader.
  - The move choice of the trained player and the target of its update.
  - The printer for shapes and tensors.

Each engine's constants are its own: `Game` has bar 24 and off 25, and `JsGame` has off 24 and bar 25. The two share only board arithmetic. `Checkers.Play` applies a move given the bar and off slots, and `Features.Encode` is the feature layout given the same two slots. The two engines are kept as separate specifications. Lemmas connect them where they claim the same thing:

- `JsGame.SameAsCppAgrees` for pip counts, the race flag and bear-off;
- `Features.JsFeaturesAgree` for the feature vector.

Numbers are `real`. Text forms of numbers are function parameters (`fmt`, `parse`, `num`), because the formatting and parsing of floats is not modelled. The autodiff graph is a map from integer handles to nodes. Edges always point to older handles, which gives acyclicity. Gradient functions are tags on the node (`Op`), not closures.

The `compute_pip` and `race` functions called from `src/model/Model.cpp:56,71` are not part of the C++ source here. Their meaning is taken from the browser engine (`backgammon.js:62-88`), read with each engine's own bar and off slots.

## Model

| member | source | states |
|---|---|---|
| View.ShapeSizeConcat | src/RevGrad/tensor/Tensor.cpp:5-7 | The element count of a shape is multiplicative over concatenation: the product of all axis sizes, 1 for the empty shape. |
| View.StridesFromShape | src/RevGrad/tensor/Tensor.cpp:9-18 | Row-major strides: one per axis, the last is 1, and stride i is the element count of the axes after i. |
| View.StridesRecurrence | src/RevGrad/tensor/Tensor.cpp:9-18 | stride[i] == stride[i+1] * shape[i+1]. |
| View.StridesPositive | src/RevGrad/tensor/Tensor.cpp:9-18 | For a shape of positive sizes every stride is positive. |
| View.ComputeStrides | src/RevGrad/tensor/Tensor.cpp:9-18 | The backward loop with a running product computes exactly the row-major strides. |
| View.BroadcastShape | src/RevGrad/tensor/Tensor.cpp:20-42 | Succeeds iff every aligned trailing pair is equal or has a 1. The result has length max(|a|,|b|). Each axis counted from the back is the larger of the aligned pair, or the unmatched axis copied. |
| View.BroadcastCommutative | src/RevGrad/tensor/Tensor.cpp:20-42 | broadcast(a, b) and broadcast(b, a) succeed together and agree. |
| View.BroadcastOperandAxes | src/RevGrad/tensor/Tensor.cpp:20-42 | A successful broadcast of valid shapes is valid, and each operand expands to it (each of its axes is 1 or equal to the aligned result axis). |
| View.DivModBounds | src/RevGrad/tensor/Tensor.cpp:44-51 | With C++ truncating division on non-negative operands, each unravelled coordinate lies in [0, size). |
| View.Unravel | src/RevGrad/tensor/Tensor.cpp:44-51 | One coordinate per axis; for a non-negative offset and positive strides, the coordinate is inside the shape. |
| View.RavelUnravel | src/RevGrad/tensor/Tensor.cpp:44-59 | For 0 <= i < shape_size, unravel(i) is in bounds and ravel(unravel(i)) == i. |
| View.RavelUnravelMod | src/RevGrad/tensor/Tensor.cpp:44-59 | For any non-negative offset, ravel(unravel(i)) == i mod shape_size. |
| View.RavelInBounds | src/RevGrad/tensor/Tensor.cpp:53-59 | An in-bounds coordinate ravels to an offset in [0, shape_size). |
| View.UnravelRavel | src/RevGrad/tensor/Tensor.cpp:44-59 | unravel(ravel(c)) == c for every in-bounds coordinate. |
| View.RavelEqualCoords | src/RevGrad/tensor/Tensor.cpp:53-59 | ravel is injective on in-bounds coordinates. |
| View.ReshapeIndices | src/RevGrad/tensor/Tensor.cpp:61-69 | Maps an output coordinate to one coordinate per operand axis, and that coordinate is in bounds for the operand whenever the output coordinates are non-negative. |
| View.BroadcastOperandIndex | src/RevGrad/tensor/Tensor.cpp:61-69 | For an operand that expands to the output, the mapped coordinate is in bounds: 0 on a size-1 axis, otherwise the aligned output coordinate. |
| Tensors.Filled | src/RevGrad/tensor/Tensor.cpp:80-87 | `Node(shape, value)`: a leaf of that shape, every value equal to `value`, every gradient 0. |
| Tensors.FromValues | src/RevGrad/tensor/Tensor.cpp:89-96 | `Node(shape, values)` succeeds iff the count matches the shape (the source asserts it), and keeps the values with zero gradients. |
| Tensors.Elementwise | src/RevGrad/tensor/Tensor.cpp:99-110 | add/sub/mul/div succeed iff the shapes broadcast. The result has the broadcast shape, both operands as edges and zero gradients. |
| Tensors.ElementwiseSameShape | src/RevGrad/tensor/Tensor.cpp:99-110 | With equal shapes the operation is pointwise: w[i] == f(u[i], v[i]). |
| Tensors.ElementwiseScalarRight | src/RevGrad/tensor/Tensor.cpp:99-110 | A [1]-shaped right operand is applied to every element: w[i] == f(u[i], v[0]). |
| Tensors.ElementwiseSwap | src/RevGrad/tensor/Tensor.cpp:99-110 | For a commutative f, swapping the operands gives the same shape and values. |
| Tensors.ReduceSum | src/RevGrad/tensor/Tensor.cpp:205-239 | Axis -1 gives shape [1] holding the sum of all values. Along an axis it removes exactly that axis, and a result with no axes left becomes [1]; each result value is the sum of the input's line along that axis through it. Meta records the axis. |
| Tensors.SumOfVectorAlongAxis | src/RevGrad/tensor/Tensor.cpp:205-239 | On a vector, summing along axis 0 equals summing everything. |
| Tensors.ReduceMax | src/RevGrad/tensor/Tensor.cpp:263-289 | Succeeds iff 0 <= axis < rank (the check of `Tensor::max`). It removes that axis, and every element along a line is at most the line's result. |
| Tensors.MaxAttained | src/RevGrad/tensor/Tensor.cpp:263-289 | Each line's maximum is attained by some element of the line. |
| Tensors.Relu | src/RevGrad/tensor/Tensor.cpp:354-361 | Same shape; every value is non-negative, at least the input, and equal to it where the input is positive. |
| Tensors.Matmul | src/RevGrad/tensor/Tensor.cpp:449-470 | Succeeds iff both operands are rank 2 with u.cols == v.rows (the checks of `Tensor::matmul`), and gives shape (u.rows, v.cols). Entry (i,j) is row i of u against column j of v. |
| Tensors.Reshape | src/RevGrad/tensor/Tensor.cpp:692-695 | Same values and gradients under the new shape and its strides. |
| Tensors.ReshapeRoundTrip | src/RevGrad/tensor/Tensor.cpp:692-695 | Reshaping back to the original shape restores the node. |
| Tensors.Flatten | src/RevGrad/tensor/Tensor.cpp:697-701 | Shape [size], values and gradients unchanged. |
| Tensors.FlattenAfterReshape | src/RevGrad/tensor/Tensor.cpp:692-701 | Flattening after a reshape equals flattening directly. |
| Tensors.Transpose | src/RevGrad/tensor/Tensor.cpp:703-722 | Succeeds iff rank 2; swaps the axes and moves value and gradient (i,j) to (j,i). |
| Tensors.TransposeTwice | src/RevGrad/tensor/Tensor.cpp:703-722 | Transposing twice restores the node. |
| Tensors.SliceNegativeStartAccepted | src/RevGrad/tensor/Tensor.cpp:728-731 | The guard as written accepts start -1 on a size-2 axis, and the first element then reads coordinate -1. |
| Tensors.Slice | src/RevGrad/tensor/Tensor.cpp:724-744 | Succeeds iff one range per axis with 0 <= start < end <= size. The result is a fresh leaf with shape end-start per axis. |
| Tensors.SliceValueAt | src/RevGrad/tensor/Tensor.cpp:724-744 | Slice element c reads the source at c shifted by the starts, which is in bounds. |
| Tensors.SliceFull | src/RevGrad/tensor/Tensor.cpp:724-744 | The full-range slice copies every value. |
| Graphs.RecordElementwise | src/RevGrad/tensor/Tensor.cpp:595-617 | `u op v` succeeds iff the shapes broadcast, adds exactly one fresh node, and leaves every existing node unchanged. |
| Graphs.RecordSum | src/RevGrad/tensor/Tensor.cpp:625-629 | `Tensor::sum` adds one fresh node computed by the reduction. |
| Graphs.RecordMax | src/RevGrad/tensor/Tensor.cpp:635-640 | `Tensor::max` succeeds iff the axis is in range, adding one fresh node. |
| Graphs.RecordRelu | src/RevGrad/tensor/Tensor.cpp:654-658 | `Tensor::relu` adds one fresh node. |
| Graphs.RecordMatmul | src/RevGrad/tensor/Tensor.cpp:680-685 | `Tensor::matmul` succeeds iff the shapes multiply, adding one fresh node. |
| Graphs.RecordNegate | src/RevGrad/tensor/Tensor.cpp:623 | Unary minus records the scalar 0 and then `0 - u`; the result has u's shape. |
| Graphs.NegateValues | src/RevGrad/tensor/Tensor.cpp:623 | Every value of `0 - u` is the negation of u's. |
| Gradients.ScatterAt | src/RevGrad/tensor/Tensor.cpp:112-123 | Repeated `grad(index) += amount` leaves slot k at its old value plus the sum of the amounts aimed at k. |
| Gradients.ScatterMass | src/RevGrad/tensor/Tensor.cpp:112-123 | The total gradient grows by exactly the total of the amounts. |
| Gradients.ScatterIdentity | src/RevGrad/tensor/Tensor.cpp:112-123 | With same-shape offsets the scatter is elementwise addition. |
| Gradients.ElementwiseBackward | src/RevGrad/tensor/Tensor.cpp:112-175 | The add/sub/mul gradient functions change only the operands' gradients. |
| Gradients.ElementwiseBackwardGrads | src/RevGrad/tensor/Tensor.cpp:112-175 | Each operand receives its amounts scattered through the broadcast offsets. A node used as both operands receives both scatters. |
| Gradients.AddBackwardMass | src/RevGrad/tensor/Tensor.cpp:112-123 | For distinct operands of `+`, each gains exactly the output's total gradient. |
| Gradients.SubBackwardSameShape | src/RevGrad/tensor/Tensor.cpp:138-149 | For same-shape distinct operands of `-`: u[i] += g[i] and v[i] -= g[i]. |
| Gradients.SquareGrads | src/RevGrad/tensor/Tensor.cpp:164-175 | For `u * u`, u[i] gains 2·g[i]·u[i]. |
| Gradients.SumBackward | src/RevGrad/tensor/Tensor.cpp:241-261 | The sum gradient function changes only the operand's gradients. |
| Gradients.SumAllBackward | src/RevGrad/tensor/Tensor.cpp:246-252 | For axis -1 every operand element gains the single output gradient. |
| Gradients.SumBackwardAt | src/RevGrad/tensor/Tensor.cpp:253-260 | For an axis, each operand element gains the gradient of the output element its line reduces to. |
| Gradients.SplitTiesTotal | src/RevGrad/tensor/Tensor.cpp:291-314 | Sharing g/cnt among the cnt positions tied at the maximum hands out exactly g. |
| Gradients.MaxBackward | src/RevGrad/tensor/Tensor.cpp:291-314 | The max gradient function changes only the operand's gradients. |
| Gradients.MaxBackwardMass | src/RevGrad/tensor/Tensor.cpp:291-314 | The operand's total gradient grows by exactly the output's total gradient. |
| Gradients.ReluBackward | src/RevGrad/tensor/Tensor.cpp:363-369 | The operand gains g[i] where the output is positive and nothing elsewhere. |
| Gradients.MatmulGradLeftIsProduct | src/RevGrad/tensor/Tensor.cpp:472-501 | The first operand's contribution equals matmul(grad w, transpose(v)). |
| Gradients.MatmulGradRightIsProduct | src/RevGrad/tensor/Tensor.cpp:472-501 | The second operand's contribution equals matmul(transpose(u), grad w). |
| Gradients.MatmulBackwardAsWritten | src/RevGrad/tensor/Tensor.cpp:472-501 | The copy-accumulate-write-back gradient function changes only gradients. |
| Gradients.MatmulAliasLosesGradient | src/RevGrad/tensor/Tensor.cpp:476-500 | For w = a·a with a = [[1]] and grad w = 1, the written function leaves grad a = 1, where the derivative is 2. |
| Gradients.MatmulBackwardDistinct | src/RevGrad/tensor/Tensor.cpp:472-501 | For distinct operands the written and corrected functions agree. |
| Gradients.MatmulBackward | src/RevGrad/tensor/Tensor.cpp:472-501 | The corrected matmul gradient function changes only the operands' gradients. |
| Gradients.MatmulBackwardAccumulates | src/RevGrad/tensor/Tensor.cpp:472-501 | Each operand gains its contribution; a node that is both operands gains both. |
| Gradients.Propagate | src/RevGrad/tensor/Tensor.cpp:777-781 | Running one node's gradient function changes only its operands' gradients; leaves have none. The matmul case runs the corrected gradient (see Left out). |
| Autodiff.EdgeMap | src/RevGrad/tensor/Tensor.cpp:746-763 | The adjacency of the graph: one entry per node, edges to older handles only. |
| Autodiff.Discover | src/RevGrad/tensor/Tensor.cpp:748-763 | The queue search with a visited set visits exactly the nodes reachable from the root, and records each one's edges. |
| Autodiff.TopSort | src/RevGrad/tensor/Tensor.cpp:764-775 | The depth-first search appends u last, after every newly reached node, and keeps the order a duplicate-free post-order. |
| Autodiff.ReversePostOrder | src/RevGrad/tensor/Tensor.cpp:776 | Reversing a post-order puts every consumer before its operands. |
| Autodiff.Order | src/RevGrad/tensor/Tensor.cpp:764-776 | The reversed order starts with the root, lists every reachable node exactly once, and nothing else, consumers first. |
| Autodiff.OrderDiscovered | src/RevGrad/tensor/Tensor.cpp:748-776 | Sorting over the discovered adjacency gives the same guarantees as over the whole graph. |
| Autodiff.ApplyAll | src/RevGrad/tensor/Tensor.cpp:777-781 | Running gradient functions in order changes only gradients, and only of nodes some run node feeds from. |
| Autodiff.GradFinal | src/RevGrad/tensor/Tensor.cpp:777-781 | In a consumers-first order, a node's gradient is final by the time its own function runs. |
| Autodiff.RunAll | src/RevGrad/tensor/Tensor.cpp:777-781 | The loop computes the same graph as running the gradient functions one after another. |
| Autodiff.Backward | src/RevGrad/tensor/Tensor.cpp:746-783 | `backward()` sets the root's gradients to 1 and runs exactly the reachable nodes once each, root first, consumers before operands. Unreachable nodes are untouched, and only gradients change. The result is exactly the graph with the root's gradients set to 1 after running every ordered node's gradient function in turn. |
| Text.Split | src/RevGrad/model/Model.cpp:45-49 | `getline` splitting: no piece holds the delimiter, and an empty text has no pieces. |
| Text.SplitJoin | src/RevGrad/model/Model.cpp:45-49 | Splitting the comma-joined non-empty fields gives the fields back. |
| Text.SplitTerminated | src/RevGrad/model/Model.cpp:40-53 | Splitting newline-terminated lines gives the lines back. |
| Text.ParseDecimal | src/RevGrad/model/Model.cpp:41 | `stoi` reads back a written count. |
| Text.ParseIntText | src/RevGrad/model/Model.cpp:41 | `stoi` skips leading blanks and reads a signed decimal in `int` range. |
| Params.ParseAll | src/RevGrad/model/Model.cpp:44-49 | The line parses iff every field does, giving one value per field. |
| Params.LoadKeepsSizes | src/RevGrad/model/Model.cpp:35-55 | A successful load keeps the number of parameters and each one's size. |
| Params.LoadRejectsWrongCount | src/RevGrad/model/Model.cpp:41-42 | A saved count that differs from the live parameter's size is refused. |
| Params.SaveLoad | src/RevGrad/model/Model.cpp:16-55 | Loading what was saved succeeds iff the live parameters fit the saved sizes, and then restores each saved value up to its text form; later parameters keep theirs. |
| Params.SavedLinesClean | src/RevGrad/model/Model.cpp:16-33 | No saved line contains a line break. |
| Params.AddLinear | src/RevGrad/model/Model.cpp:57-65 | `Linear` appends weights of shape (out, in) and then a zero bias of shape (out, 1). |
| Params.Network | src/model/Model.cpp:6-9 | The network's parameters are W1 (h, 201), b1 (h, 1), W2 (1, h), b2 (1, 1), in that order. |
| Params.ValuesOf | src/RevGrad/model/Model.cpp:4-10 | `get_params` hands out the parameters in registration order. |
| Params.NetworkFileLayout | src/RevGrad/model/Model.cpp:16-33 | The saved network file is 8 lines with counts 201·h, h, h and 1. |
| Params.LinearForwardShape | src/RevGrad/model/Model.cpp:67-69 | matmul(W, x) + bias succeeds for x of shape (in, batch), and the bias broadcasts to shape (out, batch). |
| JsLoad.JsSplitJoin | backgammon.js:907-910 | JavaScript `split` undoes a join of delimiter-free fields. |
| JsLoad.PiecesOfSaveText | backgammon.js:907-910 | The flattened pieces of a saved file are each count followed by its value texts, then one empty piece. |
| JsLoad.LoadReadsSaved | backgammon.js:906-945 | On a file saved for the same size, `load` reads W1 row by row, b1, W2 and b2 exactly where the engine wrote them. |
| Printer.ShapeText | src/RevGrad/utill/Print.cpp:4-14 | A shape prints between parentheses, and the empty shape prints "()". |
| Printer.WriteShape | src/RevGrad/utill/Print.cpp:4-14 | The printing loop with its separator test writes exactly the sizes joined by ", " in parentheses. |
| Printer.ShapeTextRoundTrip | src/RevGrad/utill/Print.cpp:4-14 | The printed shape reads back to the same shape. |
| Printer.NestedShape | src/RevGrad/utill/Print.cpp:20-31 | The nested data has one bracket level per axis, with as many items per level as the axis size. |
| Printer.PrintedValues | src/RevGrad/utill/Print.cpp:16-35 | The printed leaves are the tensor's values in row-major order, shape_size of them. |
| Checkers.LessOrder | src/game/Game.cpp:13-18 | The checker-move order is a strict total order whose equivalence is equality. |
| Checkers.Play | src/game/Game.cpp:45-59 | Applying a move yields the board and undo list, where the board is the undo list's transfers applied in order. |
| Checkers.BackwardForward | src/game/Game.cpp:61-69 | Replaying an undo list in reverse sense restores the board. |
| Checkers.ForwardAllTotal | src/game/Game.cpp:45-59 | Transfers keep each player's checker total. |
| Checkers.Insert | src/game/Game.h:38 | Multiset insertion adds exactly the one element. |
| Checkers.InsertSorted | src/game/Game.h:38 | Insertion keeps the sequence sorted. |
| Checkers.SortedUnique | src/game/Game.h:38 | Two sorted sequences with the same elements are equal, so a sorted sequence stands for a multiset. |
| Checkers.PipZero | backgammon.js:62-68 | The pip count is non-negative and zero iff no checker is on a point or the bar. |
| Checkers.RaceMeaning | backgammon.js:70-88 | With no checker on either bar, the race flag holds iff White has all 15 off or no black checker sits at or below White's highest occupied point. |
| Checkers.SamePositionSame | backgammon.js:62-88 | Boards that agree on points, bar and off give the same pip counts and race flag, whatever slots each engine uses. |
| Game.InitialPosition | src/game/Game.cpp:21-35 | The start has 15 checkers per player on points, none on bar or off, and mirror-image rows, with turn -1. |
| Game.HomeCount | src/game/Game.h:56-59 | White's home is points 0..5 and Black's 18..23. |
| Game.CanBearOffMeaning | src/game/Game.cpp:37-43 | With 15 checkers, bearing off is allowed iff no checker is outside home and off. |
| Game.EraseInsert | src/game/Game.cpp:173-178 | Erasing one copy of what was inserted restores the move. |
| Game.MakeMove | src/game/Game.cpp:45-59 | `make_move` keeps the turn and pushes one undo list. |
| Game.UndoMove | src/game/Game.cpp:61-69 | `undo_move` keeps the turn and pops one undo list. |
| Game.UndoMakeMove | src/game/Game.cpp:45-69 | Undo directly after make restores the state exactly. |
| Game.MakeMoveConserves | src/game/Game.cpp:45-59 | Making a move keeps each player's checker total. |
| Game.MakeOneMove | src/game/Game.cpp:45-59 | One checker move moves the mover's checker; landing (not off) on an opposing checker sends it to the opponent's bar. |
| Game.GetMove | src/game/Game.cpp:71-94 | The single-die moves are exactly the legal steps, strictly sorted. With a checker on the bar, the only step is entry, and only if the entry point holds at most one opposing checker. Otherwise a step moves an own checker d points forward onto a point with at most one opposing checker. When bearing off is allowed, a step may also bear off from exactly the die's point. |
| Game.NoMoves | src/game/Game.cpp:96-104 | Holds iff no remaining die has a single-die move. |
| Game.OutcomeMeaning | src/game/Game.cpp:182-209 | A win iff the player has 15 off. Then it is single iff the opponent bore any checker off, and backgammon iff the opponent bore none off and has a checker on the bar or in the winner's home. |
| Game.OutcomeMirror | src/game/Game.cpp:182-209 | When exactly one player has all off, the two outcomes mirror each other. |
| Game.Deltas | src/game/Game.cpp:270-278 | A double is played four times, other rolls once per die. |
| Game.GameScore | src/game/Game.cpp:324-344 | The winner scores 1, 2 or 3 points; 1 iff the loser bore a checker off; scoring from Black's outcome agrees. |
| MoveGen.Search | src/game/Game.cpp:130-180 | The recursive search only appends non-empty moves of at most one checker move per die, sorted. |
| MoveGen.BuildContents | src/game/Game.cpp:172-179 | Inserting checker moves one by one into a sorted move keeps exactly the move's checker moves plus the inserted ones. |
| MoveGen.BearAllSweep | src/game/Game.cpp:141-154 | The bear-off branch bears off, one die each, checkers from home points that hold one at that moment, and records exactly those checker moves. |
| MoveGen.SearchPlays | src/game/Game.cpp:130-180 | Every move the search appends is the current move plus a play of the remaining dice: each die in order moves a checker legally or is passed over because it cannot, ending when no remaining die can move, or in a bear-off sweep. |
| MoveGen.BearAll | src/game/Game.cpp:141-159 | The bear-off sweep keeps the state valid and consumes at most the remaining dice. |
| MoveGen.LexOrder | src/game/Game.cpp:124 | Lexicographic order on moves is a strict total order. |
| MoveGen.SortUnique | src/game/Game.cpp:124-125 | Sorting then removing adjacent duplicates gives a strictly increasing list with the same members. |
| MoveGen.Candidates | src/game/Game.cpp:106-115 | Both searches, the second with the first two dice swapped when they differ, together record only good moves: non-empty, sorted, with every slot in range, at most one checker move per die. |
| MoveGen.CandidatesPlayed | src/game/Game.cpp:106-115 | Every candidate is a play of the dice in the rolled order, or, when the first two differ, with those two swapped. |
| MoveGen.FinalizeSpec | src/game/Game.cpp:116-126 | Keeping the largest size, sorting and deduplicating gives exactly the largest-size moves, strictly increasing, empty only for no moves. |
| MoveGen.GetMovesPlayed | src/game/Game.cpp:106-128 | Every move `get_moves` returns is a play of the dice in one of the two orders. |
| MoveGen.GetMovesSpec | src/game/Game.cpp:106-128 | `get_moves` returns non-empty moves of one maximal size, each within the dice, sorted and free of duplicates, from both dice orders. |
| MoveGen.NoMovesSwapped | src/game/Game.cpp:111-115 | Swapping the dice does not change whether any die can move. |
| MoveGen.NoMovesNoMove | src/game/Game.cpp:161-166 | When no die can move and bearing off is not allowed, there are no moves. |
| JsGame.CompareOrder | backgammon.js:22-28 | `compare` is negative iff the C++ order puts a first, zero iff equal, and antisymmetric. |
| JsGame.ListEquals | backgammon.js:34-37 | `listEquals` holds iff the lists are equal. |
| JsGame.InitialSame | backgammon.js:41-60 | The browser's start board is the engine's, with White to move and no undo history. |
| JsGame.CanBearOffMeaning | backgammon.js:194-200 | With 15 checkers, bearing off is allowed iff none is outside home and off. |
| JsGame.MakeMove | backgammon.js:90-104 | `makeMove` keeps the turn and pushes one undo list. |
| JsGame.UndoMakeMove | backgammon.js:90-113 | Undo after make restores the state. |
| JsGame.MakeMoveConserves | backgammon.js:90-104 | Making a move keeps each player's checker total. |
| JsGame.SameAsCppAgrees | backgammon.js:62-88 | On the same position the two engines agree on pip counts, race and bear-off. |
| JsGame.BearOffFromDeltaMeaning | backgammon.js:202-217 | Bear-off with a die holds iff from the exact point, or with a larger die from the farthest occupied home point. |
| JsGame.FindMovesExact | backgammon.js:153-192 | `findMoves` appends exactly the complete sequences that play every remaining die legally from the current state. |
| JsGame.FromLoopExact | backgammon.js:171-191 | The loop over points adds exactly the completions starting from a point at or after `from`. |
| JsGame.TryNormalExact | backgammon.js:174-182 | The normal-move branch adds exactly the completions starting with that step. |
| JsGame.TryBearOffExact | backgammon.js:183-190 | The bear-off branch adds exactly the completions starting by bearing that checker off. |
| JsGame.DoublesExact | backgammon.js:118-123 | The doubles loop finds exactly the plays of the dice from the first start index that has any. |
| JsGame.SearchExact | backgammon.js:115-138 | The searches find exactly the plays the rules offer: all dice in either order; else the larger die alone; else the smaller. |
| JsGame.SortMove | backgammon.js:139 | Sorting a move gives a sorted permutation. |
| JsGame.SortCanonical | backgammon.js:139 | Any sorted permutation is the sorted move, so sorting makes equal multisets equal. |
| JsGame.Dedup | backgammon.js:140-148 | Deduplication keeps each move once, and exactly the moves not seen before. |
| JsGame.GetMovesSpec | backgammon.js:115-151 | `getMoves` returns duplicate-free sorted moves, exactly the sorted forms of the plays the rules offer. |
| JsGame.DeltasRoll | backgammon.js:501-506 | The dice deltas of any roll are a valid roll for the search. |
| Features.PointCodeRoundTrip | src/model/Model.cpp:29-54 | A point's four values decode back to its checker count; the first three plus twice the fourth equal the count. |
| Features.PointBlockAt | src/model/Model.cpp:27-55 | Value 4·pt+j of a player's block is value j of point pt's code. |
| Features.EncodePointAt | src/model/Model.cpp:27-57 | Value 97·p+4·pt+j of the vector is value j of the code of p's point pt. |
| Features.EncodeSlots | src/model/Model.cpp:56-71 | Values 96 and 193 are pip/375. Then bar/2 for each player, off/15 for each player, the turn one-hot ([1,0] for White), and the race flag. |
| Features.Encode | src/model/Model.cpp:72 | The vector has exactly 201 values. |
| Features.DecodeEncode | src/model/Model.cpp:24-74 | Every point, bar and off count and the turn colour decode back from the vector. |
| Features.EncodeInjective | src/model/Model.cpp:24-74 | Positions with different counts or turn colour get different vectors. |
| Features.FeatureTensor | src/model/Model.cpp:72-73 | `tensor_from_state` is a leaf of shape (201, 1) holding the encoding. |
| Features.JsFeaturesAgree | backgammon.js:520-571 | `array_from_state` gives the same 201 values as the engine's encoder on the same position. |
| Features.TrialUndo | src/model/Model.cpp:83-87 | Making a candidate, flipping the turn, undoing and flipping back restores the state. |
| Features.Scores | src/model/Model.cpp:82-86 | Each candidate is scored by the prediction on the position after it, with the opponent to move. |
| Features.LeadsExtend | src/model/Model.cpp:88-94 | One comparison step keeps the index of the first strictly best candidate. |
| Features.ChooseMove | src/model/Model.cpp:76-97 | Returns 0 for no moves, else the first index with the strictly highest prediction for White, or the strictly lowest for Black. |
| Features.UpdateTargetMeaning | src/model/Model.cpp:108-125 | The target is 1 if White has won after the move, 0 if White has lost, else the prediction for the next position. |
| Features.ZeroGrads | src/model/Model.cpp:126-131 | Every parameter's gradients become 0, and its values, shape and edges are unchanged. |

## Left out

- Gradients.Propagate: the matmul case runs the corrected `MatmulBackward`, not the source's `matmul_backward_fn`. They differ only when both operands are the same node (see Findings); `Gradients.MatmulBackwardAsWritten` models the source's version.
- View.ShapeSize, View.StridesFromShape and View.Ravel: the source computes these products, and `(int)values.size()`, in 32-bit `int`; the model's integers are unbounded, so sizes that overflow `int` are not modelled as wrapping. For the same reason `Params.SaveLoad` and `Printer.ShapeTextRoundTrip` require the sizes they write to fit in `int`, which `stoi` needs to read them back.
- Tensors.ReduceSum: requires the axis to be -1 or an axis of the input. The source's `sum` does not check it and erases past the shape for any other axis.
- Tensors.Reshape: requires the new shape to hold as many elements as the node. The source's `reshape` does not check this, and a mismatch leaves values and shape out of step.
- Gradients.SumBackward, Gradients.MaxBackward: for a vector operand reduced along axis 0, the forward pass reshapes the result to [1] (src/RevGrad/tensor/Tensor.cpp:231-235, 281-285). The backward pass then inserts the axis into that result's one coordinate, giving a 2-entry index (Tensor.cpp:254-255, 297-298), and `ravel` reads the operand's second stride, past the end of its one-entry stride list (Tensor.cpp:53-59). That read is undefined behaviour in C++. The model computes the intended value instead: every element gains the single output gradient, split among tied maxima for `max`.
- Errors: every `assert` of the source is modelled as the check of a build with assertions enabled; a failing check becomes an `Err` result where the source aborts. A build with `NDEBUG` is not modelled. There the loader also loses the read of its values line, which sits inside `assert(std::getline(file, line))` at src/RevGrad/model/Model.cpp:43. It would then parse each count line as that parameter's values, and skip the checks at lines 42 and 50. `Params.LoadRejectsWrongCount`, `Params.LoadKeepsSizes`, `Params.SaveLoad` and `Tensors.FromValues` describe the build with assertions.
- Floating point is not modelled: values and gradients are exact reals. Rounding, NaN and overflow in float arithmetic are outside the model.
- Division, `exp`, `log`, `sigmoid`, `softmax`, `log_softmax` and `mean` (src/RevGrad/tensor/Tensor.cpp:177-203, 316-447, 631-633) are left out, because their values and gradients are transcendental float arithmetic. Division's shape rule is the broadcast rule that `Tensors.Elementwise` states for any pointwise function.
- Random initialisation (`random_vector`, `Tensor::random`, He scaling) and dice rolling are left out. Initial weights are the `init` parameters of `Params.AddLinear`, and dice are inputs.
- `from_csv`, the file streams of save/load, the browser's `FileReader`, and the JSON text of moves are left out. Saving and loading are modelled on the text only.
- Text forms of floats are left out: `fmt`, `parse` and `num` are parameters. `Params.SaveLoad` restores each value as `parse(fmt(x))`.
- `Params.SaveLoad` requires every saved parameter to be non-empty. An empty parameter gets a count line and no values line, and the loader then takes the next count line as its values.
- Loading a file with more blocks than live parameters indexes past the parameter list, which the source does not guard. The model returns an error (`IndexError`) there.
- The JavaScript `outcome` is left out: it indexes the board with the boolean `!player`. Outcomes are modelled from the C++ only.
- MoveGen.Search: the model proves that every recorded move is a play of the dice (`MoveGen.SearchPlays`), not the converse that every play reaching a maximal size is recorded. The `seen` pruning makes the converse depend on which sequences reach a move first.
- MoveGen.BearAll: its own contract states validity and dice bounds only; which checkers the sweep bears off is stated by `MoveGen.BearAllSweep`. The sweep is not shown to prefer the farthest home points.
- `JsGame.Dedup`: the order of first occurrences that the source keeps is not stated, only membership and absence of duplicates.
- `JsGame.GetMovesSpec` requires the dice to be a roll as `getDeltas` shapes it (two dice, or four equal ones).
- `Features.ChooseMove`: the source's float sentinel (lowest/highest float) is modelled as "the first candidate is always taken". This agrees with the source unless a prediction equals the sentinel.
- Turn -1, the state before the opening roll, is excluded by `Game.Valid` wherever a player is to move.
- The TD update arithmetic (`alpha * error * grad`) and the call to `backward` inside `update` are left out. Only the target and the zeroing of gradients are modelled. The network's forward pass is a `predict` parameter.
- `Graphs` takes operation defaults explicitly (`sum` axis -1, `max` axis 0 at src/RevGrad/tensor/Tensor.h:129-131). Tensor identity (`operator<` on the shared pointer) becomes the integer handle.
- Console and browser drawing, `State::show`, human input, the player classes, the training and play drivers, `clone()` and the turn loop of `Game::play_turn` are left out, because they are I/O or dispatch.
- The header and the definitions of the network constructors disagree. src/model/Model.h:12 declares only `NeuralNetwork()` and Model.h:20 only `Model()`. src/model/Model.cpp:6 defines only `NeuralNetwork(int)`, and Model.cpp:19 only `Model(int)`. `Params.Network` follows the sized definition at Model.cpp:6-9.
- Shapes with a zero or negative axis size are excluded by `View.ValidShape`; the source's constructors (src/RevGrad/tensor/Tensor.cpp:80-96) accept them. Every shape the program builds has positive sizes.

## Findings

| source | as written | input that shows it | evidently intended | confidence | as-written member | corrected member |
|---|---|---|---|---|---|---|
| src/RevGrad/tensor/Tensor.cpp:476-500 | `matmul_backward_fn` copies both operands' gradients, accumulates into the copies, and writes back u's and then v's, so when u and v are the same node the second write discards u's contribution | `w = matmul(a, a)` with `a = [[1]]` and grad w = 1: grad a ends at 1 | both contributions accumulate: grad a = 2, the derivative of a·a | high; not executed | Gradients.MatmulBackwardAsWritten, Gradients.MatmulAliasLosesGradient | Gradients.MatmulBackward, Gradients.MatmulBackwardAccumulates |
| src/RevGrad/tensor/Tensor.cpp:728-731 | the slice guard checks `start < size`, `end <= size` and `start < end` but not `start >= 0` | shape [2] with range (-1, 1): accepted, and the first element reads coordinate -1 | a slice only reads inside the tensor: `0 <= start` is required | high; not executed | Tensors.SliceGuardAsWritten, Tensors.SliceNegativeStartAccepted | Tensors.Slice, Tensors.SliceValueAt |

=== FILE: arith.dfy ===
/** Small facts of integer arithmetic, each kept in its own lemma so that
    the proofs that use them see no more multiplication than they need. */
module Arith {

  lemma MulComm(x: int, y: int)
    ensures x * y == y * x
  {
  }

  lemma MulAssoc(x: int, y: int, z: int)
    ensures x * (y * z) == (x * y) * z
  {
  }

  lemma Distrib(a: int, n: int, c: int, p: int)
    ensures (a * n + c) * p == a * (n * p) + c * p
  {
  }

  lemma MulSucc(i: int, p: int)
    ensures (i + 1) * p == i * p + p
  {
  }

  lemma MulNonNeg(x: int, y: int)
    requires x >= 0 && y >= 0
    ensures x * y >= 0
  {
  }

  lemma MulPos(x: int, y: int)
    requires x > 0 && y > 0
    ensures x * y > 0
  {
  }

  lemma MulAtLeast(k: int, m: int)
    requires k >= 1 && m > 0
    ensures k * m >= m
  {
    assert k * m == (k - 1) * m + m;
    MulNonNeg(k - 1, m);
  }

  lemma DivModSpec(i: int, p: int)
    requires p > 0
    ensures i == (i / p) * p + i % p
    ensures 0 <= i % p < p
    ensures i >= 0 ==> i / p >= 0
  {
  }

  /** Quotient and remainder are unique. */
  lemma ModUnique(x: int, m: int, a: int, b: int)
    requires m > 0 && 0 <= b < m && x == a * m + b
    ensures x % m == b && x / m == a
  {
    var q := x / m;
    var r := x % m;
    DivModSpec(x, m);
    assert (a - q) * m == r - b;
    if a > q {
      MulAtLeast(a - q, m);
    } else if a < q {
      MulAtLeast(q - a, m);
    }
  }

  /** Block `c` of `n` blocks of width `p`, offset `r` inside it, lies
      inside the `n * p` range. */
  lemma BlockBound(c: int, n: int, p: int, r: int)
    requires 0 <= c < n && p > 0 && 0 <= r < p
    ensures 0 <= c * p + r < n * p
  {
    MulNonNeg(c, p);
    assert c * p + p == (c + 1) * p;
    assert (c + 1) * p <= n * p by {
      if c + 1 < n {
        assert n * p == (c + 1) * p + (n - c - 1) * p;
        MulNonNeg(n - c - 1, p);
      }
    }
  }

  /** One digit of a mixed-radix expansion: the digit below `n`, scaled by
      `p`, plus the remainder below `p`, is the remainder below `n * p`. */
  lemma MixedRadixStep(i: int, p: int, n: int)
    requires i >= 0 && p > 0 && n > 0
    ensures ((i / p) % n) * p + i % p == i % (n * p)
  {
    var q := i / p;
    var r := i % p;
    DivModSpec(i, p);
    var a := q / n;
    var c := q % n;
    DivModSpec(q, n);
    Distrib(a, n, c, p);
    BlockBound(c, n, p, r);
    MulPos(n, p);
    ModUnique(i, n * p, a, c * p + r);
  }

  /** An index below `w * l` splits into a block below `w` and an offset
      below `l`. */
  lemma DivBound(t: int, l: int, w: int)
    requires l > 0 && 0 <= t < w * l
    ensures 0 <= t / l < w && 0 <= t % l < l
    ensures t == (t / l) * l + t % l
  {
    DivModSpec(t, l);
    var q := t / l;
    if q >= w {
      MulNonNeg(q - w, l);
      assert false;
    }
  }
}

=== FILE: autodiff.dfy ===
/** `Tensor::backward`: seed the root's gradient with ones, discover the
    graph below the root breadth-first, order it depth-first (post-order,
    then reversed), and run every node's gradient function in that order.

    The traversal works on the edge lists alone, as a map from handle to
    operand handles; nodes are created after their operands, so every edge
    points to a smaller handle and the graph has no cycles. */
module Autodiff {
  import opened Tensors
  import opened Graphs
  import opened RealSeq
  import opened Gradients

  type Edges = map<Handle, seq<Handle>>

  /** Every edge leads to a present, smaller handle. */
  predicate Ordered(e: Edges) {
    forall h :: h in e ==> 0 <= h && forall k :: 0 <= k < |e[h]| ==> e[h][k] in e && e[h][k] < h
  }

  /** The edge lists of a graph. */
  function EdgeMap(g: Graph): (e: Edges)
    requires ValidGraph(g)
    ensures e.Keys == g.nodes.Keys && Ordered(e)
    ensures forall h :: h in g.nodes ==> e[h] == g.nodes[h].edges
  {
    map h | h in g.nodes :: g.nodes[h].edges
  }

  /** Changing gradient buffers leaves the edges alone. */
  lemma EdgeMapSame(g: Graph, r: Graph)
    requires ValidGraph(g) && ValidGraph(r) && SameButGrads(g, r)
    ensures EdgeMap(r) == EdgeMap(g)
  {
    var a, b := EdgeMap(g), EdgeMap(r);
    forall h | h in a
      ensures b[h] == a[h]
    {
      assert r.nodes[h] == g.nodes[h].(grads := r.nodes[h].grads);
    }
  }

  // ---------------------------------------------------------------------
  // Reachability

  /** `p` follows edges from `p[0]` to its last element. */
  predicate IsPath(e: Edges, p: seq<Handle>) {
    |p| >= 1 && (forall i :: 0 <= i < |p| ==> p[i] in e)
    && forall i :: 0 <= i < |p| - 1 ==> p[i + 1] in e[p[i]]
  }

  ghost predicate Reachable(e: Edges, a: Handle, b: Handle) {
    exists p :: IsPath(e, p) && p[0] == a && p[|p| - 1] == b
  }

  lemma ReachSelf(e: Edges, a: Handle)
    requires a in e
    ensures Reachable(e, a, a)
  {
    assert IsPath(e, [a]);
  }

  /** One more edge at the end of a path. */
  lemma ReachStep(e: Edges, a: Handle, b: Handle, c: Handle)
    requires Ordered(e) && Reachable(e, a, b) && b in e && c in e[b]
    ensures Reachable(e, a, c)
  {
    var p :| IsPath(e, p) && p[0] == a && p[|p| - 1] == b;
    var q := p + [c];
    assert IsPath(e, q) && q[0] == a && q[|q| - 1] == c;
  }

  /** One more edge at the start of a path. */
  lemma ReachBefore(e: Edges, a: Handle, b: Handle, c: Handle)
    requires a in e && b in e[a] && Reachable(e, b, c)
    ensures Reachable(e, a, c)
  {
    var p :| IsPath(e, p) && p[0] == b && p[|p| - 1] == c;
    var q := [a] + p;
    assert IsPath(e, q) && q[0] == a && q[|q| - 1] == c;
  }

  /** A set that holds `a` and every operand of its members holds
      everything reachable from `a`. */
  lemma ClosedHoldsReach(e: Edges, s: set<Handle>, a: Handle, b: Handle)
    requires a in s && Reachable(e, a, b)
    requires forall x :: x in s && x in e ==> forall y :: y in e[x] ==> y in s
    ensures b in s
  {
    var p :| IsPath(e, p) && p[0] == a && p[|p| - 1] == b;
    var i := 0;
    while i < |p| - 1
      invariant 0 <= i < |p| && p[i] in s
    {
      var x, y := p[i], p[i + 1];
      assert x in s && x in e && y in e[x];
      i := i + 1;
    }
  }

  /** The nodes reachable from `a`, as a finite set. */
  ghost function ReachSet(e: Edges, a: Handle): (r: set<Handle>)
    ensures forall x :: x in r <==> x in e && Reachable(e, a, x)
  {
    set x | x in e && Reachable(e, a, x)
  }

  // ---------------------------------------------------------------------
  // Discovery

  /** The state of the breadth-first walk: everything seen or queued is
      reachable, and every edge out of a seen node leads to a node seen
      or queued. */
  ghost predicate Frontier(e: Edges, root: Handle, reach: set<Handle>,
                           seen: set<Handle>, adj: Edges, queue: seq<Handle>)
  {
    seen <= reach && adj.Keys == seen
    && (forall x :: x in adj ==> x in e && adj[x] == e[x])
    && (forall y :: y in queue ==> y in reach)
    && (root in seen || root in queue)
    && forall x :: x in seen ==> x in e && forall y :: y in e[x] ==> y in seen || y in queue
  }

  /** Taking a node already seen off the queue keeps the walk's state. */
  lemma FrontierSkip(e: Edges, root: Handle, reach: set<Handle>,
                     seen: set<Handle>, adj: Edges, queue: seq<Handle>)
    requires Frontier(e, root, reach, seen, adj, queue)
    requires |queue| > 0 && queue[0] in seen
    ensures Frontier(e, root, reach, seen, adj, queue[1..])
  {
    assert queue == [queue[0]] + queue[1..];
  }

  /** Visiting a new node records its edges and queues its operands,
      which are reachable too. */
  lemma FrontierVisit(e: Edges, root: Handle, reach: set<Handle>,
                      seen: set<Handle>, adj: Edges, queue: seq<Handle>)
    requires Frontier(e, root, reach, seen, adj, queue)
    requires |queue| > 0 && queue[0] !in seen && queue[0] in e
    requires forall y :: y in queue[1..] + e[queue[0]] ==> y in reach
    ensures Frontier(e, root, reach, seen + {queue[0]}, adj[queue[0] := e[queue[0]]],
                     queue[1..] + e[queue[0]])
    ensures |reach - (seen + {queue[0]})| < |reach - seen|
  {
    var u := queue[0];
    assert u in queue;
    VisitClosed(e, seen, queue);
    assert Frontier(e, root, reach, seen + {u}, adj[u := e[u]], queue[1..] + e[u]);
    SeenGrows(reach, seen, u);
  }

  /** The queue after a visit holds only reachable nodes. */
  lemma VisitQueued(e: Edges, root: Handle, reach: set<Handle>, queue: seq<Handle>)
    requires Ordered(e) && reach == ReachSet(e, root)
    requires |queue| > 0 && forall y :: y in queue ==> y in reach
    ensures queue[0] in e && forall y :: y in queue[1..] + e[queue[0]] ==> y in reach
  {
    var u := queue[0];
    assert u in queue;
    forall y | y in queue[1..] + e[u]
      ensures y in reach
    {
      if y in e[u] {
        ReachStep(e, root, u, y);
      } else {
        assert y in queue;
      }
    }
  }

  /** Visiting the head of the queue keeps every edge out of a seen node
      pointing at a seen or queued node. */
  lemma VisitClosed(e: Edges, seen: set<Handle>, queue: seq<Handle>)
    requires |queue| > 0 && queue[0] in e
    requires forall x :: x in seen ==> x in e && forall y :: y in e[x] ==> y in seen || y in queue
    ensures forall x :: x in seen + {queue[0]} ==>
      x in e && forall y :: y in e[x] ==> y in seen + {queue[0]} || y in queue[1..] + e[queue[0]]
  {
    var u := queue[0];
    assert queue == [u] + queue[1..];
  }

  lemma SeenGrows(reach: set<Handle>, seen: set<Handle>, u: Handle)
    requires u in reach && u !in seen
    ensures |reach - (seen + {u})| < |reach - seen|
  {
    var smaller := reach - (seen + {u});
    assert reach - seen == smaller + {u} && u !in smaller;
  }

  /** The breadth-first loop of `backward`: pop a handle, skip it if it
      was seen, otherwise mark it, record its edge list and queue its
      operands. The marked set is exactly what the root reaches, and each
      recorded list is the node's own. */
  method Discover(e: Edges, root: Handle) returns (seen: set<Handle>, adj: Edges)
    requires Ordered(e) && root in e
    ensures forall x :: x in seen <==> x in e && Reachable(e, root, x)
    ensures adj.Keys == seen && forall x :: x in adj ==> adj[x] == e[x]
  {
    ReachSelf(e, root);
    ghost var reach := ReachSet(e, root);
    var queue := [root];
    seen := {};
    adj := map[];
    while |queue| > 0
      invariant Frontier(e, root, reach, seen, adj, queue)
      decreases |reach - seen|, |queue|
    {
      var u := queue[0];
      if u in seen {
        FrontierSkip(e, root, reach, seen, adj, queue);
        queue := queue[1..];
      } else {
        VisitQueued(e, root, reach, queue);
        FrontierVisit(e, root, reach, seen, adj, queue);
        seen := seen + {u};
        adj := adj[u := e[u]];
        queue := queue[1..] + e[u];
      }
    }
    forall x | x in e && Reachable(e, root, x)
      ensures x in seen
    {
      ClosedHoldsReach(e, seen, root, x);
    }
  }

  // ---------------------------------------------------------------------
  // Depth-first ordering

  predicate Distinct(s: seq<Handle>) {
    forall i, j :: 0 <= i < j < |s| ==> s[i] != s[j]
  }

  /** Every operand of an element appears before it. */
  predicate PostOrder(e: Edges, s: seq<Handle>) {
    (forall i :: 0 <= i < |s| ==> s[i] in e)
    && forall i, k :: 0 <= i < |s| && 0 <= k < |e[s[i]]| ==> e[s[i]][k] in s[..i]
  }

  /** Every operand of an element appears after it. */
  predicate ConsumersFirst(e: Edges, s: seq<Handle>) {
    (forall i :: 0 <= i < |s| ==> s[i] in e)
    && forall i, k :: 0 <= i < |s| && 0 <= k < |e[s[i]]| ==> e[s[i]][k] in s[i + 1..]
  }

  /** The recursive `topsort` lambda: mark `u`, visit each unmarked
      operand in edge order, then append `u`. Nodes marked but not yet
      appended are the ones on the call stack, all above `u`; since edges
      lead to smaller handles, a marked operand has always been appended
      already. */
  method TopSort(e: Edges, u: Handle, seen: set<Handle>, order: seq<Handle>)
    returns (seen': set<Handle>, order': seq<Handle>)
    requires Ordered(e) && u in e && u !in seen
    requires Distinct(order) && PostOrder(e, order)
    requires forall x :: x in order ==> x in seen
    requires forall x :: x in seen && x !in order ==> x > u
    ensures |order'| > |order| && order'[..|order|] == order && order'[|order'| - 1] == u
    ensures Distinct(order') && PostOrder(e, order')
    ensures forall x :: x in seen' <==> x in seen || x in order'[|order|..]
    ensures forall x :: x in order'[|order|..] ==> x !in seen && Reachable(e, u, x)
    decreases u
  {
    ReachSelf(e, u);
    seen' := seen + {u};
    order' := order;
    var ops := e[u];
    for k := 0 to |ops|
      invariant |order'| >= |order| && order'[..|order|] == order
      invariant Distinct(order') && PostOrder(e, order') && u !in order'
      invariant forall x :: x in seen' <==> x in seen || x == u || x in order'[|order|..]
      invariant forall x :: x in order'[|order|..] ==> x !in seen && Reachable(e, u, x)
      invariant forall j :: 0 <= j < k ==> ops[j] in order'
    {
      var v := ops[k];
      if v !in seen' {
        var s2, o2 := TopSort(e, v, seen', order');
        forall x | x in o2[|order'|..]
          ensures Reachable(e, u, x)
        {
          ReachBefore(e, u, v, x);
        }
        assert forall j :: 0 <= j < |order'| ==> o2[j] == order'[j];
        assert o2[..|order|] == order;
        seen', order' := s2, o2;
      } else {
        assert v < u;
      }
    }
    ghost var done := order';
    order' := order' + [u];
    assert forall i :: 0 <= i <= |done| ==> order'[..i] == done[..i];
    assert order'[|order|..] == done[|order|..] + [u];
  }

  /** The reversed sequence. */
  function Reverse(s: seq<Handle>): (r: seq<Handle>)
    ensures |r| == |s| && forall i :: 0 <= i < |s| ==> r[i] == s[|s| - 1 - i]
  {
    seq(|s|, i requires 0 <= i < |s| => s[|s| - 1 - i])
  }

  /** Reversing a post-order puts every consumer before its operands. */
  lemma ReversePostOrder(e: Edges, s: seq<Handle>)
    requires PostOrder(e, s)
    ensures ConsumersFirst(e, Reverse(s))
  {
    var r := Reverse(s);
    forall i, k | 0 <= i < |r| && 0 <= k < |e[r[i]]|
      ensures e[r[i]][k] in r[i + 1..]
    {
      var i' := |s| - 1 - i;
      assert r[i] == s[i'];
      var v := e[s[i']][k];
      assert v in s[..i'];
      var j' :| 0 <= j' < i' && s[..i'][j'] == v;
      assert r[|s| - 1 - j'] == v;
      assert r[i + 1..][|s| - 1 - j' - (i + 1)] == v;
    }
  }

  /** The whole ordering step: the reversed post-order from the root
      lists every node the root reaches, once each, root first, every
      consumer before its operands. */
  method Order(e: Edges, root: Handle) returns (order: seq<Handle>)
    requires Ordered(e) && root in e
    ensures |order| > 0 && order[0] == root
    ensures Distinct(order) && ConsumersFirst(e, order)
    ensures forall x :: x in order <==> x in e && Reachable(e, root, x)
  {
    var seen, post := TopSort(e, root, {}, []);
    assert post[|post| - 1] == root;
    forall x | x in e && Reachable(e, root, x)
      ensures x in post
    {
      var s := set y | y in post;
      ClosedHoldsReach(e, s, root, x);
    }
    order := Reverse(post);
    ReversePostOrder(e, post);
    forall x | x in order
      ensures x in post
    {
      var i :| 0 <= i < |order| && order[i] == x;
    }
    forall x | x in post
      ensures x in order
    {
      var i :| 0 <= i < |post| && post[i] == x;
      assert order[|post| - 1 - i] == x;
    }
    assert forall i, j :: 0 <= i < j < |order| ==> order[i] == post[|post| - 1 - i] && order[j] == post[|post| - 1 - j];
  }

  // ---------------------------------------------------------------------
  // Running the gradient functions

  /** No element of `s` lists `x` among its operands. */
  predicate Unfed(g: Graph, s: seq<Handle>, x: Handle)
    requires forall j :: 0 <= j < |s| ==> s[j] in g.nodes
  {
    forall j :: 0 <= j < |s| ==> x !in g.nodes[s[j]].edges
  }

  /** Run the gradient function of every element of `s`, first to last. */
  function ApplyAll(g: Graph, s: seq<Handle>): (r: Graph)
    requires ValidGraph(g) && forall j :: 0 <= j < |s| ==> s[j] in g.nodes
    ensures ValidGraph(r) && SameButGrads(g, r)
    ensures forall x :: x in g.nodes && Unfed(g, s, x) ==> r.nodes[x] == g.nodes[x]
    decreases |s|
  {
    if |s| == 0 then g
    else
      var before := ApplyAll(g, s[..|s| - 1]);
      var r := Propagate(before, s[|s| - 1]);
      SameButGradsTrans(g, before, r);
      r
  }

  /** In a consumers-first order without repeats, no element is an
      operand of itself or of anything after it. */
  lemma NotFedLater(e: Edges, s: seq<Handle>, i: int, m: int)
    requires Distinct(s) && ConsumersFirst(e, s) && 0 <= i <= m < |s|
    ensures s[i] !in e[s[m]]
  {
  }

  /** Running one more element of `s` is one more propagation step. */
  lemma ApplySnoc(g: Graph, s: seq<Handle>, n: int)
    requires ValidGraph(g) && forall j :: 0 <= j < |s| ==> s[j] in g.nodes
    requires 0 <= n < |s|
    ensures ApplyAll(g, s[..n + 1]) == Propagate(ApplyAll(g, s[..n]), s[n])
  {
    ApplyLast(g, s[..n + 1]);
    PrefixSnoc(s, n);
  }

  lemma PrefixSnoc(s: seq<Handle>, n: int)
    requires 0 <= n < |s|
    ensures |s[..n + 1]| == n + 1 && s[..n + 1][..n] == s[..n] && s[..n + 1][n] == s[n]
  {
  }

  /** Running a non-empty sequence runs all but its last element, then
      the last. */
  lemma ApplyLast(g: Graph, t: seq<Handle>)
    requires ValidGraph(g) && |t| > 0 && forall j :: 0 <= j < |t| ==> t[j] in g.nodes
    ensures ApplyAll(g, t) == Propagate(ApplyAll(g, t[..|t| - 1]), t[|t| - 1])
  {
  }

  /** Once a node's gradient function has run, no later step touches the
      node: every later node's operands come after it in the order, and
      nothing repeats. So each gradient function sees its node's final
      gradient. */
  lemma {:induction false} GradFinal(g: Graph, s: seq<Handle>, i: int, n: int)
    requires ValidGraph(g) && forall j :: 0 <= j < |s| ==> s[j] in g.nodes
    requires 0 <= i < n <= |s| && forall m :: i <= m < n ==> s[i] !in g.nodes[s[m]].edges
    ensures ApplyAll(g, s[..n]).nodes[s[i]] == ApplyAll(g, s[..i]).nodes[s[i]]
    decreases n
  {
    if i < n - 1 {
      GradFinal(g, s, i, n - 1);
      FinalStep(g, s, i, n - 1);
    } else {
      FinalStep(g, s, i, i);
    }
  }

  /** The step that runs `s[m]` leaves `s[i]` alone when `s[i]` is not
      one of its operands. */
  lemma FinalStep(g: Graph, s: seq<Handle>, i: int, m: int)
    requires ValidGraph(g) && forall j :: 0 <= j < |s| ==> s[j] in g.nodes
    requires 0 <= i <= m < |s| && s[i] !in g.nodes[s[m]].edges
    ensures ApplyAll(g, s[..m + 1]).nodes[s[i]] == ApplyAll(g, s[..m]).nodes[s[i]]
  {
    var before := ApplyAll(g, s[..m]);
    ApplySnoc(g, s, m);
    StepKeeps(g, before, s[m], s[i]);
  }

  /** Propagating from `h` after earlier steps leaves a node that is not
      an operand of `h` as it was. */
  lemma StepKeeps(g: Graph, before: Graph, h: Handle, x: Handle)
    requires ValidGraph(g) && ValidGraph(before) && SameButGrads(g, before)
    requires h in g.nodes && x in g.nodes && x !in g.nodes[h].edges
    ensures Propagate(before, h).nodes[x] == before.nodes[x]
  {
    assert before.nodes[h].edges == g.nodes[h].edges;
  }

  /** An edge map and a copy of it restricted to a set closed under
      edges give the same reachability from a member of the set. */
  lemma ReachRestricted(e: Edges, adj: Edges, a: Handle, b: Handle)
    requires a in adj && forall x :: x in adj ==> x in e && adj[x] == e[x]
    requires forall x :: x in adj ==> forall y :: y in adj[x] ==> y in adj
    requires Reachable(e, a, b)
    ensures Reachable(adj, a, b)
  {
    var p :| IsPath(e, p) && p[0] == a && p[|p| - 1] == b;
    var i := 0;
    while i < |p| - 1
      invariant 0 <= i < |p| && forall j :: 0 <= j <= i ==> p[j] in adj
    {
      var x, y := p[i], p[i + 1];
      assert x in adj && y in e[x];
      i := i + 1;
    }
    forall j | 0 <= j < |p| - 1
      ensures p[j + 1] in adj[p[j]]
    {
      var x := p[j];
      assert x in adj && x in e;
    }
  }

  /** A path in the restricted map is a path in the whole map. */
  lemma ReachWidened(e: Edges, adj: Edges, a: Handle, b: Handle)
    requires forall x :: x in adj ==> x in e && adj[x] == e[x]
    requires Reachable(adj, a, b)
    ensures Reachable(e, a, b)
  {
    var p :| IsPath(adj, p) && p[0] == a && p[|p| - 1] == b;
    forall j | 0 <= j < |p|
      ensures p[j] in e && (j < |p| - 1 ==> p[j + 1] in e[p[j]])
    {
      var x := p[j];
      assert x in adj;
    }
    assert IsPath(e, p);
  }

  /** Ordering the discovered edge lists gives exactly the nodes the root
      reaches in the whole graph, consumers first. */
  method OrderDiscovered(e: Edges, root: Handle) returns (order: seq<Handle>)
    requires Ordered(e) && root in e
    ensures |order| > 0 && order[0] == root && Distinct(order)
    ensures ConsumersFirst(e, order)
    ensures forall x :: x in order <==> x in e && Reachable(e, root, x)
  {
    var seen, adj := Discover(e, root);
    ReachSelf(e, root);
    forall x, y | x in adj && y in adj[x]
      ensures y in adj
    {
      ReachStep(e, root, x, y);
    }
    order := Order(adj, root);
    forall x
      ensures x in order <==> x in e && Reachable(e, root, x)
    {
      if x in order {
        ReachWidened(e, adj, root, x);
      }
      if x in e && Reachable(e, root, x) {
        ReachRestricted(e, adj, root, x);
      }
    }
  }

  /** A node the root does not reach is no operand of a node it does. */
  lemma UnreachedUnfed(e: Edges, order: seq<Handle>, root: Handle, x: Handle)
    requires Ordered(e) && !Reachable(e, root, x)
    requires forall j :: 0 <= j < |order| ==> order[j] in e && Reachable(e, root, order[j])
    ensures forall j :: 0 <= j < |order| ==> x !in e[order[j]]
  {
    forall j | 0 <= j < |order|
      ensures x !in e[order[j]]
    {
      var y := order[j];
      if x in e[y] {
        ReachStep(e, root, y, x);
      }
    }
  }

  /** The final loop of `backward`: call each node's gradient function in
      the given order. */
  method RunAll(g: Graph, order: seq<Handle>) returns (r: Graph)
    requires ValidGraph(g) && forall j :: 0 <= j < |order| ==> order[j] in g.nodes
    ensures r == ApplyAll(g, order)
  {
    r := g;
    for i := 0 to |order|
      invariant r == ApplyAll(g, order[..i])
    {
      ApplySnoc(g, order, i);
      r := Propagate(r, order[i]);
    }
    assert order[..|order|] == order;
  }

  /** `Tensor::backward`: overwrite the root's gradient with ones, discover
      the nodes below it, order them consumers first and run each one's
      gradient function. The result differs from the input only in
      gradient buffers; the root ends with all ones, since no node below
      it feeds it; nodes the root does not reach are untouched; and every
      gradient function runs after those of all the node's consumers. */
  method Backward(g: Graph, root: Handle) returns (r: Graph, order: seq<Handle>)
    requires ValidGraph(g) && root in g.nodes
    ensures ValidGraph(r) && SameButGrads(g, r)
    ensures r.nodes[root].grads == Constant(|g.nodes[root].grads|, 1.0)
    ensures |order| > 0 && order[0] == root && Distinct(order)
    ensures ConsumersFirst(EdgeMap(g), order)
    ensures forall x :: x in order <==> x in g.nodes && Reachable(EdgeMap(g), root, x)
    ensures forall x :: x in g.nodes && !Reachable(EdgeMap(g), root, x) ==> r.nodes[x] == g.nodes[x]
    ensures (forall j :: 0 <= j < |order| ==> order[j] in g.nodes)
            && r == ApplyAll(SetGrads(g, root, Constant(|g.nodes[root].grads|, 1.0)), order)
  {
    var e := EdgeMap(g);
    var seeded := SetGrads(g, root, Constant(|g.nodes[root].grads|, 1.0));
    order := OrderDiscovered(e, root);
    forall j | 0 <= j < |order|
      ensures order[j] in seeded.nodes
    {
      assert order[j] in order;
    }
    r := RunAll(seeded, order);
    SeededRun(g, root, order, seeded, r);
  }

  /** Seeding the root's gradient with ones and running the discovered
      order gives the root the seed and leaves unreached nodes alone. */
  lemma SeededRun(g: Graph, root: Handle, order: seq<Handle>, seeded: Graph, r: Graph)
    requires ValidGraph(g) && root in g.nodes
    requires seeded == SetGrads(g, root, Constant(|g.nodes[root].grads|, 1.0))
    requires |order| > 0 && order[0] == root && Distinct(order)
    requires ConsumersFirst(EdgeMap(g), order)
    requires forall x :: x in order <==> x in g.nodes && Reachable(EdgeMap(g), root, x)
    requires forall j :: 0 <= j < |order| ==> order[j] in seeded.nodes
    requires r == ApplyAll(seeded, order)
    ensures ValidGraph(r) && SameButGrads(g, r)
    ensures r.nodes[root].grads == Constant(|g.nodes[root].grads|, 1.0)
    ensures forall x :: x in g.nodes && !Reachable(EdgeMap(g), root, x) ==> r.nodes[x] == g.nodes[x]
  {
    EdgeMapSame(g, seeded);
    SameButGradsTrans(g, seeded, r);
    forall m | 0 <= m < |order|
      ensures order[0] !in seeded.nodes[order[m]].edges
    {
      NotFedLater(EdgeMap(seeded), order, 0, m);
    }
    GradFinal(seeded, order, 0, |order|);
    assert order[..|order|] == order;
    assert order[..0] == [];
    forall x | x in g.nodes && !Reachable(EdgeMap(g), root, x)
      ensures r.nodes[x] == g.nodes[x]
    {
      RunLeavesUnreached(seeded, order, root, x);
    }
  }

  /** Running the gradient functions of exactly the nodes the root reaches
      leaves every other node as it was. */
  lemma RunLeavesUnreached(g: Graph, order: seq<Handle>, root: Handle, x: Handle)
    requires ValidGraph(g) && forall j :: 0 <= j < |order| ==> order[j] in g.nodes
    requires forall y :: y in order <==> y in g.nodes && Reachable(EdgeMap(g), root, y)
    requires x in g.nodes && !Reachable(EdgeMap(g), root, x)
    ensures ApplyAll(g, order).nodes[x] == g.nodes[x]
  {
    var e := EdgeMap(g);
    forall j | 0 <= j < |order|
      ensures order[j] in e && Reachable(e, root, order[j])
    {
      assert order[j] in order;
    }
    UnreachedUnfed(e, order, root, x);
    assert Unfed(g, order, x);
  }
}

=== FILE: checkers.dfy ===
/** Board arithmetic shared by both rules engines: a board is two rows of
    26 checker counts, one row per player, and every change to it is a
    list of single-checker transfers, which is also what the undo stack
    records. Which slot is the bar and which is borne-off differs between
    the engines and is fixed by each of them, not here. */
module Checkers {
  import Arith

  const Slots: int := 26
  const Points: int := 24

  /** A checker going from one slot to another. */
  datatype CheckerMove = CheckerMove(from: int, to: int)

  /** The order both engines sort checker moves by: by `from`, then by
      `to`. */
  predicate Less(a: CheckerMove, b: CheckerMove) {
    if a.from == b.from then a.to < b.to else a.from < b.from
  }

  /** `Less` is a strict total order whose equivalence is equality. */
  lemma LessOrder(a: CheckerMove, b: CheckerMove, c: CheckerMove)
    ensures !Less(a, a)
    ensures Less(a, b) ==> !Less(b, a)
    ensures Less(a, b) && Less(b, c) ==> Less(a, c)
    ensures Less(a, b) || Less(b, a) || a == b
  {
  }

  type Board = seq<seq<int>>

  predicate ValidBoard(on: Board) {
    |on| == 2 && |on[0]| == Slots && |on[1]| == Slots
  }

  /** One transfer a move made: `player`'s checker from `cm.from` to
      `cm.to`. */
  datatype Entry = Entry(player: int, cm: CheckerMove)

  predicate SlotOk(i: int) {
    0 <= i < Slots
  }

  predicate EntryOk(e: Entry) {
    0 <= e.player < 2 && SlotOk(e.cm.from) && SlotOk(e.cm.to)
  }

  predicate EntriesOk(u: seq<Entry>) {
    forall k :: 0 <= k < |u| ==> EntryOk(u[k])
  }

  /** Add `k` checkers to slot `i` of `p`'s row. */
  function Add(on: Board, p: int, i: int, k: int): (r: Board)
    requires ValidBoard(on) && 0 <= p < 2 && SlotOk(i)
    ensures ValidBoard(r)
    ensures forall q, j :: 0 <= q < 2 && 0 <= j < Slots ==>
      r[q][j] == on[q][j] + (if q == p && j == i then k else 0)
  {
    on[p := on[p][i := on[p][i] + k]]
  }

  /** Carry out a transfer: one checker fewer at `from`, one more at `to`. */
  function Forward(on: Board, e: Entry): (r: Board)
    requires ValidBoard(on) && EntryOk(e)
    ensures ValidBoard(r)
  {
    Add(Add(on, e.player, e.cm.from, -1), e.player, e.cm.to, 1)
  }

  /** Take a transfer back, as `undo_move` does for each recorded entry. */
  function Backward(on: Board, e: Entry): (r: Board)
    requires ValidBoard(on) && EntryOk(e)
    ensures ValidBoard(r)
  {
    Add(Add(on, e.player, e.cm.to, -1), e.player, e.cm.from, 1)
  }

  function ForwardAll(on: Board, u: seq<Entry>): (r: Board)
    requires ValidBoard(on) && EntriesOk(u)
    ensures ValidBoard(r)
    decreases |u|
  {
    if |u| == 0 then on else ForwardAll(Forward(on, u[0]), u[1..])
  }

  /** The undo loop: every recorded transfer taken back, first to last. */
  function BackwardAll(on: Board, u: seq<Entry>): (r: Board)
    requires ValidBoard(on) && EntriesOk(u)
    ensures ValidBoard(r)
    decreases |u|
  {
    if |u| == 0 then on else BackwardAll(Backward(on, u[0]), u[1..])
  }

  /** Net number of checkers the transfers in `u` bring to slot `i` of
      `p`'s row. */
  function Net(u: seq<Entry>, p: int, i: int): int
    decreases |u|
  {
    if |u| == 0 then 0
    else
      var e := u[0];
      (if e.player == p && e.cm.to == i then 1 else 0)
      - (if e.player == p && e.cm.from == i then 1 else 0)
      + Net(u[1..], p, i)
  }

  lemma {:induction false} ForwardAllAt(on: Board, u: seq<Entry>, p: int, i: int)
    requires ValidBoard(on) && EntriesOk(u) && 0 <= p < 2 && SlotOk(i)
    ensures ForwardAll(on, u)[p][i] == on[p][i] + Net(u, p, i)
    decreases |u|
  {
    if |u| > 0 {
      ForwardAllAt(Forward(on, u[0]), u[1..], p, i);
    }
  }

  lemma {:induction false} BackwardAllAt(on: Board, u: seq<Entry>, p: int, i: int)
    requires ValidBoard(on) && EntriesOk(u) && 0 <= p < 2 && SlotOk(i)
    ensures BackwardAll(on, u)[p][i] == on[p][i] - Net(u, p, i)
    decreases |u|
  {
    if |u| > 0 {
      BackwardAllAt(Backward(on, u[0]), u[1..], p, i);
    }
  }

  lemma {:induction false} ForwardAllConcat(on: Board, a: seq<Entry>, b: seq<Entry>)
    requires ValidBoard(on) && EntriesOk(a) && EntriesOk(b)
    ensures EntriesOk(a + b)
    ensures ForwardAll(on, a + b) == ForwardAll(ForwardAll(on, a), b)
    decreases |a|
  {
    assert forall k :: 0 <= k < |a + b| ==> EntryOk((a + b)[k]) by {
      forall k | 0 <= k < |a + b|
        ensures EntryOk((a + b)[k])
      {
        if k < |a| { assert (a + b)[k] == a[k]; } else { assert (a + b)[k] == b[k - |a|]; }
      }
    }
    if |a| == 0 {
      assert a + b == b;
    } else {
      assert (a + b)[1..] == a[1..] + b;
      ForwardAllConcat(Forward(on, a[0]), a[1..], b);
    }
  }

  /** Two boards with the same counts everywhere are the same board. */
  lemma BoardExt(a: Board, b: Board)
    requires ValidBoard(a) && ValidBoard(b)
    requires forall p, i :: 0 <= p < 2 && 0 <= i < Slots ==> a[p][i] == b[p][i]
    ensures a == b
  {
    assert a[0] == b[0];
    assert a[1] == b[1];
  }

  /** Taking back, first to last, every transfer that was carried out
      restores the board, whatever order they were carried out in. */
  lemma BackwardForward(on: Board, u: seq<Entry>)
    requires ValidBoard(on) && EntriesOk(u)
    ensures BackwardAll(ForwardAll(on, u), u) == on
  {
    var f := ForwardAll(on, u);
    forall p, i | 0 <= p < 2 && 0 <= i < Slots
      ensures BackwardAll(f, u)[p][i] == on[p][i]
    {
      ForwardAllAt(on, u, p, i);
      BackwardAllAt(f, u, p, i);
    }
    BoardExt(BackwardAll(f, u), on);
  }

  predicate MoveOk(m: seq<CheckerMove>) {
    forall k :: 0 <= k < |m| ==> SlotOk(m[k].from) && SlotOk(m[k].to)
  }

  /** The loop both engines' `make_move` run, for an engine that keeps the
      bar in slot `bar` and the borne-off checkers in slot `out`: for each
      checker move in order, a blot where it lands (unless it is borne
      off) goes to the opponent's bar first. Returns the board and the undo
      list. */
  function Play(on: Board, turn: int, move: seq<CheckerMove>, bar: int, out: int): (r: (Board, seq<Entry>))
    requires ValidBoard(on) && 0 <= turn < 2 && MoveOk(move) && SlotOk(bar)
    ensures EntriesOk(r.1) && r.0 == ForwardAll(on, r.1)
    decreases |move|
  {
    if |move| == 0 then (on, [])
    else
      var cm := move[0];
      var o := 1 - turn;
      var hit := if cm.to != out && on[o][cm.to] != 0 then [Entry(o, CheckerMove(cm.to, bar))] else [];
      var es := hit + [Entry(turn, cm)];
      var rest := Play(ForwardAll(on, es), turn, move[1..], bar, out);
      ForwardAllConcat(on, es, rest.1);
      (rest.0, es + rest.1)
  }

  // ---------------------------------------------------------------------
  // Checker counts

  /** Sum of the counts of a row. */
  function Total(row: seq<int>): int
    decreases |row|
  {
    if |row| == 0 then 0 else row[0] + Total(row[1..])
  }

  lemma {:induction false} TotalConcat(a: seq<int>, b: seq<int>)
    ensures Total(a + b) == Total(a) + Total(b)
    decreases |a|
  {
    if |a| == 0 {
      assert a + b == b;
    } else {
      assert (a + b)[1..] == a[1..] + b;
      TotalConcat(a[1..], b);
    }
  }

  lemma TotalAdd(row: seq<int>, i: int, k: int)
    requires 0 <= i < |row|
    ensures Total(row[i := row[i] + k]) == Total(row) + k
  {
    var r := row[i := row[i] + k];
    assert row == row[..i] + [row[i]] + row[i + 1..];
    assert r == row[..i] + [row[i] + k] + row[i + 1..];
    TotalConcat(row[..i] + [row[i]], row[i + 1..]);
    TotalConcat(row[..i], [row[i]]);
    TotalConcat(row[..i] + [row[i] + k], row[i + 1..]);
    TotalConcat(row[..i], [row[i] + k]);
  }

  lemma AddTotal(on: Board, p: int, i: int, k: int, q: int)
    requires ValidBoard(on) && 0 <= p < 2 && SlotOk(i) && 0 <= q < 2
    ensures Total(Add(on, p, i, k)[q]) == Total(on[q]) + (if q == p then k else 0)
  {
    if q == p {
      TotalAdd(on[p], i, k);
    } else {
      assert Add(on, p, i, k)[q] == on[q];
    }
  }

  /** Transfers move checkers within a row: no player gains or loses any. */
  lemma {:induction false} ForwardAllTotal(on: Board, u: seq<Entry>, q: int)
    requires ValidBoard(on) && EntriesOk(u) && 0 <= q < 2
    ensures Total(ForwardAll(on, u)[q]) == Total(on[q])
    decreases |u|
  {
    if |u| > 0 {
      var e := u[0];
      var b := Add(on, e.player, e.cm.from, -1);
      AddTotal(on, e.player, e.cm.from, -1, q);
      AddTotal(b, e.player, e.cm.to, 1, q);
      ForwardAllTotal(Forward(on, u[0]), u[1..], q);
    }
  }

  /** Sum of the counts on slots `lo` up to but excluding `hi`. */
  function Range(row: seq<int>, lo: int, hi: int): int
    requires 0 <= lo <= hi <= |row|
  {
    Total(row[lo..hi])
  }

  lemma RangeSplit(row: seq<int>, lo: int, mid: int, hi: int)
    requires 0 <= lo <= mid <= hi <= |row|
    ensures Range(row, lo, hi) == Range(row, lo, mid) + Range(row, mid, hi)
  {
    assert row[lo..hi] == row[lo..mid] + row[mid..hi];
    TotalConcat(row[lo..mid], row[mid..hi]);
  }

  /** A sum of non-negative counts is zero only if every count is. */
  lemma {:induction false} ZeroTotal(row: seq<int>)
    requires forall k :: 0 <= k < |row| ==> row[k] >= 0
    ensures Total(row) >= 0
    ensures Total(row) == 0 <==> forall k :: 0 <= k < |row| ==> row[k] == 0
    decreases |row|
  {
    if |row| > 0 {
      ZeroTotal(row[1..]);
      if Total(row) == 0 {
        forall k | 0 <= k < |row|
          ensures row[k] == 0
        {
          if k > 0 {
            assert row[k] == row[1..][k - 1];
          }
        }
      } else if row[0] == 0 {
        var k :| 0 <= k < |row[1..]| && row[1..][k] != 0;
        assert row[k + 1] != 0;
      }
    }
  }

  // ---------------------------------------------------------------------
  // Pip count and race detection (`computePip`, `race`), given the slot
  // that holds the bar and the slot that holds borne-off checkers

  /** Distance of `point` from where player `p` bears off: `point + 1` for
      White and `24 - point` for Black. */
  function Distance(p: int, point: int): (r: int)
    ensures 0 <= point < Points ==> 1 <= r <= Points
  {
    var edge := if p == 0 then -1 else Points;
    if point - edge < 0 then edge - point else point - edge
  }

  /** Pip count of the board points from `point` on. */
  function PipFrom(row: seq<int>, p: int, point: nat): int
    requires |row| == Slots
    decreases Points - point
  {
    if point >= Points then 0 else row[point] * Distance(p, point) + PipFrom(row, p, point + 1)
  }

  /** `computePip(p)`: 25 pips for each checker on the bar plus each
      board checker's distance from home. */
  function Pip(row: seq<int>, p: int, bar: int): int
    requires |row| == Slots && SlotOk(bar)
  {
    25 * row[bar] + PipFrom(row, p, 0)
  }

  lemma {:induction false} PipFromZero(row: seq<int>, p: int, point: nat)
    requires |row| == Slots && forall k :: 0 <= k < Slots ==> row[k] >= 0
    ensures PipFrom(row, p, point) >= 0
    ensures PipFrom(row, p, point) == 0 <==> forall k :: point <= k < Points ==> row[k] == 0
    decreases Points - point
  {
    if point < Points {
      PipFromZero(row, p, point + 1);
      var d := Distance(p, point);
      Arith.MulNonNeg(row[point], d);
      if row[point] > 0 {
        Arith.MulPos(row[point], d);
      }
    }
  }

  /** With no negative count, a player's pip count is never negative and
      is zero exactly when every checker is borne off. */
  lemma PipZero(row: seq<int>, p: int, bar: int)
    requires |row| == Slots && SlotOk(bar) && bar >= Points
    requires forall k :: 0 <= k < Slots ==> row[k] >= 0
    ensures Pip(row, p, bar) >= 0
    ensures Pip(row, p, bar) == 0 <==> row[bar] == 0 && forall k :: 0 <= k < Points ==> row[k] == 0
  {
    PipFromZero(row, p, 0);
  }

  /** The scan of `race` over the board points from `point` on, with `sum`
      White checkers counted so far. */
  function RaceScan(white: seq<int>, black: seq<int>, point: nat, sum: int): bool
    requires |white| == Slots && |black| == Slots
    decreases Points - point
  {
    if point >= Points then false
    else if black[point] != 0 then false
    else if sum + white[point] == 15 then true
    else RaceScan(white, black, point + 1, sum + white[point])
  }

  /** `race()`: neither bar occupied, and either every White checker is off
      or the scan from point 0 meets all White checkers before any Black
      one. */
  function Race(on: Board, bar: int, out: int): bool
    requires ValidBoard(on) && SlotOk(bar) && SlotOk(out)
  {
    if on[0][bar] != 0 || on[1][bar] != 0 then false
    else if on[0][out] == 15 then true
    else RaceScan(on[0], on[1], 0, on[0][out])
  }

  /** No Black checker on any point at or below a point holding a White
      checker: the two armies have passed each other. */
  predicate Separated(on: Board)
    requires ValidBoard(on)
  {
    PassedFrom(on, 0)
  }

  /** `Separated`, looking only at the points from `point` on. */
  predicate PassedFrom(on: Board, point: int)
    requires ValidBoard(on)
  {
    forall q, r :: 0 <= q && point <= q <= r < Points && on[1][q] != 0 ==> on[0][r] == 0
  }

  lemma PassedBlocked(on: Board, point: int, r: int)
    requires ValidBoard(on) && 0 <= point <= r < Points && on[1][point] != 0 && on[0][r] != 0
    ensures !PassedFrom(on, point)
  {
  }

  lemma PassedClear(on: Board, point: int)
    requires ValidBoard(on) && 0 <= point < Points && on[1][point] == 0
    requires forall k :: point < k < Points ==> on[0][k] == 0
    ensures PassedFrom(on, point)
  {
  }

  lemma PassedStep(on: Board, point: int)
    requires ValidBoard(on) && 0 <= point < Points && on[1][point] == 0
    ensures PassedFrom(on, point) <==> PassedFrom(on, point + 1)
  {
  }

  lemma RangeOne(row: seq<int>, i: int)
    requires 0 <= i < |row|
    ensures Range(row, i, i + 1) == row[i]
  {
    var t := row[i..i + 1];
    assert t[1..] == [];
    assert Total(t) == t[0] + Total(t[1..]);
  }

  /** A range of non-negative counts that sums to zero holds no checker. */
  lemma RangeZero(row: seq<int>, lo: int, hi: int)
    requires 0 <= lo <= hi <= |row| && forall k :: 0 <= k < |row| ==> row[k] >= 0
    ensures Range(row, lo, hi) >= 0
    ensures Range(row, lo, hi) == 0 ==> forall k :: lo <= k < hi ==> row[k] == 0
  {
    ZeroTotal(row[lo..hi]);
    if Range(row, lo, hi) == 0 {
      forall k | lo <= k < hi
        ensures row[k] == 0
      {
        assert row[lo..hi][k - lo] == row[k];
      }
    }
  }

  /** A range with a non-zero sum holds a checker somewhere. */
  lemma RangeNonZero(row: seq<int>, lo: int, hi: int) returns (k: int)
    requires 0 <= lo <= hi <= |row| && Range(row, lo, hi) != 0
    ensures lo <= k < hi && row[k] != 0
  {
    var t := row[lo..hi];
    if forall j :: 0 <= j < |t| ==> t[j] >= 0 {
      ZeroTotal(t);
    } else {
      ZeroTotal([]);
    }
    if forall j :: 0 <= j < |t| ==> t[j] == 0 {
      AllZeroTotal(t);
    }
    var j :| 0 <= j < |t| && t[j] != 0;
    k := lo + j;
  }

  lemma RangeAllZero(row: seq<int>, lo: int, hi: int)
    requires 0 <= lo <= hi <= |row| && forall k :: lo <= k < hi ==> row[k] == 0
    ensures Range(row, lo, hi) == 0
  {
    AllZeroTotal(row[lo..hi]);
  }

  lemma {:induction false} AllZeroTotal(t: seq<int>)
    requires forall j :: 0 <= j < |t| ==> t[j] == 0
    ensures Total(t) == 0
    decreases |t|
  {
    if |t| > 0 {
      AllZeroTotal(t[1..]);
    }
  }

  /** The scan's facts at `point`: the White checkers not yet counted lie
      at `point` and after it. */
  predicate ScanState(on: Board, out: int, point: int, sum: int)
    requires ValidBoard(on) && SlotOk(out)
  {
    out >= Points && 0 <= point <= Points
    && (forall k :: 0 <= k < Slots ==> on[0][k] >= 0)
    && Range(on[0], 0, Points) + on[0][out] == 15
    && sum == on[0][out] + Range(on[0], 0, point) && sum < 15
  }

  /** What is left to count from `point` on. */
  lemma ScanRest(on: Board, out: int, point: int, sum: int)
    requires ValidBoard(on) && SlotOk(out) && ScanState(on, out, point, sum)
    ensures point < Points
    ensures Range(on[0], point, Points) == 15 - sum
    ensures Range(on[0], point + 1, Points) == 15 - sum - on[0][point]
    ensures Range(on[0], point + 1, Points) >= 0
  {
    var w := on[0];
    RangeSplit(w, 0, point, Points);
    if point < Points {
      RangeOne(w, point);
      RangeSplit(w, point, point + 1, Points);
      RangeZero(w, point + 1, Points);
    }
  }

  /** While the scan runs, some White checker is still uncounted, so the
      scan has not run off the board. */
  lemma ScanInside(on: Board, out: int, point: int, sum: int)
    requires ValidBoard(on) && SlotOk(out) && ScanState(on, out, point, sum)
    ensures point < Points
  {
    ScanRest(on, out, point, sum);
  }

  lemma ScanNext(on: Board, out: int, point: int, sum: int)
    requires ValidBoard(on) && SlotOk(out) && ScanState(on, out, point, sum) && point < Points
    requires sum + on[0][point] != 15
    ensures ScanState(on, out, point + 1, sum + on[0][point])
  {
    ScanRest(on, out, point, sum);
    RangeOne(on[0], point);
    RangeSplit(on[0], 0, point, point + 1);
  }

  /** A point with no Black checker that does not finish White's count
      passes the scan on to the next point. */
  lemma ScanOn(white: seq<int>, black: seq<int>, point: int, sum: int)
    requires |white| == Slots && |black| == Slots && 0 <= point < Points
    requires black[point] == 0 && sum + white[point] != 15
    ensures RaceScan(white, black, point, sum) == RaceScan(white, black, point + 1, sum + white[point])
  {
  }

  /** The scan and the armies' separation both pass unchanged over a point
      with no Black checker that does not finish White's count. */
  lemma ScanCarry(on: Board, point: int, sum: int)
    requires ValidBoard(on) && 0 <= point < Points && on[1][point] == 0
    requires sum + on[0][point] != 15
    requires RaceScan(on[0], on[1], point + 1, sum + on[0][point]) <==> PassedFrom(on, point + 1)
    ensures RaceScan(on[0], on[1], point, sum) <==> PassedFrom(on, point)
  {
    ScanOn(on[0], on[1], point, sum);
    PassedStep(on, point);
  }

  /** A Black checker before the rest of White's: the scan fails, and
      the armies have not passed. */
  lemma ScanBlocked(on: Board, out: int, point: int, sum: int)
    requires ValidBoard(on) && SlotOk(out) && ScanState(on, out, point, sum)
    requires point < Points && on[1][point] != 0
    ensures !RaceScan(on[0], on[1], point, sum) && !PassedFrom(on, point)
  {
    ScanRest(on, out, point, sum);
    var r := RangeNonZero(on[0], point, Points);
    PassedBlocked(on, point, r);
  }

  /** The last White checkers counted before any Black one: the scan
      succeeds, and the armies have passed. */
  lemma ScanDone(on: Board, out: int, point: int, sum: int)
    requires ValidBoard(on) && SlotOk(out) && ScanState(on, out, point, sum)
    requires point < Points && on[1][point] == 0 && sum + on[0][point] == 15
    ensures RaceScan(on[0], on[1], point, sum) && PassedFrom(on, point)
  {
    ScanRest(on, out, point, sum);
    RangeZero(on[0], point + 1, Points);
    PassedClear(on, point);
  }

  lemma {:induction false} RaceScanMeaning(on: Board, out: int, point: nat, sum: int)
    requires ValidBoard(on) && SlotOk(out) && ScanState(on, out, point, sum)
    ensures RaceScan(on[0], on[1], point, sum) <==> PassedFrom(on, point)
    decreases Points - point
  {
    if on[1][point] == 0 && sum + on[0][point] != 15 {
      ScanInside(on, out, point, sum);
      ScanNext(on, out, point, sum);
      RaceScanMeaning(on, out, point + 1, sum + on[0][point]);
      ScanCarry(on, point, sum);
    } else {
      ScanStops(on, out, point, sum);
    }
  }

  /** Where the scan stops, it decides: at a Black checker it fails and the
      armies have not passed, at White's last checker it succeeds and they
      have. */
  lemma ScanStops(on: Board, out: int, point: nat, sum: int)
    requires ValidBoard(on) && SlotOk(out) && ScanState(on, out, point, sum)
    requires on[1][point] != 0 || sum + on[0][point] == 15
    ensures RaceScan(on[0], on[1], point, sum) <==> PassedFrom(on, point)
  {
    ScanInside(on, out, point, sum);
    if on[1][point] != 0 {
      ScanBlocked(on, out, point, sum);
    } else {
      ScanDone(on, out, point, sum);
    }
  }

  /** `race()` holds exactly when neither bar is occupied and the armies
      have passed each other, for a White side of 15 non-negative counts;
      a White side all borne off counts as passed. */
  lemma RaceMeaning(on: Board, bar: int, out: int)
    requires ValidBoard(on) && SlotOk(bar) && SlotOk(out) && bar >= Points && out >= Points && bar != out
    requires forall k :: 0 <= k < Slots ==> on[0][k] >= 0
    requires Range(on[0], 0, Points) + on[0][out] + on[0][bar] == 15
    ensures Race(on, bar, out) <==> on[0][bar] == 0 && on[1][bar] == 0 && Separated(on)
  {
    if on[0][bar] == 0 && on[1][bar] == 0 {
      ZeroTotal(on[0][0..Points]);
      if on[0][out] == 15 {
        forall r | 0 <= r < Points
          ensures on[0][r] == 0
        {
          assert on[0][0..Points][r] == on[0][r];
        }
      } else {
        assert Range(on[0], 0, 0) == 0;
        RaceScanMeaning(on, out, 0, on[0][out]);
      }
    }
  }

  /** Two boards that agree on the points, on the bar slots and on the
      borne-off slots, wherever each keeps them, give the same pip counts
      and the same race flag. */
  predicate SamePosition(a: Board, abar: int, aout: int, b: Board, bbar: int, bout: int)
    requires ValidBoard(a) && ValidBoard(b) && SlotOk(abar) && SlotOk(aout) && SlotOk(bbar) && SlotOk(bout)
  {
    forall p :: 0 <= p < 2 ==>
      a[p][abar] == b[p][bbar] && a[p][aout] == b[p][bout]
      && forall i :: 0 <= i < Points ==> a[p][i] == b[p][i]
  }

  lemma {:induction false} PipFromSame(a: seq<int>, b: seq<int>, p: int, point: nat)
    requires |a| == Slots && |b| == Slots && forall i :: 0 <= i < Points ==> a[i] == b[i]
    ensures PipFrom(a, p, point) == PipFrom(b, p, point)
    decreases Points - point
  {
    if point < Points {
      PipFromSame(a, b, p, point + 1);
    }
  }

  lemma {:induction false} RaceScanSame(a: Board, b: Board, point: nat, sum: int)
    requires ValidBoard(a) && ValidBoard(b)
    requires forall q, i :: 0 <= q < 2 && 0 <= i < Points ==> a[q][i] == b[q][i]
    ensures RaceScan(a[0], a[1], point, sum) == RaceScan(b[0], b[1], point, sum)
    decreases Points - point
  {
    if point < Points {
      RaceScanSame(a, b, point + 1, sum + a[0][point]);
    }
  }

  lemma SamePositionSame(a: Board, abar: int, aout: int, b: Board, bbar: int, bout: int)
    requires ValidBoard(a) && ValidBoard(b) && SlotOk(abar) && SlotOk(aout) && SlotOk(bbar) && SlotOk(bout)
    requires SamePosition(a, abar, aout, b, bbar, bout)
    ensures forall p :: 0 <= p < 2 ==> Pip(a[p], p, abar) == Pip(b[p], p, bbar)
    ensures Race(a, abar, aout) == Race(b, bbar, bout)
  {
    forall p | 0 <= p < 2
      ensures Pip(a[p], p, abar) == Pip(b[p], p, bbar)
    {
      PipFromSame(a[p], b[p], p, 0);
    }
    RaceScanSame(a, b, 0, a[0][aout]);
  }

  // ---------------------------------------------------------------------
  // Sorted lists of checker moves

  /** In order: the iteration order of a `std::multiset<CheckerMove>` and
      the order `sort(CheckerMove.compare)` leaves. */
  predicate Sorted(m: seq<CheckerMove>) {
    forall i, j :: 0 <= i < j < |m| ==> !Less(m[j], m[i])
  }

  /** Sorted without repetitions. */
  predicate Strict(m: seq<CheckerMove>) {
    forall i, j :: 0 <= i < j < |m| ==> Less(m[i], m[j])
  }

  /** `x` placed after the checker moves that do not come after it, as
      `std::multiset::insert` does. */
  function Insert(m: seq<CheckerMove>, x: CheckerMove): (r: seq<CheckerMove>)
    ensures multiset(r) == multiset(m) + multiset{x} && |r| == |m| + 1
    ensures forall y :: y in r <==> y in m || y == x
    decreases |m|
  {
    if |m| == 0 then [x]
    else if Less(x, m[0]) then [x] + m
    else
      var t := Insert(m[1..], x);
      assert m == [m[0]] + m[1..];
      [m[0]] + t
  }

  lemma {:induction false} InsertSorted(m: seq<CheckerMove>, x: CheckerMove)
    requires Sorted(m)
    ensures Sorted(Insert(m, x))
    ensures Strict(m) && x !in m ==> Strict(Insert(m, x))
    decreases |m|
  {
    if |m| > 0 {
      if Less(x, m[0]) {
        InsertFront(m, x);
      } else {
        SortedTail(m);
        if Strict(m) {
          StrictTail(m);
        }
        InsertSorted(m[1..], x);
        InsertBehind(m, x);
      }
    }
  }

  /** A checker move that comes before the first of a sorted move comes
      before all of them. */
  lemma InsertFront(m: seq<CheckerMove>, x: CheckerMove)
    requires Sorted(m) && |m| > 0 && Less(x, m[0])
    ensures Insert(m, x) == [x] + m
    ensures Sorted([x] + m)
    ensures Strict(m) ==> Strict([x] + m)
  {
    var r := [x] + m;
    forall i, j | 0 <= i < j < |r|
      ensures !Less(r[j], r[i]) && (Strict(m) ==> Less(r[i], r[j]))
    {
      var b := m[j - 1];
      assert r[j] == b;
      if i == 0 {
        LessOrder(x, m[0], b);
        LessOrder(m[0], b, m[0]);
        LessOrder(x, b, x);
      } else {
        assert r[i] == m[i - 1];
      }
    }
  }

  /** Inserting behind the first checker move keeps that one first. */
  lemma InsertBehind(m: seq<CheckerMove>, x: CheckerMove)
    requires Sorted(m) && |m| > 0 && !Less(x, m[0])
    requires Sorted(Insert(m[1..], x))
    requires Strict(m[1..]) && x !in m[1..] ==> Strict(Insert(m[1..], x))
    ensures Sorted(Insert(m, x))
    ensures Strict(m) && x !in m ==> Strict(Insert(m, x))
  {
    var t := Insert(m[1..], x);
    assert Insert(m, x) == [m[0]] + t;
    var strict := Strict(m) && x !in m;
    forall y | y in t
      ensures !Less(y, m[0]) && (strict ==> Less(m[0], y))
    {
      if y == x {
        LessOrder(x, m[0], m[0]);
      } else {
        BehindFirst(m, y);
      }
    }
    SortedCons(m[0], t);
    if strict {
      StrictTail(m);
      StrictCons(m[0], t);
    }
  }

  /** The first checker move of a sorted move comes before none of the
      rest, and before all of them when the move is strict. */
  lemma BehindFirst(m: seq<CheckerMove>, y: CheckerMove)
    requires Sorted(m) && |m| > 0 && y in m[1..]
    ensures !Less(y, m[0]) && (Strict(m) ==> Less(m[0], y))
  {
    var k :| 0 <= k < |m| - 1 && m[1..][k] == y;
    assert m[1..][k] == m[k + 1];
  }

  lemma StrictTail(m: seq<CheckerMove>)
    requires Strict(m) && |m| > 0
    ensures Strict(m[1..])
  {
    forall i, j | 0 <= i < j < |m[1..]|
      ensures Less(m[1..][i], m[1..][j])
    {
      assert m[1..][j] == m[j + 1] && m[1..][i] == m[i + 1];
    }
  }

  lemma StrictCons(h: CheckerMove, t: seq<CheckerMove>)
    requires Strict(t) && forall y :: y in t ==> Less(h, y)
    ensures Strict([h] + t)
  {
    var m := [h] + t;
    forall i, j | 0 <= i < j < |m|
      ensures Less(m[i], m[j])
    {
      assert m[j] == t[j - 1];
      if i > 0 {
        assert m[i] == t[i - 1];
      }
    }
  }

  lemma SortedTail(m: seq<CheckerMove>)
    requires Sorted(m) && |m| > 0
    ensures Sorted(m[1..])
  {
    forall i, j | 0 <= i < j < |m[1..]|
      ensures !Less(m[1..][j], m[1..][i])
    {
      assert m[1..][j] == m[j + 1] && m[1..][i] == m[i + 1];
    }
  }

  /** The first checker move of a sorted move comes after none of the
      others. */
  lemma SortedFirst(m: seq<CheckerMove>, y: CheckerMove)
    requires Sorted(m) && y in m
    ensures !Less(y, m[0])
  {
    var k :| 0 <= k < |m| && m[k] == y;
    if k > 0 {
      assert !Less(m[k], m[0]);
    } else {
      LessOrder(y, y, y);
    }
  }

  lemma SortedCons(h: CheckerMove, t: seq<CheckerMove>)
    requires Sorted(t) && forall y :: y in t ==> !Less(y, h)
    ensures Sorted([h] + t)
  {
    var m := [h] + t;
    forall i, j | 0 <= i < j < |m|
      ensures !Less(m[j], m[i])
    {
      assert m[j] == t[j - 1];
      if i > 0 {
        assert m[i] == t[i - 1];
      }
    }
  }

  /** A sorted sequence is determined by its multiset: two moves are equal
      exactly when they hold the same checker moves equally often. */
  lemma {:induction false} SortedUnique(a: seq<CheckerMove>, b: seq<CheckerMove>)
    requires Sorted(a) && Sorted(b) && multiset(a) == multiset(b)
    ensures a == b
    decreases |a|
  {
    assert |a| == |multiset(a)| && |b| == |multiset(b)|;
    if |a| > 0 {
      assert a[0] in multiset(b) && b[0] in multiset(a);
      SortedFirst(b, a[0]);
      SortedFirst(a, b[0]);
      LessOrder(a[0], b[0], a[0]);
      assert a[0] == b[0];
      assert a == [a[0]] + a[1..] && b == [b[0]] + b[1..];
      assert multiset(a[1..]) == multiset(a) - multiset{a[0]};
      assert multiset(b[1..]) == multiset(b) - multiset{b[0]};
      SortedTail(a);
      SortedTail(b);
      SortedUnique(a[1..], b[1..]);
    }
  }
}

=== FILE: errors.dfy ===
/** Error kinds of the engine. A build with assertions enabled aborts on
    each of these through a failing `assert`; the model returns them as
    values instead. A build with `NDEBUG`, where those checks vanish, is
    not modelled. */
module Errors {

  datatype Error =
    | ShapeMismatch   // incompatible broadcast, wrong rank, value count that does not fit the shape
    | FormatError     // malformed or short parameter text, saved count that differs from the live size
    | IndexError      // axis or slice range outside the tensor, more parameter blocks than live parameters

  datatype Result<+T> = Ok(value: T) | Err(error: Error) {

    predicate IsFailure() {
      Err?
    }

    function PropagateFailure<U>(): Result<U>
      requires Err?
    {
      Err(error)
    }

    function Extract(): T
      requires Ok?
    {
      value
    }
  }

  datatype Option<+T> = None | Some(value: T)
}

=== FILE: features.dfy ===
/** The player's side of the value network (src/model/Model.cpp, and
    `array_from_state` in backgammon.js): the 201 inputs a position is
    encoded as, the rule that picks a move from the network's
    predictions, and the bookkeeping of one training step. The network
    itself is a parameter: a function from positions to reals. */
module Features {
  import opened Checkers
  import Tensors
  import Params
  import Game
  import JsGame

  // ---------------------------------------------------------------------
  // Encoding a position

  /** The four inputs for a point holding `n` checkers: one flag each for
      a first, a second and a third checker, then half the count beyond
      three. */
  function PointCode(n: int): (r: seq<real>)
    ensures |r| == 4
  {
    if n == 0 then [0.0, 0.0, 0.0, 0.0]
    else if n == 1 then [1.0, 0.0, 0.0, 0.0]
    else if n == 2 then [1.0, 1.0, 0.0, 0.0]
    else [1.0, 1.0, 1.0, (n as real - 3.0) / 2.0]
  }

  /** Reading the count back from the four inputs. */
  function PointCount(c: seq<real>): int
    requires |c| == 4
  {
    if c[0] == 0.0 then 0
    else if c[1] == 0.0 then 1
    else if c[2] == 0.0 then 2
    else (2.0 * c[3]).Floor + 3
  }

  /** The code of a count loses nothing: the count can be read back, and
      it is the sum of the three flags and twice the excess input. */
  lemma PointCodeRoundTrip(n: int)
    requires n >= 0
    ensures PointCount(PointCode(n)) == n
    ensures var c := PointCode(n); c[0] + c[1] + c[2] + 2.0 * c[3] == n as real
  {
    if n >= 3 {
      var c := PointCode(n);
      assert 2.0 * c[3] == (n - 3) as real;
    }
  }

  /** The inputs for the first `n` points of one player's row. */
  function PointBlock(row: seq<int>, n: nat): (r: seq<real>)
    requires |row| == Slots && n <= Points
    ensures |r| == 4 * n
  {
    if n == 0 then [] else PointBlock(row, n - 1) + PointCode(row[n - 1])
  }

  /** Point `pt`'s four inputs sit at offset 4·pt of the block. */
  lemma {:induction false} PointBlockAt(row: seq<int>, n: nat, pt: int, j: int)
    requires |row| == Slots && 0 <= pt < n <= Points && 0 <= j < 4
    ensures PointBlock(row, n)[4 * pt + j] == PointCode(row[pt])[j]
  {
    var front := PointBlock(row, n - 1);
    assert PointBlock(row, n) == front + PointCode(row[n - 1]);
    if pt < n - 1 {
      PointBlockAt(row, n - 1, pt, j);
    }
  }

  /** Two rows that agree on the 24 points have the same block. */
  lemma {:induction false} PointBlockSame(a: seq<int>, b: seq<int>, n: nat)
    requires |a| == Slots && |b| == Slots && n <= Points
    requires forall i :: 0 <= i < Points ==> a[i] == b[i]
    ensures PointBlock(a, n) == PointBlock(b, n)
  {
    if n > 0 {
      PointBlockSame(a, b, n - 1);
    }
  }

  /** One player's 97 inputs: the 24 point codes, then the pip count
      over 375. */
  function PlayerBlock(row: seq<int>, p: int, bar: int): (r: seq<real>)
    requires |row| == Slots && SlotOk(bar)
    ensures |r| == 97
  {
    PointBlock(row, Points) + [Pip(row, p, bar) as real / 375.0]
  }

  /** The last seven inputs: each player's bar count over 2, each
      player's borne-off count over 15, whose turn it is (one-hot, White
      first), and whether the game is a race. */
  function Common(on: Board, white: bool, bar: int, out: int): (r: seq<real>)
    requires ValidBoard(on) && SlotOk(bar) && SlotOk(out)
    ensures |r| == 7
  {
    [on[0][bar] as real / 2.0, on[1][bar] as real / 2.0]
    + [on[0][out] as real / 15.0, on[1][out] as real / 15.0]
    + (if white then [1.0, 0.0] else [0.0, 1.0])
    + [if Race(on, bar, out) then 1.0 else 0.0]
  }

  /** The 201 inputs, with the bar and borne-off slots of the engine at
      hand: White's block, Black's block, then the common part. */
  function Encode(on: Board, white: bool, bar: int, out: int): (r: seq<real>)
    requires ValidBoard(on) && SlotOk(bar) && SlotOk(out)
    ensures |r| == Params.InputFeatures
  {
    PlayerBlock(on[0], 0, bar) + PlayerBlock(on[1], 1, bar) + Common(on, white, bar, out)
  }

  /** `tensor_from_state`'s values. Any turn but White's counts as
      Black's. */
  function CppFeatures(s: Game.State): seq<real>
    requires ValidBoard(s.on)
  {
    Encode(s.on, s.turn == Game.White, Game.Bar, Game.Out)
  }

  /** `array_from_state`, with the browser engine's slots. */
  function JsFeatures(s: JsGame.State): seq<real>
    requires ValidBoard(s.on)
  {
    Encode(s.on, s.turn == JsGame.White, JsGame.Bar, JsGame.Out)
  }

  lemma PlayerBlockAt(row: seq<int>, p: int, bar: int, pt: int, j: int)
    requires |row| == Slots && SlotOk(bar) && 0 <= pt < Points && 0 <= j < 4
    ensures PlayerBlock(row, p, bar)[4 * pt + j] == PointCode(row[pt])[j]
  {
    PointBlockAt(row, Points, pt, j);
  }

  lemma EncodePointAt(on: Board, white: bool, bar: int, out: int, p: int, pt: int, j: int)
    requires ValidBoard(on) && SlotOk(bar) && SlotOk(out)
    requires 0 <= p < 2 && 0 <= pt < Points && 0 <= j < 4
    ensures Encode(on, white, bar, out)[97 * p + 4 * pt + j] == PointCode(on[p][pt])[j]
  {
    var w, b, c := PlayerBlock(on[0], 0, bar), PlayerBlock(on[1], 1, bar), Common(on, white, bar, out);
    PlayerBlockAt(on[p], p, bar, pt, j);
    assert Encode(on, white, bar, out) == w + b + c;
    if p == 0 {
      assert (w + b + c)[4 * pt + j] == w[4 * pt + j];
    } else {
      assert (w + b + c)[97 + 4 * pt + j] == b[4 * pt + j];
    }
  }

  /** Where each point's inputs sit: player p's point pt at
      97·p + 4·pt. */
  lemma EncodePoints(on: Board, white: bool, bar: int, out: int)
    requires ValidBoard(on) && SlotOk(bar) && SlotOk(out)
    ensures var r := Encode(on, white, bar, out);
      forall p, pt, j :: 0 <= p < 2 && 0 <= pt < Points && 0 <= j < 4 ==>
        r[97 * p + 4 * pt + j] == PointCode(on[p][pt])[j]
  {
    forall p, pt, j | 0 <= p < 2 && 0 <= pt < Points && 0 <= j < 4
      ensures Encode(on, white, bar, out)[97 * p + 4 * pt + j] == PointCode(on[p][pt])[j]
    {
      EncodePointAt(on, white, bar, out, p, pt, j);
    }
  }

  /** Where the other inputs sit: player p's pip count at 97·p + 96, its
      bar count at 194 + p, its borne-off count at 196 + p, the turn at
      198 and 199, the race flag last. */
  lemma EncodeSlots(on: Board, white: bool, bar: int, out: int)
    requires ValidBoard(on) && SlotOk(bar) && SlotOk(out)
    ensures var r := Encode(on, white, bar, out);
      r[96] == Pip(on[0], 0, bar) as real / 375.0 && r[193] == Pip(on[1], 1, bar) as real / 375.0
      && r[194] == on[0][bar] as real / 2.0 && r[195] == on[1][bar] as real / 2.0
      && r[196] == on[0][out] as real / 15.0 && r[197] == on[1][out] as real / 15.0
      && r[198] == (if white then 1.0 else 0.0) && r[199] == 1.0 - r[198]
      && r[200] == (if Race(on, bar, out) then 1.0 else 0.0)
  {
    var w, b, c := PlayerBlock(on[0], 0, bar), PlayerBlock(on[1], 1, bar), Common(on, white, bar, out);
    var r := Encode(on, white, bar, out);
    assert r == w + b + c;
    assert r[96] == w[96] && r[193] == b[96];
    assert r[194] == c[0] && r[195] == c[1] && r[196] == c[2] && r[197] == c[3];
    assert r[198] == c[4] && r[199] == c[5] && r[200] == c[6];
  }

  /** The bar and borne-off slots are the two slots after the points, in
      either order. */
  predicate TwoSlots(bar: int, out: int) {
    Points <= bar < Slots && Points <= out < Slots && bar != out
  }

  /** Reading the count on slot `i` of player `p` back from the inputs,
      for an engine whose bar and borne-off slots are the two after the
      points. */
  function DecodeCount(r: seq<real>, bar: int, out: int, p: int, i: int): int
    requires |r| == Params.InputFeatures && TwoSlots(bar, out) && 0 <= p < 2 && 0 <= i < Slots
  {
    if i < Points then PointCount(r[97 * p + 4 * i .. 97 * p + 4 * i + 4])
    else if i == bar then (2.0 * r[194 + p]).Floor
    else (15.0 * r[196 + p]).Floor
  }

  /** Reading the turn back: whether White is to move. */
  function DecodeWhite(r: seq<real>): bool
    requires |r| == Params.InputFeatures
  {
    r[198] == 1.0
  }

  /** A point's count is read back from its four inputs. */
  lemma DecodePoint(r: seq<real>, on: Board, bar: int, out: int, p: int, pt: int)
    requires |r| == Params.InputFeatures && ValidBoard(on) && TwoSlots(bar, out)
    requires 0 <= p < 2 && 0 <= pt < Points && on[p][pt] >= 0
    requires forall j :: 0 <= j < 4 ==> r[97 * p + 4 * pt + j] == PointCode(on[p][pt])[j]
    ensures DecodeCount(r, bar, out, p, pt) == on[p][pt]
  {
    var c := r[97 * p + 4 * pt .. 97 * p + 4 * pt + 4];
    assert forall j :: 0 <= j < 4 ==> c[j] == r[97 * p + 4 * pt + j];
    assert c == PointCode(on[p][pt]);
    PointCodeRoundTrip(on[p][pt]);
  }

  /** The inputs determine the position: every slot's count can be read
      back from them (counts on points are never negative), and so can
      whether White is to move. */
  lemma DecodeEncode(on: Board, white: bool, bar: int, out: int)
    requires ValidBoard(on) && TwoSlots(bar, out)
    requires forall p, i :: 0 <= p < 2 && 0 <= i < Points ==> on[p][i] >= 0
    ensures forall p, i :: 0 <= p < 2 && 0 <= i < Slots ==>
      DecodeCount(Encode(on, white, bar, out), bar, out, p, i) == on[p][i]
    ensures DecodeWhite(Encode(on, white, bar, out)) == white
  {
    var r := Encode(on, white, bar, out);
    EncodePoints(on, white, bar, out);
    EncodeSlots(on, white, bar, out);
    forall p, i | 0 <= p < 2 && 0 <= i < Slots
      ensures DecodeCount(r, bar, out, p, i) == on[p][i]
    {
      if i < Points {
        DecodePoint(r, on, bar, out, p, i);
      }
    }
  }

  /** Hence two positions with the same inputs are the same position. */
  lemma EncodeInjective(a: Board, b: Board, wa: bool, wb: bool, bar: int, out: int)
    requires ValidBoard(a) && ValidBoard(b) && TwoSlots(bar, out)
    requires forall p, i :: 0 <= p < 2 && 0 <= i < Points ==> a[p][i] >= 0 && b[p][i] >= 0
    requires Encode(a, wa, bar, out) == Encode(b, wb, bar, out)
    ensures a == b && wa == wb
  {
    DecodeEncode(a, wa, bar, out);
    DecodeEncode(b, wb, bar, out);
    assert a[0] == b[0] && a[1] == b[1];
  }

  /** The C++ input vector is a (201, 1) tensor of exactly those
      values. */
  function FeatureTensor(s: Game.State): (r: Tensors.Node)
    requires ValidBoard(s.on)
    ensures Tensors.WellFormed(r) && r.shape == [Params.InputFeatures, 1]
    ensures r.values == CppFeatures(s) && r.edges == []
  {
    Tensors.ShapeSize2([Params.InputFeatures, 1]);
    Tensors.FromValues([Params.InputFeatures, 1], CppFeatures(s)).value
  }

  /** The browser player feeds the network the same inputs the C++ player
      does for the same position, although the two engines keep the bar
      and the borne-off checkers in swapped slots. */
  lemma JsFeaturesAgree(js: JsGame.State, cpp: Game.State)
    requires JsGame.Valid(js) && Game.Valid(cpp) && JsGame.SameAsCpp(js, cpp)
    ensures JsFeatures(js) == CppFeatures(cpp)
  {
    SamePositionSame(js.on, JsGame.Bar, JsGame.Out, cpp.on, Game.Bar, Game.Out);
    PointBlockSame(js.on[0], cpp.on[0], Points);
    PointBlockSame(js.on[1], cpp.on[1], Points);
  }

  // ---------------------------------------------------------------------
  // Choosing a move

  /** The position the network judges for a candidate: the move made and
      the turn passed (`!turn`). */
  function Trial(s: Game.State, m: seq<CheckerMove>): (r: Game.State)
    requires Game.Valid(s) && MoveOk(m)
    ensures Game.Valid(r) && r.turn == Game.Opp(s.turn)
  {
    var t := Game.MakeMove(s, m);
    t.(turn := Game.Opp(t.turn))
  }

  /** Taking the trial back and passing the turn again restores the
      position the choice started from. */
  lemma TrialUndo(s: Game.State, m: seq<CheckerMove>)
    requires Game.Valid(s) && MoveOk(m)
    ensures var t := Game.UndoMove(Trial(s, m)); t.(turn := Game.Opp(t.turn)) == s
  {
    Game.UndoMakeMove(s, m);
  }

  /** The prediction for each candidate. */
  function Scores(s: Game.State, moves: seq<seq<CheckerMove>>, predict: Game.State -> real): (r: seq<real>)
    requires Game.Valid(s) && forall i :: 0 <= i < |moves| ==> MoveOk(moves[i])
    ensures |r| == |moves| && forall i :: 0 <= i < |moves| ==> r[i] == predict(Trial(s, moves[i]))
  {
    seq(|moves|, i requires 0 <= i < |moves| => predict(Trial(s, moves[i])))
  }

  /** `y` beats `x` for the player to move: higher for White, lower for
      Black. */
  predicate Beats(white: bool, x: real, y: real) {
    if white then x < y else y < x
  }

  /** Among the first `n` scores, `index` holds the best one and nothing
      before it is as good. */
  predicate Leads(scores: seq<real>, white: bool, index: int, n: int) {
    0 <= index < n <= |scores|
    && (forall j :: 0 <= j < n ==> !Beats(white, scores[index], scores[j]))
    && (forall j :: 0 <= j < index ==> Beats(white, scores[j], scores[index]))
  }

  /** Looking at one more score keeps the leader unless the new score
      beats it, in which case the new one leads. */
  lemma LeadsExtend(scores: seq<real>, white: bool, index: int, n: int)
    requires Leads(scores, white, index, n) && n < |scores|
    ensures Beats(white, scores[index], scores[n]) ==> Leads(scores, white, n, n + 1)
    ensures !Beats(white, scores[index], scores[n]) ==> Leads(scores, white, index, n + 1)
  {
  }

  /** `choose_move`: try each candidate on a copy of the position, take
      it back, and keep the first one whose prediction is strictly better
      than all before it, the highest for White and the lowest for Black.
      An empty list gives 0. */
  method ChooseMove(s: Game.State, moves: seq<seq<CheckerMove>>, predict: Game.State -> real) returns (index: int)
    requires Game.Valid(s) && forall i :: 0 <= i < |moves| ==> MoveOk(moves[i])
    ensures |moves| == 0 ==> index == 0
    ensures |moves| > 0 ==> Leads(Scores(s, moves, predict), s.turn == Game.White, index, |moves|)
  {
    var scores := Scores(s, moves, predict);
    var white := s.turn == Game.White;
    var cur := s;
    var best := 0.0;
    index := 0;
    var i := 0;
    while i < |moves|
      invariant 0 <= i <= |moves| && cur == s
      invariant i == 0 ==> index == 0
      invariant 0 < i ==> Leads(scores, white, index, i) && best == scores[index]
    {
      var trial := Trial(cur, moves[i]);
      var probability := predict(trial);
      var back := Game.UndoMove(trial);
      TrialUndo(s, moves[i]);
      cur := back.(turn := Game.Opp(back.turn));
      assert probability == scores[i] && cur.turn == s.turn;
      if i > 0 {
        LeadsExtend(scores, white, index, i);
      }
      if i == 0 || Beats(cur.turn == Game.White, best, probability) {
        best := probability;
        index := i;
      }
      i := i + 1;
    }
  }

  // ---------------------------------------------------------------------
  // One training step

  /** What `update` trains the prediction for `s` towards once `move` is
      made: the result when either player has borne off all fifteen
      checkers (1 if White's outcome is a win, 0 otherwise), else the
      prediction for the next position. */
  function UpdateTarget(s: Game.State, move: seq<CheckerMove>, predict: Game.State -> real): real
    requires Game.Valid(s) && MoveOk(move)
  {
    var next := Trial(s, move);
    if next.on[Game.White][Game.Out] == 15 || next.on[Game.Black][Game.Out] == 15 then
      var o := Game.GetOutcome(next, Game.White);
      if o == Game.WonSingle || o == Game.WonGammon || o == Game.WonBackgammon then 1.0 else 0.0
    else predict(next)
  }

  /** The target is 1 exactly when the move bears off White's last
      checker, 0 when Black's, and the next prediction while the game
      goes on. */
  lemma UpdateTargetMeaning(s: Game.State, move: seq<CheckerMove>, predict: Game.State -> real)
    requires Game.Valid(s) && MoveOk(move)
    ensures var next, r := Trial(s, move), UpdateTarget(s, move, predict);
      (next.on[Game.White][Game.Out] == 15 ==> r == 1.0)
      && (next.on[Game.White][Game.Out] != 15 && next.on[Game.Black][Game.Out] == 15 ==> r == 0.0)
      && (next.on[Game.White][Game.Out] != 15 && next.on[Game.Black][Game.Out] != 15 ==> r == predict(next))
  {
    Game.OutcomeMeaning(Trial(s, move), Game.White);
  }

  /** Zeroing every parameter's gradients before `backward`: each
      parameter keeps its values and shape, and all its gradients are 0. */
  function ZeroGrads(ps: seq<Tensors.Node>): (r: seq<Tensors.Node>)
    ensures |r| == |ps|
    ensures forall i :: 0 <= i < |ps| ==>
      r[i].values == ps[i].values && r[i].shape == ps[i].shape && r[i].strides == ps[i].strides
      && r[i].edges == ps[i].edges && |r[i].grads| == |ps[i].grads|
      && (forall k :: 0 <= k < |r[i].grads| ==> r[i].grads[k] == 0.0)
    ensures forall i :: 0 <= i < |ps| ==> Tensors.WellFormed(ps[i]) ==> Tensors.WellFormed(r[i])
    decreases |ps|
  {
    if |ps| == 0 then []
    else
      var p := ps[0];
      [p.(grads := seq(|p.grads|, _ => 0.0))] + ZeroGrads(ps[1..])
  }
}

=== FILE: game.dfy ===
/** The C++ rules engine: a position is whose turn it is, the two players'
    26-slot count arrays (slots 0 to 23 are the points, 24 the bar, 25 the
    borne-off checkers) and the stack of undo lists of the moves made. A
    move is a multiset of checker moves, kept here as the sorted sequence a
    `std::multiset` iterates in. */
module Game {
  import opened Checkers

  const White: int := 0
  const Black: int := 1
  const Bar: int := 24
  const Out: int := 25
  const BoardSize: int := 24

  datatype Outcome =
    | WonSingle
    | WonGammon
    | WonBackgammon
    | LostSingle
    | LostGammon
    | LostBackgammon

  predicate IsPlayer(p: int) {
    p == White || p == Black
  }

  /** C++ `!p`. */
  function Opp(p: int): (r: int)
    ensures IsPlayer(p) ==> IsPlayer(r) && r == 1 - p
  {
    if p == 0 then 1 else 0
  }

  /** The `home` array: White's home points from the farthest in, Black's
      from the nearest out. */
  function Home(p: int): (r: seq<int>)
    ensures |r| == 6
  {
    if p == White then [5, 4, 3, 2, 1, 0] else [18, 19, 20, 21, 22, 23]
  }

  datatype State = State(turn: int, on: Board, made: seq<seq<Entry>>)

  predicate Valid(s: State) {
    IsPlayer(s.turn) && ValidBoard(s.on) && forall k :: 0 <= k < |s.made| ==> EntriesOk(s.made[k])
  }

  /** The starting position; the turn is decided later by the opening
      roll. */
  function Initial(): (s: State)
    ensures ValidBoard(s.on)
  {
    var w := seq(Slots, i => if i == 5 then 5 else if i == 7 then 3 else if i == 12 then 5 else if i == 23 then 2 else 0);
    var b := seq(Slots, i => if i == 0 then 2 else if i == 11 then 5 else if i == 16 then 3 else if i == 18 then 5 else 0);
    State(-1, [w, b], [])
  }

  /** Both players start with 15 checkers on the points, none on the bar or
      borne off, in mirrored positions, with no turn decided and no move
      made. */
  lemma InitialPosition()
    ensures var s := Initial();
      s.turn == -1 && s.made == []
      && (forall p :: 0 <= p < 2 ==> Range(s.on[p], 0, BoardSize) == 15 && s.on[p][Bar] == 0 && s.on[p][Out] == 0)
      && (forall i :: 0 <= i < BoardSize ==> s.on[Black][i] == s.on[White][BoardSize - 1 - i])
  {
    var s := Initial();
    var w, b := s.on[White], s.on[Black];
    RangeAllZero(w, 0, 5);
    RangeOne(w, 5);
    RangeOne(w, 6);
    RangeOne(w, 7);
    RangeAllZero(w, 8, 12);
    RangeOne(w, 12);
    RangeAllZero(w, 13, 23);
    RangeOne(w, 23);
    RangeSplit(w, 0, 5, 24);
    RangeSplit(w, 5, 6, 24);
    RangeSplit(w, 6, 7, 24);
    RangeSplit(w, 7, 8, 24);
    RangeSplit(w, 8, 12, 24);
    RangeSplit(w, 12, 13, 24);
    RangeSplit(w, 13, 23, 24);
    RangeOne(b, 0);
    RangeAllZero(b, 1, 11);
    RangeOne(b, 11);
    RangeAllZero(b, 12, 16);
    RangeOne(b, 16);
    RangeAllZero(b, 17, 18);
    RangeOne(b, 18);
    RangeAllZero(b, 19, 24);
    RangeSplit(b, 0, 1, 24);
    RangeSplit(b, 1, 11, 24);
    RangeSplit(b, 11, 12, 24);
    RangeSplit(b, 12, 16, 24);
    RangeSplit(b, 16, 17, 24);
    RangeSplit(b, 17, 18, 24);
    RangeSplit(b, 18, 19, 24);
  }

  // ---------------------------------------------------------------------
  // Bearing off

  /** Sum of the counts on the listed points. */
  function Count(row: seq<int>, points: seq<int>): int
    requires forall k :: 0 <= k < |points| ==> 0 <= points[k] < |row|
    decreases |points|
  {
    if |points| == 0 then 0 else row[points[0]] + Count(row, points[1..])
  }

  /** `can_bear_off()`: the checkers on the home points and the borne-off
      ones make up all 15. */
  function CanBearOff(s: State): bool
    requires IsPlayer(s.turn) && ValidBoard(s.on)
  {
    Count(s.on[s.turn], Home(s.turn)) + s.on[s.turn][Out] == 15
  }

  /** The home points, walked in either order, hold the checkers of a
      block of six consecutive points. */
  lemma HomeCount(row: seq<int>, p: int)
    requires |row| == Slots && IsPlayer(p)
    ensures var lo := if p == White then 0 else 18;
      Count(row, Home(p)) == Range(row, lo, lo + 6)
  {
    var lo := if p == White then 0 else 18;
    CountSix(row, Home(p));
    RangeSix(row, lo);
  }

  /** The count over six listed points, written out. */
  lemma CountSix(row: seq<int>, h: seq<int>)
    requires |h| == 6 && forall k :: 0 <= k < 6 ==> 0 <= h[k] < |row|
    ensures Count(row, h) == row[h[0]] + row[h[1]] + row[h[2]] + row[h[3]] + row[h[4]] + row[h[5]]
  {
    var h1 := h[1..];
    var h2 := h1[1..];
    var h3 := h2[1..];
    var h4 := h3[1..];
    var h5 := h4[1..];
    assert h5[1..] == [];
    assert Count(row, h5) == row[h[5]];
    assert Count(row, h4) == row[h[4]] + row[h[5]];
    assert Count(row, h3) == row[h[3]] + row[h[4]] + row[h[5]];
    assert Count(row, h2) == row[h[2]] + row[h[3]] + row[h[4]] + row[h[5]];
    assert Count(row, h1) == row[h[1]] + row[h[2]] + row[h[3]] + row[h[4]] + row[h[5]];
  }

  /** The total of six consecutive points, written out. */
  lemma RangeSix(row: seq<int>, lo: int)
    requires 0 <= lo && lo + 6 <= |row|
    ensures Range(row, lo, lo + 6) == row[lo] + row[lo + 1] + row[lo + 2] + row[lo + 3] + row[lo + 4] + row[lo + 5]
  {
    RangeOne(row, lo);
    RangeOne(row, lo + 1);
    RangeOne(row, lo + 2);
    RangeOne(row, lo + 3);
    RangeOne(row, lo + 4);
    RangeOne(row, lo + 5);
    RangeSplit(row, lo, lo + 1, lo + 6);
    RangeSplit(row, lo + 1, lo + 2, lo + 6);
    RangeSplit(row, lo + 2, lo + 3, lo + 6);
    RangeSplit(row, lo + 3, lo + 4, lo + 6);
    RangeSplit(row, lo + 4, lo + 5, lo + 6);
  }

  predicate InHome(p: int, i: int) {
    if p == White then 0 <= i < 6 else 18 <= i < BoardSize
  }

  /** For a player whose 15 checkers all have non-negative counts, bearing
      off is allowed exactly when none is outside the home points other
      than the borne-off ones. */
  lemma CanBearOffMeaning(s: State)
    requires IsPlayer(s.turn) && ValidBoard(s.on)
    requires forall i :: 0 <= i < Slots ==> s.on[s.turn][i] >= 0
    requires Total(s.on[s.turn]) == 15
    ensures CanBearOff(s) <==> forall i :: 0 <= i < Slots && i != Out && !InHome(s.turn, i) ==> s.on[s.turn][i] == 0
  {
    var row := s.on[s.turn];
    HomeCount(row, s.turn);
    assert row[0..Slots] == row;
    RangeOne(row, Out);
    RangeSplit(row, 0, 25, 26);
    if s.turn == White {
      RangeSplit(row, 0, 6, 25);
      RangeZero(row, 6, 25);
      if !CanBearOff(s) {
        var k := RangeNonZero(row, 6, 25);
      }
    } else {
      RangeSplit(row, 0, 18, 25);
      RangeSplit(row, 18, 24, 25);
      RangeZero(row, 0, 18);
      RangeOne(row, Bar);
      if !CanBearOff(s) {
        if Range(row, 0, 18) != 0 {
          var k := RangeNonZero(row, 0, 18);
        }
      }
    }
  }

  // ---------------------------------------------------------------------
  // Moves as sorted multisets (`Sorted`, `Insert`)

  /** `move.erase(move.find(x))`: one copy of `x` removed. */
  function Erase(m: seq<CheckerMove>, x: CheckerMove): (r: seq<CheckerMove>)
    ensures multiset(r) == multiset(m) - multiset{x}
    decreases |m|
  {
    if |m| == 0 then []
    else if m[0] == x then
      assert m == [m[0]] + m[1..];
      m[1..]
    else
      var t := Erase(m[1..], x);
      assert m == [m[0]] + m[1..];
      [m[0]] + t
  }

  lemma {:induction false} EraseSorted(m: seq<CheckerMove>, x: CheckerMove)
    requires Sorted(m)
    ensures Sorted(Erase(m, x))
    decreases |m|
  {
    if |m| > 0 {
      SortedTail(m);
      if m[0] != x {
        EraseSorted(m[1..], x);
        var t := Erase(m[1..], x);
        forall y | y in t
          ensures !Less(y, m[0])
        {
          assert y in multiset(t);
          assert y in multiset(m[1..]);
          assert y in m;
          SortedFirst(m, y);
        }
        SortedCons(m[0], t);
      }
    }
  }

  /** Erasing what was just inserted gives the move back, as the search's
      backtracking relies on. */
  lemma EraseInsert(m: seq<CheckerMove>, x: CheckerMove)
    requires Sorted(m)
    ensures Erase(Insert(m, x), x) == m
  {
    InsertSorted(m, x);
    EraseSorted(Insert(m, x), x);
    SortedUnique(Erase(Insert(m, x), x), m);
  }

  // ---------------------------------------------------------------------
  // Making and taking back moves

  /** `make_move(move)`. */
  function MakeMove(s: State, move: seq<CheckerMove>): (r: State)
    requires Valid(s) && MoveOk(move)
    ensures Valid(r) && r.turn == s.turn && |r.made| == |s.made| + 1 && r.made[..|s.made|] == s.made
  {
    var p := Play(s.on, s.turn, move, Bar, Out);
    State(s.turn, p.0, s.made + [p.1])
  }

  /** `undo_move()`: pop the last undo list and take back its transfers. */
  function UndoMove(s: State): (r: State)
    requires Valid(s) && |s.made| > 0
    ensures Valid(r) && r.turn == s.turn && r.made == s.made[..|s.made| - 1]
  {
    var u := s.made[|s.made| - 1];
    State(s.turn, BackwardAll(s.on, u), s.made[..|s.made| - 1])
  }

  /** Taking back a move just made restores the position: the board, the
      turn and the undo stack. */
  lemma UndoMakeMove(s: State, move: seq<CheckerMove>)
    requires Valid(s) && MoveOk(move)
    ensures UndoMove(MakeMove(s, move)) == s
  {
    var p := Play(s.on, s.turn, move, Bar, Out);
    BackwardForward(s.on, p.1);
    assert (s.made + [p.1])[..|s.made|] == s.made;
  }

  /** A move changes no player's number of checkers. */
  lemma MakeMoveConserves(s: State, move: seq<CheckerMove>, q: int)
    requires Valid(s) && MoveOk(move) && IsPlayer(q)
    ensures Total(MakeMove(s, move).on[q]) == Total(s.on[q])
  {
    ForwardAllTotal(s.on, Play(s.on, s.turn, move, Bar, Out).1, q);
  }

  /** One checker move takes the mover's checker from `from` to `to`, and
      when it lands (not off the board) where the opponent has checkers,
      one of those goes to the opponent's bar; nothing else changes. */
  lemma MakeOneMove(s: State, cm: CheckerMove)
    requires Valid(s) && SlotOk(cm.from) && SlotOk(cm.to)
    ensures var t := MakeMove(s, [cm]).on;
      var me, o := s.turn, Opp(s.turn);
      var hit := cm.to != Out && s.on[o][cm.to] != 0;
      forall i :: 0 <= i < Slots ==>
        t[me][i] == s.on[me][i] - (if i == cm.from then 1 else 0) + (if i == cm.to then 1 else 0)
        && t[o][i] == s.on[o][i] + (if hit && i == Bar then 1 else 0) - (if hit && i == cm.to then 1 else 0)
  {
    var me, o := s.turn, Opp(s.turn);
    var p := Play(s.on, me, [cm], Bar, Out);
    assert [cm][1..] == [];
    var hit := cm.to != Out && s.on[o][cm.to] != 0;
    var es := (if hit then [Entry(o, CheckerMove(cm.to, Bar))] else []) + [Entry(me, cm)];
    var rest := Play(ForwardAll(s.on, es), me, [cm][1..], Bar, Out);
    assert rest.1 == [];
    assert p.1 == es + rest.1;
    assert p.1 == es;
    forall i | 0 <= i < Slots
      ensures p.0[me][i] == s.on[me][i] - (if i == cm.from then 1 else 0) + (if i == cm.to then 1 else 0)
      ensures p.0[o][i] == s.on[o][i] + (if hit && i == Bar then 1 else 0) - (if hit && i == cm.to then 1 else 0)
    {
      ForwardAllAt(s.on, es, me, i);
      ForwardAllAt(s.on, es, o, i);
      var e := Entry(me, cm);
      assert Net([e], me, i) == (if i == cm.to then 1 else 0) - (if i == cm.from then 1 else 0) by {
        assert [e][1..] == [];
      }
      assert Net([e], o, i) == 0 by {
        assert [e][1..] == [];
      }
      if hit {
        assert es[1..] == [e];
      } else {
        assert es == [e];
      }
    }
  }

  // ---------------------------------------------------------------------
  // Single-die moves

  /** Where a checker on the bar enters with die `d`. */
  function EntryPoint(p: int, d: int): int {
    if p == White then BoardSize - d else d - 1
  }

  /** The point a checker bears off from exactly with die `d`. */
  function BearPoint(p: int, d: int): int {
    if p == White then d - 1 else BoardSize - d
  }

  /** An ordinary move of `d` pips forward (White moves down, Black up)
      from an own checker to a point with at most one opposing checker. */
  predicate NormalStep(s: State, d: int, x: CheckerMove)
    requires Valid(s)
  {
    var me, o := s.turn, Opp(s.turn);
    0 <= x.from < BoardSize && 0 <= x.to < BoardSize
    && x.to == (if me == White then x.from - d else x.from + d)
    && s.on[me][x.from] != 0 && s.on[o][x.to] <= 1
  }

  /** The checker moves a die allows: with a checker on the bar only the
      entry, if the entry point is not blocked; otherwise every ordinary
      move and, when bearing off is allowed, the bear-off from exactly the
      die's point. */
  predicate LegalStep(s: State, d: int, x: CheckerMove)
    requires Valid(s) && 1 <= d <= 6
  {
    var me, o := s.turn, Opp(s.turn);
    if s.on[me][Bar] != 0 then
      x == CheckerMove(Bar, EntryPoint(me, d)) && s.on[o][EntryPoint(me, d)] <= 1
    else
      (CanBearOff(s) && x == CheckerMove(BearPoint(me, d), Out) && s.on[me][BearPoint(me, d)] != 0)
      || NormalStep(s, d, x)
  }

  function Direction(p: int): int {
    if p == White then -1 else 1
  }

  /** The loop of `get_move` over the points from `from` on. */
  function Scan(s: State, d: int, from: nat, acc: seq<CheckerMove>): (r: seq<CheckerMove>)
    requires Valid(s) && 1 <= d <= 6 && from <= BoardSize
    requires Strict(acc) && MoveOk(acc)
    requires forall k :: 0 <= k < |acc| ==> acc[k].to == Out || acc[k].from < from
    ensures Strict(r) && MoveOk(r)
    ensures forall x :: x in r <==> x in acc || (from <= x.from && NormalStep(s, d, x))
    decreases BoardSize - from
  {
    if from == BoardSize then acc
    else
      var me := s.turn;
      var to := from + Direction(me) * d;
      var x := CheckerMove(from, to);
      if s.on[me][from] != 0 && 0 <= to && to < BoardSize && s.on[Opp(me)][to] <= 1 then
        ScanInsert(acc, x);
        var r := Scan(s, d, from + 1, Insert(acc, x));
        ScanTake(s, d, acc, x, r);
        r
      else
        var r := Scan(s, d, from + 1, acc);
        ScanPass(s, d, from, acc, r);
        r
  }

  /** The step from the scanned point is the only step from it. */
  lemma ScanTake(s: State, d: int, acc: seq<CheckerMove>, x: CheckerMove, r: seq<CheckerMove>)
    requires Valid(s) && 1 <= d <= 6 && NormalStep(s, d, x)
    requires forall y :: y in r <==> y in Insert(acc, x) || (x.from + 1 <= y.from && NormalStep(s, d, y))
    ensures forall y :: y in r <==> y in acc || (x.from <= y.from && NormalStep(s, d, y))
  {
  }

  /** A point with no step adds nothing. */
  lemma ScanPass(s: State, d: int, from: int, acc: seq<CheckerMove>, r: seq<CheckerMove>)
    requires Valid(s) && 1 <= d <= 6
    requires !NormalStep(s, d, CheckerMove(from, from + Direction(s.turn) * d))
    requires forall y :: y in r <==> y in acc || (from + 1 <= y.from && NormalStep(s, d, y))
    ensures forall y :: y in r <==> y in acc || (from <= y.from && NormalStep(s, d, y))
  {
  }

  /** A step from the point the scan has reached goes after everything
      found so far, so inserting it keeps the list strict. */
  lemma ScanInsert(acc: seq<CheckerMove>, x: CheckerMove)
    requires Strict(acc) && MoveOk(acc) && SlotOk(x.from) && SlotOk(x.to) && x.to != Out
    requires forall k :: 0 <= k < |acc| ==> acc[k].to == Out || acc[k].from < x.from
    ensures Strict(Insert(acc, x)) && MoveOk(Insert(acc, x))
    ensures forall k :: 0 <= k < |Insert(acc, x)| ==> Insert(acc, x)[k].to == Out || Insert(acc, x)[k].from < x.from + 1
  {
    var acc' := Insert(acc, x);
    assert x !in acc;
    InsertSorted(acc, x);
    forall k | 0 <= k < |acc'|
      ensures SlotOk(acc'[k].from) && SlotOk(acc'[k].to) && (acc'[k].to == Out || acc'[k].from < x.from + 1)
    {
      assert acc'[k] in acc';
    }
  }

  /** `get_move(d)`: the checker moves die `d` allows, each once, in
      order. */
  function GetMove(s: State, d: int): (r: seq<CheckerMove>)
    requires Valid(s) && 1 <= d <= 6
    ensures Strict(r) && MoveOk(r)
    ensures forall x :: x in r <==> LegalStep(s, d, x)
  {
    if s.on[s.turn][Bar] != 0 then EntryStep(s, d) else BoardSteps(s, d)
  }

  /** The first branch of `get_move`: the entry from the bar, unless the
      entry point is blocked. */
  function EntryStep(s: State, d: int): (r: seq<CheckerMove>)
    requires Valid(s) && 1 <= d <= 6 && s.on[s.turn][Bar] != 0
    ensures Strict(r) && MoveOk(r)
    ensures forall x :: x in r <==> LegalStep(s, d, x)
  {
    var me := s.turn;
    var to := (if me == White then 24 else -1) + Direction(me) * d;
    if s.on[Opp(me)][to] <= 1 then [CheckerMove(Bar, to)] else []
  }

  /** The second branch of `get_move`: the bear-off from the die's point
      when allowed, then the ordinary moves point by point. */
  function BoardSteps(s: State, d: int): (r: seq<CheckerMove>)
    requires Valid(s) && 1 <= d <= 6 && s.on[s.turn][Bar] == 0
    ensures Strict(r) && MoveOk(r)
    ensures forall x :: x in r <==> LegalStep(s, d, x)
  {
    Scan(s, d, 0, BearStep(s, d))
  }

  /** The bear-off step `get_move` starts from: off from exactly the die's
      point, when the player may bear off and holds a checker there. */
  function BearStep(s: State, d: int): (r: seq<CheckerMove>)
    requires Valid(s) && 1 <= d <= 6
    ensures Strict(r) && MoveOk(r) && forall k :: 0 <= k < |r| ==> r[k].to == Out
    ensures forall x :: x in r <==>
              CanBearOff(s) && x == CheckerMove(BearPoint(s.turn, d), Out) && s.on[s.turn][BearPoint(s.turn, d)] != 0
  {
    var me := s.turn;
    var bp := (if me == White then -1 else 24) + -1 * Direction(me) * d;
    if CanBearOff(s) && s.on[me][bp] != 0 then [CheckerMove(bp, Out)] else []
  }

  /** `no_moves(deltas, index)`: no remaining die allows a checker move. */
  function NoMoves(s: State, ds: seq<int>, index: nat): (r: bool)
    requires Valid(s) && forall k :: 0 <= k < |ds| ==> 1 <= ds[k] <= 6
    ensures r <==> forall k :: index <= k < |ds| ==> GetMove(s, ds[k]) == []
    decreases |ds| - index
  {
    if index >= |ds| then true
    else if |GetMove(s, ds[index])| != 0 then false
    else NoMoves(s, ds, index + 1)
  }

  // ---------------------------------------------------------------------
  // Outcome and scoring

  /** Some listed point holds a checker of `row`. */
  function AnyOn(row: seq<int>, points: seq<int>): (r: bool)
    requires forall k :: 0 <= k < |points| ==> 0 <= points[k] < |row|
    ensures r <==> exists k :: 0 <= k < |points| && row[points[k]] != 0
    decreases |points|
  {
    if |points| == 0 then false
    else if row[points[0]] != 0 then true
    else
      var r := AnyOn(row, points[1..]);
      assert forall k :: 1 <= k < |points| ==> points[k] == points[1..][k - 1];
      r
  }

  /** `outcome(player)`. */
  function GetOutcome(s: State, p: int): Outcome
    requires ValidBoard(s.on) && IsPlayer(p)
  {
    var o := Opp(p);
    if s.on[p][Out] == 15 then
      if s.on[o][Out] != 0 then WonSingle
      else if s.on[o][Bar] != 0 then WonBackgammon
      else if AnyOn(s.on[o], Home(p)) then WonBackgammon
      else WonGammon
    else if s.on[p][Out] != 0 then LostSingle
    else if s.on[p][Bar] != 0 then LostBackgammon
    else if AnyOn(s.on[p], Home(o)) then LostBackgammon
    else LostGammon
  }

  predicate IsWin(o: Outcome) {
    o == WonSingle || o == WonGammon || o == WonBackgammon
  }

  /** The same result seen from the other side. */
  function Mirror(o: Outcome): (r: Outcome)
    ensures IsWin(r) <==> !IsWin(o)
  {
    match o
    case WonSingle => LostSingle
    case WonGammon => LostGammon
    case WonBackgammon => LostBackgammon
    case LostSingle => WonSingle
    case LostGammon => WonGammon
    case LostBackgammon => WonBackgammon
  }

  /** A player has won exactly when all 15 of their checkers are off. A win
      is single when the loser has borne off a checker, a backgammon when
      the loser has none off and one on the bar or in the winner's home,
      and a gammon otherwise. */
  lemma OutcomeMeaning(s: State, p: int)
    requires ValidBoard(s.on) && IsPlayer(p)
    ensures var r, o := GetOutcome(s, p), Opp(p);
      (IsWin(r) <==> s.on[p][Out] == 15)
      && (s.on[p][Out] == 15 ==>
        (r == WonSingle <==> s.on[o][Out] != 0)
        && (r == WonBackgammon <==>
              (s.on[o][Out] == 0 && (s.on[o][Bar] != 0 || exists k :: 0 <= k < 6 && s.on[o][Home(p)[k]] != 0))))
  {
  }

  /** When exactly one player has borne everything off, the two players'
      outcomes are mirror images of each other. */
  lemma OutcomeMirror(s: State, p: int)
    requires ValidBoard(s.on) && IsPlayer(p)
    requires (s.on[p][Out] == 15) != (s.on[Opp(p)][Out] == 15)
    ensures GetOutcome(s, Opp(p)) == Mirror(GetOutcome(s, p))
  {
  }

  /** `get_deltas()`: a double is played four times. */
  function Deltas(first: int, second: int): (r: seq<int>)
    ensures first == second ==> r == [first, first, first, first]
    ensures first != second ==> r == [first, second]
  {
    if first == second then [first, second, first, second] else [first, second]
  }

  datatype Award = Award(player: int, points: int)

  /** The points `play` awards once White's outcome is known. */
  function Score(o: Outcome): Award {
    match o
    case WonSingle => Award(White, 1)
    case WonGammon => Award(White, 2)
    case WonBackgammon => Award(White, 3)
    case LostSingle => Award(Black, 1)
    case LostGammon => Award(Black, 2)
    case LostBackgammon => Award(Black, 3)
  }

  /** At the end of a game the player with all checkers off scores 1, 2 or
      3 points, for a single game, a gammon or a backgammon; scoring from
      Black's outcome instead, with the roles swapped, would award the
      same. */
  lemma GameScore(s: State)
    requires ValidBoard(s.on)
    requires (s.on[White][Out] == 15) != (s.on[Black][Out] == 15)
    ensures var a := Score(GetOutcome(s, White));
      var winner := if s.on[White][Out] == 15 then White else Black;
      a.player == winner && 1 <= a.points <= 3
      && (a.points == 1 <==> s.on[Opp(winner)][Out] != 0)
      && a == (var b := Score(GetOutcome(s, Black)); Award(Opp(b.player), b.points))
  {
    OutcomeMirror(s, White);
    OutcomeMeaning(s, White);
    OutcomeMeaning(s, Black);
  }

  // ---------------------------------------------------------------------
  // Pip count and race, with this engine's slots

  function PipCount(s: State, p: int): int
    requires ValidBoard(s.on) && IsPlayer(p)
  {
    Pip(s.on[p], p, Bar)
  }

  function IsRace(s: State): bool
    requires ValidBoard(s.on)
  {
    Race(s.on, Bar, Out)
  }
}

=== FILE: gradients.dfy ===
/** The gradient functions (`*_backward_fn`): each reads a node's gradient
    and adds the resulting contributions into the gradients of the nodes it
    was computed from. Every one of them is a scatter-add: a list of
    (offset, amount) pairs applied in loop order. */
module Gradients {
  import opened Errors
  import opened Arith
  import opened View
  import opened RealSeq
  import opened Tensors
  import opened Graphs

  // ---------------------------------------------------------------------
  // Scatter-add

  predicate OffsetsIn(offs: seq<int>, n: int) {
    forall t :: 0 <= t < |offs| ==> 0 <= offs[t] < n
  }

  /** `grads[offs[t]] += amts[t]` for `t = 0, 1, ...` in order. */
  function ScatterAdd(grads: seq<real>, offs: seq<int>, amts: seq<real>): (r: seq<real>)
    requires |offs| == |amts| && OffsetsIn(offs, |grads|)
    ensures |r| == |grads|
    decreases |offs|
  {
    if |offs| == 0 then grads
    else
      var n := |offs| - 1;
      var prev := ScatterAdd(grads, offs[..n], amts[..n]);
      prev[offs[n] := prev[offs[n]] + amts[n]]
  }

  /** The amounts aimed at offset `k`, in order. */
  function Picked(offs: seq<int>, amts: seq<real>, k: int): seq<real>
    requires |offs| == |amts|
    decreases |offs|
  {
    if |offs| == 0 then []
    else
      var n := |offs| - 1;
      Picked(offs[..n], amts[..n], k) + (if offs[n] == k then [amts[n]] else [])
  }

  /** Each position ends up with its old value plus every amount aimed at
      it. */
  lemma {:induction false} ScatterAt(grads: seq<real>, offs: seq<int>, amts: seq<real>, k: int)
    requires |offs| == |amts| && OffsetsIn(offs, |grads|) && 0 <= k < |grads|
    ensures ScatterAdd(grads, offs, amts)[k] == grads[k] + Sum(Picked(offs, amts, k))
    decreases |offs|
  {
    if |offs| > 0 {
      var n := |offs| - 1;
      ScatterAt(grads, offs[..n], amts[..n], k);
      var last: seq<real> := if offs[n] == k then [amts[n]] else [];
      SumConcat(Picked(offs[..n], amts[..n], k), last);
      assert Sum(last) == if offs[n] == k then amts[n] else 0.0;
    }
  }

  /** Nothing is lost or created: the total grows by the total amount. */
  lemma {:induction false} ScatterMass(grads: seq<real>, offs: seq<int>, amts: seq<real>)
    requires |offs| == |amts| && OffsetsIn(offs, |grads|)
    ensures Sum(ScatterAdd(grads, offs, amts)) == Sum(grads) + Sum(amts)
    decreases |offs|
  {
    if |offs| > 0 {
      var n := |offs| - 1;
      ScatterMass(grads, offs[..n], amts[..n]);
      var prev := ScatterAdd(grads, offs[..n], amts[..n]);
      SumUpdate(prev, offs[n], amts[n]);
      assert amts == amts[..n] + [amts[n]];
      SumConcat(amts[..n], [amts[n]]);
    }
  }

  lemma {:induction false} PickedNone(offs: seq<int>, amts: seq<real>, k: int)
    requires |offs| == |amts|
    requires forall t :: 0 <= t < |offs| ==> offs[t] != k
    ensures Picked(offs, amts, k) == []
    decreases |offs|
  {
    if |offs| > 0 {
      var n := |offs| - 1;
      PickedNone(offs[..n], amts[..n], k);
    }
  }

  lemma {:induction false} PickedOnce(offs: seq<int>, amts: seq<real>, k: int, t0: int)
    requires |offs| == |amts| && 0 <= t0 < |offs| && offs[t0] == k
    requires forall t :: 0 <= t < |offs| && t != t0 ==> offs[t] != k
    ensures Picked(offs, amts, k) == [amts[t0]]
    decreases |offs|
  {
    var n := |offs| - 1;
    if t0 == n {
      PickedNone(offs[..n], amts[..n], k);
    } else {
      PickedOnce(offs[..n], amts[..n], k, t0);
    }
  }

  /** A position hit by exactly one pair receives exactly that amount. */
  lemma ScatterOnce(grads: seq<real>, offs: seq<int>, amts: seq<real>, t0: int)
    requires |offs| == |amts| && OffsetsIn(offs, |grads|) && 0 <= t0 < |offs|
    requires forall t :: 0 <= t < |offs| && t != t0 ==> offs[t] != offs[t0]
    ensures ScatterAdd(grads, offs, amts)[offs[t0]] == grads[offs[t0]] + amts[t0]
  {
    ScatterAt(grads, offs, amts, offs[t0]);
    PickedOnce(offs, amts, offs[t0], t0);
  }

  /** A position no pair aims at keeps its value. */
  lemma ScatterMiss(grads: seq<real>, offs: seq<int>, amts: seq<real>, k: int)
    requires |offs| == |amts| && OffsetsIn(offs, |grads|) && 0 <= k < |grads|
    requires forall t :: 0 <= t < |offs| ==> offs[t] != k
    ensures ScatterAdd(grads, offs, amts)[k] == grads[k]
  {
    ScatterAt(grads, offs, amts, k);
    PickedNone(offs, amts, k);
  }

  function Iota(n: nat): (r: seq<int>)
    ensures |r| == n && forall t :: 0 <= t < n ==> r[t] == t
  {
    seq(n, t => t)
  }

  /** Scattering along `0, 1, 2, ...` is elementwise addition. */
  lemma ScatterIdentity(grads: seq<real>, amts: seq<real>)
    requires |amts| == |grads|
    ensures OffsetsIn(Iota(|grads|), |grads|)
    ensures ScatterAdd(grads, Iota(|grads|), amts) == AddSeq(grads, amts)
  {
    var offs := Iota(|grads|);
    forall k | 0 <= k < |grads|
      ensures ScatterAdd(grads, offs, amts)[k] == AddSeq(grads, amts)[k]
    {
      ScatterOnce(grads, offs, amts, k);
    }
  }

  /** Scatter-add into one node's gradient buffer. */
  function ScatterInto(g: Graph, h: Handle, offs: seq<int>, amts: seq<real>): (r: Graph)
    requires ValidGraph(g) && h in g.nodes
    requires |offs| == |amts| && OffsetsIn(offs, |g.nodes[h].grads|)
    ensures ValidGraph(r) && SameButGrads(g, r)
    ensures r.nodes[h].grads == ScatterAdd(g.nodes[h].grads, offs, amts)
    ensures forall x :: x in g.nodes && x != h ==> r.nodes[x] == g.nodes[x]
  {
    SetGrads(g, h, ScatterAdd(g.nodes[h].grads, offs, amts))
  }

  // ---------------------------------------------------------------------
  // addition, subtraction, multiplication

  /** Output element `i` reads element `Offsets(a, out)[i]` of an operand
      of shape `a`. */
  function Offsets(a: Shape, out: Shape): (r: seq<int>)
    requires ValidShape(a) && ValidShape(out) && ExpandsTo(a, out)
    ensures |r| == ShapeSize(out) && OffsetsIn(r, ShapeSize(a))
  {
    seq(ShapeSize(out), i requires 0 <= i < ShapeSize(out) => OperandOffset(a, out, i))
  }

  /** What the graph invariant says about the operands of an
      elementwise node. */
  lemma BinaryOperands(g: Graph, h: Handle)
    requires ValidGraph(g) && h in g.nodes && IsElementwise(g.nodes[h].op)
    ensures |g.nodes[h].edges| == 2
    ensures g.nodes[h].edges[0] in g.nodes && g.nodes[h].edges[1] in g.nodes
    ensures g.nodes[h].edges[0] < h && g.nodes[h].edges[1] < h
    ensures WellFormed(g.nodes[h]) && WellFormed(g.nodes[g.nodes[h].edges[0]])
      && WellFormed(g.nodes[g.nodes[h].edges[1]])
    ensures ExpandsTo(g.nodes[g.nodes[h].edges[0]].shape, g.nodes[h].shape)
    ensures ExpandsTo(g.nodes[g.nodes[h].edges[1]].shape, g.nodes[h].shape)
  {
    var w := g.nodes[h];
    var os := OperandShapes(g.nodes, w);
    assert ShapesAgree(w, os);
    assert os[0] == g.nodes[w.edges[0]].shape;
    assert os[1] == g.nodes[w.edges[1]].shape;
  }

  /** What the graph invariant says about the operand of a one-operand
      node. */
  lemma UnaryOperand(g: Graph, h: Handle)
    requires ValidGraph(g) && h in g.nodes
    requires g.nodes[h].op == SumOp || g.nodes[h].op == MaxOp || g.nodes[h].op == ReluOp
    ensures |g.nodes[h].edges| == 1 && g.nodes[h].edges[0] in g.nodes && g.nodes[h].edges[0] < h
    ensures WellFormed(g.nodes[h]) && WellFormed(g.nodes[g.nodes[h].edges[0]])
    ensures g.nodes[h].op == ReluOp ==> g.nodes[g.nodes[h].edges[0]].shape == g.nodes[h].shape
    ensures g.nodes[h].op != ReluOp ==> "axis" in g.nodes[h].meta
    ensures g.nodes[h].op == SumOp && g.nodes[h].meta["axis"] == -1 ==> g.nodes[h].shape == [1]
    ensures g.nodes[h].op == MaxOp ==> g.nodes[h].meta["axis"] != -1
    ensures g.nodes[h].op != ReluOp && g.nodes[h].meta["axis"] != -1 ==>
      0 <= g.nodes[h].meta["axis"] < |g.nodes[g.nodes[h].edges[0]].shape|
      && g.nodes[h].shape == Normalise(RemoveAxis(g.nodes[g.nodes[h].edges[0]].shape, g.nodes[h].meta["axis"]))
  {
    var w := g.nodes[h];
    var os := OperandShapes(g.nodes, w);
    assert ShapesAgree(w, os);
    assert os[0] == g.nodes[w.edges[0]].shape;
  }

  /** What the graph invariant says about the operands of a `matmul`
      node. */
  lemma MatmulOperands(g: Graph, h: Handle)
    requires ValidGraph(g) && h in g.nodes && g.nodes[h].op == MatmulOp
    ensures |g.nodes[h].edges| == 2
    ensures g.nodes[h].edges[0] in g.nodes && g.nodes[h].edges[1] in g.nodes
    ensures g.nodes[h].edges[0] < h && g.nodes[h].edges[1] < h
    ensures WellFormed(g.nodes[h]) && WellFormed(g.nodes[g.nodes[h].edges[0]])
      && WellFormed(g.nodes[g.nodes[h].edges[1]])
    ensures var u := g.nodes[g.nodes[h].edges[0]];
      var v := g.nodes[g.nodes[h].edges[1]];
      |u.shape| == 2 && |v.shape| == 2 && u.shape[1] == v.shape[0]
      && g.nodes[h].shape == [u.shape[0], v.shape[1]]
  {
    var w := g.nodes[h];
    var os := OperandShapes(g.nodes, w);
    assert ShapesAgree(w, os);
    assert os[0] == g.nodes[w.edges[0]].shape;
    assert os[1] == g.nodes[w.edges[1]].shape;
  }

  /** The amounts the first operand receives: the output gradient, times
      the second operand's element for `*`. */
  function FirstAmounts(w: Node, v: Node, vo: seq<int>): (r: seq<real>)
    requires |vo| == |w.grads| && OffsetsIn(vo, |v.values|)
    ensures |r| == |w.grads|
  {
    seq(|w.grads|, i requires 0 <= i < |w.grads| =>
      if w.op == MulOp then w.grads[i] * v.values[vo[i]] else w.grads[i])
  }

  lemma FirstAmountsAt(w: Node, v: Node, vo: seq<int>, i: int)
    requires |vo| == |w.grads| && OffsetsIn(vo, |v.values|) && 0 <= i < |w.grads|
    ensures FirstAmounts(w, v, vo)[i]
      == if w.op == MulOp then w.grads[i] * v.values[vo[i]] else w.grads[i]
  {
  }

  /** The amounts the second operand receives: the output gradient, its
      negation for `-`, or times the first operand's element for `*`. */
  function SecondAmounts(w: Node, u: Node, uo: seq<int>): (r: seq<real>)
    requires |uo| == |w.grads| && OffsetsIn(uo, |u.values|)
    ensures |r| == |w.grads|
  {
    seq(|w.grads|, i requires 0 <= i < |w.grads| =>
      if w.op == MulOp then w.grads[i] * u.values[uo[i]]
      else if w.op == SubOp then -w.grads[i]
      else w.grads[i])
  }

  /** `addition_backward_fn`, `subtraction_backward_fn`,
      `multiplication_backward_fn`: the first operand's contributions are
      scattered first, then the second's, each through the broadcast
      offsets. */
  function ElementwiseBackward(g: Graph, h: Handle): (r: Graph)
    requires ValidGraph(g) && h in g.nodes && IsElementwise(g.nodes[h].op)
    ensures ValidGraph(r) && SameButGrads(g, r)
    ensures forall x :: x in g.nodes && x !in g.nodes[h].edges ==> r.nodes[x] == g.nodes[x]
  {
    BinaryOperands(g, h);
    var w := g.nodes[h];
    var uh := w.edges[0];
    var vh := w.edges[1];
    var u := g.nodes[uh];
    var v := g.nodes[vh];
    var uo := Offsets(u.shape, w.shape);
    var vo := Offsets(v.shape, w.shape);
    var g1 := ScatterInto(g, uh, uo, FirstAmounts(w, v, vo));
    ScatterInto(g1, vh, vo, SecondAmounts(w, u, uo))
  }

  /** The operands' new gradients: two separate scatters, or both into
      one buffer when the two edges name one node. */
  lemma ElementwiseBackwardGrads(g: Graph, h: Handle)
    requires ValidGraph(g) && h in g.nodes && IsElementwise(g.nodes[h].op)
    ensures var w := g.nodes[h];
      var u := g.nodes[w.edges[0]];
      var v := g.nodes[w.edges[1]];
      var uo := Offsets(u.shape, w.shape);
      var vo := Offsets(v.shape, w.shape);
      var r := ElementwiseBackward(g, h);
      if w.edges[0] != w.edges[1] then
        r.nodes[w.edges[0]].grads == ScatterAdd(u.grads, uo, FirstAmounts(w, v, vo))
        && r.nodes[w.edges[1]].grads == ScatterAdd(v.grads, vo, SecondAmounts(w, u, uo))
      else
        r.nodes[w.edges[0]].grads
          == ScatterAdd(ScatterAdd(u.grads, uo, FirstAmounts(w, v, vo)), vo, SecondAmounts(w, u, uo))
  {
    BinaryOperands(g, h);
  }

  /** An operand of the output's own shape is read at the same offset. */
  lemma SameShapeOffsets(s: Shape)
    requires ValidShape(s)
    ensures Offsets(s, s) == Iota(ShapeSize(s))
  {
    var offs := Offsets(s, s);
    forall i | 0 <= i < ShapeSize(s)
      ensures offs[i] == i
    {
      OperandOffsetSameShape(s, i);
    }
  }

  /** Through `u + v` with distinct operands, each operand's gradient total
      grows by the output's gradient total, whatever the broadcast. */
  lemma AddBackwardMass(g: Graph, h: Handle)
    requires ValidGraph(g) && h in g.nodes && g.nodes[h].op == AddOp
    requires g.nodes[h].edges[0] != g.nodes[h].edges[1]
    ensures Sum(ElementwiseBackward(g, h).nodes[g.nodes[h].edges[0]].grads)
      == Sum(g.nodes[g.nodes[h].edges[0]].grads) + Sum(g.nodes[h].grads)
    ensures Sum(ElementwiseBackward(g, h).nodes[g.nodes[h].edges[1]].grads)
      == Sum(g.nodes[g.nodes[h].edges[1]].grads) + Sum(g.nodes[h].grads)
  {
    BinaryOperands(g, h);
    ElementwiseBackwardGrads(g, h);
    var w := g.nodes[h];
    var u := g.nodes[w.edges[0]];
    var v := g.nodes[w.edges[1]];
    var uo := Offsets(u.shape, w.shape);
    var vo := Offsets(v.shape, w.shape);
    assert FirstAmounts(w, v, vo) == w.grads;
    assert SecondAmounts(w, u, uo) == w.grads;
    ScatterMass(u.grads, uo, w.grads);
    ScatterMass(v.grads, vo, w.grads);
  }

  /** Through `u - v` with operands and output of one shape, `u` gains the
      output gradient and `v` loses it, element for element. */
  lemma SubBackwardSameShape(g: Graph, h: Handle)
    requires ValidGraph(g) && h in g.nodes && g.nodes[h].op == SubOp
    requires g.nodes[h].edges[0] != g.nodes[h].edges[1]
    requires g.nodes[g.nodes[h].edges[0]].shape == g.nodes[h].shape
    requires g.nodes[g.nodes[h].edges[1]].shape == g.nodes[h].shape
    ensures forall i :: 0 <= i < |g.nodes[h].grads| ==>
      ElementwiseBackward(g, h).nodes[g.nodes[h].edges[0]].grads[i]
        == g.nodes[g.nodes[h].edges[0]].grads[i] + g.nodes[h].grads[i]
      && ElementwiseBackward(g, h).nodes[g.nodes[h].edges[1]].grads[i]
        == g.nodes[g.nodes[h].edges[1]].grads[i] - g.nodes[h].grads[i]
  {
    BinaryOperands(g, h);
    ElementwiseBackwardGrads(g, h);
    var w := g.nodes[h];
    var u := g.nodes[w.edges[0]];
    var v := g.nodes[w.edges[1]];
    SameShapeOffsets(w.shape);
    var offs := Iota(|w.grads|);
    ScatterIdentity(u.grads, FirstAmounts(w, v, offs));
    ScatterIdentity(v.grads, SecondAmounts(w, u, offs));
  }

  /** With the identity offsets, both amount lists of `x * x` are the
      products of gradient and value. */
  lemma SquareAmounts(w: Node, u: Node)
    requires w.op == MulOp && |u.values| == |w.grads|
    ensures OffsetsIn(Iota(|w.grads|), |u.values|)
    ensures SecondAmounts(w, u, Iota(|w.grads|)) == FirstAmounts(w, u, Iota(|w.grads|))
    ensures forall i :: 0 <= i < |w.grads| ==>
      FirstAmounts(w, u, Iota(|w.grads|))[i] == w.grads[i] * u.values[i]
  {
  }

  /** Squaring a node through `*`: both scatters land in its own buffer,
      `2 * g * x` in all. */
  lemma SquareGrads(w: Node, u: Node)
    requires WellFormed(w) && WellFormed(u) && u.shape == w.shape && w.op == MulOp
    ensures var offs := Offsets(w.shape, w.shape);
      var r := ScatterAdd(ScatterAdd(u.grads, offs, FirstAmounts(w, u, offs)), offs, SecondAmounts(w, u, offs));
      forall i :: 0 <= i < |w.grads| ==> r[i] == u.grads[i] + 2.0 * (w.grads[i] * u.values[i])
  {
    SameShapeOffsets(w.shape);
    SquareAmounts(w, u);
    var a := FirstAmounts(w, u, Iota(|w.grads|));
    ScatterIdentity(u.grads, a);
    ScatterIdentity(AddSeq(u.grads, a), a);
  }

  // ---------------------------------------------------------------------
  // sum and max along an axis

  /** The offsets of one reduced line, in axis order. */
  function LineOffsets(s: Shape, axis: int, i: int): (r: seq<int>)
    requires ValidShape(s) && 0 <= axis < |s| && 0 <= i < ShapeSize(RemoveAxis(s, axis))
    ensures |r| == s[axis] && OffsetsIn(r, ShapeSize(s))
  {
    seq(s[axis], j requires 0 <= j < s[axis] => AxisOffset(s, axis, i, j))
  }

  /** The offsets of every line, line `i` at index `i`. */
  function AllLines(s: Shape, axis: int): (r: seq<seq<int>>)
    requires ValidShape(s) && 0 <= axis < |s|
    ensures |r| == ShapeSize(RemoveAxis(s, axis))
    ensures forall i :: 0 <= i < |r| ==> r[i] == LineOffsets(s, axis, i)
  {
    seq(ShapeSize(RemoveAxis(s, axis)), i requires 0 <= i < ShapeSize(RemoveAxis(s, axis)) => LineOffsets(s, axis, i))
  }

  /** Offset lines and amount lines pair up, and every offset is in range. */
  predicate Fits(offs: seq<seq<int>>, amts: seq<seq<real>>, size: int) {
    |offs| == |amts|
    && forall i :: 0 <= i < |offs| ==> |offs[i]| == |amts[i]| && OffsetsIn(offs[i], size)
  }

  /** Position `(i0, j0)` is the only one aiming at its offset. */
  predicate HitOnce(offs: seq<seq<int>>, i0: int, j0: int)
    requires 0 <= i0 < |offs| && 0 <= j0 < |offs[i0]|
  {
    forall i, j :: 0 <= i < |offs| && 0 <= j < |offs[i]| && offs[i][j] == offs[i0][j0] ==> i == i0 && j == j0
  }

  /** The outer loop of `sum_backward_fn` and `max_backward_fn`: scatter
      line `i`'s amounts along line `i`, for `i = 0 .. n-1`. */
  function ScatterAll(grads: seq<real>, offs: seq<seq<int>>, amts: seq<seq<real>>, n: nat): (r: seq<real>)
    requires Fits(offs, amts, |grads|) && n <= |offs|
    ensures |r| == |grads|
  {
    if n == 0 then grads
    else ScatterAdd(ScatterAll(grads, offs, amts, n - 1), offs[n - 1], amts[n - 1])
  }

  /** After lines `0 .. n-1`, a position aimed at once, by `(i0, j0)`, has
      gained `amts[i0][j0]` if `i0 < n` and nothing otherwise. */
  lemma {:induction false} ScatterAllAt(grads: seq<real>, offs: seq<seq<int>>, amts: seq<seq<real>>, n: nat, i0: int, j0: int)
    requires Fits(offs, amts, |grads|) && n <= |offs|
    requires 0 <= i0 < |offs| && 0 <= j0 < |offs[i0]| && HitOnce(offs, i0, j0)
    ensures i0 < n ==> (ScatterAll(grads, offs, amts, n)[offs[i0][j0]]
      == grads[offs[i0][j0]] + amts[i0][j0])
    ensures n <= i0 ==> (ScatterAll(grads, offs, amts, n)[offs[i0][j0]] == grads[offs[i0][j0]])
    decreases n
  {
    if n > 0 {
      var p := offs[i0][j0];
      var prev := ScatterAll(grads, offs, amts, n - 1);
      ScatterAllAt(grads, offs, amts, n - 1, i0, j0);
      if i0 == n - 1 {
        ScatterOnce(prev, offs[i0], amts[i0], j0);
      } else {
        ScatterMiss(prev, offs[n - 1], amts[n - 1], p);
      }
    }
  }

  /** Amount lines of the axis's length fit the lines of that axis. */
  lemma AllLinesFit(s: Shape, axis: int, amts: seq<seq<real>>)
    requires ValidShape(s) && 0 <= axis < |s|
    requires |amts| == ShapeSize(RemoveAxis(s, axis))
    requires forall i :: 0 <= i < |amts| ==> |amts[i]| == s[axis]
    ensures Fits(AllLines(s, axis), amts, ShapeSize(s))
  {
  }

  /** The lines of an axis aim at distinct positions. */
  lemma AllLinesHitOnce(s: Shape, axis: int, i0: int, j0: int)
    requires ValidShape(s) && 0 <= axis < |s|
    requires 0 <= i0 < ShapeSize(RemoveAxis(s, axis)) && 0 <= j0 < s[axis]
    ensures HitOnce(AllLines(s, axis), i0, j0)
  {
    var offs := AllLines(s, axis);
    forall i, j | 0 <= i < |offs| && 0 <= j < |offs[i]| && offs[i][j] == offs[i0][j0]
      ensures i == i0 && j == j0
    {
      AxisOffsetInjective(s, axis, i, j, i0, j0);
    }
  }

  function SumLines(lines: seq<seq<real>>, n: nat): real
    requires n <= |lines|
  {
    if n == 0 then 0.0 else SumLines(lines, n - 1) + Sum(lines[n - 1])
  }

  lemma {:induction false} ScatterAllMass(grads: seq<real>, offs: seq<seq<int>>, amts: seq<seq<real>>, n: nat)
    requires Fits(offs, amts, |grads|) && n <= |offs|
    ensures Sum(ScatterAll(grads, offs, amts, n)) == Sum(grads) + SumLines(amts, n)
    decreases n
  {
    if n > 0 {
      ScatterAllMass(grads, offs, amts, n - 1);
      ScatterMass(ScatterAll(grads, offs, amts, n - 1), offs[n - 1], amts[n - 1]);
    }
  }

  /** Every element of line `i` gains `og[i]`. */
  function SpreadLines(grads: seq<real>, s: Shape, axis: int, og: seq<real>): (r: seq<real>)
    requires ValidShape(s) && 0 <= axis < |s| && |grads| == ShapeSize(s)
    requires |og| == ShapeSize(RemoveAxis(s, axis))
    ensures |r| == |grads|
  {
    var amts := seq(|og|, i requires 0 <= i < |og| => Constant(s[axis], og[i]));
    AllLinesFit(s, axis, amts);
    ScatterAll(grads, AllLines(s, axis), amts, |og|)
  }

  lemma SpreadLinesAt(grads: seq<real>, s: Shape, axis: int, og: seq<real>, i: int, j: int)
    requires ValidShape(s) && 0 <= axis < |s| && |grads| == ShapeSize(s)
    requires |og| == ShapeSize(RemoveAxis(s, axis))
    requires 0 <= i < |og| && 0 <= j < s[axis]
    ensures SpreadLines(grads, s, axis, og)[AxisOffset(s, axis, i, j)]
      == grads[AxisOffset(s, axis, i, j)] + og[i]
  {
    var amts := seq(|og|, i requires 0 <= i < |og| => Constant(s[axis], og[i]));
    AllLinesFit(s, axis, amts);
    AllLinesHitOnce(s, axis, i, j);
    ScatterAllAt(grads, AllLines(s, axis), amts, |og|, i, j);
  }

  /** `sum_backward_fn`: with `axis == -1` every element of the operand
      gains the output's one gradient; otherwise every element of line `i`
      gains the output's gradient `i`. */
  function SumBackward(g: Graph, h: Handle): (r: Graph)
    requires ValidGraph(g) && h in g.nodes && g.nodes[h].op == SumOp
    ensures ValidGraph(r) && SameButGrads(g, r)
    ensures forall x :: x in g.nodes && x !in g.nodes[h].edges ==> r.nodes[x] == g.nodes[x]
  {
    UnaryOperand(g, h);
    var w := g.nodes[h];
    var uh := w.edges[0];
    var u := g.nodes[uh];
    var axis := w.meta["axis"];
    if axis == -1 then
      SetGrads(g, uh, AddSeq(u.grads, Constant(|u.grads|, w.grads[0])))
    else
      NormalisePreserves(RemoveAxis(u.shape, axis));
      SetGrads(g, uh, SpreadLines(u.grads, u.shape, axis, w.grads))
  }

  /** Through `sum(u, axis)`, every element of `u` gains exactly the
      gradient of the output element it was summed into. */
  lemma SumBackwardAt(g: Graph, h: Handle, p: int)
    requires ValidGraph(g) && h in g.nodes && g.nodes[h].op == SumOp
    requires g.nodes[h].meta["axis"] != -1
    requires 0 <= p < |g.nodes[g.nodes[h].edges[0]].grads|
    ensures var u := g.nodes[g.nodes[h].edges[0]];
      var axis := g.nodes[h].meta["axis"];
      0 <= axis < |u.shape| && AxisSplit(u.shape, axis, p).0 < |g.nodes[h].grads|
      && SumBackward(g, h).nodes[g.nodes[h].edges[0]].grads[p]
         == u.grads[p] + g.nodes[h].grads[AxisSplit(u.shape, axis, p).0]
  {
    UnaryOperand(g, h);
    var w := g.nodes[h];
    var u := g.nodes[w.edges[0]];
    var axis := w.meta["axis"];
    NormalisePreserves(RemoveAxis(u.shape, axis));
    var (i, j) := AxisSplit(u.shape, axis, p);
    SpreadLinesAt(u.grads, u.shape, axis, w.grads, i, j);
  }

  /** Through `sum(u)` (all axes), every element of `u` gains the output's
      gradient. */
  lemma SumAllBackward(g: Graph, h: Handle)
    requires ValidGraph(g) && h in g.nodes && g.nodes[h].op == SumOp
    requires g.nodes[h].meta["axis"] == -1
    ensures forall p :: 0 <= p < |g.nodes[g.nodes[h].edges[0]].grads| ==>
      SumBackward(g, h).nodes[g.nodes[h].edges[0]].grads[p]
        == g.nodes[g.nodes[h].edges[0]].grads[p] + g.nodes[h].grads[0]
  {
    UnaryOperand(g, h);
  }

  /** `share` at every element equal to `m`, 0 elsewhere. */
  function TieShares(line: seq<real>, m: real, share: real): (r: seq<real>)
    ensures |r| == |line|
  {
    seq(|line|, j requires 0 <= j < |line| => if line[j] == m then share else 0.0)
  }

  lemma {:induction false} TieSharesSum(line: seq<real>, m: real, share: real)
    ensures Sum(TieShares(line, m, share)) == (CountOf(line, m) as real) * share
    decreases |line|
  {
    if |line| > 0 {
      assert TieShares(line, m, share)[1..] == TieShares(line[1..], m, share);
      TieSharesSum(line[1..], m, share);
    }
  }

  /** The amounts `max_backward_fn` sends along one line: the output
      gradient split evenly among the elements equal to the output value.
      Adding 0 at the other elements stands for the source skipping them. */
  function SplitTies(line: seq<real>, m: real, gr: real): (r: seq<real>)
    ensures |r| == |line|
  {
    var cnt := CountOf(line, m);
    TieShares(line, m, if cnt == 0 then 0.0 else gr / (cnt as real))
  }

  /** A line that attains its maximum passes on exactly the output
      gradient, however many elements tie. */
  lemma SplitTiesTotal(line: seq<real>, m: real, gr: real)
    requires exists j :: 0 <= j < |line| && line[j] == m
    ensures Sum(SplitTies(line, m, gr)) == gr
  {
    var cnt := CountOf(line, m);
    TieSharesSum(line, m, gr / (cnt as real));
    DivMul(gr, cnt as real);
  }

  /** The amounts for every line of `u` along `axis`. */
  function MaxLines(u: Node, w: Node, axis: int): (r: seq<seq<real>>)
    requires WellFormed(u) && 0 <= axis < |u.shape|
    requires |w.values| == |w.grads| == ShapeSize(RemoveAxis(u.shape, axis))
    ensures |r| == |w.grads| && forall i :: 0 <= i < |r| ==> |r[i]| == u.shape[axis]
  {
    seq(|w.grads|, i requires 0 <= i < |w.grads| => SplitTies(AxisLine(u, axis, i), w.values[i], w.grads[i]))
  }

  /** `max_backward_fn`: along every line, the elements equal to the
      output's value share its gradient evenly. */
  function MaxBackward(g: Graph, h: Handle): (r: Graph)
    requires ValidGraph(g) && h in g.nodes && g.nodes[h].op == MaxOp
    ensures ValidGraph(r) && SameButGrads(g, r)
    ensures forall x :: x in g.nodes && x !in g.nodes[h].edges ==> r.nodes[x] == g.nodes[x]
  {
    UnaryOperand(g, h);
    var w := g.nodes[h];
    var uh := w.edges[0];
    var u := g.nodes[uh];
    var axis := w.meta["axis"];
    NormalisePreserves(RemoveAxis(u.shape, axis));
    SetGrads(g, uh, MaxScatter(u, w, axis))
  }

  /** The operand's gradients after every line has received its share. */
  function MaxScatter(u: Node, w: Node, axis: int): (r: seq<real>)
    requires WellFormed(u) && 0 <= axis < |u.shape|
    requires |w.values| == |w.grads| == ShapeSize(RemoveAxis(u.shape, axis))
    ensures |r| == |u.grads|
  {
    var lines := MaxLines(u, w, axis);
    AllLinesFit(u.shape, axis, lines);
    ScatterAll(u.grads, AllLines(u.shape, axis), lines, |lines|)
  }

  /** Line totals that match `gs` add up to the total of `gs`. */
  lemma {:induction false} SumLinesTotal(amts: seq<seq<real>>, gs: seq<real>, n: nat)
    requires |amts| == |gs| && n <= |amts|
    requires forall i :: 0 <= i < |amts| ==> Sum(amts[i]) == gs[i]
    ensures SumLines(amts, n) == Sum(gs[..n])
    decreases n
  {
    if n > 0 {
      SumLinesTotal(amts, gs, n - 1);
      assert gs[..n] == gs[..n - 1] + [gs[n - 1]];
      SumConcat(gs[..n - 1], [gs[n - 1]]);
    }
  }

  /** When the output holds the maxima of the operand's lines (as the
      forward pass computed them), the operand's gradient total grows by
      the output's gradient total. */
  lemma MaxBackwardMass(g: Graph, h: Handle)
    requires ValidGraph(g) && h in g.nodes && g.nodes[h].op == MaxOp
    requires var uh := g.nodes[h].edges[0];
      ReduceMax(g.nodes[uh], uh, g.nodes[h].meta["axis"]).Ok?
      && g.nodes[h].values == ReduceMax(g.nodes[uh], uh, g.nodes[h].meta["axis"]).value.values
    ensures Sum(MaxBackward(g, h).nodes[g.nodes[h].edges[0]].grads)
      == Sum(g.nodes[g.nodes[h].edges[0]].grads) + Sum(g.nodes[h].grads)
  {
    UnaryOperand(g, h);
    var w := g.nodes[h];
    var uh := w.edges[0];
    var u := g.nodes[uh];
    var axis := w.meta["axis"];
    NormalisePreserves(RemoveAxis(u.shape, axis));
    MaxLinesTotals(u, uh, w, axis);
    MaxScatterMass(u, w, axis);
  }

  /** When each line's shares add up to that line's output gradient, the
      scatter adds the output's whole gradient to the operand's. */
  lemma MaxScatterMass(u: Node, w: Node, axis: int)
    requires WellFormed(u) && 0 <= axis < |u.shape|
    requires |w.values| == |w.grads| == ShapeSize(RemoveAxis(u.shape, axis))
    requires forall i :: 0 <= i < |w.grads| ==> Sum(MaxLines(u, w, axis)[i]) == w.grads[i]
    ensures Sum(MaxScatter(u, w, axis)) == Sum(u.grads) + Sum(w.grads)
  {
    var lines := MaxLines(u, w, axis);
    AllLinesFit(u.shape, axis, lines);
    ScatterAllMass(u.grads, AllLines(u.shape, axis), lines, |lines|);
    SumLinesAll(lines, w.grads);
  }

  lemma SumLinesAll(amts: seq<seq<real>>, gs: seq<real>)
    requires |amts| == |gs| && forall i :: 0 <= i < |amts| ==> Sum(amts[i]) == gs[i]
    ensures SumLines(amts, |amts|) == Sum(gs)
  {
    SumLinesTotal(amts, gs, |amts|);
    assert gs[..|amts|] == gs;
  }

  /** Each line's shares add up to that line's output gradient. */
  lemma MaxLinesTotals(u: Node, uh: Handle, w: Node, axis: int)
    requires WellFormed(u) && 0 <= axis < |u.shape|
    requires |w.values| == |w.grads| == ShapeSize(RemoveAxis(u.shape, axis))
    requires w.values == ReduceMax(u, uh, axis).value.values
    ensures forall i :: 0 <= i < |w.grads| ==> Sum(MaxLines(u, w, axis)[i]) == w.grads[i]
  {
    var lines := MaxLines(u, w, axis);
    forall i | 0 <= i < |lines|
      ensures Sum(lines[i]) == w.grads[i]
    {
      MaxAttained(u, uh, axis, i);
      SplitTiesTotal(AxisLine(u, axis, i), w.values[i], w.grads[i]);
    }
  }

  // ---------------------------------------------------------------------
  // relu

  /** `relu_backward_fn`: the gradient passes where the input is positive
      and is blocked elsewhere. */
  function ReluBackward(g: Graph, h: Handle): (r: Graph)
    requires ValidGraph(g) && h in g.nodes && g.nodes[h].op == ReluOp
    ensures ValidGraph(r) && SameButGrads(g, r)
    ensures forall x :: x in g.nodes && x !in g.nodes[h].edges ==> r.nodes[x] == g.nodes[x]
    ensures forall i :: 0 <= i < |g.nodes[h].grads| ==>
      r.nodes[g.nodes[h].edges[0]].grads[i] == g.nodes[g.nodes[h].edges[0]].grads[i]
        + (if g.nodes[g.nodes[h].edges[0]].values[i] > 0.0 then g.nodes[h].grads[i] else 0.0)
  {
    UnaryOperand(g, h);
    var w := g.nodes[h];
    var uh := w.edges[0];
    var u := g.nodes[uh];
    var n := |u.grads|;
    var d := seq(n, i requires 0 <= i < n => w.grads[i] * (if u.values[i] > 0.0 then 1.0 else 0.0));
    SetGrads(g, uh, AddSeq(u.grads, d))
  }

  // ---------------------------------------------------------------------
  // matmul

  /** The products the `j` loop adds into entry `(i, k)` of the first
      operand's gradient: `grad w[i][j] * v[k][j]`. */
  function LeftTerms(w: Node, v: Node, i: int, k: int): (r: seq<real>)
    requires WellFormed(w) && WellFormed(v) && |w.shape| == 2 && |v.shape| == 2
    requires v.shape[1] == w.shape[1] && 0 <= i < w.shape[0] && 0 <= k < v.shape[0]
    ensures |r| == w.shape[1]
    ensures forall j :: 0 <= j < w.shape[1] ==> r[j] == GradEntry(w, i, j) * Entry(v, k, j)
  {
    seq(w.shape[1], j requires 0 <= j < w.shape[1] => GradEntry(w, i, j) * Entry(v, k, j))
  }

  /** The products the `i` loop adds into entry `(k, j)` of the second
      operand's gradient: `grad w[i][j] * u[i][k]`. */
  function RightTerms(w: Node, u: Node, k: int, j: int): (r: seq<real>)
    requires WellFormed(w) && WellFormed(u) && |w.shape| == 2 && |u.shape| == 2
    requires u.shape[0] == w.shape[0] && 0 <= k < u.shape[1] && 0 <= j < w.shape[1]
    ensures |r| == w.shape[0]
    ensures forall i :: 0 <= i < w.shape[0] ==> r[i] == GradEntry(w, i, j) * Entry(u, i, k)
  {
    seq(w.shape[0], i requires 0 <= i < w.shape[0] => GradEntry(w, i, j) * Entry(u, i, k))
  }

  function GradLeftAt(w: Node, v: Node, i: int, k: int): real
    requires WellFormed(w) && WellFormed(v) && |w.shape| == 2 && |v.shape| == 2
    requires v.shape[1] == w.shape[1] && 0 <= i < w.shape[0] && 0 <= k < v.shape[0]
  {
    Sum(LeftTerms(w, v, i, k))
  }

  function GradRightAt(w: Node, u: Node, k: int, j: int): real
    requires WellFormed(w) && WellFormed(u) && |w.shape| == 2 && |u.shape| == 2
    requires u.shape[0] == w.shape[0] && 0 <= k < u.shape[1] && 0 <= j < w.shape[1]
  {
    Sum(RightTerms(w, u, k, j))
  }

  /** Contribution to the first operand, laid out row-major like `u`. */
  function MatmulGradLeft(w: Node, u: Node, v: Node): (r: seq<real>)
    requires WellFormed(w) && WellFormed(u) && WellFormed(v)
    requires |u.shape| == 2 && |v.shape| == 2 && u.shape[1] == v.shape[0]
    requires w.shape == [u.shape[0], v.shape[1]]
    ensures |r| == |u.grads|
  {
    var m := u.shape[0];
    var kk := u.shape[1];
    ShapeSize2(u.shape);
    seq(m * kk, p requires 0 <= p < m * kk =>
      DivBound(p, kk, m);
      GradLeftAt(w, v, p / kk, p % kk))
  }

  /** Contribution to the second operand, laid out row-major like `v`. */
  function MatmulGradRight(w: Node, u: Node, v: Node): (r: seq<real>)
    requires WellFormed(w) && WellFormed(u) && WellFormed(v)
    requires |u.shape| == 2 && |v.shape| == 2 && u.shape[1] == v.shape[0]
    requires w.shape == [u.shape[0], v.shape[1]]
    ensures |r| == |v.grads|
  {
    var kk := u.shape[1];
    var n := v.shape[1];
    ShapeSize2(v.shape);
    seq(kk * n, q requires 0 <= q < kk * n =>
      DivBound(q, n, kk);
      GradRightAt(w, u, q / n, q % n))
  }

  lemma MatmulGradLeftAt(w: Node, u: Node, v: Node, i: int, k: int)
    requires WellFormed(w) && WellFormed(u) && WellFormed(v)
    requires |u.shape| == 2 && |v.shape| == 2 && u.shape[1] == v.shape[0]
    requires w.shape == [u.shape[0], v.shape[1]]
    requires 0 <= i < u.shape[0] && 0 <= k < u.shape[1]
    ensures 0 <= i * u.shape[1] + k < |u.grads|
    ensures MatmulGradLeft(w, u, v)[i * u.shape[1] + k] == GradLeftAt(w, v, i, k)
  {
    ShapeSize2(u.shape);
    BlockBound(i, u.shape[0], u.shape[1], k);
    ModUnique(i * u.shape[1] + k, u.shape[1], i, k);
  }

  lemma MatmulGradRightAt(w: Node, u: Node, v: Node, k: int, j: int)
    requires WellFormed(w) && WellFormed(u) && WellFormed(v)
    requires |u.shape| == 2 && |v.shape| == 2 && u.shape[1] == v.shape[0]
    requires w.shape == [u.shape[0], v.shape[1]]
    requires 0 <= k < v.shape[0] && 0 <= j < v.shape[1]
    ensures 0 <= k * v.shape[1] + j < |v.grads|
    ensures MatmulGradRight(w, u, v)[k * v.shape[1] + j] == GradRightAt(w, u, k, j)
  {
    ShapeSize2(v.shape);
    BlockBound(k, v.shape[0], v.shape[1], j);
    ModUnique(k * v.shape[1] + j, v.shape[1], k, j);
  }

  /** `matmul_backward_fn` as written: both operands' gradient buffers are
      copied first, each copy accumulates its contribution, and the copies
      are written back first operand, then second. When both edges name
      one node, the second write discards the first operand's
      contribution. */
  function MatmulBackwardAsWritten(g: Graph, h: Handle): (r: Graph)
    requires ValidGraph(g) && h in g.nodes && g.nodes[h].op == MatmulOp
    ensures ValidGraph(r) && SameButGrads(g, r)
  {
    MatmulOperands(g, h);
    var w := g.nodes[h];
    var uh := w.edges[0];
    var vh := w.edges[1];
    var u := g.nodes[uh];
    var v := g.nodes[vh];
    var ug := AddSeq(u.grads, MatmulGradLeft(w, u, v));
    var vg := AddSeq(v.grads, MatmulGradRight(w, u, v));
    var g1 := SetGrads(g, uh, ug);
    SetGrads(g1, vh, vg)
  }

  /** `matmul_backward_fn` with the contributions accumulated into the
      nodes themselves, as every other gradient function does. */
  function MatmulBackward(g: Graph, h: Handle): (r: Graph)
    requires ValidGraph(g) && h in g.nodes && g.nodes[h].op == MatmulOp
    ensures ValidGraph(r) && SameButGrads(g, r)
    ensures forall x :: x in g.nodes && x !in g.nodes[h].edges ==> r.nodes[x] == g.nodes[x]
  {
    MatmulOperands(g, h);
    var w := g.nodes[h];
    var uh := w.edges[0];
    var vh := w.edges[1];
    var u := g.nodes[uh];
    var v := g.nodes[vh];
    var g1 := SetGrads(g, uh, AddSeq(u.grads, MatmulGradLeft(w, u, v)));
    SetGrads(g1, vh, AddSeq(g1.nodes[vh].grads, MatmulGradRight(w, u, v)))
  }

  /** The gradient node of `w`: its gradients viewed as values. */
  function GradNode(w: Node): (r: Node)
    requires WellFormed(w)
    ensures WellFormed(r) && r.shape == w.shape && r.values == w.grads
  {
    w.(values := w.grads)
  }

  /** Entry `(i, k)` of the first operand's contribution is row `i` of
      the output gradient against row `k` of `v`. */
  lemma GradLeftAtIsRowCol(w: Node, v: Node, i: int, k: int)
    requires WellFormed(w) && WellFormed(v) && |w.shape| == 2 && |v.shape| == 2
    requires v.shape[1] == w.shape[1] && 0 <= i < w.shape[0] && 0 <= k < v.shape[0]
    ensures Transpose(v).Ok?
    ensures GradLeftAt(w, v, i, k) == RowCol(GradNode(w), Transpose(v).value, i, k)
  {
    var vt := Transpose(v).value;
    var gw := GradNode(w);
    var a := LeftTerms(w, v, i, k);
    var b := RowColTerms(gw, vt, i, k);
    forall j | 0 <= j < w.shape[1]
      ensures a[j] == b[j]
    {
      GradNodeEntry(w, i, j);
    }
    assert a == b;
  }

  lemma GradNodeEntry(w: Node, i: int, j: int)
    requires WellFormed(w) && |w.shape| == 2 && 0 <= i < w.shape[0] && 0 <= j < w.shape[1]
    ensures Entry(GradNode(w), i, j) == GradEntry(w, i, j)
  {
  }

  /** Entry `(k, j)` of the second operand's contribution is column `k` of
      `u` against column `j` of the output gradient. */
  lemma GradRightAtIsRowCol(w: Node, u: Node, k: int, j: int)
    requires WellFormed(w) && WellFormed(u) && |w.shape| == 2 && |u.shape| == 2
    requires u.shape[0] == w.shape[0] && 0 <= k < u.shape[1] && 0 <= j < w.shape[1]
    ensures Transpose(u).Ok?
    ensures GradRightAt(w, u, k, j) == RowCol(Transpose(u).value, GradNode(w), k, j)
  {
    var ut := Transpose(u).value;
    var gw := GradNode(w);
    var a := RightTerms(w, u, k, j);
    var b := RowColTerms(ut, gw, k, j);
    forall i | 0 <= i < w.shape[0]
      ensures a[i] == b[i]
    {
      GradNodeEntry(w, i, j);
    }
    assert a == b;
  }

  /** Entry `(i, j)` of a rank-2 node sits at offset `i * cols + j`. */
  lemma EntryAt(n: Node, i: int, j: int)
    requires WellFormed(n) && |n.shape| == 2 && 0 <= i < n.shape[0] && 0 <= j < n.shape[1]
    ensures 0 <= i * n.shape[1] + j < |n.values|
    ensures Entry(n, i, j) == n.values[i * n.shape[1] + j]
  {
    ShapeSize2(n.shape);
    BlockBound(i, n.shape[0], n.shape[1], j);
  }

  /** The first operand's contribution is `matmul(grad w, transpose(v))`
      computed by the forward operations. */
  lemma MatmulGradLeftIsProduct(w: Node, u: Node, v: Node, h: Handle, vh: Handle)
    requires WellFormed(w) && WellFormed(u) && WellFormed(v)
    requires |u.shape| == 2 && |v.shape| == 2 && u.shape[1] == v.shape[0]
    requires w.shape == [u.shape[0], v.shape[1]]
    ensures Transpose(v).Ok? && Matmul(GradNode(w), Transpose(v).value, h, vh).Ok?
    ensures MatmulGradLeft(w, u, v) == Matmul(GradNode(w), Transpose(v).value, h, vh).value.values
  {
    var m := u.shape[0];
    var kk := u.shape[1];
    var prod := Matmul(GradNode(w), Transpose(v).value, h, vh).value;
    var left := MatmulGradLeft(w, u, v);
    ShapeSize2(u.shape);
    ShapeSize2(prod.shape);
    forall p | 0 <= p < m * kk
      ensures left[p] == prod.values[p]
    {
      DivBound(p, kk, m);
      var i := p / kk;
      var k := p % kk;
      MatmulGradLeftAt(w, u, v, i, k);
      GradLeftAtIsRowCol(w, v, i, k);
      EntryAt(prod, i, k);
    }
  }

  /** The second operand's contribution is `matmul(transpose(u), grad w)`
      computed by the forward operations. */
  lemma MatmulGradRightIsProduct(w: Node, u: Node, v: Node, uh: Handle, h: Handle)
    requires WellFormed(w) && WellFormed(u) && WellFormed(v)
    requires |u.shape| == 2 && |v.shape| == 2 && u.shape[1] == v.shape[0]
    requires w.shape == [u.shape[0], v.shape[1]]
    ensures Transpose(u).Ok? && Matmul(Transpose(u).value, GradNode(w), uh, h).Ok?
    ensures MatmulGradRight(w, u, v) == Matmul(Transpose(u).value, GradNode(w), uh, h).value.values
  {
    var kk := v.shape[0];
    var n := v.shape[1];
    var prod := Matmul(Transpose(u).value, GradNode(w), uh, h).value;
    var right := MatmulGradRight(w, u, v);
    ShapeSize2(v.shape);
    ShapeSize2(prod.shape);
    forall q | 0 <= q < kk * n
      ensures right[q] == prod.values[q]
    {
      DivBound(q, n, kk);
      var k := q / n;
      var j := q % n;
      MatmulGradRightAt(w, u, v, k, j);
      GradRightAtIsRowCol(w, u, k, j);
      EntryAt(prod, k, j);
    }
  }

  /** With two distinct operands the two versions agree. */
  lemma MatmulBackwardDistinct(g: Graph, h: Handle)
    requires ValidGraph(g) && h in g.nodes && g.nodes[h].op == MatmulOp
    requires g.nodes[h].edges[0] != g.nodes[h].edges[1]
    ensures MatmulBackwardAsWritten(g, h) == MatmulBackward(g, h)
  {
  }

  /** Every operand receives each contribution aimed at it: distinct
      operands gain their own, and a node that is both operands gains
      both. */
  lemma MatmulBackwardAccumulates(g: Graph, h: Handle)
    requires ValidGraph(g) && h in g.nodes && g.nodes[h].op == MatmulOp
    ensures |g.nodes[h].edges| == 2
    ensures g.nodes[h].edges[0] in g.nodes && g.nodes[h].edges[1] in g.nodes
    ensures WellFormed(g.nodes[h]) && WellFormed(g.nodes[g.nodes[h].edges[0]])
      && WellFormed(g.nodes[g.nodes[h].edges[1]])
    ensures var u := g.nodes[g.nodes[h].edges[0]];
      var v := g.nodes[g.nodes[h].edges[1]];
      |u.shape| == 2 && |v.shape| == 2 && u.shape[1] == v.shape[0]
      && g.nodes[h].shape == [u.shape[0], v.shape[1]]
    ensures var w := g.nodes[h];
      var uh := w.edges[0];
      var vh := w.edges[1];
      var u := g.nodes[uh];
      var v := g.nodes[vh];
      var r := MatmulBackward(g, h);
      var left := MatmulGradLeft(w, u, v);
      var right := MatmulGradRight(w, u, v);
      if uh == vh then r.nodes[uh].grads == AddSeq(AddSeq(u.grads, left), right)
      else r.nodes[uh].grads == AddSeq(u.grads, left) && r.nodes[vh].grads == AddSeq(v.grads, right)
  {
    MatmulOperands(g, h);
  }

  /** `a` is the 1 by 1 matrix [1], `w = matmul(a, a)` with gradient 1.
      The written backward leaves `a` with gradient 1; the derivative of
      `a * a` is 2. */
  lemma MatmulAliasLosesGradient()
    ensures var g := SquareGraph();
      ValidGraph(g) && 0 in g.nodes && 1 in g.nodes && g.nodes[1].op == MatmulOp
      && MatmulBackwardAsWritten(g, 1).nodes[0].grads == [1.0]
      && MatmulBackward(g, 1).nodes[0].grads == [2.0]
  {
    var g := SquareGraph();
    MatmulOperands(g, 1);
    UnitSquareGrads(g.nodes[1], g.nodes[0]);
  }

  /** For the 1 by 1 matrix [1] and its square with gradient 1, each side's
      gradient is 1. */
  lemma UnitSquareGrads(w: Node, a: Node)
    requires WellFormed(w) && WellFormed(a) && a.shape == [1, 1] && w.shape == [1, 1]
    requires a.values == [1.0] && w.grads == [1.0]
    ensures MatmulGradLeft(w, a, a) == [1.0] && MatmulGradRight(w, a, a) == [1.0]
  {
    ShapeSize2(a.shape);
    assert Entry(a, 0, 0) == 1.0;
    assert GradEntry(w, 0, 0) == 1.0;
    MatmulGradLeftAt(w, a, a, 0, 0);
    MatmulGradRightAt(w, a, a, 0, 0);
    assert LeftTerms(w, a, 0, 0) == [1.0];
    assert RightTerms(w, a, 0, 0) == [1.0];
    assert [1.0][1..] == [] && Sum([1.0]) == 1.0;
    assert GradLeftAt(w, a, 0, 0) == 1.0 && GradRightAt(w, a, 0, 0) == 1.0;
    assert |a.grads| == 1;
  }

  /** A 1 by 1 leaf `[1]` (handle 0) and its square (handle 1) with
      gradient 1. */
  function SquareGraph(): (g: Graph)
    ensures ValidGraph(g) && g.nodes.Keys == {0, 1}
    ensures g.nodes[0].values == [1.0] && g.nodes[0].grads == [0.0] && g.nodes[0].shape == [1, 1]
    ensures g.nodes[1].op == MatmulOp && g.nodes[1].edges == [0, 0] && g.nodes[1].grads == [1.0]
    ensures g.nodes[1].shape == [1, 1]
  {
    var a := Filled([1, 1], 1.0);
    ShapeSize2(a.shape);
    assert a.values == [1.0] && a.grads == [0.0];
    var (g0, ah) := RecordLeaf(EmptyGraph(), a);
    var (g1, wh) := RecordMatmul(g0, ah, ah).value;
    var w := g1.nodes[wh];
    ShapeSize2(w.shape);
    SetGrads(g1, wh, [1.0])
  }

  // ---------------------------------------------------------------------
  // Dispatch

  /** Run node `h`'s gradient function, if it has one. Only the gradients
      of `h`'s operands change. */
  function Propagate(g: Graph, h: Handle): (r: Graph)
    requires ValidGraph(g) && h in g.nodes
    ensures ValidGraph(r) && SameButGrads(g, r)
    ensures forall x :: x in g.nodes && x !in g.nodes[h].edges ==> r.nodes[x] == g.nodes[x]
  {
    match g.nodes[h].op
    case LeafOp => g
    case AddOp => ElementwiseBackward(g, h)
    case SubOp => ElementwiseBackward(g, h)
    case MulOp => ElementwiseBackward(g, h)
    case SumOp => SumBackward(g, h)
    case MaxOp => MaxBackward(g, h)
    case ReluOp => ReluBackward(g, h)
    case MatmulOp => MatmulBackward(g, h)
  }
}

=== FILE: graph.dfy ===
/** The computation graph. The source links nodes by shared pointers, each
    node keeping handles to the nodes it was computed from; the model keeps
    every node in a store indexed by handle. A node is always recorded
    after its operands, so every edge points to a smaller handle: the graph
    is acyclic by construction. */
module Graphs {
  import opened Errors
  import opened View
  import opened RealSeq
  import opened Tensors

  datatype Graph = Graph(nodes: map<Handle, Node>, next: Handle)

  /** Every edge of `n` names a node in the store below `h`. */
  predicate EdgesBelow(nodes: map<Handle, Node>, n: Node, h: Handle) {
    forall k :: 0 <= k < |n.edges| ==> n.edges[k] in nodes && n.edges[k] < h
  }

  function OperandShapes(nodes: map<Handle, Node>, n: Node): (r: seq<Shape>)
    requires forall k :: 0 <= k < |n.edges| ==> n.edges[k] in nodes
    ensures |r| == |n.edges|
  {
    seq(|n.edges|, k requires 0 <= k < |n.edges| => nodes[n.edges[k]].shape)
  }

  /** What a node's gradient function needs of the shapes of its operands:
      the shapes the forward operation produced them with. */
  predicate ShapesAgree(n: Node, os: seq<Shape>) {
    |os| == |n.edges| &&
    match n.op
    case LeafOp => true
    case AddOp => |os| == 2 && ExpandsTo(os[0], n.shape) && ExpandsTo(os[1], n.shape)
    case SubOp => |os| == 2 && ExpandsTo(os[0], n.shape) && ExpandsTo(os[1], n.shape)
    case MulOp => |os| == 2 && ExpandsTo(os[0], n.shape) && ExpandsTo(os[1], n.shape)
    case ReluOp => |os| == 1 && os[0] == n.shape
    case SumOp =>
      |os| == 1 && "axis" in n.meta &&
      (if n.meta["axis"] == -1 then n.shape == [1]
       else 0 <= n.meta["axis"] < |os[0]| && n.shape == Normalise(RemoveAxis(os[0], n.meta["axis"])))
    case MaxOp =>
      |os| == 1 && "axis" in n.meta && 0 <= n.meta["axis"] < |os[0]|
      && n.shape == Normalise(RemoveAxis(os[0], n.meta["axis"]))
    case MatmulOp =>
      |os| == 2 && |os[0]| == 2 && |os[1]| == 2 && os[0][1] == os[1][0]
      && n.shape == [os[0][0], os[1][1]]
  }

  /** The graph invariant: handles below `next`, well-formed nodes, edges
      to smaller handles, and operand shapes that fit the gradient
      function. */
  predicate ValidGraph(g: Graph) {
    0 <= g.next &&
    forall h :: h in g.nodes ==>
      0 <= h < g.next && WellFormed(g.nodes[h]) && EdgesBelow(g.nodes, g.nodes[h], h)
      && ShapesAgree(g.nodes[h], OperandShapes(g.nodes, g.nodes[h]))
  }

  function EmptyGraph(): (g: Graph)
    ensures ValidGraph(g) && g.nodes == map[]
  {
    Graph(map[], 0)
  }

  /** `r` differs from `g` at most in gradient buffers, which keep their
      lengths. */
  predicate SameButGrads(g: Graph, r: Graph) {
    r.next == g.next && r.nodes.Keys == g.nodes.Keys &&
    forall h :: h in g.nodes ==>
      r.nodes[h] == g.nodes[h].(grads := r.nodes[h].grads)
      && |r.nodes[h].grads| == |g.nodes[h].grads|
  }

  lemma SameButGradsValid(g: Graph, r: Graph)
    requires ValidGraph(g) && SameButGrads(g, r)
    ensures ValidGraph(r)
  {
    forall h | h in r.nodes
      ensures OperandShapes(r.nodes, r.nodes[h]) == OperandShapes(g.nodes, g.nodes[h])
    {
    }
  }

  lemma SameButGradsTrans(a: Graph, b: Graph, c: Graph)
    requires SameButGrads(a, b) && SameButGrads(b, c)
    ensures SameButGrads(a, c)
  {
  }

  /** Replace one node's gradient buffer. */
  function SetGrads(g: Graph, h: Handle, grads: seq<real>): (r: Graph)
    requires ValidGraph(g) && h in g.nodes && |grads| == |g.nodes[h].grads|
    ensures ValidGraph(r) && SameButGrads(g, r) && r.nodes[h].grads == grads
    ensures forall x :: x in g.nodes && x != h ==> r.nodes[x] == g.nodes[x]
  {
    var r := Graph(g.nodes[h := g.nodes[h].(grads := grads)], g.next);
    SameButGradsValid(g, r);
    r
  }

  /** Record a new node under the next free handle. */
  function Record(g: Graph, n: Node): (r: (Graph, Handle))
    requires ValidGraph(g) && WellFormed(n)
    requires forall k :: 0 <= k < |n.edges| ==> n.edges[k] in g.nodes
    requires ShapesAgree(n, OperandShapes(g.nodes, n))
    ensures ValidGraph(r.0) && r.1 == g.next && r.0.next == g.next + 1
    ensures r.0.nodes == g.nodes[g.next := n] && g.next !in g.nodes
  {
    var nodes := g.nodes[g.next := n];
    var r := Graph(nodes, g.next + 1);
    assert OperandShapes(nodes, n) == OperandShapes(g.nodes, n);
    forall h | h in nodes
      ensures 0 <= h < r.next && WellFormed(nodes[h]) && EdgesBelow(nodes, nodes[h], h)
      ensures ShapesAgree(nodes[h], OperandShapes(nodes, nodes[h]))
    {
      if h != g.next {
        assert OperandShapes(nodes, nodes[h]) == OperandShapes(g.nodes, g.nodes[h]);
      }
    }
    (r, g.next)
  }

  // ---------------------------------------------------------------------
  // The operations, recorded in the graph

  /** A constant or parameter tensor. */
  function RecordLeaf(g: Graph, n: Node): (r: (Graph, Handle))
    requires ValidGraph(g) && WellFormed(n) && n.edges == [] && n.op == LeafOp
    ensures ValidGraph(r.0) && r.1 !in g.nodes && r.0.nodes == g.nodes[r.1 := n]
  {
    Record(g, n)
  }

  /** `u + v`, `u - v`, `u * v`, with broadcasting. */
  function RecordElementwise(g: Graph, uh: Handle, vh: Handle, op: Op): (r: Result<(Graph, Handle)>)
    requires ValidGraph(g) && uh in g.nodes && vh in g.nodes && IsElementwise(op)
    ensures r.Ok? <==> Broadcastable(g.nodes[uh].shape, g.nodes[vh].shape)
    ensures r.Ok? ==> ValidGraph(r.value.0) && r.value.1 !in g.nodes
    ensures r.Ok? ==> r.value.0.nodes == g.nodes[r.value.1 := Binary(g.nodes[uh], g.nodes[vh], uh, vh, op).value]
  {
    var u := g.nodes[uh];
    var v := g.nodes[vh];
    var w := Binary(u, v, uh, vh, op);
    if w.Err? then Err(w.error)
    else
      var n := w.value;
      assert OperandShapes(g.nodes, n) == [u.shape, v.shape];
      assert ShapesAgree(n, [u.shape, v.shape]);
      Ok(Record(g, n))
  }

  /** `sum(u, axis)`. */
  function RecordSum(g: Graph, uh: Handle, axis: int): (r: (Graph, Handle))
    requires ValidGraph(g) && uh in g.nodes && (axis == -1 || 0 <= axis < |g.nodes[uh].shape|)
    ensures ValidGraph(r.0) && r.1 !in g.nodes
    ensures r.0.nodes == g.nodes[r.1 := ReduceSum(g.nodes[uh], uh, axis)]
  {
    var w := ReduceSum(g.nodes[uh], uh, axis);
    assert OperandShapes(g.nodes, w) == [g.nodes[uh].shape];
    Record(g, w)
  }

  /** `max(u, axis)`. */
  function RecordMax(g: Graph, uh: Handle, axis: int): (r: Result<(Graph, Handle)>)
    requires ValidGraph(g) && uh in g.nodes
    ensures r.Ok? <==> 0 <= axis < |g.nodes[uh].shape|
    ensures r.Ok? ==> ValidGraph(r.value.0) && r.value.1 !in g.nodes
    ensures r.Ok? ==> r.value.0.nodes == g.nodes[r.value.1 := ReduceMax(g.nodes[uh], uh, axis).value]
  {
    var w := ReduceMax(g.nodes[uh], uh, axis);
    if w.Err? then Err(w.error)
    else
      assert OperandShapes(g.nodes, w.value) == [g.nodes[uh].shape];
      Ok(Record(g, w.value))
  }

  /** `relu(u)`. */
  function RecordRelu(g: Graph, uh: Handle): (r: (Graph, Handle))
    requires ValidGraph(g) && uh in g.nodes
    ensures ValidGraph(r.0) && r.1 !in g.nodes
    ensures r.0.nodes == g.nodes[r.1 := Relu(g.nodes[uh], uh)]
  {
    var w := Relu(g.nodes[uh], uh);
    assert OperandShapes(g.nodes, w) == [g.nodes[uh].shape];
    Record(g, w)
  }

  /** `matmul(u, v)`. */
  function RecordMatmul(g: Graph, uh: Handle, vh: Handle): (r: Result<(Graph, Handle)>)
    requires ValidGraph(g) && uh in g.nodes && vh in g.nodes
    ensures r.Ok? <==> (|g.nodes[uh].shape| == 2 && |g.nodes[vh].shape| == 2
                        && g.nodes[uh].shape[1] == g.nodes[vh].shape[0])
    ensures r.Ok? ==> ValidGraph(r.value.0) && r.value.1 !in g.nodes
    ensures r.Ok? ==> r.value.0.nodes == g.nodes[r.value.1 := Matmul(g.nodes[uh], g.nodes[vh], uh, vh).value]
  {
    var w := Matmul(g.nodes[uh], g.nodes[vh], uh, vh);
    if w.Err? then Err(w.error)
    else
      assert OperandShapes(g.nodes, w.value) == [g.nodes[uh].shape, g.nodes[vh].shape];
      Ok(Record(g, w.value))
  }

  /** Unary minus: `Tensor() - u`, a scalar zero leaf minus `u`. */
  function RecordNegate(g: Graph, uh: Handle): (r: (Graph, Handle))
    requires ValidGraph(g) && uh in g.nodes && |g.nodes[uh].shape| >= 1
    ensures ValidGraph(r.0) && r.1 !in g.nodes && r.1 in r.0.nodes
    ensures r.0.nodes[r.1].shape == g.nodes[uh].shape
    ensures |r.0.nodes[r.1].values| == |g.nodes[uh].values|
    ensures forall i :: 0 <= i < |g.nodes[uh].values| ==>
      r.0.nodes[r.1].values[i] == -g.nodes[uh].values[i]
  {
    var (g1, zh) := RecordLeaf(g, Filled([1], 0.0));
    var u := g1.nodes[uh];
    var z := g1.nodes[zh];
    NegateValues(u, z, uh, zh);
    var w := Sub(z, u, zh, uh).value;
    assert OperandShapes(g1.nodes, w) == [z.shape, u.shape];
    Record(g1, w)
  }

  /** `0 - u` is `-u` element for element. */
  lemma NegateValues(u: Node, z: Node, uh: Handle, zh: Handle)
    requires WellFormed(u) && |u.shape| >= 1 && z == Filled([1], 0.0)
    ensures Sub(z, u, zh, uh).Ok? && Sub(z, u, zh, uh).value.shape == u.shape
    ensures forall i :: 0 <= i < |u.values| ==> Sub(z, u, zh, uh).value.values[i] == -u.values[i]
  {
    var w := Sub(z, u, zh, uh);
    assert FromBack(z.shape, 0) == 1;
    assert Broadcastable(z.shape, u.shape) by {
      forall j | 0 <= j < |z.shape| && j < |u.shape|
        ensures AxisCompatible(FromBack(z.shape, j), FromBack(u.shape, j))
      {
      }
    }
    BroadcastCommutative(u.shape, z.shape);
    ElementwiseScalarRight(u, z, uh, zh, SubOp, Minus);
    var out := w.value.shape;
    assert out == u.shape;
    forall i | 0 <= i < |u.values|
      ensures w.value.values[i] == -u.values[i]
    {
      OperandOffsetSameShape(u.shape, i);
      OperandOffsetScalar(u.shape, i);
      assert w.value.values[i] == Minus(z.values[0], u.values[i]);
    }
  }
}

=== FILE: jsgame.dfy ===
/** The rules engine of the browser front end (`backgammon.js`). It keeps
    the same position as the C++ engine but numbers two slots the other way
    round: slot 24 holds the borne-off checkers and slot 25 the bar. Its
    move search enumerates every order of playing the dice, one legal
    checker move per die, and bears off by the usual rule that a die
    larger than needed may bear off from the farthest occupied home point.
    The search backtracks by undoing the move it just made; here each
    branch works on its own copy, which `UndoMakeMove` shows to be the same
    thing. */
module JsGame {
  import opened Checkers
  import Game

  const White: int := 0
  const Black: int := 1
  const Out: int := 24
  const Bar: int := 25
  const BoardSize: int := 24

  type Move = seq<CheckerMove>

  // ---------------------------------------------------------------------
  // Comparing checker moves

  /** `CheckerMove.compare`: by `from`, then by `to`, as a difference. */
  function Compare(a: CheckerMove, b: CheckerMove): int {
    if a.from == b.from then a.to - b.to else a.from - b.from
  }

  /** The comparator's sign is the order both engines sort by: negative
      before, zero exactly for equal checker moves, and antisymmetric. */
  lemma CompareOrder(a: CheckerMove, b: CheckerMove)
    ensures Compare(a, b) < 0 <==> Less(a, b)
    ensures Compare(a, b) == 0 <==> a == b
    ensures Compare(a, b) == -Compare(b, a)
  {
  }

  /** `CheckerMove.listEquals`: the same length and `equals` at every
      index. */
  function ListEquals(a: Move, b: Move): (r: bool)
    ensures r <==> a == b
  {
    |a| == |b| && EqualFrom(a, b, 0)
  }

  /** The `every` of `listEquals` from index `i` on. */
  function EqualFrom(a: Move, b: Move, i: nat): (r: bool)
    requires |a| == |b| && i <= |a|
    ensures r <==> a[i..] == b[i..]
    decreases |a| - i
  {
    if i == |a| then true
    else
      assert a[i..] == [a[i]] + a[i + 1..] && b[i..] == [b[i]] + b[i + 1..];
      a[i] == b[i] && EqualFrom(a, b, i + 1)
  }

  // ---------------------------------------------------------------------
  // The position

  datatype State = State(turn: int, on: Board, made: seq<seq<Entry>>)

  predicate Valid(s: State) {
    Game.IsPlayer(s.turn) && ValidBoard(s.on) && forall k :: 0 <= k < |s.made| ==> EntriesOk(s.made[k])
  }

  /** The constructor: the starting position with White to move. */
  function Initial(): (s: State)
    ensures Valid(s)
  {
    var w := seq(Slots, i => if i == 5 then 5 else if i == 7 then 3 else if i == 12 then 5 else if i == 23 then 2 else 0);
    var b := seq(Slots, i => if i == 0 then 2 else if i == 11 then 5 else if i == 16 then 3 else if i == 18 then 5 else 0);
    State(White, [w, b], [])
  }

  /** The browser starts from the C++ engine's starting position (so from
      15 checkers each, none on the bar or off), with White to move. */
  lemma InitialSame()
    ensures Initial().on == Game.Initial().on
    ensures Initial().turn == White && Initial().made == []
  {
    var a, b := Initial().on, Game.Initial().on;
    assert a[0] == b[0];
    assert a[1] == b[1];
  }

  /** `canBearOff()`: the checkers on the home points and the borne-off
      ones make up all 15. */
  function CanBearOff(s: State): bool
    requires Valid(s)
  {
    Game.Count(s.on[s.turn], Game.Home(s.turn)) + s.on[s.turn][Out] == 15
  }

  /** For a player whose 15 checkers all have non-negative counts, bearing
      off is allowed exactly when none is outside the home points other
      than the borne-off ones. */
  lemma CanBearOffMeaning(s: State)
    requires Valid(s)
    requires forall i :: 0 <= i < Slots ==> s.on[s.turn][i] >= 0
    requires Total(s.on[s.turn]) == 15
    ensures CanBearOff(s) <==> forall i :: 0 <= i < Slots && i != Out && !Game.InHome(s.turn, i) ==> s.on[s.turn][i] == 0
  {
    var row := s.on[s.turn];
    Game.HomeCount(row, s.turn);
    assert row[0..Slots] == row;
    RangeOne(row, Out);
    RangeOne(row, Bar);
    RangeSplit(row, 0, 24, 26);
    RangeSplit(row, 24, 25, 26);
    if s.turn == White {
      RangeSplit(row, 0, 6, 24);
      RangeZero(row, 6, 24);
      if !CanBearOff(s) && Range(row, 6, 24) != 0 {
        var k := RangeNonZero(row, 6, 24);
      }
    } else {
      RangeSplit(row, 0, 18, 24);
      RangeZero(row, 0, 18);
      if !CanBearOff(s) && Range(row, 0, 18) != 0 {
        var k := RangeNonZero(row, 0, 18);
      }
    }
  }

  // ---------------------------------------------------------------------
  // Making and taking back moves

  /** `makeMove(move)`. */
  function MakeMove(s: State, move: Move): (r: State)
    requires Valid(s) && MoveOk(move)
    ensures Valid(r) && r.turn == s.turn && |r.made| == |s.made| + 1 && r.made[..|s.made|] == s.made
  {
    var p := Play(s.on, s.turn, move, Bar, Out);
    State(s.turn, p.0, s.made + [p.1])
  }

  /** `undoMove()`: pop the last undo list and take back its transfers,
      first to last. */
  function UndoMove(s: State): (r: State)
    requires Valid(s) && |s.made| > 0
    ensures Valid(r) && r.turn == s.turn && r.made == s.made[..|s.made| - 1]
  {
    var u := s.made[|s.made| - 1];
    State(s.turn, BackwardAll(s.on, u), s.made[..|s.made| - 1])
  }

  /** Taking back a move just made restores the position. */
  lemma UndoMakeMove(s: State, move: Move)
    requires Valid(s) && MoveOk(move)
    ensures UndoMove(MakeMove(s, move)) == s
  {
    var p := Play(s.on, s.turn, move, Bar, Out);
    BackwardForward(s.on, p.1);
    assert (s.made + [p.1])[..|s.made|] == s.made;
  }

  /** A move changes no player's number of checkers. */
  lemma MakeMoveConserves(s: State, move: Move, q: int)
    requires Valid(s) && MoveOk(move) && 0 <= q < 2
    ensures Total(MakeMove(s, move).on[q]) == Total(s.on[q])
  {
    ForwardAllTotal(s.on, Play(s.on, s.turn, move, Bar, Out).1, q);
  }

  // ---------------------------------------------------------------------
  // Pip count and race, with this engine's slots, and the C++ engine

  function PipCount(s: State, p: int): int
    requires ValidBoard(s.on) && 0 <= p < 2
  {
    Pip(s.on[p], p, Bar)
  }

  function IsRace(s: State): bool
    requires ValidBoard(s.on)
  {
    Race(s.on, Bar, Out)
  }

  /** `js` and `cpp` hold the same position: the same player to move and
      the same checkers on every point, on the bar and off the board,
      each engine keeping the bar and the borne-off checkers in its own
      slots. */
  predicate SameAsCpp(js: State, cpp: Game.State)
    requires Valid(js) && Game.Valid(cpp)
  {
    js.turn == cpp.turn && SamePosition(js.on, Bar, Out, cpp.on, Game.Bar, Game.Out)
  }

  /** On the same position the two engines agree on the pip counts, on
      whether the game is a race and on whether the player to move may
      bear off. */
  lemma SameAsCppAgrees(js: State, cpp: Game.State)
    requires Valid(js) && Game.Valid(cpp) && SameAsCpp(js, cpp)
    ensures forall p :: 0 <= p < 2 ==> PipCount(js, p) == Game.PipCount(cpp, p)
    ensures IsRace(js) == Game.IsRace(cpp)
    ensures CanBearOff(js) == Game.CanBearOff(cpp)
  {
    SamePositionSame(js.on, Bar, Out, cpp.on, Game.Bar, Game.Out);
    var h := Game.Home(js.turn);
    var a, b := js.on[js.turn], cpp.on[js.turn];
    SameCount(a, b, h);
  }

  lemma {:induction false} SameCount(a: seq<int>, b: seq<int>, points: seq<int>)
    requires |a| == Slots && |b| == Slots
    requires forall k :: 0 <= k < |points| ==> 0 <= points[k] < BoardSize
    requires forall i :: 0 <= i < BoardSize ==> a[i] == b[i]
    ensures Game.Count(a, points) == Game.Count(b, points)
    decreases |points|
  {
    if |points| > 0 {
      SameCount(a, b, points[1..]);
    }
  }

  // ---------------------------------------------------------------------
  // Bearing off with a die

  /** The bear-off rule the browser applies: a die bears a checker off
      from the point exactly that many pips from the end, or from a point
      nearer the end when no own checker lies on a home point farther out.
      */
  predicate BearOffRule(s: State, from: int, d: int)
    requires Valid(s)
  {
    var me := s.turn;
    var need := Distance(me, from);
    d == need
    || (d > need && forall i :: 0 <= i < BoardSize && Game.InHome(me, i) && Distance(me, i) > need ==> s.on[me][i] == 0)
  }

  /** `canBearOffFromDelta(from, delta)`. */
  function BearOffFromDelta(s: State, from: int, d: int): bool
    requires Valid(s) && 0 <= from < BoardSize && 1 <= d <= 6
  {
    var me := s.turn;
    var dir := Game.Direction(me);
    var bp := Game.BearPoint(me, d);
    if from == bp then true
    else if (me == White && from > bp) || (me == Black && from < bp) then false
    else Clear(s.on[me], if me == White then 5 else 18, from, dir)
  }

  /** The loop of `canBearOffFromDelta`: no checker on the points from
      `point`, stepping by `dir`, up to but not including `from`. */
  function Clear(row: seq<int>, point: int, from: int, dir: int): bool
    requires |row| == Slots && (dir == -1 || dir == 1)
    requires 0 <= from < BoardSize && 0 <= point < BoardSize
    requires if dir == -1 then from <= point else point <= from
    decreases if dir == -1 then point - from else from - point
  {
    if point == from then true
    else if row[point] != 0 then false
    else Clear(row, point + dir, from, dir)
  }

  lemma {:induction false} ClearMeaning(row: seq<int>, point: int, from: int, dir: int)
    requires |row| == Slots && (dir == -1 || dir == 1)
    requires 0 <= from < BoardSize && 0 <= point < BoardSize
    requires if dir == -1 then from <= point else point <= from
    ensures Clear(row, point, from, dir) <==>
      forall i :: (if dir == -1 then from < i <= point else point <= i < from) ==> row[i] == 0
    decreases if dir == -1 then point - from else from - point
  {
    if point != from && row[point] == 0 {
      ClearMeaning(row, point + dir, from, dir);
    }
  }

  /** The loop finds exactly what the rule demands. */
  lemma BearOffFromDeltaMeaning(s: State, from: int, d: int)
    requires Valid(s) && 0 <= from < BoardSize && 1 <= d <= 6
    ensures BearOffFromDelta(s, from, d) <==> BearOffRule(s, from, d)
  {
    var me := s.turn;
    var dir := Game.Direction(me);
    var bp := Game.BearPoint(me, d);
    if from != bp && !((me == White && from > bp) || (me == Black && from < bp)) {
      ClearMeaning(s.on[me], if me == White then 5 else 18, from, dir);
    }
  }

  // ---------------------------------------------------------------------
  // Legal plays of the dice

  predicate IsDice(ds: seq<int>) {
    forall k :: 0 <= k < |ds| ==> 1 <= ds[k] <= 6
  }

  /** `from + direction * d`: `d` pips forward from `from`, down for
      White and up for Black. */
  function Target(p: int, from: int, d: int): int {
    if p == White then from - d else from + d
  }

  /** A checker move die `d` allows: with a checker on the bar only its
      entry, onto a point with at most one opposing checker; otherwise an
      own checker moved `d` pips forward onto such a point, or, when the
      player may bear off, borne off by `BearOffRule`. */
  predicate LegalStep(s: State, d: int, x: CheckerMove)
    requires Valid(s) && 1 <= d <= 6
  {
    var me, o := s.turn, 1 - s.turn;
    if s.on[me][Bar] != 0 then
      x == CheckerMove(Bar, Game.EntryPoint(me, d)) && s.on[o][x.to] <= 1
    else
      0 <= x.from < BoardSize && s.on[me][x.from] != 0
      && ((x.to == Target(me, x.from, d) && 0 <= x.to < BoardSize && s.on[o][x.to] <= 1)
          || (x.to == Out && CanBearOff(s) && BearOffRule(s, x.from, d)))
  }

  /** `t` plays the dice from the `index`-th on, in order: one legal
      checker move per die, each from the position the earlier ones
      left. */
  predicate Plays(s: State, ds: seq<int>, index: nat, t: Move)
    requires Valid(s) && IsDice(ds) && index <= |ds|
    decreases |ds| - index
  {
    if index == |ds| then t == []
    else |t| > 0 && LegalStep(s, ds[index], t[0]) && Plays(MakeMove(s, [t[0]]), ds, index + 1, t[1..])
  }

  /** `m` is `move` followed by a play of the dice from `index` on. */
  predicate Completes(s: State, ds: seq<int>, index: nat, move: Move, m: Move)
    requires Valid(s) && IsDice(ds) && index <= |ds|
  {
    |move| <= |m| && m[..|move|] == move && Plays(s, ds, index, m[|move|..])
  }

  lemma CompletesFirst(s: State, ds: seq<int>, index: nat, move: Move, m: Move)
    requires Valid(s) && IsDice(ds) && index < |ds| && Completes(s, ds, index, move, m)
    ensures |move| < |m| && LegalStep(s, ds[index], m[|move|])
  {
  }

  /** Extending `move` by a legal checker move `x` leaves exactly the
      completions of `move` whose next checker move is `x`. */
  lemma CompletesStep(s: State, ds: seq<int>, index: nat, move: Move, x: CheckerMove, m: Move)
    requires Valid(s) && IsDice(ds) && index < |ds| && LegalStep(s, ds[index], x)
    ensures Completes(MakeMove(s, [x]), ds, index + 1, move + [x], m)
      <==> Completes(s, ds, index, move, m) && |move| < |m| && m[|move|] == x
  {
    var n := |move|;
    if |m| > n {
      var t := m[n..];
      assert t[0] == m[n] && t[1..] == m[n + 1..];
      assert m[..n + 1] == m[..n] + [m[n]];
      if m[..n + 1] == move + [x] {
        assert m[..n] == (move + [x])[..n] == move;
      }
    }
  }

  // ---------------------------------------------------------------------
  // The search

  predicate Prefix(a: seq<Move>, b: seq<Move>) {
    |a| <= |b| && b[..|a|] == a
  }

  lemma PrefixTrans(a: seq<Move>, b: seq<Move>, c: seq<Move>)
    requires Prefix(a, b) && Prefix(b, c)
    ensures Prefix(a, c)
    ensures forall m :: m in c[|a|..] <==> m in b[|a|..] || m in c[|b|..]
  {
    assert c[..|a|] == c[..|b|][..|a|];
    assert c[|a|..] == b[|a|..] + c[|b|..];
  }

  /** `findMoves(deltas, index, move, moves)`: appends to `moves` every
      completion of `move` by the dice from `index` on. */
  function FindMoves(s: State, ds: seq<int>, index: nat, move: Move, moves: seq<Move>): (r: seq<Move>)
    requires Valid(s) && IsDice(ds) && index <= |ds|
    ensures Prefix(moves, r)
    decreases |ds| - index, 2, 0
  {
    if index == |ds| then moves + [move]
    else
      var me := s.turn;
      var d := ds[index];
      if s.on[me][Bar] != 0 then
        var to := Target(me, if me == White then 24 else -1, d);
        if 0 <= to < BoardSize && s.on[1 - me][to] <= 1 then
          var x := CheckerMove(Bar, to);
          FindMoves(MakeMove(s, [x]), ds, index + 1, move + [x], moves)
        else moves
      else FromLoop(s, ds, index, CanBearOff(s), 0, move, moves)
  }

  /** The loop of `findMoves` over the points from `from` on, with
      `bear` the value of `canBearOff()` taken before it: for each point
      with an own checker, the ordinary move and then the bear-off. */
  function FromLoop(s: State, ds: seq<int>, index: nat, bear: bool, from: nat, move: Move, moves: seq<Move>): (r: seq<Move>)
    requires Valid(s) && IsDice(ds) && index < |ds| && from <= BoardSize
    ensures Prefix(moves, r)
    decreases |ds| - index, 1, BoardSize - from
  {
    if from == BoardSize then moves
    else if s.on[s.turn][from] == 0 then FromLoop(s, ds, index, bear, from + 1, move, moves)
    else
      var m1 := TryNormal(s, ds, index, from, move, moves);
      var m2 := TryBearOff(s, ds, index, bear, from, move, m1);
      var r := FromLoop(s, ds, index, bear, from + 1, move, m2);
      PrefixTrans(moves, m1, m2);
      PrefixTrans(moves, m2, r);
      r
  }

  /** The ordinary move of the checker on `from`: made, searched from and
      taken back, if its target is on the board and not blocked. */
  function TryNormal(s: State, ds: seq<int>, index: nat, from: nat, move: Move, moves: seq<Move>): (r: seq<Move>)
    requires Valid(s) && IsDice(ds) && index < |ds| && from < BoardSize
    ensures Prefix(moves, r)
    decreases |ds| - index, 0, 0
  {
    var to := Target(s.turn, from, ds[index]);
    var x := CheckerMove(from, to);
    if 0 <= to < BoardSize && s.on[1 - s.turn][to] <= 1
    then FindMoves(MakeMove(s, [x]), ds, index + 1, move + [x], moves)
    else moves
  }

  /** The bear-off of the checker on `from`: made, searched from and taken
      back, if `bear` holds and `canBearOffFromDelta` allows it. */
  function TryBearOff(s: State, ds: seq<int>, index: nat, bear: bool, from: nat, move: Move, moves: seq<Move>): (r: seq<Move>)
    requires Valid(s) && IsDice(ds) && index < |ds| && from < BoardSize
    ensures Prefix(moves, r)
    decreases |ds| - index, 0, 0
  {
    var y := CheckerMove(from, Out);
    if bear && BearOffFromDelta(s, from, ds[index])
    then FindMoves(MakeMove(s, [y]), ds, index + 1, move + [y], moves)
    else moves
  }

  /** The search appends exactly the completions of `move`: every move it
      records plays the remaining dice legally, and every legal play of
      them is recorded. */
  lemma {:induction false} FindMovesExact(s: State, ds: seq<int>, index: nat, move: Move, moves: seq<Move>)
    requires Valid(s) && IsDice(ds) && index <= |ds|
    ensures forall m: Move :: m in FindMoves(s, ds, index, move, moves) <==> m in moves || Completes(s, ds, index, move, m)
    decreases |ds| - index, 2, 0
  {
    var r := FindMoves(s, ds, index, move, moves);
    var me := s.turn;
    if index == |ds| {
      forall m: Move
        ensures m in r <==> m in moves || Completes(s, ds, index, move, m)
      {
        if Completes(s, ds, index, move, m) {
          assert m == m[..|move|] + m[|move|..];
        }
        if m == move {
          assert m[|move|..] == [];
        }
      }
    } else if s.on[me][Bar] != 0 {
      var d := ds[index];
      var to := Target(me, if me == White then 24 else -1, d);
      var x := CheckerMove(Bar, to);
      if 0 <= to < BoardSize && s.on[1 - me][to] <= 1 {
        FindMovesExact(MakeMove(s, [x]), ds, index + 1, move + [x], moves);
        forall m: Move
          ensures m in r <==> m in moves || Completes(s, ds, index, move, m)
        {
          CompletesStep(s, ds, index, move, x, m);
          if Completes(s, ds, index, move, m) {
            CompletesFirst(s, ds, index, move, m);
          }
        }
      } else {
        forall m: Move
          ensures !Completes(s, ds, index, move, m)
        {
          if Completes(s, ds, index, move, m) {
            CompletesFirst(s, ds, index, move, m);
          }
        }
      }
    } else {
      FromLoopExact(s, ds, index, 0, move, moves);
      forall m: Move | Completes(s, ds, index, move, m)
        ensures |move| < |m| && 0 <= m[|move|].from
      {
        CompletesFirst(s, ds, index, move, m);
      }
    }
  }

  /** The loop from point `from` on appends exactly the completions whose
      next checker move starts at `from` or beyond. */
  lemma {:induction false} FromLoopExact(s: State, ds: seq<int>, index: nat, from: nat, move: Move, moves: seq<Move>)
    requires Valid(s) && IsDice(ds) && index < |ds| && from <= BoardSize && s.on[s.turn][Bar] == 0
    ensures forall m: Move :: m in FromLoop(s, ds, index, CanBearOff(s), from, move, moves) <==>
      m in moves || (Completes(s, ds, index, move, m) && |move| < |m| && from <= m[|move|].from)
    decreases |ds| - index, 1, BoardSize - from
  {
    if from == BoardSize {
      forall m: Move | Completes(s, ds, index, move, m)
        ensures |move| < |m| && m[|move|].from < BoardSize
      {
        CompletesFirst(s, ds, index, move, m);
      }
    } else if s.on[s.turn][from] == 0 {
      FromLoopExact(s, ds, index, from + 1, move, moves);
      forall m: Move | Completes(s, ds, index, move, m)
        ensures |move| < |m| && m[|move|].from != from
      {
        CompletesFirst(s, ds, index, move, m);
      }
    } else {
      var m1 := TryNormal(s, ds, index, from, move, moves);
      var m2 := TryBearOff(s, ds, index, CanBearOff(s), from, move, m1);
      TryNormalExact(s, ds, index, from, move, moves);
      TryBearOffExact(s, ds, index, from, move, m1);
      FromLoopExact(s, ds, index, from + 1, move, m2);
      FromSteps(s, ds, index, from, move, moves, m1, m2, FromLoop(s, ds, index, CanBearOff(s), from + 1, move, m2));
    }
  }

  lemma {:induction false} TryNormalExact(s: State, ds: seq<int>, index: nat, from: nat, move: Move, moves: seq<Move>)
    requires Valid(s) && IsDice(ds) && index < |ds| && from < BoardSize && s.on[s.turn][Bar] == 0
    requires s.on[s.turn][from] != 0
    ensures var to := Target(s.turn, from, ds[index]);
      var normal := 0 <= to < BoardSize && s.on[1 - s.turn][to] <= 1;
      forall m: Move :: m in TryNormal(s, ds, index, from, move, moves) <==>
        m in moves || (normal && Completes(s, ds, index, move, m) && |move| < |m| && m[|move|] == CheckerMove(from, to))
    decreases |ds| - index, 0, 0
  {
    var to := Target(s.turn, from, ds[index]);
    var x := CheckerMove(from, to);
    if 0 <= to < BoardSize && s.on[1 - s.turn][to] <= 1 {
      FindMovesExact(MakeMove(s, [x]), ds, index + 1, move + [x], moves);
      Extend(s, ds, index, move, x, moves, TryNormal(s, ds, index, from, move, moves));
    }
  }

  lemma {:induction false} TryBearOffExact(s: State, ds: seq<int>, index: nat, from: nat, move: Move, moves: seq<Move>)
    requires Valid(s) && IsDice(ds) && index < |ds| && from < BoardSize && s.on[s.turn][Bar] == 0
    requires s.on[s.turn][from] != 0
    ensures var off := CanBearOff(s) && BearOffFromDelta(s, from, ds[index]);
      forall m: Move :: m in TryBearOff(s, ds, index, CanBearOff(s), from, move, moves) <==>
        m in moves || (off && Completes(s, ds, index, move, m) && |move| < |m| && m[|move|] == CheckerMove(from, Out))
    decreases |ds| - index, 0, 0
  {
    var y := CheckerMove(from, Out);
    if CanBearOff(s) && BearOffFromDelta(s, from, ds[index]) {
      BearOffFromDeltaMeaning(s, from, ds[index]);
      FindMovesExact(MakeMove(s, [y]), ds, index + 1, move + [y], moves);
      Extend(s, ds, index, move, y, moves, TryBearOff(s, ds, index, CanBearOff(s), from, move, moves));
    }
  }

  /** The step at point `from`, with the lists before it (`m0`), after the
      ordinary move (`m1`), after the bear-off (`m2`) and after the rest of
      the loop (`m3`) given by what each adds. */
  lemma FromSteps(s: State, ds: seq<int>, index: nat, from: nat, move: Move, m0: seq<Move>, m1: seq<Move>, m2: seq<Move>, m3: seq<Move>)
    requires Valid(s) && IsDice(ds) && index < |ds| && from < BoardSize && s.on[s.turn][Bar] == 0
    requires s.on[s.turn][from] != 0
    requires var to := Target(s.turn, from, ds[index]);
      var normal := 0 <= to < BoardSize && s.on[1 - s.turn][to] <= 1;
      forall m: Move :: m in m1 <==> m in m0 || (normal && Completes(s, ds, index, move, m) && |move| < |m| && m[|move|] == CheckerMove(from, to))
    requires var off := CanBearOff(s) && BearOffFromDelta(s, from, ds[index]);
      forall m: Move :: m in m2 <==> m in m1 || (off && Completes(s, ds, index, move, m) && |move| < |m| && m[|move|] == CheckerMove(from, Out))
    requires forall m: Move :: m in m3 <==> m in m2 || (Completes(s, ds, index, move, m) && |move| < |m| && from + 1 <= m[|move|].from)
    ensures forall m: Move :: m in m3 <==> m in m0 || (Completes(s, ds, index, move, m) && |move| < |m| && from <= m[|move|].from)
  {
    forall m: Move
      ensures m in m3 <==> m in m0 || (Completes(s, ds, index, move, m) && |move| < |m| && from <= m[|move|].from)
    {
      FromStep(s, ds, index, from, move, m, m in m0, m in m1, m in m2, m in m3);
    }
  }

  /** One step of the loop at point `from`, for one move `m` and whether
      it is in the list before the step (`in0`), after the ordinary move
      (`in1`), after the bear-off (`in2`) and after the rest of the loop
      (`in3`). */
  lemma FromStep(s: State, ds: seq<int>, index: nat, from: nat, move: Move, m: Move, in0: bool, in1: bool, in2: bool, in3: bool)
    requires Valid(s) && IsDice(ds) && index < |ds| && from < BoardSize && s.on[s.turn][Bar] == 0
    requires s.on[s.turn][from] != 0
    requires var to := Target(s.turn, from, ds[index]);
      var normal := 0 <= to < BoardSize && s.on[1 - s.turn][to] <= 1;
      in1 <==> in0 || (normal && Completes(s, ds, index, move, m) && |move| < |m| && m[|move|] == CheckerMove(from, to))
    requires var off := CanBearOff(s) && BearOffFromDelta(s, from, ds[index]);
      in2 <==> in1 || (off && Completes(s, ds, index, move, m) && |move| < |m| && m[|move|] == CheckerMove(from, Out))
    requires in3 <==> in2 || (Completes(s, ds, index, move, m) && |move| < |m| && from + 1 <= m[|move|].from)
    ensures in3 <==> in0 || (Completes(s, ds, index, move, m) && |move| < |m| && from <= m[|move|].from)
  {
    BearOffFromDeltaMeaning(s, from, ds[index]);
    if Completes(s, ds, index, move, m) {
      CompletesFirst(s, ds, index, move, m);
    }
  }

  /** What the search adds after a legal checker move `x`, in terms of the
      position before it. */
  lemma Extend(s: State, ds: seq<int>, index: nat, move: Move, x: CheckerMove, before: seq<Move>, after: seq<Move>)
    requires Valid(s) && IsDice(ds) && index < |ds| && LegalStep(s, ds[index], x)
    requires forall m: Move :: m in after <==> m in before || Completes(MakeMove(s, [x]), ds, index + 1, move + [x], m)
    ensures forall m: Move :: m in after <==> m in before || (Completes(s, ds, index, move, m) && |move| < |m| && m[|move|] == x)
  {
    forall m: Move
      ensures m in after <==> m in before || (Completes(s, ds, index, move, m) && |move| < |m| && m[|move|] == x)
    {
      CompletesStep(s, ds, index, move, x, m);
    }
  }

  // ---------------------------------------------------------------------
  // `getMoves`

  /** The dice `getDeltas` hands out: a double four times over, otherwise
      the two dice. */
  predicate IsRoll(ds: seq<int>) {
    IsDice(ds)
    && ((|ds| == 4 && ds[1] == ds[0] && ds[2] == ds[0] && ds[3] == ds[0]) || (|ds| == 2 && ds[0] != ds[1]))
  }

  /** `getDeltas()` of the browser is `get_deltas()` of the C++ engine. */
  lemma DeltasRoll(a: int, b: int)
    requires 1 <= a <= 6 && 1 <= b <= 6
    ensures IsRoll(Game.Deltas(a, b))
  {
  }

  /** Some play of the dice from the `index`-th on exists. */
  ghost predicate CanPlay(s: State, ds: seq<int>, index: nat)
    requires Valid(s) && IsDice(ds) && index <= |ds|
  {
    exists t :: Plays(s, ds, index, t)
  }

  /** A search from scratch appends exactly the plays of the dice from
      `index` on. */
  lemma FindAll(s: State, ds: seq<int>, index: nat, moves: seq<Move>)
    requires Valid(s) && IsDice(ds) && index <= |ds|
    ensures forall t: Move :: t in FindMoves(s, ds, index, [], moves) <==> t in moves || Plays(s, ds, index, t)
    ensures moves == [] ==> (|FindMoves(s, ds, index, [], moves)| > 0 <==> CanPlay(s, ds, index))
  {
    FindMovesExact(s, ds, index, [], moves);
    forall t: Move
      ensures Completes(s, ds, index, [], t) <==> Plays(s, ds, index, t)
    {
      assert t[..0] == [] && t[0..] == t;
    }
    var r := FindMoves(s, ds, index, [], moves);
    if moves == [] && |r| > 0 {
      assert r[0] in r;
    }
    if moves == [] && CanPlay(s, ds, index) {
      var t :| Plays(s, ds, index, t);
      assert t in r;
    }
  }

  /** The doubles loop of `getMoves` from its `i`-th round on: search
      with the dice from the `i`-th on and stop at the first round that
      finds something. */
  function Doubles(s: State, ds: seq<int>, i: nat): seq<Move>
    requires Valid(s) && IsDice(ds) && |ds| == 4 && i <= 4
    decreases 4 - i
  {
    if i == 4 then []
    else
      var m := FindMoves(s, ds, i, [], []);
      if |m| > 0 then m else Doubles(s, ds, i + 1)
  }

  /** A play `t` of the dice from the `j`-th on, where no round from
      the `i`-th up to `j` could play anything. */
  ghost predicate FirstPlays(s: State, ds: seq<int>, i: nat, j: nat, t: Move)
    requires Valid(s) && IsDice(ds) && |ds| == 4
  {
    i <= j < 4 && Plays(s, ds, j, t) && forall k :: i <= k < j ==> !CanPlay(s, ds, k)
  }

  /** The doubles loop finds the plays of the most dice that can be
      played at all. */
  lemma {:induction false} DoublesExact(s: State, ds: seq<int>, i: nat)
    requires Valid(s) && IsDice(ds) && |ds| == 4 && i <= 4
    ensures forall t: Move :: t in Doubles(s, ds, i) <==> exists j :: FirstPlays(s, ds, i, j, t)
    decreases 4 - i
  {
    if i < 4 {
      FindAll(s, ds, i, []);
      var m := FindMoves(s, ds, i, [], []);
      if |m| > 0 {
        forall t: Move
          ensures t in Doubles(s, ds, i) <==> exists j :: FirstPlays(s, ds, i, j, t)
        {
          if t in m {
            assert FirstPlays(s, ds, i, i, t);
          }
          if exists j :: FirstPlays(s, ds, i, j, t) {
            var j :| FirstPlays(s, ds, i, j, t);
          }
        }
      } else {
        var next := i + 1;
        DoublesExact(s, ds, next);
        forall t: Move
          ensures t in Doubles(s, ds, i) <==> exists j :: FirstPlays(s, ds, i, j, t)
        {
          if exists j :: FirstPlays(s, ds, i, j, t) {
            var j :| FirstPlays(s, ds, i, j, t);
            assert j != i;
            assert FirstPlays(s, ds, next, j, t);
          }
          if exists j :: FirstPlays(s, ds, next, j, t) {
            var j :| FirstPlays(s, ds, next, j, t);
            assert FirstPlays(s, ds, i, j, t);
          }
        }
      }
    }
  }

  function Max(a: int, b: int): int {
    if a >= b then a else b
  }

  function Min(a: int, b: int): int {
    if a <= b then a else b
  }

  /** The searches of `getMoves`, before the sorting: for a double the
      doubles loop; otherwise both orders of the two dice, and only when
      neither plays both, the larger die alone and then the smaller. */
  function Search(s: State, ds: seq<int>): seq<Move>
    requires Valid(s) && IsRoll(ds)
  {
    if ds[0] == ds[1] then Doubles(s, ds, 0)
    else
      var a := FindMoves(s, ds, 0, [], []);
      var b := FindMoves(s, [ds[1], ds[0]], 0, [], a);
      if |b| > 0 then b
      else
        var hi := FindMoves(s, [Max(ds[0], ds[1])], 0, [], []);
        if |hi| > 0 then hi else FindMoves(s, [Min(ds[0], ds[1])], 0, [], [])
  }

  /** The plays the rules offer for a roll: as many dice as can be played,
      in either order for two different dice; when only one of two
      different dice can be played, the larger if it can. */
  ghost predicate Chosen(s: State, ds: seq<int>, t: Move)
    requires Valid(s) && IsRoll(ds)
  {
    if ds[0] == ds[1] then
      exists i :: FirstPlays(s, ds, 0, i, t)
    else
      var sw, hi, lo := [ds[1], ds[0]], [Max(ds[0], ds[1])], [Min(ds[0], ds[1])];
      if CanPlay(s, ds, 0) || CanPlay(s, sw, 0) then Plays(s, ds, 0, t) || Plays(s, sw, 0, t)
      else if CanPlay(s, hi, 0) then Plays(s, hi, 0, t)
      else Plays(s, lo, 0, t)
  }

  /** The searches find exactly the plays the rules offer. */
  lemma SearchExact(s: State, ds: seq<int>)
    requires Valid(s) && IsRoll(ds)
    ensures forall t: Move :: t in Search(s, ds) <==> Chosen(s, ds, t)
  {
    if ds[0] == ds[1] {
      DoublesExact(s, ds, 0);
    } else {
      var sw, hi, lo := [ds[1], ds[0]], [Max(ds[0], ds[1])], [Min(ds[0], ds[1])];
      FindAll(s, ds, 0, []);
      var a := FindMoves(s, ds, 0, [], []);
      FindAll(s, sw, 0, a);
      var b := FindMoves(s, sw, 0, [], a);
      assert |b| > 0 <==> CanPlay(s, ds, 0) || CanPlay(s, sw, 0) by {
        if |b| > 0 {
          assert b[0] in b;
        }
        if CanPlay(s, ds, 0) {
          var t :| Plays(s, ds, 0, t);
          assert t in b;
        }
        if CanPlay(s, sw, 0) {
          var t :| Plays(s, sw, 0, t);
          assert t in b;
        }
      }
      FindAll(s, hi, 0, []);
      FindAll(s, lo, 0, []);
    }
  }

  /** `moveSet.sort(CheckerMove.compare)`, as an insertion sort. */
  function SortMove(m: Move): (r: Move)
    ensures Sorted(r) && multiset(r) == multiset(m)
    decreases |m|
  {
    if |m| == 0 then []
    else
      var t := SortMove(m[1..]);
      InsertSorted(t, m[0]);
      assert m == [m[0]] + m[1..];
      Insert(t, m[0])
  }

  /** Whatever algorithm sorts by `compare`, the result is `SortMove`'s:
      a sorted arrangement of given checker moves is unique. */
  lemma SortCanonical(m: Move, t: Move)
    requires Sorted(t) && multiset(t) == multiset(m)
    ensures t == SortMove(m)
  {
    SortedUnique(t, SortMove(m));
  }

  function SortEach(ms: seq<Move>): (r: seq<Move>)
    ensures |r| == |ms| && forall k :: 0 <= k < |r| ==> r[k] == SortMove(ms[k])
  {
    seq(|ms|, k requires 0 <= k < |ms| => SortMove(ms[k]))
  }

  predicate Distinct(ms: seq<Move>) {
    forall i, j :: 0 <= i < j < |ms| ==> ms[i] != ms[j]
  }

  /** The deduplicating loop of `getMoves`: each move is kept the first
      time it comes, unless it is in `seen`. Two moves serialise to the
      same JSON text exactly when they are equal, so the text is not
      modelled. */
  function Dedup(ms: seq<Move>, seen: set<Move>): (r: seq<Move>)
    ensures Distinct(r)
    ensures forall m :: m in r <==> m in ms && m !in seen
    decreases |ms|
  {
    if |ms| == 0 then []
    else
      assert ms == [ms[0]] + ms[1..];
      if ms[0] in seen then Dedup(ms[1..], seen)
      else [ms[0]] + Dedup(ms[1..], seen + {ms[0]})
  }

  /** `getMoves(deltas)`. */
  function GetMoves(s: State, ds: seq<int>): seq<Move>
    requires Valid(s) && IsRoll(ds)
  {
    SortEach(Dedup(SortEach(Search(s, ds)), {}))
  }

  /** The moves of `SortEach(ms)` are the sorted forms of those of `ms`. */
  lemma SortEachMembers(ms: seq<Move>)
    ensures forall m :: m in SortEach(ms) <==> exists t :: t in ms && SortMove(t) == m
  {
    var r := SortEach(ms);
    forall m
      ensures m in r <==> exists t :: t in ms && SortMove(t) == m
    {
      if m in r {
        var k :| 0 <= k < |r| && r[k] == m;
        assert ms[k] in ms;
      }
      if exists t :: t in ms && SortMove(t) == m {
        var t :| t in ms && SortMove(t) == m;
        var k :| 0 <= k < |ms| && ms[k] == t;
        assert r[k] == m;
      }
    }
  }

  /** Sorting moves that are already sorted changes nothing. */
  lemma SortEachSorted(ms: seq<Move>)
    requires forall k :: 0 <= k < |ms| ==> Sorted(ms[k])
    ensures SortEach(ms) == ms
  {
    forall k | 0 <= k < |ms|
      ensures SortMove(ms[k]) == ms[k]
    {
      SortCanonical(ms[k], ms[k]);
    }
  }

  /** `getMoves` offers each move once, as its checker moves in sorted
      order, and offers exactly the sorted forms of the plays the rules
      allow for the roll; the second sort changes nothing. */
  lemma GetMovesSpec(s: State, ds: seq<int>)
    requires Valid(s) && IsRoll(ds)
    ensures var r := GetMoves(s, ds);
      Distinct(r)
      && (forall k :: 0 <= k < |r| ==> Sorted(r[k]))
      && (forall m :: m in r <==> exists t :: Chosen(s, ds, t) && SortMove(t) == m)
      && r == Dedup(SortEach(Search(s, ds)), {})
  {
    var f := Search(s, ds);
    var sorted := SortEach(f);
    var u := Dedup(sorted, {});
    assert forall k :: 0 <= k < |u| ==> Sorted(u[k]) by {
      forall k | 0 <= k < |u|
        ensures Sorted(u[k])
      {
        assert u[k] in sorted;
      }
    }
    SortEachSorted(u);
    SearchExact(s, ds);
    SortEachMembers(f);
  }
}

=== FILE: jsload.dfy ===
/** The browser player's `load`: it splits the parameter file at line
    breaks and every line at commas (JavaScript `String.split`, which
    keeps empty pieces), converts every piece with `Number`, and reads the
    weights by position, skipping one count before each of W1, b1, W2 and
    b2. `num` stands for `Number`. Reading past the end of the data gives
    `undefined`, here `None`. */
module JsLoad {
  import opened Errors
  import opened Text
  import opened Params
  import Arith

  /** JavaScript `s.split(d)` for a one-character separator: the pieces
      between separators, always one more than there are separators. */
  function JsSplit(s: string, d: char): (r: seq<string>)
    ensures |r| > 0 && forall k :: 0 <= k < |r| ==> d !in r[k]
    decreases |s|
  {
    var i := IndexOf(s, d);
    if i == |s| then
      assert s[..i] == s;
      [s]
    else [s[..i]] + JsSplit(s[i + 1..], d)
  }

  lemma JsSplitCons(a: string, d: char, rest: string)
    requires d !in a
    ensures JsSplit(a + [d] + rest, d) == [a] + JsSplit(rest, d)
  {
    var s := a + [d] + rest;
    var i := IndexOf(s, d);
    assert s[|a|] == d;
    assert s[..i] == a;
    assert s[i + 1..] == rest;
  }

  lemma JsSplitSingle(a: string, d: char)
    requires d !in a
    ensures JsSplit(a, d) == [a]
  {
  }

  /** Unlike `getline`, `split` turns a final line break into a final
      empty line. */
  lemma {:induction false} JsSplitTerminated(lines: seq<string>, d: char)
    requires forall k :: 0 <= k < |lines| ==> d !in lines[k]
    ensures JsSplit(Terminated(lines, d), d) == lines + [[]]
    decreases |lines|
  {
    if |lines| == 0 {
      JsSplitSingle([], d);
    } else {
      JsSplitCons(lines[0], d, Terminated(lines[1..], d));
      JsSplitTerminated(lines[1..], d);
      ConsSnoc(lines, []);
    }
  }

  lemma ConsSnoc(xs: seq<string>, x: string)
    requires |xs| > 0
    ensures [xs[0]] + (xs[1..] + [x]) == xs + [x]
  {
  }

  lemma {:induction false} JsSplitJoin(fs: seq<string>, d: char)
    requires |fs| > 0 && forall k :: 0 <= k < |fs| ==> d !in fs[k]
    ensures JsSplit(Join(fs, [d]), d) == fs
    decreases |fs|
  {
    if |fs| == 1 {
      JsSplitSingle(fs[0], d);
    } else {
      JsSplitCons(fs[0], d, Join(fs[1..], [d]));
      JsSplitJoin(fs[1..], d);
      assert [fs[0]] + fs[1..] == fs;
    }
  }

  /** `lines.flatMap(line => line.split(','))`, before `Number`. */
  function Pieces(lines: seq<string>): (r: seq<string>)
    decreases |lines|
  {
    if |lines| == 0 then [] else JsSplit(lines[0], ',') + Pieces(lines[1..])
  }

  lemma {:induction false} PiecesConcat(a: seq<string>, b: seq<string>)
    ensures Pieces(a + b) == Pieces(a) + Pieces(b)
    decreases |a|
  {
    if |a| == 0 {
      assert a + b == b;
    } else {
      assert (a + b)[1..] == a[1..] + b;
      PiecesConcat(a[1..], b);
    }
  }

  /** The value at a data position, `undefined` past the end. */
  function At(data: seq<real>, k: int): Option<real> {
    if 0 <= k < |data| then Some(data[k]) else None
  }

  datatype Weights = Weights(
    w1: seq<seq<Option<real>>>,
    b1: seq<Option<real>>,
    w2: seq<seq<Option<real>>>,
    b2: seq<Option<real>>)

  /** `readMatrix(rows, cols)` from position `start`, row by row. */
  function ReadMatrix(data: seq<real>, start: int, rows: nat, cols: nat): (m: seq<seq<Option<real>>>)
    ensures |m| == rows && forall i :: 0 <= i < rows ==> |m[i]| == cols
  {
    seq(rows, i => seq(cols, j => At(data, start + i * cols + j)))
  }

  function ReadVector(data: seq<real>, start: int, size: nat): (v: seq<Option<real>>)
    ensures |v| == size
  {
    seq(size, i => At(data, start + i))
  }

  /** The numbers of the file, one per piece, in file order. */
  function Data(text: string, num: string -> real): (data: seq<real>)
    ensures var pieces := Pieces(JsSplit(text, '\n'));
      |data| == |pieces| && forall k :: 0 <= k < |pieces| ==> data[k] == num(pieces[k])
  {
    var pieces := Pieces(JsSplit(text, '\n'));
    seq(|pieces|, k requires 0 <= k < |pieces| => num(pieces[k]))
  }

  const Output: nat := 1

  /** `load(text)` for a network with `hidden` units and 201 inputs. */
  function Load(text: string, num: string -> real, hidden: nat): Weights {
    var data := Data(text, num);
    var s1 := 1;
    var s2 := s1 + hidden * InputFeatures + 1;
    var s3 := s2 + hidden + 1;
    var s4 := s3 + Output * hidden + 1;
    Weights(
      ReadMatrix(data, s1, hidden, InputFeatures as nat),
      ReadVector(data, s2, hidden),
      ReadMatrix(data, s3, Output, hidden),
      ReadVector(data, s4, Output))
  }

  // ---------------------------------------------------------------------
  // Reading the file the engine writes

  /** The pieces of a saved file: each count, then the value texts. */
  function SavedPieces(qs: Values, fmt: real -> string): (r: seq<string>)
    decreases |qs|
  {
    if |qs| == 0 then [] else [Decimal(|qs[0]|)] + Fields(qs[0], fmt) + SavedPieces(qs[1..], fmt)
  }

  lemma {:induction false} PiecesOfSaved(qs: Values, fmt: real -> string)
    requires forall x :: ',' !in fmt(x) && '\n' !in fmt(x)
    requires forall i :: 0 <= i < |qs| ==> |qs[i]| > 0
    ensures Pieces(SaveLines(qs, fmt)) == SavedPieces(qs, fmt)
    decreases |qs|
  {
    if |qs| > 0 {
      var q := qs[0];
      var fs := Fields(q, fmt);
      forall k | 0 <= k < |fs|
        ensures ',' !in fs[k]
      {
        var x := q[k];
        assert fs[k] == fmt(x);
      }
      assert SaveLines(qs, fmt) == [Decimal(|q|), Join(fs, [','])] + SaveLines(qs[1..], fmt);
      PiecesConcat([Decimal(|q|), Join(fs, [','])], SaveLines(qs[1..], fmt));
      JsSplitSingle(Decimal(|q|), ',');
      JsSplitJoin(fs, ',');
      assert Pieces([Decimal(|q|), Join(fs, [','])]) == [Decimal(|q|)] + fs by {
        assert [Decimal(|q|), Join(fs, [','])][1..] == [Join(fs, [','])];
        assert [Join(fs, [','])][1..] == [];
      }
      PiecesOfSaved(qs[1..], fmt);
    }
  }

  lemma PiecesOfSaveText(qs: Values, fmt: real -> string)
    requires forall x :: ',' !in fmt(x) && '\n' !in fmt(x)
    requires forall i :: 0 <= i < |qs| ==> |qs[i]| > 0
    ensures Pieces(JsSplit(Save(qs, fmt), '\n')) == SavedPieces(qs, fmt) + [[]]
  {
    SavedLinesClean(qs, fmt);
    JsSplitTerminated(SaveLines(qs, fmt), '\n');
    PiecesConcat(SaveLines(qs, fmt), [[]]);
    PiecesOfSaved(qs, fmt);
    assert Pieces([[]]) == [[]] by {
      JsSplitSingle([], ',');
    }
  }

  /** Where the values of four saved blocks of sizes `a`, `b`, `c`, `d`
      sit among the pieces: each after its count. */
  lemma SavedPiecesLayout(qs: Values, fmt: real -> string)
    requires |qs| == 4 && forall i :: 0 <= i < 4 ==> |qs[i]| > 0
    ensures var p := SavedPieces(qs, fmt);
      var a, b, c, d := |qs[0]|, |qs[1]|, |qs[2]|, |qs[3]|;
      |p| == a + b + c + d + 4
      && (forall k :: 0 <= k < a ==> p[1 + k] == fmt(qs[0][k]))
      && (forall k :: 0 <= k < b ==> p[a + 2 + k] == fmt(qs[1][k]))
      && (forall k :: 0 <= k < c ==> p[a + b + 3 + k] == fmt(qs[2][k]))
      && (forall k :: 0 <= k < d ==> p[a + b + c + 4 + k] == fmt(qs[3][k]))
  {
    var f0, f1, f2, f3 := Fields(qs[0], fmt), Fields(qs[1], fmt), Fields(qs[2], fmt), Fields(qs[3], fmt);
    var t1, t2, t3 := qs[1..], qs[1..][1..], qs[1..][1..][1..];
    assert t1[0] == qs[1] && t2[0] == qs[2] && t3[0] == qs[3] && t3[1..] == [];
    var p3 := [Decimal(|qs[3]|)] + f3;
    assert SavedPieces(t3, fmt) == p3;
    var p2 := [Decimal(|qs[2]|)] + f2 + p3;
    assert SavedPieces(t2, fmt) == p2;
    var p1 := [Decimal(|qs[1]|)] + f1 + p2;
    assert SavedPieces(t1, fmt) == p1;
    var p := [Decimal(|qs[0]|)] + f0 + p1;
    assert SavedPieces(qs, fmt) == p;
  }

  /** The numbers of a saved file of four non-empty blocks: each block's
      values follow its count. */
  predicate SavedData(data: seq<real>, qs: Values, fmt: real -> string, num: string -> real)
    requires |qs| == 4
  {
    var a, b, c, d := |qs[0]|, |qs[1]|, |qs[2]|, |qs[3]|;
    |data| > a + b + c + d + 3
    && (forall k :: 0 <= k < a ==> data[1 + k] == num(fmt(qs[0][k])))
    && (forall k :: 0 <= k < b ==> data[a + 2 + k] == num(fmt(qs[1][k])))
    && (forall k :: 0 <= k < c ==> data[a + b + 3 + k] == num(fmt(qs[2][k])))
    && (forall k :: 0 <= k < d ==> data[a + b + c + 4 + k] == num(fmt(qs[3][k])))
  }

  lemma SavedDataLayout(qs: Values, fmt: real -> string, num: string -> real)
    requires forall x :: ',' !in fmt(x) && '\n' !in fmt(x)
    requires |qs| == 4 && forall i :: 0 <= i < 4 ==> |qs[i]| > 0
    ensures SavedData(Data(Save(qs, fmt), num), qs, fmt, num)
  {
    PiecesOfSaveText(qs, fmt);
    SavedPiecesLayout(qs, fmt);
  }

  /** The browser player reads a file the engine saved for a network of
      the same size exactly where the engine put each value: W1 row by
      row, then b1, W2 and b2. */
  lemma LoadReadsSaved(hidden: nat, qs: Values, fmt: real -> string, num: string -> real)
    requires forall x :: ',' !in fmt(x) && '\n' !in fmt(x)
    requires hidden > 0 && |qs| == 4
    requires |qs[0]| == hidden * InputFeatures && |qs[1]| == hidden && |qs[2]| == hidden && |qs[3]| == 1
    ensures var w := Load(Save(qs, fmt), num, hidden);
      (forall i, j :: 0 <= i < hidden && 0 <= j < InputFeatures ==>
         w.w1[i][j] == Some(num(fmt(qs[0][i * InputFeatures + j]))))
      && (forall i :: 0 <= i < hidden ==> w.b1[i] == Some(num(fmt(qs[1][i]))))
      && (forall j :: 0 <= j < hidden ==> w.w2[0][j] == Some(num(fmt(qs[2][j]))))
      && w.b2[0] == Some(num(fmt(qs[3][0])))
  {
    SavedDataLayout(qs, fmt, num);
    var data := Data(Save(qs, fmt), num);
    ReadsFirstLayer(data, hidden, qs, fmt, num);
    ReadsSecondLayer(data, hidden, qs, fmt, num);
  }

  lemma ReadsFirstLayer(data: seq<real>, hidden: nat, qs: Values, fmt: real -> string, num: string -> real)
    requires hidden > 0 && |qs| == 4 && |qs[0]| == hidden * InputFeatures && |qs[1]| == hidden
    requires SavedData(data, qs, fmt, num)
    ensures var w1 := ReadMatrix(data, 1, hidden, InputFeatures as nat);
      forall i, j :: 0 <= i < hidden && 0 <= j < InputFeatures ==>
        w1[i][j] == Some(num(fmt(qs[0][i * InputFeatures + j])))
    ensures var b1 := ReadVector(data, hidden * InputFeatures + 2, hidden);
      forall i :: 0 <= i < hidden ==> b1[i] == Some(num(fmt(qs[1][i])))
  {
    var w1 := ReadMatrix(data, 1, hidden, InputFeatures as nat);
    forall i, j | 0 <= i < hidden && 0 <= j < InputFeatures
      ensures w1[i][j] == Some(num(fmt(qs[0][i * InputFeatures + j])))
    {
      Arith.BlockBound(i, hidden, InputFeatures, j);
      var k := i * InputFeatures + j;
      assert w1[i][j] == At(data, 1 + k);
    }
    var b1 := ReadVector(data, hidden * InputFeatures + 2, hidden);
    forall i | 0 <= i < hidden
      ensures b1[i] == Some(num(fmt(qs[1][i])))
    {
      assert b1[i] == At(data, hidden * InputFeatures + 2 + i);
    }
  }

  lemma ReadsSecondLayer(data: seq<real>, hidden: nat, qs: Values, fmt: real -> string, num: string -> real)
    requires hidden > 0 && |qs| == 4 && |qs[0]| == hidden * InputFeatures
    requires |qs[1]| == hidden && |qs[2]| == hidden && |qs[3]| == 1
    requires SavedData(data, qs, fmt, num)
    ensures var s3 := hidden * InputFeatures + hidden + 3;
      var w2 := ReadMatrix(data, s3, Output, hidden);
      forall j :: 0 <= j < hidden ==> w2[0][j] == Some(num(fmt(qs[2][j])))
    ensures ReadVector(data, hidden * InputFeatures + 2 * hidden + 4, Output)[0] == Some(num(fmt(qs[3][0])))
  {
    var a := hidden * InputFeatures;
    var w2 := ReadMatrix(data, a + hidden + 3, Output, hidden);
    forall j | 0 <= j < hidden
      ensures w2[0][j] == Some(num(fmt(qs[2][j])))
    {
      assert w2[0][j] == At(data, a + hidden + 3 + 0 * hidden + j);
    }
    assert ReadVector(data, a + 2 * hidden + 4, Output)[0] == At(data, a + hidden + hidden + 4 + 0);
  }
}

=== FILE: movegen.dfy ===
/** The C++ search for every move a roll allows (`State::get_moves`). It
    walks the dice in order, trying every checker move the current die
    allows, skipping a die that allows none, and recording the move built
    so far once the dice run out or none of the remaining dice can move;
    when the player may bear off and no die moves, it bears off from the
    farthest home points one checker per remaining die. A set of moves
    already reached prunes repeated work. Afterwards only the longest moves
    are kept, sorted, without duplicates. The search backtracks by undoing
    the last move and erasing the last checker move; here each branch
    works on its own copy, which `Game.UndoMakeMove` and
    `Game.EraseInsert` show to be the same thing. */
module MoveGen {
  import opened Checkers
  import opened Game

  type Move = seq<CheckerMove>

  predicate IsDice(ds: seq<int>) {
    forall k :: 0 <= k < |ds| ==> 1 <= ds[k] <= 6
  }

  /** What the search may record: a non-empty, well-formed move of at most
      one checker move per die. */
  predicate Good(m: Move, dice: nat) {
    0 < |m| <= dice && Sorted(m) && MoveOk(m)
  }

  /** `all` is `moves` with good moves appended. */
  predicate Extends(all: seq<Move>, moves: seq<Move>, dice: nat) {
    |moves| <= |all| && all[..|moves|] == moves
    && forall k :: |moves| <= k < |all| ==> Good(all[k], dice)
  }

  lemma ExtendsTrans(a: seq<Move>, b: seq<Move>, c: seq<Move>, dice: nat)
    requires Extends(b, a, dice) && Extends(c, b, dice)
    ensures Extends(c, a, dice)
  {
    assert c[..|a|] == c[..|b|][..|a|];
  }

  lemma InsertOk(move: Move, cm: CheckerMove)
    requires Sorted(move) && MoveOk(move) && SlotOk(cm.from) && SlotOk(cm.to)
    ensures Sorted(Insert(move, cm)) && MoveOk(Insert(move, cm))
  {
    InsertSorted(move, cm);
    var t := Insert(move, cm);
    forall k | 0 <= k < |t|
      ensures SlotOk(t[k].from) && SlotOk(t[k].to)
    {
      assert t[k] in t;
    }
  }

  /** `moves.push_back(move)` when the move is not empty. */
  function Record(moves: seq<Move>, m: Move): (r: seq<Move>)
    ensures m != [] ==> r == moves + [m]
    ensures m == [] ==> r == moves
  {
    if |m| > 0 then moves + [m] else moves
  }

  datatype Borne = Borne(state: State, index: nat, move: Move)

  /** The inner `while` of the bear-off branch at one home point: bear off
      from `point` while a checker is there and a die is left. */
  function BearRun(s: State, ds: seq<int>, index: nat, point: int, move: Move): (r: Borne)
    requires Valid(s) && index <= |ds| && 0 <= point < BoardSize
    requires Sorted(move) && MoveOk(move)
    ensures Valid(r.state) && r.state.turn == s.turn && index <= r.index <= |ds|
    ensures Sorted(r.move) && MoveOk(r.move) && |r.move| == |move| + (r.index - index)
    decreases |ds| - index
  {
    if s.on[s.turn][point] != 0 && index < |ds| then
      var cm := CheckerMove(point, Out);
      InsertOk(move, cm);
      BearRun(MakeMove(s, [cm]), ds, index + 1, point, Insert(move, cm))
    else
      Borne(s, index, move)
  }

  /** The outer `for` of the bear-off branch over the home points. */
  function BearAll(s: State, ds: seq<int>, index: nat, points: seq<int>, move: Move): (r: Borne)
    requires Valid(s) && index <= |ds| && forall k :: 0 <= k < |points| ==> 0 <= points[k] < BoardSize
    requires Sorted(move) && MoveOk(move)
    ensures Valid(r.state) && r.state.turn == s.turn && index <= r.index <= |ds|
    ensures Sorted(r.move) && MoveOk(r.move) && |r.move| == |move| + (r.index - index)
    decreases |points|
  {
    if |points| == 0 then Borne(s, index, move)
    else
      var b := BearRun(s, ds, index, points[0], move);
      BearAll(b.state, ds, b.index, points[1..], b.move)
  }

  datatype Found = Found(seen: set<Move>, moves: seq<Move>)

  /** The recursive `get_moves(deltas, index, seen, move, moves)`. */
  function Search(s: State, ds: seq<int>, index: nat, seen: set<Move>, move: Move, moves: seq<Move>): (r: Found)
    requires Valid(s) && IsDice(ds) && index <= |ds|
    requires Sorted(move) && MoveOk(move) && |move| <= index
    ensures Extends(r.moves, moves, |ds|)
    decreases |ds| - index, 1, 0
  {
    if |move| > 0 && move in seen then Found(seen, moves)
    else
      var seen := seen + {move};
      if index == |ds| then Found(seen, Record(moves, move))
      else if CanBearOff(s) && NoMoves(s, ds, index) then
        var b := BearAll(s, ds, index, Home(s.turn), move);
        Found(seen, Record(moves, b.move))
      else if NoMoves(s, ds, index) then Found(seen, Record(moves, move))
      else
        var dm := GetMove(s, ds[index]);
        if |dm| == 0 then Search(s, ds, index + 1, seen, move, moves)
        else Branch(s, ds, index, dm, 0, seen, move, moves)
  }

  /** The loop over the checker moves `dm` the current die allows, from the
      `k`-th on: each is made, searched from, and taken back. */
  function Branch(s: State, ds: seq<int>, index: nat, dm: Move, k: nat, seen: set<Move>, move: Move, moves: seq<Move>): (r: Found)
    requires Valid(s) && IsDice(ds) && index < |ds| && k <= |dm| && MoveOk(dm)
    requires Sorted(move) && MoveOk(move) && |move| <= index
    ensures Extends(r.moves, moves, |ds|)
    decreases |ds| - index, 0, |dm| - k
  {
    if k == |dm| then Found(seen, moves)
    else
      var cm := dm[k];
      InsertOk(move, cm);
      var r := Search(MakeMove(s, [cm]), ds, index + 1, seen, Insert(move, cm), moves);
      var r' := Branch(s, ds, index, dm, k + 1, r.seen, move, r.moves);
      ExtendsTrans(moves, r.moves, r'.moves, |ds|);
      r'
  }

  // ---------------------------------------------------------------------
  // What the search records is a play of the dice

  /** The move built from `move` by inserting `steps` one after another,
      as the search does: all of their checker moves, sorted. */
  function Build(move: Move, steps: seq<CheckerMove>): (r: Move)
    requires Sorted(move)
    ensures Sorted(r)
    decreases |steps|
  {
    if |steps| == 0 then move
    else
      InsertSorted(move, steps[0]);
      Build(Insert(move, steps[0]), steps[1..])
  }

  /** The built move holds exactly `move`'s checker moves and the steps. */
  lemma {:induction false} BuildContents(move: Move, steps: seq<CheckerMove>)
    requires Sorted(move)
    ensures multiset(Build(move, steps)) == multiset(move) + multiset(steps)
    decreases |steps|
  {
    if |steps| > 0 {
      BuildFirst(move, steps);
      BuildContents(Insert(move, steps[0]), steps[1..]);
    }
  }

  lemma BuildFirst(move: Move, steps: seq<CheckerMove>)
    requires Sorted(move) && |steps| > 0
    ensures Sorted(Insert(move, steps[0])) && Build(move, steps) == Build(Insert(move, steps[0]), steps[1..])
    ensures multiset(steps) == multiset{steps[0]} + multiset(steps[1..])
  {
    InsertSorted(move, steps[0]);
    assert steps == [steps[0]] + steps[1..];
  }

  /** `steps` bears off one checker after another from the player's home
      points, each from a point that holds a checker at that moment. */
  ghost predicate Sweep(s: State, steps: seq<CheckerMove>)
    requires Valid(s)
    decreases |steps|
  {
    |steps| == 0
    || (steps[0].from in Home(s.turn) && steps[0].to == Out && s.on[s.turn][steps[0].from] != 0
        && Sweep(MakeMove(s, [steps[0]]), steps[1..]))
  }

  /** `steps` plays the dice from `index` on, as the search plays them:
      the dice are taken in order; a die that moves no checker is passed
      over; each checker move is legal for its own die; and the play stops
      only when no remaining die can move, or ends in a bear-off sweep of
      at most one checker per remaining die when the player may bear off
      and no remaining die moves. */
  ghost predicate Plays(s: State, ds: seq<int>, index: nat, steps: seq<CheckerMove>)
    requires Valid(s) && IsDice(ds) && index <= |ds|
    decreases |steps|, |ds| - index
  {
    (|steps| == 0 && NoMoves(s, ds, index))
    || (index < |ds| && GetMove(s, ds[index]) == [] && Plays(s, ds, index + 1, steps))
    || (index < |ds| && |steps| > 0 && SlotOk(steps[0].from) && SlotOk(steps[0].to)
        && LegalStep(s, ds[index], steps[0]) && Plays(MakeMove(s, [steps[0]]), ds, index + 1, steps[1..]))
    || (CanBearOff(s) && NoMoves(s, ds, index) && |steps| <= |ds| - index && Sweep(s, steps))
  }

  /** `m` is `move` with the checker moves of a play from `index` on. */
  ghost predicate PlayedFrom(s: State, ds: seq<int>, index: nat, move: Move, m: Move)
    requires Valid(s) && IsDice(ds) && index <= |ds| && Sorted(move)
  {
    exists steps :: Plays(s, ds, index, steps) && m == Build(move, steps)
  }

  /** Passing over a die that moves no checker keeps a play a play. */
  lemma PlayedSkip(s: State, ds: seq<int>, index: nat, move: Move, m: Move)
    requires Valid(s) && IsDice(ds) && index < |ds| && Sorted(move)
    requires GetMove(s, ds[index]) == [] && PlayedFrom(s, ds, index + 1, move, m)
    ensures PlayedFrom(s, ds, index, move, m)
  {
    var steps :| Plays(s, ds, index + 1, steps) && m == Build(move, steps);
    assert Plays(s, ds, index, steps);
  }

  /** A checker move the current die allows, followed by a play from the
      next die, is a play. */
  lemma PlayedStep(s: State, ds: seq<int>, index: nat, cm: CheckerMove, move: Move, m: Move)
    requires Valid(s) && IsDice(ds) && index < |ds| && cm in GetMove(s, ds[index])
    requires SlotOk(cm.from) && SlotOk(cm.to) && Sorted(move) && Sorted(Insert(move, cm))
    requires PlayedFrom(MakeMove(s, [cm]), ds, index + 1, Insert(move, cm), m)
    ensures PlayedFrom(s, ds, index, move, m)
  {
    var steps :| Plays(MakeMove(s, [cm]), ds, index + 1, steps) && m == Build(Insert(move, cm), steps);
    PlaysStep(s, ds, index, cm, steps);
    BuildCons(move, cm, steps);
  }

  lemma PlaysStep(s: State, ds: seq<int>, index: nat, cm: CheckerMove, steps: seq<CheckerMove>)
    requires Valid(s) && IsDice(ds) && index < |ds| && cm in GetMove(s, ds[index])
    requires SlotOk(cm.from) && SlotOk(cm.to) && Plays(MakeMove(s, [cm]), ds, index + 1, steps)
    ensures Plays(s, ds, index, [cm] + steps)
  {
    var all := [cm] + steps;
    assert all[0] == cm && all[1..] == steps;
  }

  lemma BuildCons(move: Move, cm: CheckerMove, steps: seq<CheckerMove>)
    requires Sorted(move) && Sorted(Insert(move, cm))
    ensures Build(move, [cm] + steps) == Build(Insert(move, cm), steps)
  {
    assert ([cm] + steps)[1..] == steps;
  }

  /** What the inner bear-off loop needs at each turn of it. */
  ghost predicate RunReady(s: State, ds: seq<int>, index: nat, point: int, move: Move)
  {
    Valid(s) && index <= |ds| && 0 <= point < BoardSize && point in Home(s.turn) && Sorted(move) && MoveOk(move)
  }

  /** The inner bear-off loop, followed by any sweep from where it stops,
      is one sweep. */
  lemma {:induction false} BearRunSweep(s: State, ds: seq<int>, index: nat, point: int, move: Move,
                                        rest: seq<CheckerMove>) returns (steps: seq<CheckerMove>)
    requires RunReady(s, ds, index, point, move)
    requires Sweep(BearRun(s, ds, index, point, move).state, rest)
    ensures Sweep(s, steps)
    ensures Build(move, steps) == Build(BearRun(s, ds, index, point, move).move, rest)
    ensures |steps| == |rest| + (BearRun(s, ds, index, point, move).index - index)
    decreases |ds| - index, 1
  {
    if s.on[s.turn][point] != 0 && index < |ds| {
      steps := BearRunStep(s, ds, index, point, move, rest);
    } else {
      BearRunStops(s, ds, index, point, move);
      steps := rest;
    }
  }

  /** One turn of the inner bear-off loop in front of the sweep the rest
      of the loop makes. */
  lemma {:induction false} BearRunStep(s: State, ds: seq<int>, index: nat, point: int, move: Move,
                                       rest: seq<CheckerMove>) returns (steps: seq<CheckerMove>)
    requires RunReady(s, ds, index, point, move) && s.on[s.turn][point] != 0 && index < |ds|
    requires Sweep(BearRun(s, ds, index, point, move).state, rest)
    ensures Sweep(s, steps)
    ensures Build(move, steps) == Build(BearRun(s, ds, index, point, move).move, rest)
    ensures |steps| == |rest| + (BearRun(s, ds, index, point, move).index - index)
    decreases |ds| - index, 0
  {
    var cm := CheckerMove(point, Out);
    BearRunNext(s, ds, index, point, move);
    var tail := BearRunSweep(MakeMove(s, [cm]), ds, index + 1, point, Insert(move, cm), rest);
    steps := BearRunCons(s, ds, index, point, move, rest, tail);
  }

  lemma BearRunNext(s: State, ds: seq<int>, index: nat, point: int, move: Move)
    requires RunReady(s, ds, index, point, move) && s.on[s.turn][point] != 0 && index < |ds|
    ensures var cm := CheckerMove(point, Out);
      RunReady(MakeMove(s, [cm]), ds, index + 1, point, Insert(move, cm))
      && BearRun(s, ds, index, point, move) == BearRun(MakeMove(s, [cm]), ds, index + 1, point, Insert(move, cm))
  {
    InsertOk(move, CheckerMove(point, Out));
  }

  lemma BearRunStops(s: State, ds: seq<int>, index: nat, point: int, move: Move)
    requires RunReady(s, ds, index, point, move) && (s.on[s.turn][point] == 0 || index == |ds|)
    ensures BearRun(s, ds, index, point, move) == Borne(s, index, move)
  {
  }

  /** One checker borne off in front of a sweep from the state after it. */
  lemma BearRunCons(s: State, ds: seq<int>, index: nat, point: int, move: Move,
                    rest: seq<CheckerMove>, tail: seq<CheckerMove>) returns (steps: seq<CheckerMove>)
    requires RunReady(s, ds, index, point, move) && s.on[s.turn][point] != 0 && index < |ds|
    requires var cm := CheckerMove(point, Out);
      RunReady(MakeMove(s, [cm]), ds, index + 1, point, Insert(move, cm))
      && var b := BearRun(MakeMove(s, [cm]), ds, index + 1, point, Insert(move, cm));
      Sweep(MakeMove(s, [cm]), tail)
      && Build(Insert(move, cm), tail) == Build(b.move, rest)
      && |tail| == |rest| + (b.index - (index + 1))
    ensures var b := BearRun(s, ds, index, point, move);
      Sweep(s, steps) && Build(move, steps) == Build(b.move, rest) && |steps| == |rest| + (b.index - index)
  {
    var cm := CheckerMove(point, Out);
    steps := [cm] + tail;
    SweepCons(s, cm, tail);
    BuildCons(move, cm, tail);
  }

  lemma SweepCons(s: State, cm: CheckerMove, tail: seq<CheckerMove>)
    requires Valid(s) && cm.from in Home(s.turn) && cm.to == Out && s.on[s.turn][cm.from] != 0
    requires SlotOk(cm.from) && Sweep(MakeMove(s, [cm]), tail)
    ensures Sweep(s, [cm] + tail)
  {
    assert ([cm] + tail)[1..] == tail;
  }

  /** The bear-off branch removes a sweep's checker moves from the state
      and adds them to the move. */
  lemma {:induction false} BearAllSweep(s: State, ds: seq<int>, index: nat, points: seq<int>, move: Move)
    returns (steps: seq<CheckerMove>)
    requires Valid(s) && index <= |ds|
    requires forall k :: 0 <= k < |points| ==> 0 <= points[k] < BoardSize && points[k] in Home(s.turn)
    requires Sorted(move) && MoveOk(move)
    ensures Sweep(s, steps)
    ensures BearAll(s, ds, index, points, move).move == Build(move, steps)
    ensures |steps| == BearAll(s, ds, index, points, move).index - index
    decreases |points|
  {
    if |points| == 0 {
      steps := [];
    } else {
      var b := BearRun(s, ds, index, points[0], move);
      var rest := BearAllSweep(b.state, ds, b.index, points[1..], b.move);
      assert RunReady(s, ds, index, points[0], move);
      steps := BearRunSweep(s, ds, index, points[0], move, rest);
    }
  }

  /** Every move `all` holds after the first `|moves|` is `move` plus a
      play from `index` on. */
  ghost predicate AllPlayed(s: State, ds: seq<int>, index: nat, move: Move, moves: seq<Move>, all: seq<Move>)
    requires Valid(s) && IsDice(ds) && index <= |ds| && Sorted(move)
  {
    forall k :: |moves| <= k < |all| ==> PlayedFrom(s, ds, index, move, all[k])
  }

  lemma AllPlayedTrans(s: State, ds: seq<int>, index: nat, move: Move, a: seq<Move>, b: seq<Move>, c: seq<Move>)
    requires Valid(s) && IsDice(ds) && index <= |ds| && Sorted(move)
    requires |b| <= |c| && c[..|b|] == b
    requires AllPlayed(s, ds, index, move, a, b) && AllPlayed(s, ds, index, move, b, c)
    ensures AllPlayed(s, ds, index, move, a, c)
  {
    forall k | |a| <= k < |c|
      ensures PlayedFrom(s, ds, index, move, c[k])
    {
      if k < |b| {
        assert c[k] == c[..|b|][k];
      }
    }
  }

  /** Every move `Search` records is `move` plus a play of the dice from
      `index` on. */
  lemma {:induction false} SearchPlays(s: State, ds: seq<int>, index: nat, seen: set<Move>, move: Move, moves: seq<Move>)
    requires Valid(s) && IsDice(ds) && index <= |ds|
    requires Sorted(move) && MoveOk(move) && |move| <= index
    ensures AllPlayed(s, ds, index, move, moves, Search(s, ds, index, seen, move, moves).moves)
    decreases |ds| - index, 1, 0
  {
    var all := Search(s, ds, index, seen, move, moves).moves;
    var seen' := seen + {move};
    if |move| > 0 && move in seen {
      assert all == moves;
    } else if index == |ds| || (!CanBearOff(s) && NoMoves(s, ds, index)) {
      assert all == Record(moves, move);
      RecordPlays(s, ds, index, move, moves, all);
    } else if CanBearOff(s) && NoMoves(s, ds, index) {
      var b := BearAll(s, ds, index, Home(s.turn), move);
      assert all == Record(moves, b.move);
      BearPlays(s, ds, index, move, moves, all);
    } else if GetMove(s, ds[index]) == [] {
      assert all == Search(s, ds, index + 1, seen', move, moves).moves;
      SkipPlays(s, ds, index, seen', move, moves, all);
    } else {
      var dm := GetMove(s, ds[index]);
      assert all == Branch(s, ds, index, dm, 0, seen', move, moves).moves;
      BranchPlays(s, ds, index, dm, 0, seen', move, moves, all);
    }
  }

  /** Recording the move as it stands, when no remaining die moves. */
  lemma RecordPlays(s: State, ds: seq<int>, index: nat, move: Move, moves: seq<Move>, all: seq<Move>)
    requires Valid(s) && IsDice(ds) && index <= |ds| && Sorted(move)
    requires NoMoves(s, ds, index) && all == Record(moves, move)
    ensures AllPlayed(s, ds, index, move, moves, all)
  {
    assert Plays(s, ds, index, []) && Build(move, []) == move;
  }

  /** Recording the move after the bear-off sweep. */
  lemma BearPlays(s: State, ds: seq<int>, index: nat, move: Move, moves: seq<Move>, all: seq<Move>)
    requires Valid(s) && IsDice(ds) && index <= |ds| && Sorted(move) && MoveOk(move)
    requires CanBearOff(s) && NoMoves(s, ds, index)
    requires all == Record(moves, BearAll(s, ds, index, Home(s.turn), move).move)
    ensures AllPlayed(s, ds, index, move, moves, all)
  {
    BearPlayed(s, ds, index, move);
  }

  lemma BearPlayed(s: State, ds: seq<int>, index: nat, move: Move)
    requires Valid(s) && IsDice(ds) && index <= |ds| && Sorted(move) && MoveOk(move)
    requires CanBearOff(s) && NoMoves(s, ds, index)
    ensures PlayedFrom(s, ds, index, move, BearAll(s, ds, index, Home(s.turn), move).move)
  {
    var steps := BearAllSweep(s, ds, index, Home(s.turn), move);
    assert Plays(s, ds, index, steps);
  }

  /** Passing over a die that moves no checker. */
  lemma SkipPlays(s: State, ds: seq<int>, index: nat, seen: set<Move>, move: Move, moves: seq<Move>, all: seq<Move>)
    requires Valid(s) && IsDice(ds) && index < |ds| && GetMove(s, ds[index]) == []
    requires Sorted(move) && MoveOk(move) && |move| <= index
    requires all == Search(s, ds, index + 1, seen, move, moves).moves
    ensures AllPlayed(s, ds, index, move, moves, all)
    decreases |ds| - index, 0, 0
  {
    SearchPlays(s, ds, index + 1, seen, move, moves);
    SkipAll(s, ds, index, move, moves, all);
  }

  lemma SkipAll(s: State, ds: seq<int>, index: nat, move: Move, moves: seq<Move>, all: seq<Move>)
    requires Valid(s) && IsDice(ds) && index < |ds| && Sorted(move)
    requires GetMove(s, ds[index]) == [] && AllPlayed(s, ds, index + 1, move, moves, all)
    ensures AllPlayed(s, ds, index, move, moves, all)
  {
    forall k | |moves| <= k < |all|
      ensures PlayedFrom(s, ds, index, move, all[k])
    {
      PlayedSkip(s, ds, index, move, all[k]);
    }
  }

  /** Every move `Branch` records is `move` plus a play that starts with
      one of the checker moves the current die allows. */
  lemma {:induction false} BranchPlays(s: State, ds: seq<int>, index: nat, dm: Move, k: nat,
                                       seen: set<Move>, move: Move, moves: seq<Move>, all: seq<Move>)
    requires Valid(s) && IsDice(ds) && index < |ds| && k <= |dm| && dm == GetMove(s, ds[index])
    requires Sorted(move) && MoveOk(move) && |move| <= index
    requires all == Branch(s, ds, index, dm, k, seen, move, moves).moves
    ensures AllPlayed(s, ds, index, move, moves, all)
    decreases |ds| - index, 0, |dm| - k
  {
    if k < |dm| {
      var cm := dm[k];
      InsertOk(move, cm);
      var r := Search(MakeMove(s, [cm]), ds, index + 1, seen, Insert(move, cm), moves);
      var r' := Branch(s, ds, index, dm, k + 1, r.seen, move, r.moves);
      assert all == r'.moves;
      assert cm in dm;
      SearchPlays(MakeMove(s, [cm]), ds, index + 1, seen, Insert(move, cm), moves);
      StepAll(s, ds, index, cm, move, moves, r.moves);
      BranchPlays(s, ds, index, dm, k + 1, r.seen, move, r.moves, all);
      AllPlayedTrans(s, ds, index, move, moves, r.moves, all);
    } else {
      assert all == moves;
    }
  }

  /** The moves recorded after making checker move `cm`, which the
      current die allows, are plays from here. */
  lemma StepAll(s: State, ds: seq<int>, index: nat, cm: CheckerMove, move: Move, moves: seq<Move>, all: seq<Move>)
    requires Valid(s) && IsDice(ds) && index < |ds| && cm in GetMove(s, ds[index])
    requires SlotOk(cm.from) && SlotOk(cm.to) && Sorted(move) && Sorted(Insert(move, cm))
    requires AllPlayed(MakeMove(s, [cm]), ds, index + 1, Insert(move, cm), moves, all)
    ensures AllPlayed(s, ds, index, move, moves, all)
  {
    forall j | |moves| <= j < |all|
      ensures PlayedFrom(s, ds, index, move, all[j])
    {
      PlayedStep(s, ds, index, cm, move, all[j]);
    }
  }

  // ---------------------------------------------------------------------
  // Keeping the longest moves, sorted and without duplicates

  /** `std::multiset`'s `<`: lexicographic on the checker moves, a proper
      prefix first. */
  predicate LexLess(a: Move, b: Move)
    decreases |a|
  {
    if |a| == 0 then |b| > 0
    else if |b| == 0 then false
    else Less(a[0], b[0]) || (a[0] == b[0] && LexLess(a[1..], b[1..]))
  }

  /** `LexLess` is a strict total order. */
  lemma {:induction false} LexOrder(a: Move, b: Move, c: Move)
    ensures !LexLess(a, a)
    ensures LexLess(a, b) ==> !LexLess(b, a)
    ensures LexLess(a, b) && LexLess(b, c) ==> LexLess(a, c)
    ensures LexLess(a, b) || LexLess(b, a) || a == b
    decreases |a|
  {
    if |a| > 0 && |b| > 0 && |c| > 0 {
      LessOrder(a[0], b[0], c[0]);
      LessOrder(b[0], a[0], c[0]);
      LexOrder(a[1..], b[1..], c[1..]);
      if a[0] == b[0] && a[1..] == b[1..] {
        assert a == [a[0]] + a[1..] && b == [b[0]] + b[1..];
      }
    } else if |a| > 0 && |b| > 0 {
      LessOrder(a[0], b[0], a[0]);
      LexOrder(a[1..], b[1..], a[1..]);
      if a[0] == b[0] && a[1..] == b[1..] {
        assert a == [a[0]] + a[1..] && b == [b[0]] + b[1..];
      }
    } else if |a| > 0 {
      LessOrder(a[0], a[0], a[0]);
      LexOrder(a[1..], a[1..], a[1..]);
    }
  }

  predicate LexStrict(ms: seq<Move>) {
    forall i, j :: 0 <= i < j < |ms| ==> LexLess(ms[i], ms[j])
  }

  /** Size of the longest move, 0 for none. */
  function MaxSize(ms: seq<Move>): (n: nat)
    ensures forall k :: 0 <= k < |ms| ==> |ms[k]| <= n
    ensures |ms| > 0 ==> exists k :: 0 <= k < |ms| && |ms[k]| == n
    decreases |ms|
  {
    if |ms| == 0 then 0
    else
      var t := MaxSize(ms[1..]);
      assert forall k :: 1 <= k < |ms| ==> ms[k] == ms[1..][k - 1];
      if |ms[0]| >= t then |ms[0]| else t
  }

  /** The `remove_if`: the moves of size `n`, in order. */
  function OfSize(ms: seq<Move>, n: nat): (r: seq<Move>)
    ensures forall m :: m in r <==> m in ms && |m| == n
    decreases |ms|
  {
    if |ms| == 0 then []
    else
      var t := OfSize(ms[1..], n);
      assert forall m :: m in ms <==> m == ms[0] || m in ms[1..];
      if |ms[0]| == n then [ms[0]] + t else t
  }

  /** One move added to a sorted list without repetitions. */
  function AddUnique(ms: seq<Move>, m: Move): (r: seq<Move>)
    ensures forall x :: x in r <==> x in ms || x == m
    decreases |ms|
  {
    if |ms| == 0 then [m]
    else if m == ms[0] then ms
    else if LexLess(m, ms[0]) then [m] + ms
    else
      var t := AddUnique(ms[1..], m);
      assert forall x :: x in ms <==> x == ms[0] || x in ms[1..];
      [ms[0]] + t
  }

  lemma {:induction false} AddUniqueStrict(ms: seq<Move>, m: Move)
    requires LexStrict(ms)
    ensures LexStrict(AddUnique(ms, m))
    decreases |ms|
  {
    if |ms| > 0 && m != ms[0] {
      if LexLess(m, ms[0]) {
        var r := [m] + ms;
        forall i, j | 0 <= i < j < |r|
          ensures LexLess(r[i], r[j])
        {
          if i == 0 {
            if j > 1 {
              LexOrder(m, ms[0], ms[j - 1]);
            }
          } else {
            assert r[i] == ms[i - 1] && r[j] == ms[j - 1];
          }
        }
      } else {
        var tail := ms[1..];
        assert LexStrict(tail) by {
          forall i, j | 0 <= i < j < |tail|
            ensures LexLess(tail[i], tail[j])
          {
            assert tail[i] == ms[i + 1] && tail[j] == ms[j + 1];
          }
        }
        AddUniqueStrict(tail, m);
        var t := AddUnique(tail, m);
        LexOrder(m, ms[0], m);
        var r := [ms[0]] + t;
        forall i, j | 0 <= i < j < |r|
          ensures LexLess(r[i], r[j])
        {
          if i == 0 {
            assert r[j] in t;
            if r[j] != m {
              var k :| 0 <= k < |tail| && tail[k] == r[j];
              assert ms[k + 1] == r[j];
            }
          } else {
            assert r[i] == t[i - 1] && r[j] == t[j - 1];
          }
        }
      }
    }
  }

  /** The `sort` and `unique`: the distinct moves, in increasing order. */
  function SortUnique(ms: seq<Move>): (r: seq<Move>)
    ensures LexStrict(r)
    ensures forall x :: x in r <==> x in ms
    decreases |ms|
  {
    if |ms| == 0 then []
    else
      var t := SortUnique(ms[1..]);
      AddUniqueStrict(t, ms[0]);
      assert forall x :: x in ms <==> x == ms[0] || x in ms[1..];
      AddUnique(t, ms[0])
  }

  /** A strictly increasing list is fixed by its elements, so any correct
      sort followed by `unique` gives `SortUnique`'s answer. */
  lemma {:induction false} LexStrictUnique(a: seq<Move>, b: seq<Move>)
    requires LexStrict(a) && LexStrict(b)
    requires forall x :: x in a <==> x in b
    ensures a == b
    decreases |a|
  {
    if |a| > 0 {
      assert a[0] in b;
    }
    if |b| > 0 {
      assert b[0] in a;
    }
    if |a| > 0 && |b| > 0 {
      assert a[0] in a && b[0] in b;
      var i :| 0 <= i < |b| && b[i] == a[0];
      var j :| 0 <= j < |a| && a[j] == b[0];
      if a[0] != b[0] {
        assert LexLess(b[0], a[0]) && LexLess(a[0], b[0]);
        LexOrder(a[0], b[0], a[0]);
      }
      var ta, tb := a[1..], b[1..];
      assert LexStrict(ta) by {
        forall p, q | 0 <= p < q < |ta|
          ensures LexLess(ta[p], ta[q])
        {
          assert ta[p] == a[p + 1] && ta[q] == a[q + 1];
        }
      }
      assert LexStrict(tb) by {
        forall p, q | 0 <= p < q < |tb|
          ensures LexLess(tb[p], tb[q])
        {
          assert tb[p] == b[p + 1] && tb[q] == b[q + 1];
        }
      }
      forall x
        ensures x in ta <==> x in tb
      {
        if x in ta {
          var p :| 0 <= p < |ta| && ta[p] == x;
          assert LexLess(a[0], a[p + 1]);
          LexOrder(x, x, x);
          assert x in b && x != b[0];
          var q :| 0 <= q < |b| && b[q] == x;
          assert x == tb[q - 1];
        }
        if x in tb {
          var q :| 0 <= q < |tb| && tb[q] == x;
          assert LexLess(b[0], b[q + 1]);
          LexOrder(x, x, x);
          assert x in a && x != a[0];
          var p :| 0 <= p < |a| && a[p] == x;
          assert x == ta[p - 1];
        }
      }
      LexStrictUnique(ta, tb);
      assert a == [a[0]] + ta && b == [b[0]] + tb;
    }
  }

  /** The tail of `get_moves(deltas)`: keep the moves of the largest size,
      sort them and drop repetitions. */
  function Finalize(ms: seq<Move>): (r: seq<Move>)
  {
    if |ms| == 0 then [] else SortUnique(OfSize(ms, MaxSize(ms)))
  }

  /** The result holds, each once and in increasing order, exactly the
      longest moves found, and is empty only when nothing was found. */
  lemma FinalizeSpec(ms: seq<Move>)
    ensures var r := Finalize(ms);
      LexStrict(r)
      && (forall x :: x in r <==> x in ms && |x| == MaxSize(ms))
      && (|r| == 0 <==> |ms| == 0)
  {
    if |ms| > 0 {
      var k :| 0 <= k < |ms| && |ms[k]| == MaxSize(ms);
      assert ms[k] in Finalize(ms);
    }
  }

  /** The roll's dice with the first two swapped, as the second search
      uses them. */
  function Swapped(ds: seq<int>): (r: seq<int>)
    requires |ds| >= 2
    ensures |r| == |ds| && r[0] == ds[1] && r[1] == ds[0]
    ensures forall k :: 2 <= k < |ds| ==> r[k] == ds[k]
  {
    [ds[1], ds[0]] + ds[2..]
  }

  lemma SwappedDice(ds: seq<int>)
    requires IsDice(ds) && |ds| >= 2
    ensures IsDice(Swapped(ds))
  {
  }

  /** Every move either search records: the search with the dice in order,
      followed by the search with the first two swapped when they differ. */
  function Candidates(s: State, ds: seq<int>): (all: seq<Move>)
    requires Valid(s) && IsDice(ds) && |ds| >= 2
    ensures Extends(all, [], |ds|)
  {
    var a := Search(s, ds, 0, {}, [], []);
    if ds[0] != ds[1] then
      SwappedDice(ds);
      var b := Search(s, Swapped(ds), 0, {}, [], a.moves);
      ExtendsTrans([], a.moves, b.moves, |ds|);
      b.moves
    else a.moves
  }

  /** A move among the candidates is good. */
  lemma CandidateGood(all: seq<Move>, dice: nat, m: Move)
    requires Extends(all, [], dice) && m in all
    ensures Good(m, dice)
  {
    var k :| 0 <= k < |all| && all[k] == m;
  }

  /** `get_moves(deltas)`: search with the dice in order, and again with
      the first two swapped when they differ, then keep the longest. */
  function GetMoves(s: State, ds: seq<int>): (r: seq<Move>)
    requires Valid(s) && IsDice(ds) && |ds| >= 2
  {
    Finalize(Candidates(s, ds))
  }

  /** What `get_moves` returns is a list of non-empty moves, each of at most
      one checker move per die, all of the same size, which is the largest
      any search recorded, in strictly increasing order; and it is empty
      only when neither search recorded a move. */
  lemma GetMovesSpec(s: State, ds: seq<int>)
    requires Valid(s) && IsDice(ds) && |ds| >= 2
    ensures var r := GetMoves(s, ds);
      var all := Candidates(s, ds);
      LexStrict(r)
      && (forall m :: m in r ==> Good(m, |ds|) && |m| == MaxSize(all))
      && (forall m :: m in r <==> m in all && |m| == MaxSize(all))
      && (|r| == 0 <==> |all| == 0)
  {
    var all := Candidates(s, ds);
    FinalizeSpec(all);
    forall m | m in GetMoves(s, ds)
      ensures Good(m, |ds|)
    {
      CandidateGood(all, |ds|, m);
    }
  }

  /** `m` is a whole play of the dice `ds` in the order given. */
  ghost predicate Played(s: State, ds: seq<int>, m: Move)
    requires Valid(s) && IsDice(ds)
  {
    PlayedFrom(s, ds, 0, [], m)
  }

  /** Every candidate is a play of the dice, taken in the order rolled or,
      when the first two differ, with those two swapped. */
  lemma CandidatesPlayed(s: State, ds: seq<int>)
    requires Valid(s) && IsDice(ds) && |ds| >= 2
    ensures IsDice(Swapped(ds))
    ensures forall m :: m in Candidates(s, ds) ==>
              Played(s, ds, m) || (ds[0] != ds[1] && Played(s, Swapped(ds), m))
  {
    SwappedDice(ds);
    var a := Search(s, ds, 0, {}, [], []).moves;
    SearchPlays(s, ds, 0, {}, [], []);
    if ds[0] != ds[1] {
      var b := Search(s, Swapped(ds), 0, {}, [], a).moves;
      SearchPlays(s, Swapped(ds), 0, {}, [], a);
      forall m | m in b
        ensures Played(s, ds, m) || Played(s, Swapped(ds), m)
      {
        var k :| 0 <= k < |b| && b[k] == m;
        if k < |a| {
          assert b[k] == b[..|a|][k];
        }
      }
    } else {
      forall m | m in a
        ensures Played(s, ds, m)
      {
        var k :| 0 <= k < |a| && a[k] == m;
      }
    }
  }

  /** Every move `get_moves` returns is a play of the rolled dice. */
  lemma GetMovesPlayed(s: State, ds: seq<int>)
    requires Valid(s) && IsDice(ds) && |ds| >= 2
    ensures IsDice(Swapped(ds))
    ensures forall m :: m in GetMoves(s, ds) ==>
              Played(s, ds, m) || (ds[0] != ds[1] && Played(s, Swapped(ds), m))
  {
    FinalizeSpec(Candidates(s, ds));
    CandidatesPlayed(s, ds);
  }

  /** The swapped order has the same dice, so neither has a die that can
      move when the other has none. */
  lemma NoMovesSwapped(s: State, ds: seq<int>)
    requires Valid(s) && IsDice(ds) && |ds| >= 2
    ensures IsDice(Swapped(ds))
    ensures NoMoves(s, ds, 0) <==> NoMoves(s, Swapped(ds), 0)
  {
    var t := Swapped(ds);
    assert forall k :: 2 <= k < |ds| ==> t[k] == ds[k];
    assert t[0] == ds[1] && t[1] == ds[0];
  }

  /** A roll none of whose dice can move a checker gives no move, unless
      the player may bear off: then the search bears off from the farthest
      home points whatever the dice show. */
  lemma NoMovesNoMove(s: State, ds: seq<int>)
    requires Valid(s) && IsDice(ds) && |ds| >= 2
    requires NoMoves(s, ds, 0) && !CanBearOff(s)
    ensures GetMoves(s, ds) == []
  {
    NoMovesSwapped(s, ds);
  }
}

=== FILE: params.dfy ===
/** Parameter files and the parameter list of the network.

    `save_parameters` writes, for every registered parameter in order, a
    line holding its element count and a line holding its values joined
    by commas. `load_parameters` reads such blocks back into the live
    parameters, checking each count against the live size. Number text is
    abstract: `fmt` is what `<<` writes for a float and `parse` what
    `std::stof` reads back (`None` for its exception). */
module Params {
  import opened Errors
  import opened Text
  import opened View
  import opened RealSeq
  import opened Tensors

  /** The values of every parameter, in registration order. */
  type Values = seq<seq<real>>

  // ---------------------------------------------------------------------
  // Saving

  function Fields(p: seq<real>, fmt: real -> string): (r: seq<string>)
    ensures |r| == |p| && forall j :: 0 <= j < |p| ==> r[j] == fmt(p[j])
  {
    seq(|p|, j requires 0 <= j < |p| => fmt(p[j]))
  }

  /** The lines written for one parameter: the count, then the values
      line. The values loop writes the line break after the last value, so
      an empty parameter gets no values line at all. */
  function Block(p: seq<real>, fmt: real -> string): (r: seq<string>)
  {
    if |p| == 0 then [Decimal(0)] else [Decimal(|p|), Join(Fields(p, fmt), [','])]
  }

  function SaveLines(ps: Values, fmt: real -> string): (r: seq<string>)
    decreases |ps|
  {
    if |ps| == 0 then [] else Block(ps[0], fmt) + SaveLines(ps[1..], fmt)
  }

  /** The file `save_parameters` writes. */
  function Save(ps: Values, fmt: real -> string): string {
    Terminated(SaveLines(ps, fmt), '\n')
  }

  // ---------------------------------------------------------------------
  // Loading

  /** `std::stof` on every field; one failure fails the line. */
  function ParseAll(fs: seq<string>, parse: string -> Option<real>): (r: Option<seq<real>>)
    ensures r.Some? <==> forall j :: 0 <= j < |fs| ==> parse(fs[j]).Some?
    ensures r.Some? ==> |r.value| == |fs| && forall j :: 0 <= j < |fs| ==> r.value[j] == parse(fs[j]).value
    decreases |fs|
  {
    if |fs| == 0 then Some([])
    else match parse(fs[0])
      case None => None
      case Some(x) =>
        match ParseAll(fs[1..], parse)
        case None =>
          var j :| 0 <= j < |fs[1..]| && parse(fs[1..][j]).None?;
          assert parse(fs[j + 1]).None?;
          None
        case Some(xs) => Some([x] + xs)
  }

  /** The loop of `load_parameters` from block `index` on. Each block is a
      count line, which must read as an integer equal to the live
      parameter's size, and a values line, which must exist and hold
      exactly that many numbers; the values then replace the parameter's.
      A block past the last parameter indexes outside the parameter list,
      which the source does not guard; it is an error here. Parameters
      after the last block keep their values. */
  function LoadLines(ps: Values, lines: seq<string>, index: nat, parse: string -> Option<real>): (r: Result<Values>)
    decreases |lines|
  {
    if |lines| == 0 then Ok(ps)
    else match ParseInt(lines[0])
      case None => Err(FormatError)
      case Some(size) =>
        if index >= |ps| then Err(IndexError)
        else if size != |ps[index]| then Err(FormatError)
        else if |lines| < 2 then Err(FormatError)
        else match ParseAll(Split(lines[1], ','), parse)
          case None => Err(FormatError)
          case Some(vals) =>
            if |vals| != size then Err(FormatError)
            else LoadLines(ps[index := vals], lines[2..], index + 1, parse)
  }

  /** `load_parameters`: read the file line by line into the live
      parameters. */
  function Load(ps: Values, text: string, parse: string -> Option<real>): (r: Result<Values>) {
    LoadLines(ps, Split(text, '\n'), 0, parse)
  }

  /** Loading never changes how many parameters there are or the size of
      any of them, and leaves the blocks before `index` alone. */
  lemma {:induction false} LoadLinesKeepsSizes(ps: Values, lines: seq<string>, index: nat, parse: string -> Option<real>)
    ensures var r := LoadLines(ps, lines, index, parse);
      r.Ok? ==>
        |r.value| == |ps| && (forall i :: 0 <= i < |ps| ==> |r.value[i]| == |ps[i]|)
        && forall i :: 0 <= i < index && i < |ps| ==> r.value[i] == ps[i]
    decreases |lines|
  {
    if |lines| >= 2 && ParseInt(lines[0]).Some? && index < |ps| {
      var fs := Split(lines[1], ',');
      if ParseAll(fs, parse).Some? {
        LoadLinesKeepsSizes(ps[index := ParseAll(fs, parse).value], lines[2..], index + 1, parse);
      }
    }
  }

  /** Every successful load keeps the parameter sizes. */
  lemma LoadKeepsSizes(ps: Values, text: string, parse: string -> Option<real>)
    ensures var r := Load(ps, text, parse);
      r.Ok? ==> |r.value| == |ps| && forall i :: 0 <= i < |ps| ==> |r.value[i]| == |ps[i]|
  {
    LoadLinesKeepsSizes(ps, Split(text, '\n'), 0, parse);
  }

  // ---------------------------------------------------------------------
  // Round trip

  /** The number that reading back the written text of `x` gives, if it
      reads back. */
  function ReadBack(x: real, fmt: real -> string, parse: string -> Option<real>): real {
    match parse(fmt(x))
    case Some(v) => v
    case None => 0.0
  }

  function Reread(p: seq<real>, fmt: real -> string, parse: string -> Option<real>): (r: seq<real>)
    ensures |r| == |p| && forall j :: 0 <= j < |p| ==> r[j] == ReadBack(p[j], fmt, parse)
  {
    seq(|p|, j requires 0 <= j < |p| => ReadBack(p[j], fmt, parse))
  }

  function RereadAll(qs: Values, fmt: real -> string, parse: string -> Option<real>): (r: Values)
    ensures |r| == |qs| && forall i :: 0 <= i < |qs| ==> r[i] == Reread(qs[i], fmt, parse)
  {
    seq(|qs|, i requires 0 <= i < |qs| => Reread(qs[i], fmt, parse))
  }

  /** The saved blocks fit the live parameters from `index` on: there are
      enough of them and each has the saved size. */
  predicate Fits(ps: Values, qs: Values, index: nat) {
    index + |qs| <= |ps| && forall i :: 0 <= i < |qs| ==> |qs[i]| == |ps[index + i]|
  }

  /** What the number text has to satisfy: every written number is a
      non-empty field free of separators that reads back. */
  ghost predicate Readable(fmt: real -> string, parse: string -> Option<real>) {
    forall x :: |fmt(x)| > 0 && ',' !in fmt(x) && '\n' !in fmt(x) && parse(fmt(x)).Some?
  }

  lemma {:induction false} JoinAvoids(fs: seq<string>, d: char, c: char)
    requires c != d && forall k :: 0 <= k < |fs| ==> c !in fs[k]
    ensures c !in Join(fs, [d])
    decreases |fs|
  {
    if |fs| > 1 {
      JoinAvoids(fs[1..], d, c);
    }
  }

  /** A written values line reads back as the re-read values. */
  lemma ParseSavedLine(q: seq<real>, fmt: real -> string, parse: string -> Option<real>)
    requires Readable(fmt, parse) && |q| > 0
    ensures ParseAll(Split(Join(Fields(q, fmt), [',']), ','), parse) == Some(Reread(q, fmt, parse))
  {
    var fs := Fields(q, fmt);
    forall k | 0 <= k < |fs|
      ensures |fs[k]| > 0 && ',' !in fs[k] && parse(fs[k]).Some?
    {
      var x := q[k];
      assert fs[k] == fmt(x);
    }
    SplitJoin(fs, ',');
    var vals := Reread(q, fmt, parse);
    var pa := ParseAll(fs, parse);
    assert forall j :: 0 <= j < |fs| ==> pa.value[j] == vals[j];
    assert pa.value == vals;
  }

  /** The first written block, read at `index`: it replaces that
      parameter if the sizes agree and fails otherwise. */
  lemma LoadBlock(ps: Values, qs: Values, index: nat, fmt: real -> string, parse: string -> Option<real>)
    requires Readable(fmt, parse) && |qs| > 0 && 0 < |qs[0]| <= IntMax
    ensures var r := LoadLines(ps, SaveLines(qs, fmt), index, parse);
      if index < |ps| && |qs[0]| == |ps[index]|
      then r == LoadLines(ps[index := Reread(qs[0], fmt, parse)], SaveLines(qs[1..], fmt), index + 1, parse)
      else r.Err?
  {
    var q := qs[0];
    var lines := SaveLines(qs, fmt);
    assert lines == Block(q, fmt) + SaveLines(qs[1..], fmt);
    ParseDecimal(|q|);
    assert lines[0] == Decimal(|q|);
    if index < |ps| && |q| == |ps[index]| {
      ParseSavedLine(q, fmt, parse);
      assert lines[1] == Join(Fields(q, fmt), [',']);
      assert lines[2..] == SaveLines(qs[1..], fmt);
    }
  }

  /** Filling the first fitting slot keeps the rest fitting. */
  lemma FitsStep(ps: Values, qs: Values, index: nat, vals: seq<real>)
    requires index < |ps| && |qs| > 0 && |vals| == |ps[index]| && |qs[0]| == |ps[index]|
    ensures Fits(ps, qs, index) <==> Fits(ps[index := vals], qs[1..], index + 1)
  {
    assert forall i :: 1 <= i < |qs| ==> qs[i] == qs[1..][i - 1];
  }

  /** `ps` with the slots from `index` on replaced by `vs`. */
  function Spliced(ps: Values, index: nat, vs: Values): (r: Values)
    requires index + |vs| <= |ps|
  {
    ps[..index] + vs + ps[index + |vs|..]
  }

  /** Replacing slot `index` and then the slots after it is replacing
      them all from `index`. */
  lemma SpliceStep(ps: Values, index: nat, vals: seq<real>, tail: Values)
    requires index + 1 + |tail| <= |ps|
    ensures Spliced(ps[index := vals], index + 1, tail) == Spliced(ps, index, [vals] + tail)
  {
    var ps' := ps[index := vals];
    assert ps'[..index + 1] == ps[..index] + [vals];
    assert ps'[index + 1 + |tail|..] == ps[index + 1 + |tail|..];
  }

  lemma RereadAllCons(qs: Values, fmt: real -> string, parse: string -> Option<real>)
    requires |qs| > 0
    ensures RereadAll(qs, fmt, parse) == [Reread(qs[0], fmt, parse)] + RereadAll(qs[1..], fmt, parse)
  {
  }

  /** Reading blocks written from `qs` succeeds exactly when they fit the
      live parameters. */
  lemma {:induction false} LoadSavedOk(ps: Values, qs: Values, index: nat,
                                       fmt: real -> string, parse: string -> Option<real>)
    requires Readable(fmt, parse)
    requires forall i :: 0 <= i < |qs| ==> 0 < |qs[i]| <= IntMax
    requires index <= |ps|
    ensures LoadLines(ps, SaveLines(qs, fmt), index, parse).Ok? <==> Fits(ps, qs, index)
    decreases |qs|
  {
    if |qs| > 0 {
      var q := qs[0];
      LoadBlock(ps, qs, index, fmt, parse);
      if index < |ps| && |q| == |ps[index]| {
        var vals := Reread(q, fmt, parse);
        LoadSavedOk(ps[index := vals], qs[1..], index + 1, fmt, parse);
        FitsStep(ps, qs, index, vals);
      } else {
        assert !Fits(ps, qs, index) by {
          if index + |qs| <= |ps| {
            assert |qs[0]| != |ps[index + 0]|;
          }
        }
      }
    }
  }

  /** Reading blocks that fit replaces the parameters they cover with the
      re-read values and keeps the others. */
  lemma {:induction false} LoadSavedValues(ps: Values, qs: Values, index: nat,
                                           fmt: real -> string, parse: string -> Option<real>)
    requires Readable(fmt, parse)
    requires forall i :: 0 <= i < |qs| ==> 0 < |qs[i]| <= IntMax
    requires Fits(ps, qs, index)
    ensures LoadLines(ps, SaveLines(qs, fmt), index, parse) == Ok(Spliced(ps, index, RereadAll(qs, fmt, parse)))
    decreases |qs|
  {
    if |qs| == 0 {
      assert SaveLines(qs, fmt) == [];
      assert RereadAll(qs, fmt, parse) == [];
      assert ps == ps[..index] + [] + ps[index..];
    } else {
      var q := qs[0];
      assert |q| == |ps[index + 0]|;
      LoadBlock(ps, qs, index, fmt, parse);
      var vals := Reread(q, fmt, parse);
      var ps' := ps[index := vals];
      FitsStep(ps, qs, index, vals);
      LoadSavedValues(ps', qs[1..], index + 1, fmt, parse);
      var tail := RereadAll(qs[1..], fmt, parse);
      SpliceStep(ps, index, vals, tail);
      RereadAllCons(qs, fmt, parse);
    }
  }

  /** Saving and then loading into parameters of the same sizes restores
      every value, up to the text form of numbers; loading into parameters
      of other sizes, or fewer of them, fails. */
  lemma SaveLoad(ps: Values, qs: Values, fmt: real -> string, parse: string -> Option<real>)
    requires Readable(fmt, parse)
    requires forall i :: 0 <= i < |qs| ==> 0 < |qs[i]| <= IntMax
    ensures Load(ps, Save(qs, fmt), parse).Ok? <==> Fits(ps, qs, 0)
    ensures Load(ps, Save(qs, fmt), parse).Ok? ==>
      Load(ps, Save(qs, fmt), parse).value == RereadAll(qs, fmt, parse) + ps[|qs|..]
  {
    var lines := SaveLines(qs, fmt);
    SavedLinesClean(qs, fmt);
    SplitTerminated(lines, '\n');
    assert Load(ps, Save(qs, fmt), parse) == LoadLines(ps, lines, 0, parse);
    LoadSavedOk(ps, qs, 0, fmt, parse);
    if Fits(ps, qs, 0) {
      LoadSavedValues(ps, qs, 0, fmt, parse);
      var vs := RereadAll(qs, fmt, parse);
      assert Spliced(ps, 0, vs) == vs + ps[|qs|..] by {
        assert ps[..0] == [];
      }
    }
  }

  /** No saved line contains a line break. */
  lemma {:induction false} SavedLinesClean(qs: Values, fmt: real -> string)
    requires forall x :: ',' !in fmt(x) && '\n' !in fmt(x)
    ensures forall k :: 0 <= k < |SaveLines(qs, fmt)| ==> '\n' !in SaveLines(qs, fmt)[k]
    decreases |qs|
  {
    if |qs| > 0 {
      var fs := Fields(qs[0], fmt);
      forall k | 0 <= k < |fs|
        ensures '\n' !in fs[k]
      {
        var x := qs[0][k];
        assert fs[k] == fmt(x);
      }
      JoinAvoids(fs, ',', '\n');
      SavedLinesClean(qs[1..], fmt);
    }
  }

  /** A saved count that differs from the live size is refused: the
      first block of a one-parameter file meets a parameter of another
      size. */
  lemma LoadRejectsWrongCount(p: seq<real>, q: seq<real>, fmt: real -> string, parse: string -> Option<real>)
    requires Readable(fmt, parse)
    requires 0 < |q| <= IntMax && |p| != |q|
    ensures Load([p], Save([q], fmt), parse) == Err(FormatError)
  {
    ParseDecimal(|q|);
    SavedLinesClean([q], fmt);
    SplitTerminated(SaveLines([q], fmt), '\n');
  }

  // ---------------------------------------------------------------------
  // The parameter list

  /** `Linear(parent, in, out)`: weights of shape (out, in), drawn by the
      random initialiser (here the given values), then a zero bias of
      shape (out, 1), appended to the parent's list in that order. */
  function AddLinear(params: seq<Node>, inF: int, outF: int, init: seq<real>): (r: seq<Node>)
    requires inF > 0 && outF > 0 && |init| == outF * inF
    ensures |r| == |params| + 2 && r[..|params|] == params
    ensures WellFormed(r[|params|]) && r[|params|].shape == [outF, inF] && r[|params|].values == init
    ensures WellFormed(r[|params| + 1]) && r[|params| + 1].shape == [outF, 1]
    ensures r[|params| + 1].values == Constant(outF, 0.0)
  {
    ShapeSize2([outF, inF]);
    ShapeSize2([outF, 1]);
    params + [FromValues([outF, inF], init).value, Filled([outF, 1], 0.0)]
  }

  const InputFeatures: int := 201

  /** `NeuralNetwork(hidden)`: layer one (201 to `hidden`) registers
      before layer two (`hidden` to 1), so the list is W1, b1, W2, b2. */
  function Network(hidden: int, init1: seq<real>, init2: seq<real>): (r: seq<Node>)
    requires hidden > 0 && |init1| == hidden * InputFeatures && |init2| == hidden
    ensures |r| == 4 && forall i :: 0 <= i < 4 ==> WellFormed(r[i])
    ensures r[0].shape == [hidden, InputFeatures] && r[1].shape == [hidden, 1]
    ensures r[2].shape == [1, hidden] && r[3].shape == [1, 1]
  {
    AddLinear(AddLinear([], InputFeatures, hidden, init1), hidden, 1, init2)
  }

  function ValuesOf(params: seq<Node>): (r: Values)
    ensures |r| == |params| && forall i :: 0 <= i < |params| ==> r[i] == params[i].values
  {
    seq(|params|, i requires 0 <= i < |params| => params[i].values)
  }

  /** The file of a network with `hidden` units holds the counts
      201·hidden, hidden, hidden and 1, each followed by its values line:
      the layout the browser player's reader expects. */
  lemma NetworkFileLayout(hidden: int, init1: seq<real>, init2: seq<real>, fmt: real -> string)
    requires hidden > 0 && |init1| == hidden * InputFeatures && |init2| == hidden
    ensures var ls := SaveLines(ValuesOf(Network(hidden, init1, init2)), fmt);
      |ls| == 8 && ls[0] == Decimal(hidden * InputFeatures) && ls[2] == Decimal(hidden)
      && ls[4] == Decimal(hidden) && ls[6] == Decimal(1)
  {
    var net := Network(hidden, init1, init2);
    var vs := ValuesOf(net);
    ShapeSize2(net[0].shape);
    ShapeSize2(net[1].shape);
    ShapeSize2(net[2].shape);
    ShapeSize2(net[3].shape);
    var l0 := Block(vs[0], fmt);
    var l1 := Block(vs[1], fmt);
    var l2 := Block(vs[2], fmt);
    var l3 := Block(vs[3], fmt);
    assert |vs[0]| > 0 && |vs[1]| > 0 && |vs[2]| > 0 && |vs[3]| > 0;
    var t1, t2, t3 := vs[1..], vs[1..][1..], vs[1..][1..][1..];
    assert t1[0] == vs[1] && t2[0] == vs[2] && t3[0] == vs[3] && t3[1..] == [];
    assert SaveLines(t3, fmt) == l3;
    assert SaveLines(t2, fmt) == l2 + l3;
    assert SaveLines(t1, fmt) == l1 + l2 + l3;
    assert SaveLines(vs, fmt) == l0 + l1 + l2 + l3;
  }

  /** `Linear::forward` on an input of shape (in, batch): the product
      with the weights has shape (out, batch), and the bias of shape
      (out, 1) broadcasts along the batch axis, so the sum has shape
      (out, batch). */
  lemma LinearForwardShape(w: Node, b: Node, x: Node, wh: Handle, bh: Handle, xh: Handle, mh: Handle)
    requires WellFormed(w) && WellFormed(b) && WellFormed(x)
    requires |w.shape| == 2 && b.shape == [w.shape[0], 1] && |x.shape| == 2 && x.shape[0] == w.shape[1]
    ensures Matmul(w, x, wh, xh).Ok?
    ensures Add(Matmul(w, x, wh, xh).value, b, mh, bh).Ok?
    ensures Add(Matmul(w, x, wh, xh).value, b, mh, bh).value.shape == [w.shape[0], x.shape[1]]
  {
    var m := Matmul(w, x, wh, xh).value;
    var out := [w.shape[0], x.shape[1]];
    assert FromBack(m.shape, 0) == x.shape[1] && FromBack(b.shape, 0) == 1;
    assert FromBack(m.shape, 1) == w.shape[0] && FromBack(b.shape, 1) == w.shape[0];
    assert Broadcastable(m.shape, b.shape);
    var s := BroadcastShape(m.shape, b.shape).value;
    assert FromBack(s, 0) == x.shape[1] && FromBack(s, 1) == w.shape[0];
    SameFromBackEqual(s, out);
  }
}

=== FILE: printer.dfy ===
/** The stream printers for shapes and tensors. A shape prints as its
    sizes in parentheses separated by ", "; a tensor prints its shape and
    then its values nested one bracket pair per axis. The text of a single
    value is `fmt`, left abstract. */
module Printer {
  import opened Errors
  import opened Arith
  import opened Text
  import opened View
  import opened Tensors

  // ---------------------------------------------------------------------
  // Shapes

  function SizeTexts(s: Shape): (r: seq<string>)
    ensures |r| == |s| && forall i :: 0 <= i < |s| ==> r[i] == IntText(s[i])
  {
    seq(|s|, i requires 0 <= i < |s| => IntText(s[i]))
  }

  /** `os << shape`. */
  function ShapeText(s: Shape): (r: string)
    ensures |s| == 0 ==> r == "()"
    ensures |r| >= 2 && r[0] == '(' && r[|r| - 1] == ')'
  {
    "(" + Join(SizeTexts(s), ", ") + ")"
  }

  lemma {:induction false} JoinSnoc(fs: seq<string>, f: string, sep: string)
    requires |fs| > 0
    ensures Join(fs + [f], sep) == Join(fs, sep) + sep + f
    decreases |fs|
  {
    if |fs| > 1 {
      assert (fs + [f])[1..] == fs[1..] + [f];
      JoinSnoc(fs[1..], f, sep);
    } else {
      assert (fs + [f])[1..] == [f];
    }
  }

  /** Joining one more field: the separator goes before it. */
  lemma JoinStep(ts: seq<string>, i: int, sep: string)
    requires 0 <= i < |ts|
    ensures Join(ts[..i + 1], sep) == if i == 0 then ts[0] else Join(ts[..i], sep) + sep + ts[i]
  {
    assert ts[..i + 1] == ts[..i] + [ts[i]];
    if i > 0 {
      JoinSnoc(ts[..i], ts[i], sep);
    }
  }

  /** One round of the printing loop extends the joined text by a field. */
  lemma WriteStep(ts: seq<string>, i: int, out: string)
    requires 0 <= i < |ts|
    requires out == "(" + Join(ts[..i], ", ") + (if 0 < i then ", " else "")
    ensures out + ts[i] == "(" + Join(ts[..i + 1], ", ")
  {
    JoinStep(ts, i, ", ");
    if i == 0 {
      assert out == "(";
    } else {
      var before := Join(ts[..i], ", ");
      assert out + ts[i] == "(" + (before + ", " + ts[i]);
    }
  }

  /** The printing loop as the stream sees it: each size, and ", " after
      every size but the last. It writes exactly `ShapeText`. */
  method WriteShape(s: Shape) returns (out: string)
    ensures out == ShapeText(s)
  {
    var ts := SizeTexts(s);
    out := "(";
    var i := 0;
    while i < |s|
      invariant 0 <= i <= |s|
      invariant out == "(" + Join(ts[..i], ", ") + (if 0 < i < |s| then ", " else "")
    {
      WriteStep(ts, i, out);
      out := out + IntText(s[i]);
      if i < |s| - 1 {
        out := out + ", ";
      }
      i := i + 1;
    }
    assert ts[..|s|] == ts;
    out := out + ")";
  }

  /** Reading a shape's text back: the part between the parentheses, split
      at commas, each piece read with `stoi` (which skips the space after
      the comma). */
  function ReadShape(t: string): (r: Option<Shape>)
    ensures r.Some? ==> |t| >= 2
  {
    if |t| < 2 || t[0] != '(' || t[|t| - 1] != ')' then None
    else ReadSizes(Split(t[1..|t| - 1], ','))
  }

  function ReadSizes(pieces: seq<string>): (r: Option<Shape>)
    ensures r.Some? ==> |r.value| == |pieces|
    decreases |pieces|
  {
    if |pieces| == 0 then Some([])
    else match (ParseInt(pieces[0]), ReadSizes(pieces[1..]))
      case (Some(x), Some(rest)) => Some([x] + rest)
      case _ => None
  }

  /** Fields with the space of a preceding ", " attached. */
  function Spaced(ts: seq<string>): (r: seq<string>)
    ensures |r| == |ts| && forall i :: 0 <= i < |ts| ==> r[i] == " " + ts[i]
  {
    seq(|ts|, i requires 0 <= i < |ts| => " " + ts[i])
  }

  /** The pieces a comma split finds in a ", "-joined text. */
  function Padded(ts: seq<string>): (r: seq<string>)
    ensures |r| == |ts|
  {
    if |ts| == 0 then [] else [ts[0]] + Spaced(ts[1..])
  }

  lemma SpacedJoin(u: seq<string>)
    requires |u| > 0
    ensures Join(Spaced(u), ",") == " " + Join(Padded(u), ",")
  {
    if |u| > 1 {
      assert Spaced(u)[1..] == Padded(u)[1..];
    }
  }

  lemma {:induction false} JoinPadded(ts: seq<string>)
    ensures Join(ts, ", ") == Join(Padded(ts), ",")
    decreases |ts|
  {
    if |ts| > 1 {
      var tail := ts[1..];
      JoinPadded(tail);
      SpacedJoin(tail);
      assert Padded(ts)[1..] == Spaced(tail);
    }
  }

  lemma {:induction false} ReadSpaced(s: Shape)
    requires forall k :: 0 <= k < |s| ==> IntMin <= s[k] <= IntMax
    ensures ReadSizes(Spaced(SizeTexts(s))) == Some(s)
    decreases |s|
  {
    if |s| > 0 {
      var p := Spaced(SizeTexts(s));
      ParseIntText(s[0], " ");
      assert p[1..] == Spaced(SizeTexts(s[1..]));
      ReadSpaced(s[1..]);
      assert [s[0]] + s[1..] == s;
    }
  }

  lemma ReadPadded(s: Shape)
    requires forall k :: 0 <= k < |s| ==> IntMin <= s[k] <= IntMax
    ensures ReadSizes(Padded(SizeTexts(s))) == Some(s)
  {
    if |s| > 0 {
      var p := Padded(SizeTexts(s));
      ParseIntText(s[0], []);
      assert [] + IntText(s[0]) == p[0];
      assert p[1..] == Spaced(SizeTexts(s[1..]));
      ReadSpaced(s[1..]);
      assert [s[0]] + s[1..] == s;
    }
  }

  /** A shape of 32-bit sizes is read back from its text. */
  lemma ShapeTextRoundTrip(s: Shape)
    requires forall k :: 0 <= k < |s| ==> IntMin <= s[k] <= IntMax
    ensures ReadShape(ShapeText(s)) == Some(s)
  {
    var t := ShapeText(s);
    var ts := SizeTexts(s);
    assert t[1..|t| - 1] == Join(ts, ", ");
    JoinPadded(ts);
    var p := Padded(ts);
    forall k | 0 <= k < |p|
      ensures |p[k]| > 0 && ',' !in p[k]
    {
      var x := s[k];
      IntTextClean(x);
    }
    SplitJoin(p, ',');
    ReadPadded(s);
  }

  lemma IntTextClean(n: int)
    ensures ',' !in IntText(n) && ' ' !in IntText(n)
  {
    var d := Decimal(if n < 0 then -n else n);
    assert forall k :: 0 <= k < |d| ==> IsDigit(d[k]);
  }

  // ---------------------------------------------------------------------
  // Tensors

  /** The nesting the printer walks: a value, or a bracketed group. */
  datatype Doc = Leaf(x: real) | Group(items: seq<Doc>)

  /** Text of a nesting: groups in brackets with items separated by ", ". */
  function Render(d: Doc, fmt: real -> string): string
    decreases d
  {
    match d
    case Leaf(x) => fmt(x)
    case Group(items) =>
      "[" + Join(seq(|items|, i requires 0 <= i < |items| => Render(items[i], fmt)), ", ") + "]"
  }

  /** The values of a nesting in the order they are printed. */
  function Leaves(d: Doc): seq<real>
    decreases d
  {
    match d
    case Leaf(x) => [x]
    case Group(items) => Concat(seq(|items|, i requires 0 <= i < |items| => Leaves(items[i])))
  }

  function Concat(xs: seq<seq<real>>): (r: seq<real>)
    ensures |xs| == 0 ==> r == []
    decreases |xs|
  {
    if |xs| == 0 then [] else xs[0] + Concat(xs[1..])
  }

  /** `d` is nested exactly as shape `s`: a bracket level per axis, as
      many items as the axis size, and values at the bottom. */
  predicate HasShape(d: Doc, s: Shape)
    decreases |s|
  {
    if |s| == 0 then d.Leaf?
    else (d.Group? && |d.items| == s[0]
          && forall i :: 0 <= i < s[0] ==> HasShape(d.items[i], s[1..]))
  }

  /** The leading coordinates `c` fix a block of the tensor. */
  predicate PrefixIn(c: Indices, s: Shape) {
    |c| <= |s| && forall k :: 0 <= k < |c| ==> 0 <= c[k] < s[k]
  }

  /** The elements whose leading coordinates are `c` sit together, after
      the offset of `c`. */
  lemma {:induction false} PrefixBlock(c: Indices, s: Shape)
    requires ValidShape(s) && PrefixIn(c, s)
    ensures 0 <= Ravel(c, StridesFromShape(s))
    ensures Ravel(c, StridesFromShape(s)) + ShapeSize(s[|c|..]) <= ShapeSize(s)
    decreases |c|
  {
    if |c| == 0 {
      assert s[0..] == s;
    } else {
      var st := StridesFromShape(s);
      var c', s' := c[1..], s[1..];
      var p := ShapeSize(s');
      assert ValidShape(s');
      assert PrefixIn(c', s');
      assert st[1..] == StridesFromShape(s');
      PrefixBlock(c', s');
      var r := Ravel(c', st[1..]);
      assert Ravel(c, st) == c[0] * p + r;
      assert s'[|c'|..] == s[|c|..];
      MulNonNeg(c[0], p);
      BlockBound(c[0], s[0], p, p - 1);
    }
  }

  /** `len` values of `v` from `a` on, or nothing if they do not fit. */
  function Stretch(v: seq<real>, a: int, len: int): (r: seq<real>)
    ensures 0 <= a && 0 <= len && a + len <= |v| ==> r == v[a..a + len]
  {
    if 0 <= a && 0 <= len && a + len <= |v| then v[a..a + len] else []
  }

  /** The values with leading coordinates `c`, in row-major order. */
  function Block(n: Node, c: Indices): seq<real>
    requires WellFormed(n) && PrefixIn(c, n.shape)
  {
    Stretch(n.values, Ravel(c, n.strides), ShapeSize(n.shape[|c|..]))
  }

  /** The recursion of the tensor printer below the coordinates `c`: at
      full depth the value at `c`, otherwise a group over the next axis. */
  function Nested(n: Node, c: Indices): (d: Doc)
    requires WellFormed(n) && PrefixIn(c, n.shape)
    decreases |n.shape| - |c|
  {
    if |c| == |n.shape| then Leaf(ValueAt(n, c))
    else Group(seq(n.shape[|c|], i requires 0 <= i < n.shape[|c|] => Nested(n, c + [i])))
  }

  /** `os << tensor`. */
  function TensorText(n: Node, fmt: real -> string): string
    requires WellFormed(n)
  {
    "Tensor(shape=" + ShapeText(n.shape) + ", data=" + Render(Nested(n, []), fmt) + ")"
  }

  /** The printed nesting has one bracket level per axis and one item per
      position along it. */
  lemma {:induction false} NestedShape(n: Node, c: Indices)
    requires WellFormed(n) && PrefixIn(c, n.shape)
    ensures HasShape(Nested(n, c), n.shape[|c|..])
    decreases |n.shape| - |c|
  {
    if |c| < |n.shape| {
      var d := Nested(n, c);
      var s := n.shape[|c|..];
      forall i | 0 <= i < s[0]
        ensures HasShape(d.items[i], s[1..])
      {
        assert s[1..] == n.shape[|c + [i]|..];
        NestedShape(n, c + [i]);
      }
    }
  }

  lemma {:induction false} RavelSnoc(c: Indices, i: int, st: Strides)
    requires |c| < |st|
    ensures Ravel(c + [i], st) == Ravel(c, st) + i * st[|c|]
    decreases |c|
  {
    if |c| > 0 {
      assert (c + [i])[1..] == c[1..] + [i];
      RavelSnoc(c[1..], i, st[1..]);
    }
  }

  /** Item `i` of `xs` is the stretch of `v` from `e[i]` to `e[i + 1]`. */
  predicate RunAt(xs: seq<seq<real>>, v: seq<real>, e: seq<int>, i: int) {
    0 <= i < |xs| && |e| == |xs| + 1 && 0 <= e[i] <= e[i + 1] <= |v| && xs[i] == v[e[i]..e[i + 1]]
  }

  /** Pieces of `v` that follow each other concatenate to one stretch. */
  lemma {:induction false} ConcatRuns(xs: seq<seq<real>>, v: seq<real>, e: seq<int>)
    requires |e| == |xs| + 1 && 0 <= e[0] <= |v|
    requires forall i :: 0 <= i < |xs| ==> RunAt(xs, v, e, i)
    ensures e[0] <= e[|xs|] <= |v| && Concat(xs) == v[e[0]..e[|xs|]]
    decreases |xs|
  {
    if |xs| > 0 {
      var e' := e[1..];
      assert RunAt(xs, v, e, 0);
      forall i | 0 <= i < |xs| - 1
        ensures RunAt(xs[1..], v, e', i)
      {
        assert RunAt(xs, v, e, i + 1);
      }
      ConcatRuns(xs[1..], v, e');
      assert v[e[0]..e[|xs|]] == v[e[0]..e[1]] + v[e[1]..e[|xs|]];
    }
  }

  /** The offset of `c + [i + 1]` is one item's block past that of
      `c + [i]`, and both lie inside the tensor. */
  lemma ItemOffsets(s: Shape, c: Indices, i: int)
    requires ValidShape(s) && PrefixIn(c, s) && |c| < |s| && 0 <= i < s[|c|]
    ensures PrefixIn(c + [i], s) && ShapeSize(s[|c| + 1..]) >= 1
    ensures var st := StridesFromShape(s);
      var a := Ravel(c + [i], st);
      0 <= a && a + ShapeSize(s[|c| + 1..]) <= ShapeSize(s)
      && Ravel(c + [i + 1], st) == a + ShapeSize(s[|c| + 1..])
  {
    var l := |c|;
    var ci := c + [i];
    assert ValidShape(s[l + 1..]);
    assert PrefixIn(ci, s);
    PrefixBlock(ci, s);
    assert s[|ci|..] == s[l + 1..];
    NextItemOffset(c, i, StridesFromShape(s), ShapeSize(s[l + 1..]));
  }

  /** Stepping the last coordinate by one moves the offset by its stride. */
  lemma NextItemOffset(c: Indices, i: int, st: Strides, p: int)
    requires |c| < |st| && st[|c|] == p
    ensures Ravel(c + [i + 1], st) == Ravel(c + [i], st) + p
  {
    RavelSnoc(c, i, st);
    RavelSnoc(c, i + 1, st);
    MulSucc(i, p);
  }

  /** The block of an extension `c + [i]` starts where the offset of
      `c + [i]` says and ends where that of `c + [i + 1]` does. */
  lemma ItemRun(n: Node, c: Indices, i: int)
    requires WellFormed(n) && PrefixIn(c, n.shape) && |c| < |n.shape| && 0 <= i < n.shape[|c|]
    ensures PrefixIn(c + [i], n.shape)
    ensures 0 <= Ravel(c + [i], n.strides) <= Ravel(c + [i + 1], n.strides) <= |n.values|
    ensures Block(n, c + [i]) == n.values[Ravel(c + [i], n.strides)..Ravel(c + [i + 1], n.strides)]
  {
    var ci := c + [i];
    ItemOffsets(n.shape, c, i);
    var a := Ravel(ci, n.strides);
    var b := Ravel(c + [i + 1], n.strides);
    assert n.shape[|ci|..] == n.shape[|c| + 1..];
    BlockSlice(n, ci, b);
  }

  /** A block is the stretch from its offset over its size. */
  lemma BlockSlice(n: Node, c: Indices, b: int)
    requires WellFormed(n) && PrefixIn(c, n.shape)
    requires 0 <= Ravel(c, n.strides) <= b <= |n.values|
    requires b == Ravel(c, n.strides) + ShapeSize(n.shape[|c|..])
    ensures Block(n, c) == n.values[Ravel(c, n.strides)..b]
  {
  }

  /** The offsets of `c + [0]` and `c + [size]` bound the block of `c`. */
  lemma RunEnds(n: Node, c: Indices)
    requires WellFormed(n) && PrefixIn(c, n.shape) && |c| < |n.shape|
    ensures 0 <= Ravel(c, n.strides)
    ensures Ravel(c, n.strides) + ShapeSize(n.shape[|c|..]) <= |n.values|
    ensures Ravel(c + [0], n.strides) == Ravel(c, n.strides)
    ensures Ravel(c + [n.shape[|c|]], n.strides) == Ravel(c, n.strides) + ShapeSize(n.shape[|c|..])
  {
    var s := n.shape;
    var l := |c|;
    PrefixBlock(c, s);
    assert s[l..][1..] == s[l + 1..];
    assert n.strides[l] == ShapeSize(s[l + 1..]);
    RavelSnoc(c, 0, n.strides);
    RavelSnoc(c, s[l], n.strides);
  }

  /** Below coordinates `c` that stop short of a value, a group whose
      items print the blocks of `c + [0]`, `c + [1]`, ... prints the
      block of `c`. */
  lemma GroupLeaves(n: Node, c: Indices, d: Doc)
    requires WellFormed(n) && PrefixIn(c, n.shape) && |c| < |n.shape|
    requires d.Group? && |d.items| == n.shape[|c|]
    requires forall i :: 0 <= i < |d.items| ==>
      PrefixIn(c + [i], n.shape) && Leaves(d.items[i]) == Block(n, c + [i])
    ensures Leaves(d) == Block(n, c)
  {
    var xs := seq(|d.items|, i requires 0 <= i < |d.items| => Leaves(d.items[i]));
    var e := seq(|xs| + 1, k requires 0 <= k <= |xs| => Ravel(c + [k], n.strides));
    assert forall i :: 0 <= i < |xs| ==> RunAt(xs, n.values, e, i) by {
      forall i | 0 <= i < |xs|
        ensures RunAt(xs, n.values, e, i)
      {
        ItemRun(n, c, i);
      }
    }
    RunEnds(n, c);
    var o := Ravel(c, n.strides);
    assert e[0] == o;
    ConcatRuns(xs, n.values, e);
    assert Leaves(d) == Concat(xs);
    BlockSlice(n, c, e[|xs|]);
  }

  /** The values printed below `c` are the block of `c`, in row-major
      order. */
  lemma {:induction false} NestedLeaves(n: Node, c: Indices)
    requires WellFormed(n) && PrefixIn(c, n.shape)
    ensures Leaves(Nested(n, c)) == Block(n, c)
    decreases |n.shape| - |c|
  {
    var s := n.shape;
    var d := Nested(n, c);
    if |c| == |s| {
      assert InBounds(c, s);
      assert s[|c|..] == [];
      PrefixBlock(c, s);
      BlockSlice(n, c, Ravel(c, n.strides) + 1);
    } else {
      forall i | 0 <= i < |d.items|
        ensures PrefixIn(c + [i], s) && Leaves(d.items[i]) == Block(n, c + [i])
      {
        assert PrefixIn(c + [i], s);
        NestedLeaves(n, c + [i]);
      }
      GroupLeaves(n, c, d);
    }
  }

  /** The printer emits every value exactly once, in storage order: the
      leaves of the printed nesting are the tensor's values. */
  lemma PrintedValues(n: Node)
    requires WellFormed(n)
    ensures Leaves(Nested(n, [])) == n.values
    ensures |Leaves(Nested(n, []))| == ShapeSize(n.shape)
    ensures HasShape(Nested(n, []), n.shape)
  {
    NestedLeaves(n, []);
    NestedShape(n, []);
    assert n.shape[0..] == n.shape;
  }
}

=== FILE: realseq.dfy ===
/** Sums, maxima and counts over sequences of reals, with the facts the
    gradient proofs need. */
module RealSeq {

  function Sum(s: seq<real>): real {
    if |s| == 0 then 0.0 else s[0] + Sum(s[1..])
  }

  lemma {:induction false} SumConcat(a: seq<real>, b: seq<real>)
    ensures Sum(a + b) == Sum(a) + Sum(b)
    decreases |a|
  {
    if |a| == 0 {
      assert a + b == b;
    } else {
      assert (a + b)[1..] == a[1..] + b;
      SumConcat(a[1..], b);
    }
  }

  /** Adding `x` to one element adds `x` to the sum. */
  lemma {:induction false} SumUpdate(s: seq<real>, k: int, x: real)
    requires 0 <= k < |s|
    ensures Sum(s[k := s[k] + x]) == Sum(s) + x
    decreases |s|
  {
    if k > 0 {
      assert s[k := s[k] + x][1..] == s[1..][k - 1 := s[1..][k - 1] + x];
      SumUpdate(s[1..], k - 1, x);
    }
  }

  /** The largest element of a non-empty sequence. */
  function MaxOf(s: seq<real>): (m: real)
    requires |s| > 0
    ensures forall j :: 0 <= j < |s| ==> s[j] <= m
    ensures exists j :: 0 <= j < |s| && s[j] == m
  {
    if |s| == 1 then s[0]
    else
      var rest := MaxOf(s[1..]);
      assert forall j :: 1 <= j < |s| ==> s[j] == s[1..][j - 1];
      var j' :| 0 <= j' < |s[1..]| && s[1..][j'] == rest;
      assert s[j' + 1] == rest;
      if s[0] < rest then rest else s[0]
  }

  /** How many elements equal `x`. */
  function CountOf(s: seq<real>, x: real): (n: nat)
    ensures n <= |s|
    ensures (exists j :: 0 <= j < |s| && s[j] == x) ==> n >= 1
  {
    if |s| == 0 then 0
    else
      assert forall j :: 1 <= j < |s| ==> s[j] == s[1..][j - 1];
      (if s[0] == x then 1 else 0) + CountOf(s[1..], x)
  }

  /** Pointwise sum of two equally long sequences. */
  function AddSeq(a: seq<real>, b: seq<real>): (r: seq<real>)
    requires |a| == |b|
    ensures |r| == |a| && forall i :: 0 <= i < |a| ==> r[i] == a[i] + b[i]
  {
    seq(|a|, i requires 0 <= i < |a| => a[i] + b[i])
  }

  function Constant(n: nat, x: real): (r: seq<real>)
    ensures |r| == n && forall i :: 0 <= i < n ==> r[i] == x
  {
    seq(n, _ => x)
  }

  /** Dividing by a non-zero real and multiplying back is the identity. */
  lemma DivMul(x: real, c: real)
    requires c != 0.0
    ensures c * (x / c) == x
  {
  }
}

=== FILE: tensors.dfy ===
/** Tensor nodes (`Node` in Tensor.h) and the forward half of every
    differentiable operation. A node holds its values, shape, row-major
    strides and gradient buffer, the handles of the nodes it was computed
    from, a tag naming its gradient function, and integer metadata. Values
    and gradients are reals: the model ignores `float` rounding. */
module Tensors {
  import opened Errors
  import opened Arith
  import opened View
  import opened RealSeq

  /** Identity of a node in the computation graph; the source compares
      shared pointers, the model compares integers. */
  type Handle = int

  /** The gradient function a node carries; `LeafOp` means none. */
  datatype Op = LeafOp | AddOp | SubOp | MulOp | SumOp | MaxOp | ReluOp | MatmulOp

  datatype Node = Node(
    values: seq<real>,
    shape: Shape,
    strides: Strides,
    grads: seq<real>,
    edges: seq<Handle>,
    op: Op,
    meta: map<string, int>)

  /** The node invariant: positive axes, row-major strides, and as many
      values and gradients as the shape has elements. */
  predicate WellFormed(n: Node) {
    ValidShape(n.shape) && n.strides == StridesFromShape(n.shape)
    && |n.values| == ShapeSize(n.shape) && |n.grads| == |n.values|
  }

  /** `value(indices)`: the value at a coordinate. */
  function ValueAt(n: Node, c: Indices): real
    requires WellFormed(n) && InBounds(c, n.shape)
  {
    RavelInBounds(c, n.shape);
    n.values[Ravel(c, n.strides)]
  }

  /** Entry `(i, j)` of a rank-2 node, addressed the way `transpose` and
      `matmul` address it. */
  function Entry(n: Node, i: int, j: int): real
    requires WellFormed(n) && |n.shape| == 2
    requires 0 <= i < n.shape[0] && 0 <= j < n.shape[1]
  {
    ShapeSize2(n.shape);
    BlockBound(i, n.shape[0], n.shape[1], j);
    n.values[i * n.shape[1] + j]
  }

  /** The gradient of entry `(i, j)` of a rank-2 node. */
  function GradEntry(n: Node, i: int, j: int): real
    requires WellFormed(n) && |n.shape| == 2
    requires 0 <= i < n.shape[0] && 0 <= j < n.shape[1]
  {
    ShapeSize2(n.shape);
    BlockBound(i, n.shape[0], n.shape[1], j);
    n.grads[i * n.shape[1] + j]
  }

  lemma ShapeSize2(s: Shape)
    requires |s| == 2
    ensures ShapeSize(s) == s[0] * s[1]
  {
    assert s[1..][1..] == [];
  }

  // ---------------------------------------------------------------------
  // Constructors

  /** `Node(shape, value)`: every element is `value`, every gradient 0, no
      edges. `Node(value)` is `Filled([1], value)`. */
  function Filled(shape: Shape, value: real): (n: Node)
    requires ValidShape(shape)
    ensures WellFormed(n) && n.shape == shape && n.edges == [] && n.op == LeafOp
    ensures forall i :: 0 <= i < |n.values| ==> n.values[i] == value && n.grads[i] == 0.0
  {
    var size := ShapeSize(shape);
    Node(Constant(size, value), shape, StridesFromShape(shape), Constant(size, 0.0), [], LeafOp, map[])
  }

  /** `Node(shape, values)`: the source asserts that the element count
      matches the shape. */
  function FromValues(shape: Shape, values: seq<real>): (r: Result<Node>)
    requires ValidShape(shape)
    ensures r.Ok? <==> ShapeSize(shape) == |values|
    ensures r.Ok? ==> WellFormed(r.value) && r.value.shape == shape && r.value.values == values
    ensures r.Ok? ==> r.value.edges == [] && r.value.op == LeafOp
    ensures r.Ok? ==> forall i :: 0 <= i < |values| ==> r.value.grads[i] == 0.0
  {
    if ShapeSize(shape) != |values| then Err(ShapeMismatch)
    else Ok(Node(values, shape, StridesFromShape(shape), Constant(|values|, 0.0), [], LeafOp, map[]))
  }

  // ---------------------------------------------------------------------
  // Broadcasting elementwise operations (addition, subtraction,
  // multiplication)

  /** Flat index, in an operand of shape `a`, of the element that output
      element `i` of a broadcast to `out` reads: unravel in `out`, reshape
      to `a`, ravel in `a`. */
  function OperandOffset(a: Shape, out: Shape, i: int): (k: int)
    requires ValidShape(a) && ValidShape(out) && ExpandsTo(a, out)
    requires 0 <= i < ShapeSize(out)
    ensures 0 <= k < ShapeSize(a)
  {
    StridesPositive(out);
    RavelUnravel(i, out);
    var c := Unravel(i, out, StridesFromShape(out));
    BroadcastOperandIndex(a, out, c);
    var ca := ReshapeIndices(c, a);
    RavelInBounds(ca, a);
    Ravel(ca, StridesFromShape(a))
  }

  /** The shared body of `addition`, `subtraction` and `multiplication`:
      broadcast the shapes, then combine the two operand elements that each
      output element reads. `f` is the scalar operation. */
  function Elementwise(u: Node, v: Node, uh: Handle, vh: Handle, op: Op, f: (real, real) -> real): (r: Result<Node>)
    requires WellFormed(u) && WellFormed(v)
    ensures r.Ok? <==> Broadcastable(u.shape, v.shape)
    ensures r.Ok? ==> WellFormed(r.value) && r.value.shape == BroadcastShape(u.shape, v.shape).value
    ensures r.Ok? ==> ExpandsTo(u.shape, r.value.shape) && ExpandsTo(v.shape, r.value.shape)
    ensures r.Ok? ==> r.value.edges == [uh, vh] && r.value.op == op
    ensures r.Ok? ==> forall i :: 0 <= i < |r.value.grads| ==> r.value.grads[i] == 0.0
  {
    match BroadcastShape(u.shape, v.shape)
    case Err(e) => Err(e)
    case Ok(out) =>
      BroadcastOperandAxes(u.shape, v.shape);
      var size := ShapeSize(out);
      var vals := seq(size, i requires 0 <= i < size =>
        f(u.values[OperandOffset(u.shape, out, i)], v.values[OperandOffset(v.shape, out, i)]));
      Ok(Node(vals, out, StridesFromShape(out), Constant(size, 0.0), [uh, vh], op, map[]))
  }

  function Plus(x: real, y: real): real { x + y }
  function Minus(x: real, y: real): real { x - y }
  function Times(x: real, y: real): real { x * y }

  predicate IsElementwise(op: Op) {
    op == AddOp || op == SubOp || op == MulOp
  }

  /** The scalar operation of an elementwise tag. */
  function ScalarFn(op: Op): (real, real) -> real
    requires IsElementwise(op)
  {
    match op
    case AddOp => Plus
    case SubOp => Minus
    case _ => Times
  }

  /** `u + v`, `u - v` or `u * v`, selected by the tag. */
  function Binary(u: Node, v: Node, uh: Handle, vh: Handle, op: Op): Result<Node>
    requires WellFormed(u) && WellFormed(v) && IsElementwise(op)
  {
    Elementwise(u, v, uh, vh, op, ScalarFn(op))
  }

  function Add(u: Node, v: Node, uh: Handle, vh: Handle): Result<Node>
    requires WellFormed(u) && WellFormed(v)
  {
    Binary(u, v, uh, vh, AddOp)
  }

  function Sub(u: Node, v: Node, uh: Handle, vh: Handle): Result<Node>
    requires WellFormed(u) && WellFormed(v)
  {
    Binary(u, v, uh, vh, SubOp)
  }

  function Mul(u: Node, v: Node, uh: Handle, vh: Handle): Result<Node>
    requires WellFormed(u) && WellFormed(v)
  {
    Binary(u, v, uh, vh, MulOp)
  }

  /** An operand of the output's own shape is read element for element. */
  lemma OperandOffsetSameShape(a: Shape, i: int)
    requires ValidShape(a) && 0 <= i < ShapeSize(a)
    ensures ExpandsTo(a, a) && OperandOffset(a, a, i) == i
  {
    var st := StridesFromShape(a);
    StridesPositive(a);
    RavelUnravel(i, a);
    var c := Unravel(i, a, st);
    assert ExpandsTo(a, a);
    BroadcastOperandIndex(a, a, c);
    ReshapeSameShape(c, a);
    assert OperandOffset(a, a, i) == Ravel(c, st);
  }

  /** Reshaping an in-bounds coordinate to its own shape keeps it. */
  lemma ReshapeSameShape(c: Indices, a: Shape)
    requires ValidShape(a) && InBounds(c, a)
    ensures ReshapeIndices(c, a) == c
  {
    var ca := ReshapeIndices(c, a);
    forall k | 0 <= k < |a|
      ensures ca[k] == c[k]
    {
      ReshapeAt(c, a, k);
      TModSmall(c[k], a[k]);
    }
  }

  lemma ReshapeAt(c: Indices, a: Shape, k: int)
    requires |c| >= |a| && (forall i :: 0 <= i < |a| ==> a[i] != 0) && 0 <= k < |a|
    ensures ReshapeIndices(c, a)[k] == TMod(c[|c| - |a| + k], a[k])
  {
  }

  lemma TModSmall(x: int, m: int)
    requires 0 <= x < m
    ensures TMod(x, m) == x
  {
    ModUnique(x, m, 0, x);
  }

  /** A one-element operand is read at offset 0 by every output element. */
  lemma OperandOffsetScalar(out: Shape, i: int)
    requires ValidShape(out) && |out| >= 1 && 0 <= i < ShapeSize(out)
    ensures ExpandsTo([1], out) && OperandOffset([1], out, i) == 0
  {
    assert FromBack([1], 0) == 1;
  }

  /** Operands of equal shape combine element for element. */
  lemma ElementwiseSameShape(u: Node, v: Node, uh: Handle, vh: Handle, op: Op, f: (real, real) -> real)
    requires WellFormed(u) && WellFormed(v) && u.shape == v.shape
    ensures Elementwise(u, v, uh, vh, op, f).Ok?
    ensures Elementwise(u, v, uh, vh, op, f).value.shape == u.shape
    ensures forall i :: 0 <= i < |u.values| ==>
      Elementwise(u, v, uh, vh, op, f).value.values[i] == f(u.values[i], v.values[i])
  {
    var r := Elementwise(u, v, uh, vh, op, f);
    assert Broadcastable(u.shape, v.shape) by {
      forall j | 0 <= j < |u.shape| && j < |v.shape|
        ensures AxisCompatible(FromBack(u.shape, j), FromBack(v.shape, j))
      {
      }
    }
    var out := r.value.shape;
    assert out == u.shape by {
      forall j | 0 <= j < |out|
        ensures FromBack(out, j) == FromBack(u.shape, j)
      {
      }
      SameFromBackEqual(out, u.shape);
    }
    forall i | 0 <= i < |u.values|
      ensures r.value.values[i] == f(u.values[i], v.values[i])
    {
      OperandOffsetSameShape(u.shape, i);
    }
  }

  /** A one-element right operand combines with every element of the left
      operand. */
  lemma ElementwiseScalarRight(u: Node, v: Node, uh: Handle, vh: Handle, op: Op, f: (real, real) -> real)
    requires WellFormed(u) && WellFormed(v) && |u.shape| >= 1 && v.shape == [1]
    ensures Elementwise(u, v, uh, vh, op, f).Ok?
    ensures Elementwise(u, v, uh, vh, op, f).value.shape == u.shape
    ensures forall i :: 0 <= i < |u.values| ==>
      Elementwise(u, v, uh, vh, op, f).value.values[i] == f(u.values[i], v.values[0])
  {
    var r := Elementwise(u, v, uh, vh, op, f);
    assert FromBack(v.shape, 0) == 1;
    assert Broadcastable(u.shape, v.shape) by {
      forall j | 0 <= j < |u.shape| && j < |v.shape|
        ensures AxisCompatible(FromBack(u.shape, j), FromBack(v.shape, j))
      {
      }
    }
    var out := r.value.shape;
    assert out == u.shape by {
      forall j | 0 <= j < |out|
        ensures FromBack(out, j) == FromBack(u.shape, j)
      {
      }
      SameFromBackEqual(out, u.shape);
    }
    forall i | 0 <= i < |u.values|
      ensures r.value.values[i] == f(u.values[i], v.values[0])
    {
      OperandOffsetSameShape(u.shape, i);
      OperandOffsetScalar(u.shape, i);
    }
  }

  /** Swapping the operands of a commutative operation gives the same
      shape and values, for every pair of broadcastable shapes. */
  lemma ElementwiseSwap(u: Node, v: Node, uh: Handle, vh: Handle, op: Op, f: (real, real) -> real)
    requires WellFormed(u) && WellFormed(v)
    requires forall x: real, y: real :: f(x, y) == f(y, x)
    ensures Elementwise(u, v, uh, vh, op, f).Ok? == Elementwise(v, u, vh, uh, op, f).Ok?
    ensures Elementwise(u, v, uh, vh, op, f).Ok? ==>
      Elementwise(u, v, uh, vh, op, f).value.values == Elementwise(v, u, vh, uh, op, f).value.values
    ensures Elementwise(u, v, uh, vh, op, f).Ok? ==>
      Elementwise(u, v, uh, vh, op, f).value.shape == Elementwise(v, u, vh, uh, op, f).value.shape
  {
    BroadcastCommutative(u.shape, v.shape);
    if Broadcastable(u.shape, v.shape) {
      var r := Elementwise(u, v, uh, vh, op, f).value;
      var q := Elementwise(v, u, vh, uh, op, f).value;
      var out := r.shape;
      assert q.shape == out;
      forall i | 0 <= i < |r.values|
        ensures r.values[i] == q.values[i]
      {
        var x := u.values[OperandOffset(u.shape, out, i)];
        var y := v.values[OperandOffset(v.shape, out, i)];
        ElementwiseAt(u, v, uh, vh, op, f, i);
        ElementwiseAt(v, u, vh, uh, op, f, i);
        assert r.values[i] == f(x, y) && q.values[i] == f(y, x);
        assert f(x, y) == f(y, x);
      }
    }
  }

  /** Output element `i` combines the operand elements it reads. */
  lemma ElementwiseAt(u: Node, v: Node, uh: Handle, vh: Handle, op: Op, f: (real, real) -> real, i: int)
    requires WellFormed(u) && WellFormed(v) && Broadcastable(u.shape, v.shape)
    requires 0 <= i < |Elementwise(u, v, uh, vh, op, f).value.values|
    ensures var r := Elementwise(u, v, uh, vh, op, f).value;
      r.values[i] == f(u.values[OperandOffset(u.shape, r.shape, i)], v.values[OperandOffset(v.shape, r.shape, i)])
  {
  }

  // ---------------------------------------------------------------------
  // Reductions along an axis (sum, max)

  /** The shape with one axis erased. */
  function RemoveAxis(s: Shape, axis: int): (r: Shape)
    requires 0 <= axis < |s|
    ensures |r| == |s| - 1
    ensures ValidShape(s) ==> ValidShape(r)
  {
    s[..axis] + s[axis + 1..]
  }

  /** The coordinate with `j` inserted before position `axis`. */
  function InsertAxis(c: Indices, axis: int, j: int): (r: Indices)
    requires 0 <= axis <= |c|
    ensures |r| == |c| + 1 && r[axis] == j
  {
    c[..axis] + [j] + c[axis..]
  }

  /** Inserting an in-range coordinate for the erased axis gives a
      coordinate inside the full shape. */
  lemma InsertAxisInBounds(c: Indices, s: Shape, axis: int, j: int)
    requires 0 <= axis < |s| && InBounds(c, RemoveAxis(s, axis)) && 0 <= j < s[axis]
    ensures InBounds(InsertAxis(c, axis, j), s)
  {
    var r := InsertAxis(c, axis, j);
    var rs := RemoveAxis(s, axis);
    forall k | 0 <= k < |s|
      ensures 0 <= r[k] < s[k]
    {
      if k < axis {
        assert r[k] == c[k] && rs[k] == s[k];
      } else if k > axis {
        assert r[k] == c[k - 1] && rs[k - 1] == s[k];
      }
    }
  }

  /** A reduction to rank 0 is stored with shape `[1]`. */
  function Normalise(s: Shape): Shape {
    if |s| == 0 then [1] else s
  }

  lemma NormalisePreserves(s: Shape)
    requires ValidShape(s)
    ensures ValidShape(Normalise(s)) && ShapeSize(Normalise(s)) == ShapeSize(s)
    ensures |Normalise(s)| >= 1
  {
  }

  /** The coordinate, in shape `s`, with `j` on `axis` and, on the other
      axes, the coordinate of element `i` of the reduced shape. */
  function AxisCoord(s: Shape, axis: int, i: int, j: int): (c: Indices)
    requires ValidShape(s) && 0 <= axis < |s|
    requires 0 <= i < ShapeSize(RemoveAxis(s, axis)) && 0 <= j < s[axis]
    ensures InBounds(c, s)
  {
    var rs := RemoveAxis(s, axis);
    StridesPositive(rs);
    RavelUnravel(i, rs);
    var d := Unravel(i, rs, StridesFromShape(rs));
    InsertAxisInBounds(d, s, axis, j);
    InsertAxis(d, axis, j)
  }

  /** Offset of `AxisCoord(s, axis, i, j)` in a tensor of shape `s`. */
  function AxisOffset(s: Shape, axis: int, i: int, j: int): (k: int)
    requires ValidShape(s) && 0 <= axis < |s|
    requires 0 <= i < ShapeSize(RemoveAxis(s, axis)) && 0 <= j < s[axis]
    ensures 0 <= k < ShapeSize(s)
  {
    var c := AxisCoord(s, axis, i, j);
    RavelInBounds(c, s);
    Ravel(c, StridesFromShape(s))
  }

  lemma InsertAxisInjective(c: Indices, c': Indices, axis: int, j: int, j': int)
    requires 0 <= axis <= |c| && |c'| == |c|
    requires InsertAxis(c, axis, j) == InsertAxis(c', axis, j')
    ensures c == c' && j == j'
  {
    var d := InsertAxis(c, axis, j);
    assert c == d[..axis] + d[axis + 1..];
    assert c' == d[..axis] + d[axis + 1..];
  }

  /** Distinct (line, position) pairs address distinct elements. */
  lemma AxisOffsetInjective(s: Shape, axis: int, i: int, j: int, i': int, j': int)
    requires ValidShape(s) && 0 <= axis < |s|
    requires 0 <= i < ShapeSize(RemoveAxis(s, axis)) && 0 <= j < s[axis]
    requires 0 <= i' < ShapeSize(RemoveAxis(s, axis)) && 0 <= j' < s[axis]
    requires AxisOffset(s, axis, i, j) == AxisOffset(s, axis, i', j')
    ensures i == i' && j == j'
  {
    var c := AxisCoord(s, axis, i, j);
    var c' := AxisCoord(s, axis, i', j');
    RavelEqualCoords(c, c', s);
    var rs := RemoveAxis(s, axis);
    var st := StridesFromShape(rs);
    StridesPositive(rs);
    var d := Unravel(i, rs, st);
    var d' := Unravel(i', rs, st);
    InsertAxisInjective(d, d', axis, j, j');
    RavelUnravel(i, rs);
    RavelUnravel(i', rs);
  }

  /** Every element lies on some reduced line: the line and position
      `AxisSplit` returns. */
  function AxisSplit(s: Shape, axis: int, p: int): (r: (int, int))
    requires ValidShape(s) && 0 <= axis < |s| && 0 <= p < ShapeSize(s)
    ensures 0 <= r.0 < ShapeSize(RemoveAxis(s, axis)) && 0 <= r.1 < s[axis]
    ensures AxisOffset(s, axis, r.0, r.1) == p
  {
    var st := StridesFromShape(s);
    StridesPositive(s);
    RavelUnravel(p, s);
    var d := Unravel(p, s, st);
    var rs := RemoveAxis(s, axis);
    var c := d[..axis] + d[axis + 1..];
    RemoveAxisInBounds(d, s, axis);
    var i := Ravel(c, StridesFromShape(rs));
    RavelInBounds(c, rs);
    UnravelRavel(c, rs);
    InsertRemoved(d, axis);
    assert AxisCoord(s, axis, i, d[axis]) == d;
    (i, d[axis])
  }

  /** Putting an erased coordinate back restores the coordinate. */
  lemma InsertRemoved(d: Indices, axis: int)
    requires 0 <= axis < |d|
    ensures InsertAxis(d[..axis] + d[axis + 1..], axis, d[axis]) == d
  {
    var c := d[..axis] + d[axis + 1..];
    assert c[..axis] == d[..axis];
    assert c[axis..] == d[axis + 1..];
    assert d == d[..axis] + [d[axis]] + d[axis + 1..];
  }

  lemma RemoveAxisInBounds(d: Indices, s: Shape, axis: int)
    requires 0 <= axis < |s| && InBounds(d, s)
    ensures InBounds(d[..axis] + d[axis + 1..], RemoveAxis(s, axis))
  {
    var c := d[..axis] + d[axis + 1..];
    var rs := RemoveAxis(s, axis);
    forall k | 0 <= k < |rs|
      ensures 0 <= c[k] < rs[k]
    {
      if k < axis {
        assert c[k] == d[k] && rs[k] == s[k];
      } else {
        assert c[k] == d[k + 1] && rs[k] == s[k + 1];
      }
    }
  }

  /** The elements reduced into output element `i`, in axis order. */
  function AxisLine(u: Node, axis: int, i: int): (r: seq<real>)
    requires WellFormed(u) && 0 <= axis < |u.shape|
    requires 0 <= i < ShapeSize(RemoveAxis(u.shape, axis))
    ensures |r| == u.shape[axis]
  {
    seq(u.shape[axis], j requires 0 <= j < u.shape[axis] => u.values[AxisOffset(u.shape, axis, i, j)])
  }

  /** `sum(u, axis)`: with `axis == -1` the sum of all elements as a
      one-element tensor; otherwise the sums along `axis`, with that axis
      removed (and a rank-0 result stored as `[1]`). The source has no
      check on `axis`; any other value erases outside the shape. */
  function ReduceSum(u: Node, uh: Handle, axis: int): (w: Node)
    requires WellFormed(u) && (axis == -1 || 0 <= axis < |u.shape|)
    ensures WellFormed(w) && w.edges == [uh] && w.op == SumOp && w.meta == map["axis" := axis]
    ensures axis == -1 ==> w.shape == [1] && w.values == [RealSeq.Sum(u.values)]
    ensures axis != -1 ==> w.shape == Normalise(RemoveAxis(u.shape, axis))
    ensures axis != -1 ==>
              |w.values| == ShapeSize(RemoveAxis(u.shape, axis))
              && forall i :: 0 <= i < |w.values| ==> w.values[i] == RealSeq.Sum(AxisLine(u, axis, i))
    ensures forall i :: 0 <= i < |w.grads| ==> w.grads[i] == 0.0
  {
    if axis == -1 then
      Node([RealSeq.Sum(u.values)], [1], StridesFromShape([1]), [0.0], [uh], SumOp, map["axis" := axis])
    else
      var rs := RemoveAxis(u.shape, axis);
      NormalisePreserves(rs);
      var size := ShapeSize(rs);
      var vals := seq(size, i requires 0 <= i < size => RealSeq.Sum(AxisLine(u, axis, i)));
      var shape := Normalise(rs);
      Node(vals, shape, StridesFromShape(shape), Constant(size, 0.0), [uh], SumOp, map["axis" := axis])
  }

  /** `max(u, axis)`: the largest element along `axis`, with that axis
      removed. The public entry point asserts `0 <= axis < rank`. */
  function ReduceMax(u: Node, uh: Handle, axis: int): (r: Result<Node>)
    requires WellFormed(u)
    ensures r.Ok? <==> 0 <= axis < |u.shape|
    ensures r.Ok? ==> WellFormed(r.value) && r.value.edges == [uh] && r.value.op == MaxOp
    ensures r.Ok? ==> r.value.meta == map["axis" := axis]
    ensures r.Ok? ==> r.value.shape == Normalise(RemoveAxis(u.shape, axis))
    ensures r.Ok? ==> forall i :: 0 <= i < |r.value.grads| ==> r.value.grads[i] == 0.0
    ensures r.Ok? ==> forall i, j :: 0 <= i < |r.value.values| && 0 <= j < u.shape[axis] ==>
      AxisLine(u, axis, i)[j] <= r.value.values[i]
  {
    if !(0 <= axis < |u.shape|) then Err(IndexError)
    else
      var rs := RemoveAxis(u.shape, axis);
      NormalisePreserves(rs);
      var size := ShapeSize(rs);
      var vals := seq(size, i requires 0 <= i < size => MaxOf(AxisLine(u, axis, i)));
      var shape := Normalise(rs);
      Ok(Node(vals, shape, StridesFromShape(shape), Constant(size, 0.0), [uh], MaxOp, map["axis" := axis]))
  }

  /** Every maximum is attained by some element of its line. */
  lemma MaxAttained(u: Node, uh: Handle, axis: int, i: int)
    requires WellFormed(u) && 0 <= axis < |u.shape|
    requires 0 <= i < ShapeSize(RemoveAxis(u.shape, axis))
    ensures exists j :: 0 <= j < u.shape[axis] && AxisLine(u, axis, i)[j] == ReduceMax(u, uh, axis).value.values[i]
  {
    var line := AxisLine(u, axis, i);
    assert ReduceMax(u, uh, axis).value.values[i] == MaxOf(line);
  }

  /** On a vector, summing along axis 0 is the sum of all elements. */
  lemma SumOfVectorAlongAxis(u: Node, uh: Handle)
    requires WellFormed(u) && |u.shape| == 1
    ensures ReduceSum(u, uh, 0).values == ReduceSum(u, uh, -1).values
  {
    var rs := RemoveAxis(u.shape, 0);
    assert rs == [];
    var line := AxisLine(u, 0, 0);
    var st := StridesFromShape(u.shape);
    assert st == [1];
    forall j | 0 <= j < u.shape[0]
      ensures line[j] == u.values[j]
    {
      var c := Unravel(0, rs, StridesFromShape(rs));
      assert c == [];
      assert InsertAxis(c, 0, j) == [j];
      assert Ravel([j], st) == j;
      assert AxisOffset(u.shape, 0, 0, j) == j;
    }
    assert line == u.values;
  }

  // ---------------------------------------------------------------------
  // relu

  /** `relu(u)`: the positive part of every element. */
  function Relu(u: Node, uh: Handle): (w: Node)
    requires WellFormed(u)
    ensures WellFormed(w) && w.shape == u.shape && w.edges == [uh] && w.op == ReluOp
    ensures forall i :: 0 <= i < |w.values| ==>
      w.values[i] >= 0.0 && w.values[i] >= u.values[i]
      && (w.values[i] == u.values[i] || w.values[i] == 0.0)
    ensures forall i :: 0 <= i < |w.grads| ==> w.grads[i] == 0.0
  {
    var n := |u.values|;
    Node(seq(n, i requires 0 <= i < n => if 0.0 < u.values[i] then u.values[i] else 0.0),
         u.shape, u.strides, Constant(n, 0.0), [uh], ReluOp, map[])
  }

  // ---------------------------------------------------------------------
  // matmul

  /** The products `u[i][k] * v[k][j]` for `k = 0 .. inner-1`. */
  function RowColTerms(u: Node, v: Node, i: int, j: int): (r: seq<real>)
    requires WellFormed(u) && WellFormed(v) && |u.shape| == 2 && |v.shape| == 2
    requires u.shape[1] == v.shape[0] && 0 <= i < u.shape[0] && 0 <= j < v.shape[1]
    ensures |r| == u.shape[1]
    ensures forall k :: 0 <= k < u.shape[1] ==> r[k] == Entry(u, i, k) * Entry(v, k, j)
  {
    seq(u.shape[1], k requires 0 <= k < u.shape[1] => Entry(u, i, k) * Entry(v, k, j))
  }

  /** Row `i` of `u` times column `j` of `v`, summed in `k` order. */
  function RowCol(u: Node, v: Node, i: int, j: int): real
    requires WellFormed(u) && WellFormed(v) && |u.shape| == 2 && |v.shape| == 2
    requires u.shape[1] == v.shape[0] && 0 <= i < u.shape[0] && 0 <= j < v.shape[1]
  {
    RealSeq.Sum(RowColTerms(u, v, i, j))
  }

  /** `matmul(u, v)` for rank-2 operands with matching inner dimension (both
      asserted by the source). */
  function Matmul(u: Node, v: Node, uh: Handle, vh: Handle): (r: Result<Node>)
    requires WellFormed(u) && WellFormed(v)
    ensures r.Ok? <==> |u.shape| == 2 && |v.shape| == 2 && u.shape[1] == v.shape[0]
    ensures r.Ok? ==> WellFormed(r.value) && r.value.shape == [u.shape[0], v.shape[1]]
    ensures r.Ok? ==> r.value.edges == [uh, vh] && r.value.op == MatmulOp
    ensures r.Ok? ==> forall i :: 0 <= i < |r.value.grads| ==> r.value.grads[i] == 0.0
    ensures r.Ok? ==> forall i, j :: 0 <= i < u.shape[0] && 0 <= j < v.shape[1] ==>
      Entry(r.value, i, j) == RowCol(u, v, i, j)
  {
    if !(|u.shape| == 2 && |v.shape| == 2 && u.shape[1] == v.shape[0]) then Err(ShapeMismatch)
    else
      var m := u.shape[0];
      var n := v.shape[1];
      var shape := [m, n];
      ShapeSize2(shape);
      var vals := seq(m * n, p requires 0 <= p < m * n =>
        DivBound(p, n, m);
        RowCol(u, v, p / n, p % n));
      var w := Node(vals, shape, StridesFromShape(shape), Constant(m * n, 0.0), [uh, vh], MatmulOp, map[]);
      assert forall i, j :: 0 <= i < m && 0 <= j < n ==> Entry(w, i, j) == RowCol(u, v, i, j) by {
        forall i, j | 0 <= i < m && 0 <= j < n
          ensures Entry(w, i, j) == RowCol(u, v, i, j)
        {
          BlockBound(i, m, n, j);
          ModUnique(i * n + j, n, i, j);
        }
      }
      Ok(w)
  }

  // ---------------------------------------------------------------------
  // In-place view changes: reshape, flatten, transpose

  /** `reshape(shape)`: new shape and strides over the same values and
      gradients. The source does not check the element count; the model
      requires it to match. */
  function Reshape(n: Node, shape: Shape): (r: Node)
    requires WellFormed(n) && ValidShape(shape) && ShapeSize(shape) == ShapeSize(n.shape)
    ensures WellFormed(r) && r.shape == shape
    ensures r.values == n.values && r.grads == n.grads && r.edges == n.edges && r.op == n.op
  {
    n.(shape := shape, strides := StridesFromShape(shape))
  }

  /** `flatten()`: reshape to one axis holding every element. */
  function Flatten(n: Node): (r: Node)
    requires WellFormed(n)
    ensures WellFormed(r) && r.shape == [|n.values|] && r.values == n.values && r.grads == n.grads
  {
    Reshape(n, [ShapeSize(n.shape)])
  }

  /** Reshaping back to the original shape restores the node. */
  lemma ReshapeRoundTrip(n: Node, shape: Shape)
    requires WellFormed(n) && ValidShape(shape) && ShapeSize(shape) == ShapeSize(n.shape)
    ensures Reshape(Reshape(n, shape), n.shape) == n
  {
  }

  /** Flattening forgets any earlier reshape. */
  lemma FlattenAfterReshape(n: Node, shape: Shape)
    requires WellFormed(n) && ValidShape(shape) && ShapeSize(shape) == ShapeSize(n.shape)
    ensures Flatten(Reshape(n, shape)) == Flatten(n)
  {
  }

  /** Element `p` of the transpose of an `a` by `b` buffer. */
  function TransposeAt(s: seq<real>, a: int, b: int, p: int): real
    requires a > 0 && b > 0 && |s| == a * b && 0 <= p < a * b
  {
    MulComm(a, b);
    DivBound(p, a, b);
    BlockBound(p % a, a, b, p / a);
    s[(p % a) * b + p / a]
  }

  /** `transpose()`: a rank-2 node (asserted by the source) becomes its
      transpose; values and gradients move together. */
  function Transpose(n: Node): (r: Result<Node>)
    requires WellFormed(n)
    ensures r.Ok? <==> |n.shape| == 2
    ensures r.Ok? ==> WellFormed(r.value) && r.value.shape == [n.shape[1], n.shape[0]]
    ensures r.Ok? ==> r.value.edges == n.edges && r.value.op == n.op && r.value.meta == n.meta
    ensures r.Ok? ==> forall i, j :: 0 <= i < n.shape[0] && 0 <= j < n.shape[1] ==>
      Entry(r.value, j, i) == Entry(n, i, j) && GradEntry(r.value, j, i) == GradEntry(n, i, j)
  {
    if |n.shape| != 2 then Err(ShapeMismatch)
    else
      var a := n.shape[0];
      var b := n.shape[1];
      var shape := [b, a];
      ShapeSize2(n.shape);
      ShapeSize2(shape);
      MulComm(a, b);
      var vals := seq(a * b, p requires 0 <= p < a * b => TransposeAt(n.values, a, b, p));
      var grads := seq(a * b, p requires 0 <= p < a * b => TransposeAt(n.grads, a, b, p));
      var t := n.(values := vals, grads := grads, shape := shape, strides := StridesFromShape(shape));
      assert forall i, j :: 0 <= i < a && 0 <= j < b ==>
          Entry(t, j, i) == Entry(n, i, j) && GradEntry(t, j, i) == GradEntry(n, i, j) by {
        forall i, j | 0 <= i < a && 0 <= j < b
          ensures Entry(t, j, i) == Entry(n, i, j) && GradEntry(t, j, i) == GradEntry(n, i, j)
        {
          BlockBound(j, b, a, i);
          ModUnique(j * a + i, a, j, i);
        }
      }
      Ok(t)
  }

  /** Transposing twice restores the node. */
  lemma TransposeTwice(n: Node)
    requires WellFormed(n) && |n.shape| == 2
    ensures Transpose(n).Ok? && Transpose(Transpose(n).value).Ok?
    ensures Transpose(Transpose(n).value).value == n
  {
    var a := n.shape[0];
    var b := n.shape[1];
    var t := Transpose(n).value;
    var tt := Transpose(t).value;
    ShapeSize2(n.shape);
    forall p | 0 <= p < a * b
      ensures tt.values[p] == n.values[p] && tt.grads[p] == n.grads[p]
    {
      DivBound(p, b, a);
      var i := p / b;
      var j := p % b;
      assert Entry(tt, i, j) == Entry(t, j, i) == Entry(n, i, j);
      assert GradEntry(tt, i, j) == GradEntry(t, j, i) == GradEntry(n, i, j);
    }
    assert tt.values == n.values;
    assert tt.grads == n.grads;
  }

  // ---------------------------------------------------------------------
  // slice

  /** Ranges are `[start, end)` pairs, one per axis. */
  type Ranges = seq<(int, int)>

  /** The guard the source asserts before slicing: one range per axis, and
      on every axis `start < size`, `end <= size` and `start < end`. */
  predicate SliceGuardAsWritten(s: Shape, ranges: Ranges) {
    |ranges| == |s| && forall k :: 0 <= k < |s| ==>
      ranges[k].0 < s[k] && ranges[k].1 <= s[k] && ranges[k].0 < ranges[k].1
  }

  /** The guard with the lower bound the read needs: `0 <= start`. */
  predicate SliceGuard(s: Shape, ranges: Ranges) {
    SliceGuardAsWritten(s, ranges) && forall k :: 0 <= k < |s| ==> 0 <= ranges[k].0
  }

  function SliceShape(ranges: Ranges): (r: Shape)
    ensures |r| == |ranges|
    ensures forall k :: 0 <= k < |r| ==> r[k] == ranges[k].1 - ranges[k].0
  {
    seq(|ranges|, k requires 0 <= k < |ranges| => ranges[k].1 - ranges[k].0)
  }

  /** The coordinate of the source tensor that element coordinate `c` of
      the slice reads: `c` shifted by every range's start. */
  function Shifted(c: Indices, ranges: Ranges): (r: Indices)
    requires |c| == |ranges|
    ensures |r| == |c| && forall k :: 0 <= k < |c| ==> r[k] == c[k] + ranges[k].0
  {
    seq(|c|, k requires 0 <= k < |c| => c[k] + ranges[k].0)
  }

  /** With the as-written guard, a negative start is accepted and the slice
      reads coordinate -1 of a two-element vector. */
  lemma SliceNegativeStartAccepted()
    ensures SliceGuardAsWritten([2], [(-1, 1)])
    ensures ValidShape(SliceShape([(-1, 1)])) && ShapeSize(SliceShape([(-1, 1)])) == 2
    ensures Unravel(0, [2], StridesFromShape([2])) == [0]
    ensures !InBounds(Shifted([0], [(-1, 1)]), [2])
  {
    assert SliceShape([(-1, 1)]) == [2];
  }

  /** Under the guard, shifting an in-bounds coordinate of the slice gives
      an in-bounds coordinate of the source. */
  lemma ShiftedInBounds(c: Indices, ranges: Ranges, s: Shape)
    requires SliceGuard(s, ranges) && InBounds(c, SliceShape(ranges))
    ensures InBounds(Shifted(c, ranges), s)
  {
  }

  /** `slice(ranges)`: a fresh leaf holding the sub-block selected by the
      ranges. Guarded by `SliceGuard`; under it every read is in bounds. */
  function Slice(n: Node, ranges: Ranges): (r: Result<Node>)
    requires WellFormed(n)
    ensures r.Ok? <==> SliceGuard(n.shape, ranges)
    ensures r.Ok? ==> WellFormed(r.value) && r.value.shape == SliceShape(ranges)
    ensures r.Ok? ==> r.value.edges == [] && r.value.op == LeafOp
  {
    if !SliceGuard(n.shape, ranges) then Err(IndexError)
    else
      var shape := SliceShape(ranges);
      StridesPositive(shape);
      var size := ShapeSize(shape);
      var vals := seq(size, i requires 0 <= i < size =>
        RavelUnravel(i, shape);
        var u := Unravel(i, shape, StridesFromShape(shape));
        ShiftedInBounds(u, ranges, n.shape);
        ValueAt(n, Shifted(u, ranges)));
      Ok(Node(vals, shape, StridesFromShape(shape), Constant(size, 0.0), [], LeafOp, map[]))
  }

  /** Every element of a slice is the source element at the coordinate
      shifted by the range starts. */
  lemma SliceValueAt(n: Node, ranges: Ranges, c: Indices)
    requires WellFormed(n) && SliceGuard(n.shape, ranges)
    requires InBounds(c, SliceShape(ranges))
    ensures InBounds(Shifted(c, ranges), n.shape)
    ensures ValueAt(Slice(n, ranges).value, c) == ValueAt(n, Shifted(c, ranges))
  {
    var shape := SliceShape(ranges);
    var st := StridesFromShape(shape);
    StridesPositive(shape);
    RavelInBounds(c, shape);
    UnravelRavel(c, shape);
  }

  /** The ranges that cover every axis of `s` from start to end. */
  function FullRanges(s: Shape): (r: Ranges)
    ensures |r| == |s| && forall k :: 0 <= k < |s| ==> r[k] == (0, s[k])
  {
    seq(|s|, k requires 0 <= k < |s| => (0, s[k]))
  }

  /** Full ranges have the source's shape... */
  lemma FullRangesShape(s: Shape)
    ensures SliceShape(FullRanges(s)) == s
  {
  }

  /** ...and shift nothing. */
  lemma FullRangesShift(s: Shape, c: Indices)
    requires |c| == |s|
    ensures Shifted(c, FullRanges(s)) == c
  {
  }

  /** Slicing every axis over its full range copies the values. */
  lemma SliceFull(n: Node)
    requires WellFormed(n)
    ensures SliceGuard(n.shape, FullRanges(n.shape))
    ensures Slice(n, FullRanges(n.shape)).value.values == n.values
  {
    var ranges := FullRanges(n.shape);
    FullRangesShape(n.shape);
    var r := Slice(n, ranges).value;
    StridesPositive(n.shape);
    forall i | 0 <= i < |n.values|
      ensures r.values[i] == n.values[i]
    {
      RavelUnravel(i, n.shape);
      var c := Unravel(i, n.shape, n.strides);
      FullRangesShift(n.shape, c);
      SliceValueAt(n, ranges, c);
    }
  }
}

=== FILE: text.dfy ===
/** The text layer under parameter files: splitting a stream at a
    delimiter the way repeated `std::getline` does, joining fields with a
    separator, and decimal integers as `operator<<` writes them and
    `std::stoi` reads them back. Floating-point text is not modelled here;
    callers pass the formatting and parsing functions in. */
module Text {
  import opened Errors

  // ---------------------------------------------------------------------
  // Splitting and joining

  /** Position of the first `d` in `s`, or `|s|` if there is none. */
  function IndexOf(s: string, d: char): (i: nat)
    ensures i <= |s| && d !in s[..i]
    ensures i < |s| ==> s[i] == d
    decreases |s|
  {
    if |s| == 0 then 0
    else if s[0] == d then 0
    else
      var j := IndexOf(s[1..], d);
      assert s[..j + 1] == [s[0]] + s[1..][..j];
      j + 1
  }

  /** The pieces repeated `std::getline(in, piece, d)` extracts from `s`:
      each call takes everything up to the next `d` and drops the `d`; a
      call that finds the stream exhausted extracts nothing, so an empty
      text yields no piece and a final `d` does not start an empty one. */
  function Split(s: string, d: char): (r: seq<string>)
    ensures forall k :: 0 <= k < |r| ==> d !in r[k]
    ensures |s| > 0 <==> |r| > 0
    decreases |s|
  {
    if |s| == 0 then []
    else
      var i := IndexOf(s, d);
      if i == |s| then
        assert s[..i] == s;
        [s]
      else
        [s[..i]] + Split(s[i + 1..], d)
  }

  /** A piece free of `d`, followed by `d`, comes off first and whole. */
  lemma SplitCons(a: string, d: char, rest: string)
    requires d !in a
    ensures Split(a + [d] + rest, d) == [a] + Split(rest, d)
  {
    var s := a + [d] + rest;
    var i := IndexOf(s, d);
    assert s[|a|] == d;
    assert s[..i] == a;
    assert s[i + 1..] == rest;
  }

  /** A non-empty text free of `d` is one piece. */
  lemma SplitSingle(a: string, d: char)
    requires |a| > 0 && d !in a
    ensures Split(a, d) == [a]
  {
  }

  /** The fields joined with `sep` between neighbours and none after the
      last, as `save_parameters` writes a values line and `operator<<`
      writes a shape. */
  function Join(fs: seq<string>, sep: string): (r: string)
    ensures |fs| == 1 ==> r == fs[0]
    ensures |fs| == 0 ==> r == []
    decreases |fs|
  {
    if |fs| == 0 then []
    else if |fs| == 1 then fs[0]
    else fs[0] + sep + Join(fs[1..], sep)
  }

  /** Splitting what was joined gives the fields back, provided none is
      empty (an empty last field would not come back) and none contains
      the separator. */
  lemma {:induction false} SplitJoin(fs: seq<string>, d: char)
    requires forall k :: 0 <= k < |fs| ==> |fs[k]| > 0 && d !in fs[k]
    ensures Split(Join(fs, [d]), d) == fs
    decreases |fs|
  {
    if |fs| == 1 {
      SplitSingle(fs[0], d);
    } else if |fs| > 1 {
      SplitCons(fs[0], d, Join(fs[1..], [d]));
      SplitJoin(fs[1..], d);
      assert [fs[0]] + fs[1..] == fs;
    }
  }

  /** Every line followed by `d`, as a stream of `<<`-written lines. */
  function Terminated(lines: seq<string>, d: char): (r: string)
    decreases |lines|
  {
    if |lines| == 0 then [] else lines[0] + [d] + Terminated(lines[1..], d)
  }

  lemma {:induction false} TerminatedConcat(a: seq<string>, b: seq<string>, d: char)
    ensures Terminated(a + b, d) == Terminated(a, d) + Terminated(b, d)
    decreases |a|
  {
    if |a| > 0 {
      assert (a + b)[1..] == a[1..] + b;
      TerminatedConcat(a[1..], b, d);
    } else {
      assert a + b == b;
    }
  }

  /** Reading back terminated lines gives every line, empty ones too,
      provided no line contains the terminator. */
  lemma {:induction false} SplitTerminated(lines: seq<string>, d: char)
    requires forall k :: 0 <= k < |lines| ==> d !in lines[k]
    ensures Split(Terminated(lines, d), d) == lines
    decreases |lines|
  {
    if |lines| > 0 {
      SplitCons(lines[0], d, Terminated(lines[1..], d));
      SplitTerminated(lines[1..], d);
      assert [lines[0]] + lines[1..] == lines;
    }
  }

  // ---------------------------------------------------------------------
  // Decimal integers

  predicate IsDigit(c: char) {
    '0' <= c <= '9'
  }

  /** The characters `std::isspace` accepts in the C locale. */
  predicate IsSpace(c: char) {
    c == ' ' || c == '\t' || c == '\n' || c == '\r' || c == '\U{B}' || c == '\U{C}'
  }

  function DigitChar(n: int): (c: char)
    requires 0 <= n < 10
    ensures IsDigit(c) && c as int - '0' as int == n
  {
    ('0' as int + n) as char
  }

  /** The decimal text of `n` without sign or leading zeros. */
  function Decimal(n: nat): (r: string)
    ensures |r| > 0 && forall k :: 0 <= k < |r| ==> IsDigit(r[k])
    decreases n
  {
    if n < 10 then [DigitChar(n)] else Decimal(n / 10) + [DigitChar(n % 10)]
  }

  /** The value of a string of digits. */
  function DigitsValue(s: string): (v: nat)
    requires forall k :: 0 <= k < |s| ==> IsDigit(s[k])
    decreases |s|
  {
    if |s| == 0 then 0
    else
      var c := s[|s| - 1];
      assert IsDigit(c);
      DigitsValue(s[..|s| - 1]) * 10 + (c as int - '0' as int)
  }

  /** Reading a written number gives it back. */
  lemma {:induction false} DecimalValue(n: nat)
    ensures DigitsValue(Decimal(n)) == n
    decreases n
  {
    if n >= 10 {
      var s := Decimal(n);
      assert s[..|s| - 1] == Decimal(n / 10);
      DecimalValue(n / 10);
    }
  }

  /** Number of leading characters that are digits. */
  function DigitRun(s: string): (k: nat)
    ensures k <= |s| && forall j :: 0 <= j < k ==> IsDigit(s[j])
    ensures k < |s| ==> !IsDigit(s[k])
    decreases |s|
  {
    if |s| == 0 || !IsDigit(s[0]) then 0 else 1 + DigitRun(s[1..])
  }

  /** Number of leading white-space characters. */
  function SpaceRun(s: string): (k: nat)
    ensures k <= |s| && forall j :: 0 <= j < k ==> IsSpace(s[j])
    ensures k < |s| ==> !IsSpace(s[k])
    decreases |s|
  {
    if |s| == 0 || !IsSpace(s[0]) then 0 else 1 + SpaceRun(s[1..])
  }

  const IntMin: int := -0x8000_0000
  const IntMax: int := 0x7FFF_FFFF

  /** `std::stoi(s)`: skip white space, read an optional sign and the
      longest run of digits, and ignore the rest. No digit at all is an
      `invalid_argument` exception and a value outside 32 bits an
      `out_of_range` one; both are `None` here. */
  function ParseInt(s: string): (r: Option<int>)
    ensures r.Some? ==> IntMin <= r.value <= IntMax
  {
    var t := s[SpaceRun(s)..];
    var neg := |t| > 0 && t[0] == '-';
    var u := if |t| > 0 && (t[0] == '-' || t[0] == '+') then t[1..] else t;
    var k := DigitRun(u);
    if k == 0 then None
    else
      var m: int := DigitsValue(u[..k]);
      var v := if neg then -m else m;
      if v < IntMin || v > IntMax then None else Some(v)
  }

  /** An `int` as `operator<<` writes it: a minus sign before the
      magnitude of a negative number. */
  function IntText(n: int): (r: string)
    ensures |r| > 0
  {
    SignedText(n < 0, if n < 0 then -n else n)
  }

  /** The magnitude `d` in decimal, after a minus sign when `neg`. */
  function SignedText(neg: bool, d: nat): (r: string)
    ensures |r| > 0
  {
    (if neg then "-" else "") + Decimal(d)
  }

  /** The value a sign and a magnitude stand for. */
  function Signed(neg: bool, d: nat): int {
    if neg then -(d as int) else d
  }

  /** `stoi` reads back what `<<` wrote for any non-negative `int`. */
  lemma ParseDecimal(n: nat)
    requires n <= IntMax
    ensures ParseInt(Decimal(n)) == Some(n)
  {
    var s := Decimal(n);
    assert SpaceRun(s) == 0 by {
      assert IsDigit(s[0]);
    }
    assert s[SpaceRun(s)..] == s;
    assert DigitRun(s) == |s|;
    assert s[..|s|] == s;
    DecimalValue(n);
  }

  /** `stoi` reads back what `<<` wrote for every 32-bit `int`, negative
      ones included, and also after leading white space. */
  lemma ParseIntText(n: int, pad: string)
    requires IntMin <= n <= IntMax
    requires forall k :: 0 <= k < |pad| ==> IsSpace(pad[k])
    ensures ParseInt(pad + IntText(n)) == Some(n)
  {
    ParseSignedDecimal(pad, n < 0, if n < 0 then -n else n);
  }

  /** `stoi` reads back a padded, optionally negated decimal in range. */
  lemma ParseSignedDecimal(pad: string, neg: bool, d: nat)
    requires forall k :: 0 <= k < |pad| ==> IsSpace(pad[k])
    requires IntMin <= Signed(neg, d) <= IntMax
    ensures ParseInt(pad + SignedText(neg, d)) == Some(Signed(neg, d))
  {
    var digits := Decimal(d);
    SignedRest(pad, neg, digits);
    DecimalValue(d);
    ParseSigned(pad + SignedText(neg, d), neg, digits, d);
  }

  /** Leading space before a sign or a digit is skipped. */
  lemma SignedRest(pad: string, neg: bool, digits: string)
    requires forall k :: 0 <= k < |pad| ==> IsSpace(pad[k])
    requires |digits| > 0 && IsDigit(digits[0])
    ensures var w := (if neg then "-" else "") + digits;
      (pad + w)[SpaceRun(pad + w)..] == w
  {
    var w := (if neg then "-" else "") + digits;
    assert !IsSpace(w[0]);
    SpaceRunPrefix(pad, w);
    assert (pad + w)[|pad|..] == w;
  }

  /** What `stoi` makes of optional space, an optional minus sign and a
      run of digits. */
  lemma ParseSigned(s: string, neg: bool, digits: string, d: nat)
    requires |digits| > 0 && forall k :: 0 <= k < |digits| ==> IsDigit(digits[k])
    requires s[SpaceRun(s)..] == (if neg then "-" else "") + digits
    requires DigitsValue(digits) == d && IntMin <= Signed(neg, d) <= IntMax
    ensures ParseInt(s) == Some(Signed(neg, d))
  {
    var t := s[SpaceRun(s)..];
    var u := if |t| > 0 && (t[0] == '-' || t[0] == '+') then t[1..] else t;
    assert u == digits by {
      if neg { assert t[1..] == digits; } else { assert IsDigit(t[0]); }
    }
    assert DigitRun(u) == |u|;
    assert u[..|u|] == u;
  }

  lemma {:induction false} SpaceRunPrefix(pad: string, w: string)
    requires forall k :: 0 <= k < |pad| ==> IsSpace(pad[k])
    requires |w| > 0 && !IsSpace(w[0])
    ensures SpaceRun(pad + w) == |pad|
    decreases |pad|
  {
    if |pad| == 0 {
      assert pad + w == w;
    } else {
      assert (pad + w)[1..] == pad[1..] + w;
      SpaceRunPrefix(pad[1..], w);
    }
  }
}

=== FILE: view.dfy ===
/** Shape, stride and index algebra of the tensor engine (the `ViewUtill`
    namespace). Shapes, strides and coordinates are integer sequences; the
    arithmetic follows C++ `int` division and remainder, which truncate
    toward zero. */
module View {
  import opened Errors
  import opened Arith

  type Shape = seq<int>
  type Strides = seq<int>
  type Indices = seq<int>

  /** Every axis has a positive size. */
  predicate ValidShape(s: Shape) {
    forall k :: 0 <= k < |s| ==> s[k] > 0
  }

  /** `c` is a coordinate inside a tensor of shape `s`. */
  predicate InBounds(c: Indices, s: Shape) {
    |c| == |s| && forall k :: 0 <= k < |s| ==> 0 <= c[k] < s[k]
  }

  function Max(x: int, y: int): int {
    if x < y then y else x
  }

  /** C++ integer division: truncates toward zero. */
  function TDiv(a: int, b: int): int
    requires b != 0
  {
    if a >= 0 && b > 0 then a / b
    else
      var q := (if a < 0 then -a else a) / (if b < 0 then -b else b);
      if (a < 0) == (b < 0) then q else -q
  }

  /** C++ integer remainder: takes the sign of the dividend. */
  function TMod(a: int, b: int): int
    requires b != 0
  {
    if a >= 0 && b > 0 then a % b else a - b * TDiv(a, b)
  }

  lemma DivModBounds(a: int, b: int, m: int)
    requires a >= 0 && b > 0 && m > 0
    ensures 0 <= TMod(TDiv(a, b), m) < m
  {
    assert a / b >= 0;
  }

  // ---------------------------------------------------------------------
  // shape_size

  /** Product of all axis sizes; the empty shape has one element. The
      source accumulates left to right from 1, which is the same product. */
  function ShapeSize(s: Shape): (r: int)
    ensures |s| == 0 ==> r == 1
    ensures ValidShape(s) ==> r >= 1
  {
    if |s| == 0 then 1 else s[0] * ShapeSize(s[1..])
  }

  /** The product splits over concatenation. */
  lemma {:induction false} ShapeSizeConcat(a: Shape, b: Shape)
    ensures ShapeSize(a + b) == ShapeSize(a) * ShapeSize(b)
    decreases |a|
  {
    if |a| == 0 {
      assert a + b == b;
    } else {
      assert (a + b)[1..] == a[1..] + b;
      ShapeSizeConcat(a[1..], b);
      MulAssoc(a[0], ShapeSize(a[1..]), ShapeSize(b));
    }
  }

  // ---------------------------------------------------------------------
  // strides_from_shape

  /** Row-major strides: the stride of an axis is the number of elements
      spanned by one step along it, the product of the later axis sizes. */
  function StridesFromShape(s: Shape): (r: Strides)
    ensures |r| == |s|
    ensures |s| > 0 ==> r[|s| - 1] == 1
    ensures forall i :: 0 <= i < |s| ==> r[i] == ShapeSize(s[i + 1..])
  {
    if |s| == 0 then []
    else
      var rest := StridesFromShape(s[1..]);
      assert forall i :: 1 <= i < |s| ==> s[1..][i..] == s[i + 1..];
      [ShapeSize(s[1..])] + rest
  }

  /** The recurrence the source's loop computes: each stride is the next
      stride times the next axis size. */
  lemma StridesRecurrence(s: Shape, i: int)
    requires 0 <= i < |s| - 1
    ensures StridesFromShape(s)[i] == StridesFromShape(s)[i + 1] * s[i + 1]
  {
    var t := s[i + 1..];
    assert t[1..] == s[i + 2..];
    MulComm(t[0], ShapeSize(t[1..]));
  }

  lemma StridesPositive(s: Shape)
    requires ValidShape(s)
    ensures forall i :: 0 <= i < |s| ==> StridesFromShape(s)[i] > 0
  {
    forall i | 0 <= i < |s|
      ensures StridesFromShape(s)[i] > 0
    {
      assert ValidShape(s[i + 1..]);
    }
  }

  /** The source's loop: walks the axes from the last to the first,
      multiplying a running stride. */
  method ComputeStrides(s: Shape) returns (strides: Strides)
    ensures strides == StridesFromShape(s)
  {
    var d := |s|;
    strides := seq(d, _ => 0);
    var stride := 1;
    var i := d - 1;
    while i >= 0
      invariant -1 <= i < d
      invariant |strides| == d
      invariant stride == ShapeSize(s[i + 1..])
      invariant forall k :: i < k < d ==> strides[k] == StridesFromShape(s)[k]
    {
      strides := strides[i := stride];
      assert s[i..][1..] == s[i + 1..];
      MulComm(stride, s[i]);
      stride := stride * s[i];
      i := i - 1;
    }
    assert s[0..] == s;
  }

  // ---------------------------------------------------------------------
  // broadcast_shape

  /** The axis `j` places from the end of `s` (0 is the last axis). */
  function FromBack(s: seq<int>, j: int): int
    requires 0 <= j < |s|
  {
    s[|s| - 1 - j]
  }

  /** Two axis sizes can be broadcast together. */
  predicate AxisCompatible(x: int, y: int) {
    x == y || x == 1 || y == 1
  }

  /** Aligned from the trailing axis, every pair of sizes is compatible. */
  predicate Broadcastable(a: Shape, b: Shape) {
    forall j :: 0 <= j < |a| && j < |b| ==> AxisCompatible(FromBack(a, j), FromBack(b, j))
  }

  /** The broadcast size of the axis `j` places from the end: the larger of
      an aligned pair, or the unmatched axis unchanged. */
  function BroadcastAxis(a: Shape, b: Shape, j: int): int
    requires 0 <= j < Max(|a|, |b|)
  {
    if j < |a| && j < |b| then Max(FromBack(a, j), FromBack(b, j))
    else if j < |a| then FromBack(a, j)
    else FromBack(b, j)
  }

  /** Output shape of an elementwise operation, walking both shapes from
      the trailing axis. An incompatible pair is the source's failed assert. */
  function BroadcastShape(a: Shape, b: Shape): (r: Result<Shape>)
    ensures r.Ok? <==> Broadcastable(a, b)
    ensures r.Ok? ==> |r.value| == Max(|a|, |b|)
    ensures r.Ok? ==> forall j :: 0 <= j < |r.value| ==> FromBack(r.value, j) == BroadcastAxis(a, b, j)
    decreases |a| + |b|
  {
    if |a| == 0 then Ok(b)
    else if |b| == 0 then Ok(a)
    else
      var x := a[|a| - 1];
      var y := b[|b| - 1];
      var a' := a[..|a| - 1];
      var b' := b[..|b| - 1];
      assert forall j :: 0 <= j < |a'| ==> FromBack(a', j) == FromBack(a, j + 1);
      assert forall j :: 0 <= j < |b'| ==> FromBack(b', j) == FromBack(b, j + 1);
      if !AxisCompatible(x, y) then
        assert FromBack(a, 0) == x && FromBack(b, 0) == y;
        Err(ShapeMismatch)
      else
        match BroadcastShape(a', b')
        case Err(e) =>
          assert !Broadcastable(a', b');
          var j :| 0 <= j < |a'| && j < |b'| && !AxisCompatible(FromBack(a', j), FromBack(b', j));
          assert !AxisCompatible(FromBack(a, j + 1), FromBack(b, j + 1));
          Err(e)
        case Ok(c) =>
          var r := c + [Max(x, y)];
          assert forall j :: 0 < j < |r| ==> FromBack(r, j) == FromBack(c, j - 1);
          assert Broadcastable(a, b) by {
            forall j | 0 <= j < |a| && j < |b|
              ensures AxisCompatible(FromBack(a, j), FromBack(b, j))
            {
              if j > 0 {
                assert FromBack(a', j - 1) == FromBack(a, j);
              }
            }
          }
          Ok(r)
  }

  lemma SameFromBackEqual(r: seq<int>, s: seq<int>)
    requires |r| == |s|
    requires forall j :: 0 <= j < |r| ==> FromBack(r, j) == FromBack(s, j)
    ensures r == s
  {
    forall k | 0 <= k < |r|
      ensures r[k] == s[k]
    {
      assert FromBack(r, |r| - 1 - k) == FromBack(s, |r| - 1 - k);
    }
  }

  /** Broadcasting is commutative: both the legality and the result shape. */
  lemma BroadcastCommutative(a: Shape, b: Shape)
    ensures BroadcastShape(a, b).Ok? == BroadcastShape(b, a).Ok?
    ensures BroadcastShape(a, b).Ok? ==> BroadcastShape(a, b).value == BroadcastShape(b, a).value
  {
    var r := BroadcastShape(a, b);
    var q := BroadcastShape(b, a);
    if r.Ok? {
      assert q.Ok?;
      forall j | 0 <= j < |r.value|
        ensures FromBack(r.value, j) == FromBack(q.value, j)
      {
        assert BroadcastAxis(a, b, j) == BroadcastAxis(b, a, j);
      }
      SameFromBackEqual(r.value, q.value);
    }
  }

  /** `a` broadcasts to `out`: aligned from the trailing axis, each axis of
      `a` equals the axis of `out` or is 1. */
  predicate ExpandsTo(a: Shape, out: Shape) {
    |a| <= |out| && forall j :: 0 <= j < |a| ==> FromBack(a, j) == FromBack(out, j) || FromBack(a, j) == 1
  }

  /** Broadcasting valid shapes yields a valid shape that both operands
      expand to. */
  lemma BroadcastOperandAxes(a: Shape, b: Shape)
    requires ValidShape(a) && ValidShape(b)
    requires BroadcastShape(a, b).Ok?
    ensures ValidShape(BroadcastShape(a, b).value)
    ensures ExpandsTo(a, BroadcastShape(a, b).value)
    ensures ExpandsTo(b, BroadcastShape(a, b).value)
  {
    var c := BroadcastShape(a, b).value;
    forall k | 0 <= k < |c|
      ensures c[k] > 0
    {
      var j := |c| - 1 - k;
      assert FromBack(c, j) == c[k];
      assert BroadcastAxis(a, b, j) > 0 by {
        if j < |a| { assert FromBack(a, j) == a[|a| - 1 - j]; }
        if j < |b| { assert FromBack(b, j) == b[|b| - 1 - j]; }
      }
    }
    forall j | 0 <= j < |a|
      ensures FromBack(a, j) == FromBack(c, j) || FromBack(a, j) == 1
    {
      assert FromBack(c, j) == BroadcastAxis(a, b, j);
      if j < |b| {
        assert AxisCompatible(FromBack(a, j), FromBack(b, j));
      }
    }
    forall j | 0 <= j < |b|
      ensures FromBack(b, j) == FromBack(c, j) || FromBack(b, j) == 1
    {
      assert FromBack(c, j) == BroadcastAxis(a, b, j);
      if j < |a| {
        assert AxisCompatible(FromBack(a, j), FromBack(b, j));
      }
    }
  }

  // ---------------------------------------------------------------------
  // unravel, ravel, reshape_indices

  /** Flat index to coordinate: axis `i` gets `(index / strides[i]) % shape[i]`. */
  function Unravel(index: int, shape: Shape, strides: Strides): (r: Indices)
    requires |strides| >= |shape|
    requires forall i :: 0 <= i < |shape| ==> strides[i] != 0 && shape[i] != 0
    ensures |r| == |shape|
    ensures index >= 0 && ValidShape(shape) && (forall i :: 0 <= i < |shape| ==> strides[i] > 0)
      ==> InBounds(r, shape)
  {
    var r := seq(|shape|, i requires 0 <= i < |shape| => TMod(TDiv(index, strides[i]), shape[i]));
    assert index >= 0 && ValidShape(shape) && (forall i :: 0 <= i < |shape| ==> strides[i] > 0)
      ==> InBounds(r, shape) by {
      if index >= 0 && ValidShape(shape) && (forall i :: 0 <= i < |shape| ==> strides[i] > 0) {
        forall i | 0 <= i < |shape|
          ensures 0 <= r[i] < shape[i]
        {
          DivModBounds(index, strides[i], shape[i]);
        }
      }
    }
    r
  }

  /** Coordinate to flat index: the dot product of the coordinate with the
      leading `|indices|` strides. */
  function Ravel(indices: Indices, strides: Strides): int
    requires |indices| <= |strides|
  {
    if |indices| == 0 then 0 else indices[0] * strides[0] + Ravel(indices[1..], strides[1..])
  }

  /** Operand coordinate for a broadcast output coordinate: keep the last
      `|shape|` axes, each reduced modulo the operand's axis size. */
  function ReshapeIndices(indices: Indices, shape: Shape): (r: Indices)
    requires |indices| >= |shape|
    requires forall i :: 0 <= i < |shape| ==> shape[i] != 0
    ensures |r| == |shape|
    ensures ValidShape(shape) && (forall k :: 0 <= k < |indices| ==> indices[k] >= 0)
      ==> InBounds(r, shape)
  {
    var delta := |indices| - |shape|;
    var r := seq(|shape|, i requires 0 <= i < |shape| => TMod(indices[delta + i], shape[i]));
    assert ValidShape(shape) && (forall k :: 0 <= k < |indices| ==> indices[k] >= 0)
      ==> InBounds(r, shape) by {
      if ValidShape(shape) && (forall k :: 0 <= k < |indices| ==> indices[k] >= 0) {
        forall i | 0 <= i < |shape|
          ensures 0 <= r[i] < shape[i]
        {
          assert indices[delta + i] >= 0;
        }
      }
    }
    r
  }

  // ---------------------------------------------------------------------
  // Properties relating the index maps

  /** Unravel works axis by axis: dropping the first axis of the shape and
      of the strides drops the first coordinate. */
  lemma UnravelTail(i: int, s: Shape, st: Strides)
    requires |s| > 0 && |st| >= |s|
    requires forall k :: 0 <= k < |s| ==> st[k] != 0 && s[k] != 0
    ensures Unravel(i, s, st)[1..] == Unravel(i, s[1..], st[1..])
  {
  }

  /** Raveling an unravelled index recovers it modulo the element count. */
  lemma {:induction false} RavelUnravelMod(i: int, s: Shape)
    requires i >= 0 && ValidShape(s)
    ensures Ravel(Unravel(i, s, StridesFromShape(s)), StridesFromShape(s)) == i % ShapeSize(s)
    decreases |s|
  {
    var st := StridesFromShape(s);
    StridesPositive(s);
    if |s| == 0 {
    } else {
      var p := ShapeSize(s[1..]);
      var u := Unravel(i, s, st);
      UnravelTail(i, s, st);
      assert st[1..] == StridesFromShape(s[1..]);
      assert st[0] == p;
      DivModSpec(i, p);
      assert u[0] == (i / p) % s[0];
      RavelUnravelMod(i, s[1..]);
      assert Ravel(u, st) == u[0] * p + i % p;
      MixedRadixStep(i, p, s[0]);
    }
  }

  /** For an index inside the tensor, ravel is the inverse of unravel, and
      every unravelled coordinate is below its axis size. */
  lemma RavelUnravel(i: int, s: Shape)
    requires ValidShape(s) && 0 <= i < ShapeSize(s)
    ensures InBounds(Unravel(i, s, StridesFromShape(s)), s)
    ensures Ravel(Unravel(i, s, StridesFromShape(s)), StridesFromShape(s)) == i
  {
    StridesPositive(s);
    RavelUnravelMod(i, s);
    ModUnique(i, ShapeSize(s), 0, i);
  }

  /** Every coordinate inside the shape ravels to an index inside the tensor. */
  lemma {:induction false} RavelInBounds(c: Indices, s: Shape)
    requires ValidShape(s) && InBounds(c, s)
    ensures 0 <= Ravel(c, StridesFromShape(s)) < ShapeSize(s)
    decreases |s|
  {
    if |s| > 0 {
      var st := StridesFromShape(s);
      var p := ShapeSize(s[1..]);
      assert st[1..] == StridesFromShape(s[1..]);
      RavelInBounds(c[1..], s[1..]);
      BlockBound(c[0], s[0], p, Ravel(c[1..], st[1..]));
    }
  }

  /** Unravel is the inverse of ravel on coordinates inside the shape. */
  lemma UnravelRavel(c: Indices, s: Shape)
    requires ValidShape(s) && InBounds(c, s)
    ensures Unravel(Ravel(c, StridesFromShape(s)), s, StridesFromShape(s)) == c
  {
    var st := StridesFromShape(s);
    StridesPositive(s);
    var i := Ravel(c, st);
    RavelInBounds(c, s);
    RavelUnravel(i, s);
    var e := Unravel(i, s, st);
    RavelEqualCoords(c, e, s);
  }

  /** Distinct coordinates inside the shape ravel to distinct indices. */
  lemma {:induction false} RavelEqualCoords(c: Indices, d: Indices, s: Shape)
    requires ValidShape(s) && InBounds(c, s) && InBounds(d, s)
    requires Ravel(c, StridesFromShape(s)) == Ravel(d, StridesFromShape(s))
    ensures c == d
    decreases |s|
  {
    if |s| > 0 {
      RavelSplitEqual(c, d, s);
      RavelEqualCoords(c[1..], d[1..], s[1..]);
      assert c == [c[0]] + c[1..];
      assert d == [d[0]] + d[1..];
    }
  }

  /** Equal flat indices have equal first indices and equal flat indices
      of the rest. */
  lemma RavelSplitEqual(c: Indices, d: Indices, s: Shape)
    requires ValidShape(s) && InBounds(c, s) && InBounds(d, s) && |s| > 0
    requires Ravel(c, StridesFromShape(s)) == Ravel(d, StridesFromShape(s))
    ensures ValidShape(s[1..]) && InBounds(c[1..], s[1..]) && InBounds(d[1..], s[1..])
    ensures c[0] == d[0]
    ensures Ravel(c[1..], StridesFromShape(s[1..])) == Ravel(d[1..], StridesFromShape(s[1..]))
  {
    var x := RavelHead(c, s);
    var y := RavelHead(d, s);
    DigitsUnique(c[0], x, d[0], y, ShapeSize(s[1..]));
  }

  /** A leading digit and a remainder below the radix are determined by
      the number they make. */
  lemma DigitsUnique(a: int, x: int, b: int, y: int, p: int)
    requires p > 0 && 0 <= x < p && 0 <= y < p && a * p + x == b * p + y
    ensures a == b && x == y
  {
    ModUnique(a * p + x, p, a, x);
    ModUnique(b * p + y, p, b, y);
  }

  /** The flat index of a coordinate is its first index times the size of
      a sub-block plus the in-bounds offset of the rest. */
  lemma RavelHead(c: Indices, s: Shape) returns (x: int)
    requires ValidShape(s) && InBounds(c, s) && |s| > 0
    ensures ValidShape(s[1..]) && InBounds(c[1..], s[1..])
    ensures x == Ravel(c[1..], StridesFromShape(s[1..])) && 0 <= x < ShapeSize(s[1..])
    ensures Ravel(c, StridesFromShape(s)) == c[0] * ShapeSize(s[1..]) + x
  {
    var st := StridesFromShape(s);
    assert st[1..] == StridesFromShape(s[1..]);
    RavelInBounds(c[1..], s[1..]);
    x := Ravel(c[1..], st[1..]);
  }

  lemma OperandAxisIndex(x: int, n: int, m: int)
    requires 0 <= x < n && m > 0 && (m == n || m == 1)
    ensures TMod(x, m) == (if m == 1 then 0 else x)
  {
    if m != 1 {
      ModUnique(x, m, 0, x);
    }
  }

  /** An in-bounds coordinate of a broadcast result maps, for an operand
      that expands to it, to the same coordinate on the axes the operand
      shares and to 0 on the operand's size-1 axes. */
  lemma BroadcastOperandIndex(a: Shape, out: Shape, c: Indices)
    requires ValidShape(a) && ExpandsTo(a, out)
    requires InBounds(c, out)
    ensures InBounds(ReshapeIndices(c, a), a)
    ensures forall i :: 0 <= i < |a| ==>
      ReshapeIndices(c, a)[i] == (if a[i] == 1 then 0 else c[|c| - |a| + i])
  {
    var r := ReshapeIndices(c, a);
    var delta := |c| - |a|;
    forall i | 0 <= i < |a|
      ensures r[i] == (if a[i] == 1 then 0 else c[delta + i])
    {
      var j := |a| - 1 - i;
      assert FromBack(a, j) == a[i];
      assert FromBack(out, j) == out[delta + i];
      OperandAxisIndex(c[delta + i], out[delta + i], a[i]);
    }
  }
}
